=== FILE: README.md ===
# Advent of Code 2024 puzzle cores, modelled in Dafny

This project models the puzzle solvers of AndreasBilke/aoc-2024, a Rust
repository of independent programs, one per day and puzzle. Each program
reads its input lines, computes one number (or one string) and prints it.
Every solver is a Dafny module of its own, named after its day and subject
(`Day17Cpu`, `Day25Locks`, ...). A few shared modules hold definitions that
several solvers need:

- `Wrappers`: the `Option` and `Result` types that model `unwrap` panics and
  parse errors.
- `Decimal`: the decimal digits of a number, `str::parse` for unsigned and
  signed numbers, and their round trips.
- `Text`: splitting a string on a separator, splitting the input lines into
  blocks at empty lines, joining, and the order on strings.
- `Bits`: powers of two, right shift and xor on natural numbers.
- `Sets`: cardinality facts about finite sets.
- `Sorting`: insertion sort with its sortedness and permutation proofs.

Where the Rust code changes things step by step (a grid that is updated in
place, a queue that is drained, a buffer compacted in place), the model is
imperative: a `class` with the struct's fields, or a `method` with its
loops, proved against a specification function. Where the code folds,
recurses or filters, the model uses functions and lemmas. The parsed input
is taken as given where the program uses regular expressions; plain
`split`/`parse` steps are modelled, together with their error paths, as
`Result` values.

A puzzle-2 program that repeats puzzle-1 code shares that module. For
example, `Day06Guard` is imported by both day-06 models, and
`Day12Garden` by both day-12 models.

## Model

| member | source | states |
|---|---|---|
| Sorting.Sort | day-01/puzzle-1/src/main.rs:47-48 | `Vec::sort`: the result is sorted and a permutation of the input |
| Sorting.SortedUnique | day-01/puzzle-1/src/main.rs:47-48 | two sorted permutations of one multiset are equal, so the sorted list is determined by the numbers alone |
| Sorting.SortIgnoresOrder | day-01/puzzle-1/src/main.rs:47-48 | sorting two permutations of one another gives the same list |
| Sorting.HeadIsLeast | day-01/puzzle-1/src/main.rs:47-48 | the first element of a sorted list is its least element |
| Sorting.InsertPermutes | day-01/puzzle-1/src/main.rs:47-48 | inserting adds exactly one occurrence of the inserted number |
| Day01Distance.Column | day-01/puzzle-1/src/main.rs:35-45 | each line contributes exactly one number to each list, in line order |
| Day01Distance.AbsDiff | day-01/puzzle-1/src/main.rs:51 | `abs_diff` is one of the two differences and is zero exactly when the numbers are equal |
| Day01Distance.Process | day-01/puzzle-1/src/main.rs:31-54 | the loop that pushes, sorts and folds computes the total distance of the sorted columns |
| Day01Distance.BuildColumns | day-01/puzzle-1/src/main.rs:35-45 | the push loop gives each column its numbers in line order |
| Day01Distance.FoldPairs | day-01/puzzle-1/src/main.rs:50-51 | the loop over the paired entries sums their absolute differences, stopping at the shorter list |
| Day01Distance.ColumnsHaveEqualLength | day-01/puzzle-1/src/main.rs:47-51 | both sorted lists have one entry per line, so `zip` drops nothing |
| Day01Distance.ColumnPermutes | day-01/puzzle-1/src/main.rs:35-45 | reordering the input lines permutes each column |
| Day01Distance.ReorderedLinesSameDistance | day-01/puzzle-1/src/main.rs:31-54 | the total distance does not depend on the order of the input lines |
| Day01Distance.PairedDistanceSymmetric | day-01/puzzle-1/src/main.rs:50-51 | the fold of absolute differences is symmetric in the two lists |
| Day01Distance.SwappedColumnsSameDistance | day-01/puzzle-1/src/main.rs:31-54 | exchanging the left and right numbers of every line leaves the distance unchanged |
| Day01Distance.PairedDistanceSelf | day-01/puzzle-1/src/main.rs:50-51 | a list paired with itself has distance zero |
| Day01Distance.ZeroIffSameNumbers | day-01/puzzle-1/src/main.rs:31-54 | the distance is zero exactly when both columns hold the same multiset of numbers |
| Day01Distance.ZeroDistanceEqual | day-01/puzzle-1/src/main.rs:50-51 | two sorted lists at distance zero are equal |
| Day01Distance.ParseLine | day-01/puzzle-1/src/main.rs:36-41 | a line is read exactly when it has a second piece around three spaces and both pieces are numbers |
| Day01Distance.ParseLineShow | day-01/puzzle-1/src/main.rs:36-41 | two numbers written three spaces apart are read back |
| Day01Distance.ParseLines | day-01/puzzle-1/src/main.rs:35-45 | every line read in order, or an error exactly when some line fails |
| Day01Distance.ProcessLines | day-01/puzzle-1/src/main.rs:31-54 | an error exactly when some line does not parse; otherwise the total distance of the parsed lines |
| Day01Similarity.Lefts | day-01/puzzle-2/src/main.rs:35-42 | the left list has one number per line, in line order |
| Day01Similarity.Rights | day-01/puzzle-2/src/main.rs:35-42 | the right list has one number per line, in line order |
| Day01Similarity.Occurrences | day-01/puzzle-2/src/main.rs:44-48 | the occurrence map has exactly the right list's numbers as keys, each mapped to its number of occurrences |
| Day01Similarity.Process | day-01/puzzle-2/src/main.rs:31-60 | the loops compute the similarity score: each left number times its count on the right, summed |
| Day01Similarity.SimilarityAppend | day-01/puzzle-2/src/main.rs:50-57 | the score of a concatenated left list is the sum of the scores, so duplicates on the left count separately |
| Day01Similarity.AbsentScoresZero | day-01/puzzle-2/src/main.rs:51-54 | a left list none of whose numbers occurs on the right scores zero |
| Day01Similarity.RightOrderIrrelevant | day-01/puzzle-2/src/main.rs:44-48 | only the multiset of the right list matters, not its order |
| Day01Similarity.SimilarityOfRepeated | day-01/puzzle-2/src/main.rs:50-57 | a number that appears n times on the left and m times on the right adds n * m times itself |
| Day01Similarity.ParseLine | day-01/puzzle-2/src/main.rs:36-38 | a line is read exactly when it has a second piece around three spaces and both pieces are unsigned numbers |
| Day01Similarity.ParseLineShow | day-01/puzzle-2/src/main.rs:36-38 | two numbers written three spaces apart are read back |
| Day01Similarity.ParseLines | day-01/puzzle-2/src/main.rs:35-42 | every line read in order, or an error exactly when some line fails |
| Day01Similarity.ProcessLines | day-01/puzzle-2/src/main.rs:31-60 | an error exactly when some line does not parse; otherwise the similarity score of the parsed lines |
| Day02Reports.IsValid | day-02/puzzle-1/src/main.rs:47-65 | a report of fewer than two levels is safe, and in a safe report neighbouring levels differ by 1 to 3 |
| Day02Reports.Diffs | day-02/puzzle-1/src/main.rs:48-52 | one difference per window of two levels, later minus earlier; none for fewer than two levels |
| Day02Reports.IsValidMeansMonotone | day-02/puzzle-1/src/main.rs:47-65 | a report is safe exactly when it is strictly increasing or strictly decreasing with steps of 1 to 3 |
| Day02Reports.EqualNeighboursInvalid | day-02/puzzle-1/src/main.rs:55-61 | two equal neighbouring levels make a report unsafe |
| Day02Reports.Reverse | day-02/puzzle-1/src/main.rs:47-65 | the report read backwards, index by index |
| Day02Reports.IncreasingReversed | day-02/puzzle-1/src/main.rs:64 | an increasing report read backwards is decreasing |
| Day02Reports.DecreasingReversed | day-02/puzzle-1/src/main.rs:64 | a decreasing report read backwards is increasing |
| Day02Reports.ReverseKeepsValidity | day-02/puzzle-1/src/main.rs:47-65 | reading a report backwards does not change whether it is safe |
| Day02Reports.CountValid | day-02/puzzle-1/src/main.rs:40-44 | exactly the number of safe reports; hence at most the number of reports, equal to it iff all are safe and zero iff none is |
| Day02Reports.ParseReport | day-02/puzzle-1/src/main.rs:33-35 | a line is read exactly when every piece around a space is a number, one level per piece |
| Day02Reports.ParseReportShow | day-02/puzzle-1/src/main.rs:33-35 | a report written out with single spaces is read back |
| Day02Reports.ParseReports | day-02/puzzle-1/src/main.rs:31-38 | every line read in order, or an error exactly when some line fails |
| Day02Reports.ProcessLines | day-02/puzzle-1/src/main.rs:30-45 | an error exactly when some line does not parse; otherwise exactly the number of lines whose report is safe |
| Day02Dampener.RemoveAt | day-02/puzzle-2/src/main.rs:64-67 | the report without the level at one index, the others in order |
| Day02Dampener.TryCombinations | day-02/puzzle-2/src/main.rs:58-73 | some leave-one-out combination is safe exactly when removing the level at some index gives a safe report |
| Day02Dampener.Combinations | day-02/puzzle-2/src/main.rs:64-65 | `combinations(len - 1)` yields, for every index, the report with that one level left out, the last level first |
| Day02Dampener.ToleratedMeansOneRemoval | day-02/puzzle-2/src/main.rs:42-51 | a report is counted exactly when it is safe or safe after removing one level |
| Day02Dampener.CountTolerated | day-02/puzzle-2/src/main.rs:42-55 | exactly the number of reports that are safe or safe after removing one level, at most every report |
| Day02Dampener.DropFirstKeepsValid | day-02/puzzle-2/src/main.rs:42-51 | dropping the first level of a safe report keeps it safe, so `try_combinations` alone would give the same answer |
| Day02Dampener.DampenerCountsAtLeastAsMany | day-02/puzzle-2/src/main.rs:42-55 | every report safe without the dampener is also counted with it |
| Day02Dampener.ProcessLines | day-02/puzzle-2/src/main.rs:32-56 | an error exactly when some line does not parse; otherwise exactly the number of lines whose report is tolerated, at most one per line and never fewer than puzzle 1 counts |
| Day03Toggles.Step | day-03/puzzle-2/src/main.rs:37-51 | `don't` switches off and adds nothing, `do` switches on and adds nothing, only an enabled `mul` adds |
| Day03Toggles.Process | day-03/puzzle-2/src/main.rs:35-54 | the loop computes the fold from the enabled state |
| Day03Toggles.ScanAppend | day-03/puzzle-2/src/main.rs:32-36 | the lines are concatenated, so the flag carries over: scanning a concatenation resumes the second part from the first part's flag |
| Day03Toggles.FlagIsLastSwitch | day-03/puzzle-2/src/main.rs:40-44 | the flag after a prefix is the last switch in it, or the initial flag if there is none |
| Day03Toggles.OnlyEnabledMulsCount | day-03/puzzle-2/src/main.rs:44-49 | a `mul` adds its product exactly when the flag is on; a switch adds nothing |
| Day03Toggles.ScanBound | day-03/puzzle-2/src/main.rs:33 | with operands of at most three digits every capture adds at most 999 * 999 |
| Day03Toggles.MulIsNoSwitch | day-03/puzzle-2/src/main.rs:40-49 | a `mul` capture is not taken for a `do` or `don't` and leaves the flag as it is |
| Day03Toggles.Example | day-03/puzzle-2/src/main.rs:61-66 | the matched captures of the puzzle example sum to 48 |
| Day04Grid.Get | day-04/puzzle-1/src/main.rs:104-115 | the letter at a coordinate inside the grid, '.' outside it |
| Day04Grid.GetWord | day-04/puzzle-1/src/main.rs:96-102 | one letter per coordinate, in order |
| Day04Grid.WordWithoutDotIsInside | day-04/puzzle-1/src/main.rs:104-115 | a word without '.' read from the grid lies entirely inside it |
| Day04Xmas.AllCoords | day-04/puzzle-1/src/main.rs:30-94 | eight runs of four cells, each starting at the given cell and stepping in one of the eight directions |
| Day04Xmas.DirectionsDistinct | day-04/puzzle-1/src/main.rs:30-94 | the eight runs go in eight different non-zero directions |
| Day04Xmas.MatchesFrom | day-04/puzzle-1/src/main.rs:123-129 | the count of runs from one cell that read XMAS is the number of its matching directions, at most eight |
| Day04Xmas.MatchSplit | day-04/puzzle-1/src/main.rs:123-129 | the matches from a cell in directions d onward are the one in direction d, if any, and those after it, which do not include it |
| Day04Xmas.ColumnSum | day-04/puzzle-1/src/main.rs:121-132 | the sum over part of a column is the number of (cell, direction) matches starting there, at most eight per cell |
| Day04Xmas.GridSum | day-04/puzzle-1/src/main.rs:121-132 | the sum over the remaining columns is the number of (cell, direction) matches starting there, at most eight per cell |
| Day04Xmas.ColumnSplit | day-04/puzzle-1/src/main.rs:120-121 | the matches of part of a column split into those of its first cell and those below, with none in common |
| Day04Xmas.GridSplit | day-04/puzzle-1/src/main.rs:120-121 | the matches of the remaining columns split into those of the first column and those right of it, with none in common |
| Day04Xmas.GridCovered | day-04/puzzle-1/src/main.rs:120-121 | every match of columns x onward lies in column x or right of it |
| Day04Xmas.GridCovers | day-04/puzzle-1/src/main.rs:120-121 | the matches of column x and of the columns right of it are all matches of columns x onward |
| Day04Xmas.Process | day-04/puzzle-1/src/main.rs:117-135 | the answer is the number of occurrences of XMAS: pairs of a grid cell and one of the eight directions along which the word reads from it |
| Day04Xmas.ProcessBound | day-04/puzzle-1/src/main.rs:117-135 | the answer is at most eight per cell of the grid |
| Day04Xmas.MatchIsInside | day-04/puzzle-1/src/main.rs:123-129 | a run that reads "XMAS" lies inside the grid, so no match uses the '.' returned outside it |
| Day04Xmas.MatchStartsWithX | day-04/puzzle-1/src/main.rs:123-129 | only a cell holding 'X' starts a match |
| Day04CrossMas.Hit | day-04/puzzle-2/src/main.rs:57-73 | a cell counts once exactly when both diagonals through it read MAS or SAM |
| Day04CrossMas.ColumnSum | day-04/puzzle-2/src/main.rs:55-74 | exactly the number of X-MAS centres in the rest of a column |
| Day04CrossMas.GridSum | day-04/puzzle-2/src/main.rs:55-74 | exactly the number of X-MAS centres in the remaining columns |
| Day04CrossMas.ColumnCentresSplit | day-04/puzzle-2/src/main.rs:55-74 | the centres of a column from one row are that row, if a centre, and the centres below it |
| Day04CrossMas.GridCentresCovered | day-04/puzzle-2/src/main.rs:55-74 | the centres from one column on lie in that column or the later ones, and the two parts do not overlap |
| Day04CrossMas.GridCentresCovers | day-04/puzzle-2/src/main.rs:55-74 | the centres of one column and of the later ones are centres from that column on |
| Day04CrossMas.GridCentresSplit | day-04/puzzle-2/src/main.rs:55-74 | the centres from one column on split into that column's and the later ones', so their counts add up |
| Day04CrossMas.Process | day-04/puzzle-2/src/main.rs:51-77 | the answer is exactly the number of cells at which both diagonals read MAS or SAM |
| Day04CrossMas.HitIsInterior | day-04/puzzle-2/src/main.rs:57-71 | a hit has an 'A' at its centre and lies off the border of the grid |
| Day04CrossMas.MasEitherWay | day-04/puzzle-2/src/main.rs:69 | a diagonal reads MAS or SAM exactly when it does backwards |
| Day05PrintQueue.Afters | day-05/puzzle-1/src/main.rs:60-71 | the pages that the rules put after a page, in rule order |
| Day05PrintQueue.AftersSnoc | day-05/puzzle-1/src/main.rs:65-70 | one more rule appends its right page to its left page's entry and to no other |
| Day05PrintQueue.BuildRules | day-05/puzzle-1/src/main.rs:57-74 | `OrderRules::from` has an entry exactly for each left page of a rule, holding all its right pages in rule order |
| Day05PrintQueue.IsOrderValid | day-05/puzzle-1/src/main.rs:90-108 | an update is valid exactly when no page has one of its rule pages printed before it |
| Day05PrintQueue.RuleLookup | day-05/puzzle-1/src/main.rs:95 | every rule "X\|Y" is found under X in the built rules |
| Day05PrintQueue.ValidIffOrdered | day-05/puzzle-1/src/main.rs:90-108 | with the built rules the check is exactly: no rule "X\|Y" has Y printed before X |
| Day05PrintQueue.TrivialUpdatesValid | day-05/puzzle-1/src/main.rs:90-108 | without rules, or with fewer than two pages, every update is valid |
| Day05PrintQueue.MiddlePage | day-05/puzzle-1/src/main.rs:110-116 | an odd number of pages has the page with as many pages before it as after it; an even number is an error |
| Day05PrintQueue.SumCountsOnlyValid | day-05/puzzle-1/src/main.rs:40-47 | only valid updates contribute, so an invalid even-length update causes no error, and no valid update gives zero |
| Day05PrintQueue.ExampleMiddles | day-05/puzzle-1/src/main.rs:110-116 | the middles of the three valid example updates are 61, 53 and 29 |
| Day05PrintQueue.RuleMapIs | day-05/puzzle-1/src/main.rs:57-74 | a map with an entry exactly for each left page, holding its right pages in order, is the rules map of the rules |
| Day05PrintQueue.ParseRule | day-05/puzzle-1/src/main.rs:61-63 | a rule line is read exactly when it has a second piece around `\|` and both pieces are numbers |
| Day05PrintQueue.ParseRuleShow | day-05/puzzle-1/src/main.rs:61-63 | a rule written out as `before\|after` is read back as the same rule |
| Day05PrintQueue.ParseRules | day-05/puzzle-1/src/main.rs:60-71 | every rule line read in order, or an error exactly when some line fails |
| Day05PrintQueue.ParseUpdate | day-05/puzzle-1/src/main.rs:82-88 | an update line is read exactly when every piece around `,` is a number, one page per piece |
| Day05PrintQueue.ParseUpdateShow | day-05/puzzle-1/src/main.rs:82-88 | an update written out with commas is read back as the same pages |
| Day05PrintQueue.ParseUpdates | day-05/puzzle-1/src/main.rs:38 | every update line read in order, or an error exactly when some line fails |
| Day05PrintQueue.Process | day-05/puzzle-1/src/main.rs:31-50 | with both blocks present and parsed, the sum of the middle pages of the updates valid under the rules map; a missing block or a bad line is an error |
| Day06Guard.DirectionFrom | day-06/puzzle-1/src/main.rs:114-122 | the four markers are read as directions; any other character is an error |
| Day06Guard.Next | day-06/puzzle-1/src/main.rs:124-131 | a right turn always changes the direction |
| Day06Guard.FourTurnsAreIdentity | day-06/puzzle-1/src/main.rs:124-131 | four right turns give the starting direction back and two never do |
| Day06Guard.SetMax | day-06/puzzle-1/src/main.rs:177-181 | `max` over a non-empty set is one of its elements and no element exceeds it |
| Day06Guard.SetMin | day-06/puzzle-1/src/main.rs:190-194 | `min` over a non-empty set is one of its elements and no element is below it |
| Day06Guard.WalkOf | day-06/puzzle-1/src/main.rs:231-235 | the walk is vertical when x did not change (also when the guard did not move), horizontal otherwise |
| Day06Guard.DestinationStopsAtObstacle | day-06/puzzle-1/src/main.rs:174-227 | a walk moves along one axis only, passes no obstacle and stops right before the nearest obstacle, or at the border when none is ahead |
| Day06Guard.StepStaysInBox | day-06/puzzle-1/src/main.rs:171-236 | with every obstacle in the box, the guard stays in it, and ends on the border ahead of it exactly when no obstacle blocks its way |
| Day06Guard.Map.constructor | day-06/puzzle-1/src/main.rs:134-139 | the map holds the obstacles, the guard and the bounds it is given |
| Day06Guard.Map.FromMap | day-06/puzzle-2/src/main.rs:96-107 | a copy of another map's guard and bounds, with its obstacles plus the new one |
| Day06Guard.Map.Walk | day-06/puzzle-1/src/main.rs:171-236 | the guard moves to the end of its stretch and turns right, nothing else changes, and the returned walk joins its old and new positions |
| Day06Guard.BlockersAhead | day-06/puzzle-1/src/main.rs:177-180 | the filter keeps exactly the obstacles on the guard's line ahead of it |
| Day06Guard.FindNearest | day-06/puzzle-1/src/main.rs:177-226 | the filter followed by `max` or `min` finds the nearest obstacle ahead, if any |
| Day06Guard.MaxPos | day-06/puzzle-1/src/main.rs:160-166 | the bounds are the largest obstacle x and the largest obstacle y, each taken by some obstacle; there are none without obstacles |
| Day06Guard.FromLines | day-06/puzzle-1/src/main.rs:142-169 | the '#' cells are the obstacles, the last marker is the guard, the bounds are the largest obstacle x and y (so every obstacle lies within them), and a bad marker is an error |
| Day06Patrol.Prepend | day-06/puzzle-1/src/main.rs:36-51 | walks in front of a finished patrol; an unfinished one stays unfinished |
| Day06Patrol.PatrolEndsAtEdge | day-06/puzzle-1/src/main.rs:36-51 | a finished patrol's last walk ends on the border and no earlier walk does |
| Day06Patrol.PatrolFuelMonotone | day-06/puzzle-1/src/main.rs:36-51 | more fuel does not change a patrol that already finished |
| Day06Patrol.Cells | day-06/puzzle-1/src/main.rs:61-89 | the cells a walk covers are those between its ends, both ends included |
| Day06Patrol.Visited | day-06/puzzle-1/src/main.rs:57-95 | the visited cells are exactly those covered by some walk |
| Day06Patrol.StartIsVisited | day-06/puzzle-1/src/main.rs:36-52 | the patrol covers the guard's starting cell |
| Day06Patrol.TransposeKeepsCount | day-06/puzzle-1/src/main.rs:62-89 | exchanging the coordinates loses no cell, so the count is that of the covered cells |
| Day06Patrol.ExplodedSnoc | day-06/puzzle-1/src/main.rs:60-92 | one more walk adds its cells, with exchanged coordinates, to the set |
| Day06Patrol.ExplodePositions | day-06/puzzle-1/src/main.rs:57-95 | the loop collects every cell of every walk, and the set has as many cells as the walks cover |
| Day06Patrol.Process | day-06/puzzle-1/src/main.rs:32-55 | the walk loop ends exactly when the patrol finishes within the fuel, and the answer is the number of covered cells |
| Day06Patrol.LeavesIffUnobstructed | day-06/puzzle-1/src/main.rs:36-51 | the corrected exit test holds exactly when nothing blocks the guard's way any more |
| Day06Patrol.LeftExitMissed | day-06/puzzle-1/src/main.rs:39-50 | a guard in column 0 facing left leaves at once, yet its zero-length walk comes back vertical and `process` counts one cell too many |
| Day06Orbits.IterAdd | day-06/puzzle-2/src/main.rs:141-159 | a + b steps are a steps followed by b steps |
| Day06Orbits.Periodic | day-06/puzzle-2/src/main.rs:141-159 | once a state recurs after p steps, every later state is one of the p states from its first occurrence on |
| Day06Orbits.VerdictFindsCycle | day-06/puzzle-2/src/main.rs:141-159 | a loop verdict names a state that recurs with no exit before it recurs |
| Day06Orbits.CycleIsForever | day-06/puzzle-2/src/main.rs:141-159 | a loop verdict on states is sound: no exit comes, however many steps follow |
| Day06Orbits.NoCycleExits | day-06/puzzle-2/src/main.rs:141-159 | a no-loop verdict on states is sound: the exit comes within the fuel |
| Day06Orbits.CheckOn | day-06/puzzle-2/src/main.rs:141-159 | from a state not seen before the check stops at an exit, and otherwise records the state and steps on |
| Day06Orbits.ExitOnThird | day-06/puzzle-2/src/main.rs:141-159 | three distinct states of which only the third exits give a no-loop verdict |
| Day06Loops.LoopCheckSeen | day-06/puzzle-2/src/main.rs:142-145 | a walk already recorded ends the check with a loop |
| Day06Loops.LoopCheckEdge | day-06/puzzle-2/src/main.rs:146-157 | a new walk that ends on the border ends the check without a loop |
| Day06Loops.LoopCheckAdvance | day-06/puzzle-2/src/main.rs:158 | any other walk is recorded and the check goes on from the next guard |
| Day06Loops.HasLoop | day-06/puzzle-2/src/main.rs:138-162 | the method gives the verdict of the walk-recording check, and only the guard changes |
| Day06Loops.CheckWalk | day-06/puzzle-2/src/main.rs:141-158 | one walk of the guard, then a loop verdict at a recorded walk, a no-loop verdict at a new border walk, and otherwise the check goes on with the walk recorded |
| Day06Loops.NoLoopMeansPatrolEnds | day-06/puzzle-2/src/main.rs:138-162 | a no-loop verdict means the patrol of puzzle 1 finishes, within the same number of walks |
| Day06Loops.LoopMeansRepeatedWalk | day-06/puzzle-2/src/main.rs:138-162 | a loop verdict means that the patrol repeats one of its walks before it ends, if it ends within the fuel |
| Day06Loops.Add | day-06/puzzle-2/src/main.rs:41-43 | counts add when both are decided; otherwise the sum is undecided |
| Day06Loops.CountStep | day-06/puzzle-2/src/main.rs:37-45 | a counted cell moves its count from the rest into the running total |
| Day06Loops.CountUndecided | day-06/puzzle-2/src/main.rs:37-45 | a cell that decides nothing leaves the whole count undecided |
| Day06Loops.CountNextColumn | day-06/puzzle-2/src/main.rs:36-37 | past the last row of a column, the count goes on with the next column |
| Day06Loops.TryCell | day-06/puzzle-2/src/main.rs:39-44 | an obstacle cell is skipped, and any other cell is tried on a fresh copy with one more obstacle |
| Day06Loops.Process | day-06/puzzle-2/src/main.rs:32-49 | the counter equals the number of cells in the bounds that are free and make the copy loop |
| Day06Loops.CountColumn | day-06/puzzle-2/src/main.rs:37-45 | the inner loop adds a column's count on top of the counter, or reports the undecided cell |
| Day06Loops.CornerSteps | day-06/puzzle-2/src/main.rs:164-229 | the three walks of the corner example |
| Day06Loops.CornerFalseLoop | day-06/puzzle-2/src/main.rs:142-145 | two immediate turns in a corner give two equal zero-length walks, so `has_loop` reports a loop |
| Day06Loops.CornerPatrolEnds | day-06/puzzle-2/src/main.rs:138-162 | yet in that corner example the guard walks down and off the map |
| Day06Loops.CornerExits | day-06/puzzle-2/src/main.rs:138-162 | the corner example in terms of guard states: the third state exits |
| Day06Loops.CornerStateCheck | day-06/puzzle-2/src/main.rs:138-162 | the check on guard states finds the exit in the corner example |
| Day06Loops.EscapeIsExitWithin | day-06/puzzle-1/src/main.rs:36-51 | the corrected patrol finishes exactly when its exit comes within the fuel |
| Day06Loops.StateLoopIsForever | day-06/puzzle-2/src/main.rs:138-162 | a loop verdict of the check on guard states is sound: the guard never leaves, whatever the fuel |
| Day06Loops.StateNoLoopLeaves | day-06/puzzle-2/src/main.rs:138-162 | a no-loop verdict of the check on guard states is sound: the guard leaves within the fuel |
| Decimal.DigitCount | day-11/puzzle-1/src/main.rs:84-95 | the number of digits k of a positive number satisfies 10^(k-1) <= n < 10^k |
| Decimal.DigitCountUnique | day-11/puzzle-1/src/main.rs:84-95 | the digit count is the only such k |
| Decimal.Show | day-07/puzzle-2/src/main.rs:69 | `to_string` gives at least one digit, as many digits as the digit count, "0" for zero and no leading zero |
| Decimal.ParseShow | day-07/puzzle-2/src/main.rs:69 | reading a number back from its digits gives the number |
| Decimal.ParseAppend | day-07/puzzle-2/src/main.rs:69 | the digits of a concatenation read as the first part shifted by the second's length, plus the second |
| Decimal.ParseNumber | day-07/puzzle-2/src/main.rs:48 | `parse::<u64>` succeeds exactly on a non-empty string of digits |
| Decimal.ParseNumberShow | day-07/puzzle-2/src/main.rs:48 | every number reads back from its text |
| Decimal.ParseNumbers | day-07/puzzle-2/src/main.rs:50-52 | all pieces parsed in order, or an error when some piece is not a number |
| Decimal.ParseInt | day-14/puzzle-1/src/main.rs:90-101 | a signed number parses exactly when its digits after an optional minus sign do |
| Decimal.ParseShowInt | day-14/puzzle-1/src/main.rs:90-101 | every signed number reads back from its text |
| Decimal.ParseI64 | day-18/puzzle-1/src/main.rs:37-38 | `parse::<i64>` succeeds exactly on digits after an optional `+` or `-` |
| Decimal.ParseI64Show | day-05/puzzle-1/src/main.rs:62-63 | every signed number reads back from its text |
| Decimal.ParseI64s | day-05/puzzle-1/src/main.rs:83-85 | every piece read in order, or an error exactly when some piece fails |
| Decimal.ShowInts | day-05/puzzle-1/src/main.rs:83-85 | the text of each number of a list, by position |
| Decimal.ParseI64sShow | day-05/puzzle-1/src/main.rs:83-85 | a list of signed numbers reads back from their texts |
| Day07Equations.ConcatenateShifts | day-07/puzzle-2/src/main.rs:69 | `format!("{}{}")` then `parse` shifts the first number by the digit count of the second and adds it |
| Day07Equations.CombineHolds | day-07/puzzle-2/src/main.rs:65-71 | every operator applied to an earlier result is among the new results |
| Day07Equations.Extend | day-07/puzzle-2/src/main.rs:64-72 | each earlier result gives exactly three new ones |
| Day07Equations.ExtendMembers | day-07/puzzle-2/src/main.rs:64-72 | the new results are exactly every operator applied to every earlier result |
| Day07Equations.ResultsCount | day-07/puzzle-2/src/main.rs:58-73 | after folding k numbers there are 3^(k-1) results |
| Day07Equations.ResultsSound | day-07/puzzle-2/src/main.rs:58-73 | every result is a left-to-right evaluation under some choice of operators |
| Day07Equations.ResultsComplete | day-07/puzzle-2/src/main.rs:58-73 | every left-to-right evaluation is among the results |
| Day07Equations.ResultsAreEvaluations | day-07/puzzle-2/src/main.rs:58-73 | the results are exactly the left-to-right evaluations under every choice of operators |
| Day07Equations.ExtendResults | day-07/puzzle-2/src/main.rs:64-72 | the inner loop builds the three results of each earlier result, in order |
| Day07Equations.Decide | day-07/puzzle-2/src/main.rs:57-76 | the loops answer true exactly when the equation is valid |
| Day07Equations.IsValid | day-07/puzzle-2/src/main.rs:57-76 | an empty right-hand side is an error; otherwise valid exactly when some choice of operators gives the left-hand side |
| Day07Equations.SingleNumber | day-07/puzzle-2/src/main.rs:57-76 | with one number the equation is valid exactly when that number is the left-hand side |
| Day07Equations.ConcatOneDigit | day-07/puzzle-2/src/main.rs:69 | concatenating a one-digit number appends that digit |
| Day07Equations.FromLine | day-07/puzzle-2/src/main.rs:46-55 | a parsed equation has at least one number on the right |
| Day07Equations.ParseFormat | day-07/puzzle-2/src/main.rs:46-55 | parsing reads back every equation from its text |
| Day07Equations.ParseLines | day-07/puzzle-2/src/main.rs:31 | all lines parsed in order, or an error when some line does not parse |
| Day07Equations.SumValid | day-07/puzzle-2/src/main.rs:32-35 | the sum is at most the sum of all left-hand sides, equals it when all are valid and is zero when none is |
| Day07Equations.ParseEquations | day-07/puzzle-2/src/main.rs:31 | the loop parses every line, failing exactly when some line fails |
| Day07Equations.Process | day-07/puzzle-2/src/main.rs:30-38 | an error exactly when some line does not parse, and otherwise the sum of the valid equations' left-hand sides |
| Day07Equations.ConcatExample | day-07/puzzle-2/src/main.rs:69 | "156: 15 6" is valid through concatenation |
| Day07Equations.InvalidExample | day-07/puzzle-2/src/main.rs:57-76 | "83: 17 5" is not valid |
| Day08Antennas.AntennaType | day-08/puzzle-1/src/main.rs:245-311 | exactly letters and digits are frequencies, each standing for itself; anything else is an error |
| Day08Antennas.IsInMap | day-08/puzzle-1/src/main.rs:146-156 | a point in the map lies between the origin and the maximum, which then has no negative coordinate |
| Day08Antennas.Distance | day-08/puzzle-1/src/main.rs:170-175 | the difference is zero exactly for the same location, and adding it to the second location gives the first |
| Day08Antennas.DistanceSwap | day-08/puzzle-1/src/main.rs:170-175 | swapping the antennas negates the distance |
| Day08Antennas.FromLines | day-08/puzzle-1/src/main.rs:82-102 | one antenna per letter or digit at its cell, an error for any other character but '.', and the maximum from the first line's width and the number of lines |
| Day08Antennas.ParsedAntennas | day-08/puzzle-1/src/main.rs:82-102 | in a rectangular grid every antenna lies in the map and no two share a cell |
| Day08Antinodes.PairAntinodesAreMirrors | day-08/puzzle-1/src/main.rs:124-139 | of the four candidates, a pair's antinodes are the two mirror points that lie in the map |
| Day08Antinodes.AntinodesAre | day-08/puzzle-1/src/main.rs:104-144 | an antinode is a map point that mirrors one antenna across another of the same frequency at a different place |
| Day08Antinodes.AntinodesInMap | day-08/puzzle-1/src/main.rs:134-138 | every antinode is in the map |
| Day08Antinodes.InsertPair | day-08/puzzle-1/src/main.rs:124-139 | one pair adds exactly its antinodes |
| Day08Antinodes.SecondStep | day-08/puzzle-1/src/main.rs:119-140 | one more second antenna adds its pair's antinodes |
| Day08Antinodes.InsertFirst | day-08/puzzle-1/src/main.rs:119-140 | the pairs of one first antenna with every antenna add their antinodes |
| Day08Antinodes.ComputeAntinodes | day-08/puzzle-1/src/main.rs:104-144 | the loops collect exactly the antinodes of all equal-frequency pairs |
| Day08Antinodes.Process | day-08/puzzle-1/src/main.rs:34-41 | the answer is the number of distinct antinodes, at most the number of map cells |
| Day08Antinodes.Row | day-08/puzzle-1/src/main.rs:146-156 | the cells of one row of the map, as many as its width |
| Day08Antinodes.Rect | day-08/puzzle-1/src/main.rs:146-156 | the cells `is_in_map` accepts, as many as width times height |
| Day08Antinodes.InMapCount | day-08/puzzle-1/src/main.rs:146-156 | a set of map points has at most as many points as the map has cells |
| Day08Antinodes.PairAntinodesBoth | day-08/puzzle-1/src/main.rs:124-139 | when both mirror points lie in the map, they are exactly the pair's antinodes |
| Day08Antinodes.PairExample | day-08/puzzle-1/src/main.rs:124-139 | antennas at (4,3) and (5,5) in a 10 by 10 map give the antinodes (3,1) and (6,7) and no others |
| Day08Harmonics.Convex | day-08/puzzle-2/src/main.rs:105-115 | the points between two points of a line in the map are in the map too |
| Day08Harmonics.RayContents | day-08/puzzle-2/src/main.rs:117-134 | a ray holds exactly the map points a whole non-negative number of distances from its start, when the start is in the map |
| Day08Harmonics.RayStartsAtAntenna | day-08/puzzle-2/src/main.rs:121-131 | a ray starts with the antenna itself, so an antenna is an antinode of its own pairs |
| Day08Harmonics.IncreasingLoop | day-08/puzzle-2/src/main.rs:121-134 | the first loop appends the forward ray |
| Day08Harmonics.DecreasingLoop | day-08/puzzle-2/src/main.rs:136-149 | the second loop decrements a factor that it subtracts, so it appends the same forward ray |
| Day08Harmonics.ExpandFrequency | day-08/puzzle-2/src/main.rs:117-152 | the result is the forward ray twice, never the backward one |
| Day08Harmonics.AntinodesAre | day-08/puzzle-2/src/main.rs:68-103 | the antinodes are the map points a whole number of distances, forward or backward, from an antenna of an equal-frequency pair; walking only forward suffices because both orders of each pair are tried |
| Day08Harmonics.Backward | day-08/puzzle-2/src/main.rs:88-98 | going backward from the first antenna is going forward from the second |
| Day08Harmonics.SecondStep | day-08/puzzle-2/src/main.rs:83-99 | one more second antenna adds its pair's positions |
| Day08Harmonics.InsertPair | day-08/puzzle-2/src/main.rs:90-98 | one pair adds the positions `expand_frequency` returns |
| Day08Harmonics.InsertFirst | day-08/puzzle-2/src/main.rs:83-99 | the pairs of one first antenna add their positions |
| Day08Harmonics.ComputeAntinodes | day-08/puzzle-2/src/main.rs:68-103 | the loops collect exactly the antinodes with harmonics |
| Day08Harmonics.AntinodesInMapAndAntennas | day-08/puzzle-2/src/main.rs:68-103 | every antinode is in the map, and every antenna with a partner of its frequency elsewhere is one |
| Day08Harmonics.Process | day-08/puzzle-2/src/main.rs:34-40 | the answer is the number of distinct antinodes |
| Day09Blocks.DigitsOf | day-09/puzzle-1/src/main.rs:38-39 | one digit value per character of the line |
| Day09Blocks.Run | day-09/puzzle-1/src/main.rs:40-44 | a file digit gives that many blocks |
| Day09Blocks.Range | day-09/puzzle-1/src/main.rs:40-47 | a free digit gives that many positions |
| Day09Blocks.Positions | day-09/puzzle-1/src/main.rs:72-75 | the disk positions of the blocks, in order |
| Day09Blocks.ExpandTiles | day-09/puzzle-1/src/main.rs:36-50 | the layout tiles the disk: block and free positions ascend, stay below the disk size, never coincide and together number the disk size |
| Day09Blocks.ExpandIds | day-09/puzzle-1/src/main.rs:42-44 | file ids follow the input: they never decrease along the disk, and each is half the index of its digit |
| Day09Blocks.PushRun | day-09/puzzle-1/src/main.rs:40-48 | one digit pushes that many blocks of its file at an even index, or that many free positions at an odd one, from the current disk position on |
| Day09Blocks.ParseDiskMap | day-09/puzzle-1/src/main.rs:38-50 | the parsing loop builds the layout of the digits, and any character that is not a digit is an error |
| Day09Blocks.ExpandStep | day-09/puzzle-1/src/main.rs:38-50 | each further digit appends its run of blocks (even index) or free positions (odd index) from the sum of the digits before it |
| Day09Blocks.StopFrom | day-09/puzzle-1/src/main.rs:55-58 | the compaction stops at the first free position right of its block, or when either list runs out |
| Day09Blocks.Compacted | day-09/puzzle-1/src/main.rs:55-61 | compaction keeps every block's id and never moves a block right |
| Day09Blocks.CompactedDistinct | day-09/puzzle-1/src/main.rs:55-61 | no two blocks end up at the same position |
| Day09Blocks.StopFromIs | day-09/puzzle-1/src/main.rs:55-58 | a position before which every pair moves and at which a list ends or the free position lies right is where the compaction stops |
| Day09Blocks.CompactedIs | day-09/puzzle-1/src/main.rs:55-61 | blocks that agree with the compacted layout at every position are that layout |
| Day09Blocks.Compact | day-09/puzzle-1/src/main.rs:55-61 | the in-place loop over the reversed blocks gives the compacted layout |
| Day09Blocks.Checksum | day-09/puzzle-1/src/main.rs:66-70 | the checksum is at least every block's id times position, and zero exactly when every block has id 0 or sits at position 0 |
| Day09Blocks.ChecksumMonotone | day-09/puzzle-1/src/main.rs:66-70 | moving blocks left, with their ids, never raises the checksum |
| Day09Blocks.Process | day-09/puzzle-1/src/main.rs:30-64 | no line or a character that is not a digit is an error; otherwise the checksum after compaction, at most the one before it |
| Day09Blocks.SmallExample | day-09/puzzle-1/src/main.rs:30-64 | "12345" is laid out as 0..111....22222 and compacts to a checksum of 60 |
| Day09Blocks.SmallCompaction | day-09/puzzle-1/src/main.rs:55-61 | the small example compacts to 022111222 |
| Day09Blocks.SmallChecksum | day-09/puzzle-1/src/main.rs:66-70 | the checksum of 022111222 is 60 |
| Day09Files.Spans | day-09/puzzle-2/src/main.rs:38-49 | the even digits are the files and the odd digits the free spans |
| Day09Files.SpansAt | day-09/puzzle-2/src/main.rs:38-49 | file i is digit 2i with id i, free span i is digit 2i + 1, and each starts at the sum of the digits before it |
| Day09Files.SpansValid | day-09/puzzle-2/src/main.rs:38-49 | the parsed disk is consistent (files and free spans apart from each other) and ends by the digit sum |
| Day09Files.FirstFit | day-09/puzzle-2/src/main.rs:62-64 | `position` finds the first free span left of the file that is large enough, or none |
| Day09Files.Move | day-09/puzzle-2/src/main.rs:65-75 | one file moves to the start of the first fitting span, only it changes and never to the right, and nothing changes when no span fits |
| Day09Files.ApartInside | day-09/puzzle-2/src/main.rs:69-74 | a range inside a free span is apart from whatever the span is apart from |
| Day09Files.MoveValid | day-09/puzzle-2/src/main.rs:65-75 | moving one file keeps the disk consistent |
| Day09Files.Defragged | day-09/puzzle-2/src/main.rs:61-76 | the files are moved last to first, each keeping its id and length and never moving right |
| Day09Files.DefraggedValid | day-09/puzzle-2/src/main.rs:56-77 | defragmenting keeps the disk consistent, so no two files overlap |
| Day09Files.FindFit | day-09/puzzle-2/src/main.rs:62-64 | the search loop finds the first fitting span |
| Day09Files.Defragment | day-09/puzzle-2/src/main.rs:56-77 | the in-place loop over the files and free spans computes the defragmented disk |
| Day09Files.FileChecksum | day-09/puzzle-2/src/main.rs:81-84 | the inner loop sums the id times the position of every block of a file |
| Day09Files.FileSumIsBlockSum | day-09/puzzle-2/src/main.rs:79-88 | a file counts as its blocks would one by one in puzzle 1 |
| Day09Files.ComputeChecksum | day-09/puzzle-2/src/main.rs:79-88 | the fold sums the files' checksums |
| Day09Files.ChecksumMonotone | day-09/puzzle-2/src/main.rs:79-88 | moving files left, with their ids and lengths, never raises the checksum |
| Day09Files.ParseDiskMap | day-09/puzzle-2/src/main.rs:38-49 | the parsing loop builds the disk of the digits, and any character that is not a digit is an error |
| Day09Files.Process | day-09/puzzle-2/src/main.rs:30-54 | no line or a bad character is an error; otherwise the checksum after defragmenting, with the disk still consistent and the checksum at most the one before |
| Day09Files.SmallExample | day-09/puzzle-2/src/main.rs:56-88 | on "132" file 1 moves into the free span after file 0, which keeps one free block, and the checksum drops from 9 to 3 |
| Day10Trails.FromLines | day-10/puzzle-2/src/main.rs:42-54 | one point per character with its digit as height, in 0..9; a character that is not a digit is an error |
| Day10Trails.Uphill | day-10/puzzle-2/src/main.rs:71-84 | the points the search continues to are exactly the adjacent ones exactly one higher |
| Day10Trails.Starts | day-10/puzzle-2/src/main.rs:57 | the starting points are exactly the points of height 0 |
| Day10Trails.TrailSet | day-10/puzzle-2/src/main.rs:66-92 | every trail the recursion walks starts at its point |
| Day10Trails.TrailSetOver | day-10/puzzle-2/src/main.rs:59-63 | every trail over a set of points starts in the set |
| Day10Trails.Prefixed | day-10/puzzle-2/src/main.rs:87-89 | putting a point in front of trails, one by one |
| Day10Trails.PrefixedCount | day-10/puzzle-2/src/main.rs:87-89 | putting a point in front loses no trail |
| Day10Trails.Trails | day-10/puzzle-2/src/main.rs:66-92 | `explore_from_point` counts exactly the trails the recursion walks from its point |
| Day10Trails.TrailSetCard | day-10/puzzle-2/src/main.rs:66-92 | a point of height 9 is one trail; from a lower point there are as many trails as from its uphill neighbours |
| Day10Trails.TrailsOver | day-10/puzzle-2/src/main.rs:59-63 | the fold over a set of points counts exactly the trails from them |
| Day10Trails.Explore | day-10/puzzle-2/src/main.rs:56-64 | `explore` counts exactly the trails from the points of height 0 |
| Day10Trails.TrailSetOverMembers | day-10/puzzle-2/src/main.rs:59-63 | a trail over a set of points is a trail of one of them |
| Day10Trails.TrailHeights | day-10/puzzle-2/src/main.rs:82-84 | along a trail the height grows by one per step |
| Day10Trails.TrailSetIsTrails | day-10/puzzle-2/src/main.rs:66-92 | the recursion enumerates exactly the hiking trails from its point |
| Day10Trails.TrailSetSound | day-10/puzzle-2/src/main.rs:66-92 | every trail the recursion walks is a hiking trail |
| Day10Trails.ExploreCountsTrails | day-10/puzzle-2/src/main.rs:56-64 | the rating is the number of hiking trails that start at height 0 |
| Day10Trails.TrailEnds | day-10/puzzle-2/src/main.rs:67-69 | a point of height 9 is one trail, and a lower point with no uphill neighbour starts none |
| Day10Trails.Process | day-10/puzzle-2/src/main.rs:31-35 | a character that is not a digit is an error; otherwise the number of trails from height 0 |
| Day11Stones.SplitEvenDigits | day-11/puzzle-1/src/main.rs:84-95 | an odd digit count gives nothing; an even one splits the number into a high and a low half of equal digit counts |
| Day11Stones.DivideOut | day-11/puzzle-1/src/main.rs:91-92 | the quotient times the divisor is at most the number and leaves less than the divisor |
| Day11Stones.HighHalfDigits | day-11/puzzle-1/src/main.rs:89-91 | the high half is positive and has exactly half the digits |
| Day11Stones.Blink | day-11/puzzle-1/src/main.rs:74-82 | 0 becomes 1, an even digit count splits, and anything else is multiplied by 2024 |
| Day11Stones.Children | day-11/puzzle-1/src/main.rs:74-82 | a stone turns into one or two stones |
| Day11Stones.BlinkExamples | day-11/puzzle-1/src/main.rs:74-95 | 0 becomes 1, 1 becomes 2024, 10 splits into 1 and 0, 99 into 9 and 9, and 999 becomes 2021976 |
| Day11Stones.Bump | day-11/puzzle-1/src/main.rs:52-59 | `insert(k, get(k).unwrap_or(0) + v)` adds v to the count of k and changes no other count |
| Day11Stones.Least | day-11/puzzle-1/src/main.rs:48 | the smallest key of the counter |
| Day11Stones.SumOverRemove | day-11/puzzle-1/src/main.rs:69-71 | the sum of counts does not depend on the order of the keys |
| Day11Stones.TotalBump | day-11/puzzle-1/src/main.rs:52-59 | adding v stones with one number adds v to the total |
| Day11Stones.WeightBounds | day-11/puzzle-1/src/main.rs:48-62 | a blink never loses a stone and at most doubles them |
| Day11Stones.TotalContribute | day-11/puzzle-1/src/main.rs:50-61 | one counted number contributes its count once per stone it turns into |
| Day11Stones.ContributeKeys | day-11/puzzle-1/src/main.rs:50-61 | one counted number adds the numbers it turns into as keys |
| Day11Stones.RoundOverTotal | day-11/puzzle-1/src/main.rs:48-62 | the inner loop's total grows by the weight of the keys visited |
| Day11Stones.RoundOverKeys | day-11/puzzle-1/src/main.rs:48-62 | the new counter's keys are exactly the numbers the visited keys turn into |
| Day11Stones.RoundProperties | day-11/puzzle-1/src/main.rs:47-64 | after a blink the counter holds exactly the numbers the old ones turn into, and the total at least stays and at most doubles |
| Day11Stones.AddBlink | day-11/puzzle-1/src/main.rs:49-61 | the inner loop's body adds a number's count to each number its stone turns into |
| Day11Stones.BlinkRound | day-11/puzzle-1/src/main.rs:47-64 | the inner loop computes one blink of every counted number |
| Day11Stones.RoundsGrow | day-11/puzzle-1/src/main.rs:42-66 | blinking never lowers the total |
| Day11Stones.Distinct | day-11/puzzle-1/src/main.rs:38-39 | the start counter holds each written number once with count 1, however often it is written |
| Day11Stones.DistinctTotal | day-11/puzzle-1/src/main.rs:38-39 | the start counter stands for as many stones as there are distinct numbers |
| Day11Stones.InitialCounter | day-11/puzzle-1/src/main.rs:38-39 | the `insert(n, 1)` loop builds that counter |
| Day11Stones.Tally | day-11/puzzle-1/src/main.rs:38-39 | the intended start counter counts each number as often as it is written |
| Day11Stones.TallyCounter | day-11/puzzle-1/src/main.rs:38-39 | an incrementing loop builds the intended counter |
| Day11Stones.DuplicateStoneLost | day-11/puzzle-1/src/main.rs:39 | "7 7" is two stones, but the start counter stands for one |
| Day11Stones.SumCounts | day-11/puzzle-1/src/main.rs:69-71 | the final fold is the sum of all counts |
| Day11Stones.BlinkTimes | day-11/puzzle-1/src/main.rs:41-66 | the outer loop applies the given number of blinks |
| Day11Stones.Process | day-11/puzzle-1/src/main.rs:31-72 | a bad number is an error; otherwise the stones after 25 blinks from each distinct number once, at least the number of distinct numbers |
| Day11Stones.ProcessTallied | day-11/puzzle-1/src/main.rs:31-72 | with the intended start, the stones after 25 blinks, at least the number of numbers written |
| Day12Garden.PlantType | day-12/puzzle-1/src/main.rs:180-210 | exactly the upper-case letters are plant types, each standing for itself |
| Day12Garden.Cells | day-12/puzzle-1/src/main.rs:34-40 | the cells of the grid of lines |
| Day12Garden.GardenOf | day-12/puzzle-1/src/main.rs:34-40 | the garden has one plant per cell of the grid |
| Day12Garden.ParseGarden | day-12/puzzle-1/src/main.rs:34-40 | the grid loop gives one plant per cell with its character, and a character that is not a plant type is an error |
| Day12Garden.AdjacentIff | day-12/puzzle-1/src/main.rs:109-123 | adjacency is symmetric and means Manhattan distance 1 |
| Day12Garden.Present | day-12/puzzle-1/src/main.rs:111-120 | the candidate positions that hold a plant, in order |
| Day12Garden.PlantNeighbours | day-12/puzzle-1/src/main.rs:109-123 | at most four neighbours: exactly the plants adjacent to the given one |
| Day12Garden.PresentDistinct | day-12/puzzle-1/src/main.rs:111-120 | distinct candidates give distinct neighbours |
| Day12Garden.NeighboursDistinct | day-12/puzzle-1/src/main.rs:109-123 | no neighbour is listed twice |
| Day12Garden.LinkedSelf | day-12/puzzle-1/src/main.rs:85-107 | a plant is linked to itself |
| Day12Garden.LinkedStep | day-12/puzzle-1/src/main.rs:97-103 | a same-type neighbour of a linked plant is linked |
| Day12Garden.PathType | day-12/puzzle-1/src/main.rs:99 | along a walk all plants share the first one's type |
| Day12Garden.LinkedType | day-12/puzzle-1/src/main.rs:99 | linked plants share their type |
| Day12Garden.ClosedHoldsPath | day-12/puzzle-1/src/main.rs:85-107 | a closed set holding the start of a walk holds the whole walk |
| Day12Garden.ClosedMissesPath | day-12/puzzle-1/src/main.rs:85-107 | a closed set missing the start of a walk misses the whole walk |
| Day12Garden.ClosedIsComponent | day-12/puzzle-1/src/main.rs:85-107 | a closed set holding the start and linked to it everywhere is exactly the start's component |
| Day12Garden.ComponentClosed | day-12/puzzle-1/src/main.rs:85-107 | a component holds every same-type neighbour of its members |
| Day12Garden.ComponentsApart | day-12/puzzle-1/src/main.rs:47-57 | a plant outside a component has a component disjoint from it |
| Day12Garden.PushAdded | day-12/puzzle-1/src/main.rs:99-102 | an unseen same-type neighbour joins the field and the front of the worklist |
| Day12Garden.PushSkipped | day-12/puzzle-1/src/main.rs:99-102 | any other neighbour leaves the field and the worklist as they are |
| Day12Garden.PushNeighbours | day-12/puzzle-1/src/main.rs:97-103 | the neighbour loop adds exactly the unseen same-type neighbours, all of them to the worklist, leaving every neighbour of the popped plant looked at |
| Day12Garden.FloodFill | day-12/puzzle-1/src/main.rs:85-107 | the field holds the start, every member has its type and is linked to it, no same-type neighbour is left out, so it is exactly the start's component |
| Day12Garden.UnionMembers | day-12/puzzle-1/src/main.rs:47-57 | a plant is in the union of the fields exactly when it is in one of them |
| Day12Garden.AddField | day-12/puzzle-1/src/main.rs:51-56 | the field of a plant outside every earlier field meets none of them |
| Day12Garden.Shrinks | day-12/puzzle-1/src/main.rs:53-55 | removing a new field shrinks the available plants |
| Day12Garden.Fields | day-12/puzzle-1/src/main.rs:45-57 | the field loop splits the garden into its components: disjoint, covering every plant, each the component of its start |
| Day12Fences.Differing | day-12/puzzle-1/src/main.rs:70-76 | the border fold counts at most the neighbours listed |
| Day12Fences.DifferingPlusMissing | day-12/puzzle-1/src/main.rs:78-81 | differing neighbours plus missing ones are exactly the sides that need a fence |
| Day12Fences.PlantFences | day-12/puzzle-1/src/main.rs:68-82 | a plant's fences are the number of its four sides that need one, so at most 4 |
| Day12Fences.PerimeterRemove | day-12/puzzle-1/src/main.rs:68-82 | the plants can be summed in any order |
| Day12Fences.PerimeterBound | day-12/puzzle-1/src/main.rs:67-83 | the perimeter is at most 4 per plant |
| Day12Fences.ComputePerimeter | day-12/puzzle-1/src/main.rs:67-83 | the fold computes the perimeter, taking the plants in any order |
| Day12Fences.PriceBound | day-12/puzzle-1/src/main.rs:59-62 | the price is at most 4 times the sum of the squared areas |
| Day12Fences.SumPrices | day-12/puzzle-1/src/main.rs:59-62 | the final fold sums perimeter times area over the fields |
| Day12Fences.PriceStep | day-12/puzzle-1/src/main.rs:59-62 | one more field adds its perimeter times its area |
| Day12Fences.Process | day-12/puzzle-1/src/main.rs:32-63 | a bad character is an error; otherwise the price of a partition of the garden into its fields, bounded by 4 times the squared areas |
| Day12Fences.FieldsInGarden | day-12/puzzle-1/src/main.rs:45-57 | every field lies in the garden |
| Day12Fences.PairExample | day-12/puzzle-1/src/main.rs:67-83 | two plants of one type side by side need 6 fences |
| Day12Sides.IsEdge | day-12/puzzle-2/src/main.rs:162-192 | a plant at the border of the garden is fenced on that side, and an unfenced side has a plant of the same type beyond it |
| Day12Sides.EdgeSeenFromBoth | day-12/puzzle-2/src/main.rs:162-192 | a fence between two plants is seen from both of them, on opposite sides |
| Day12Sides.PlantsByRow | day-12/puzzle-2/src/main.rs:194-200 | exactly the field's plants in the row |
| Day12Sides.PlantsByColumn | day-12/puzzle-2/src/main.rs:202-208 | exactly the field's plants in the column |
| Day12Sides.PlantsOnLine | day-12/puzzle-2/src/main.rs:194-208 | exactly the field's plants on a row or column |
| Day12Sides.SegmentsBounds | day-12/puzzle-2/src/main.rs:128-146 | no values give no segment, and otherwise between one and the number of values |
| Day12Sides.SegmentsCountRuns | day-12/puzzle-2/src/main.rs:128-146 | on strictly increasing values the segments are the runs of consecutive values |
| Day12Sides.ElemsLast | day-12/puzzle-2/src/main.rs:128-146 | an increasing list is its increasing prefix, bounded by its last value, and one larger value |
| Day12Sides.RunStartsAdd | day-12/puzzle-2/src/main.rs:138-143 | a value above all others starts a run exactly when it does not follow the largest one |
| Day12Sides.CountSegments | day-12/puzzle-2/src/main.rs:128-146 | the window loop counts the segments |
| Day12Sides.Coords | day-12/puzzle-2/src/main.rs:148-160 | one coordinate per plant, in order |
| Day12Sides.OrderedCoords | day-12/puzzle-2/src/main.rs:148-160 | the coordinates, sorted, as a permutation of the plants' coordinates |
| Day12Sides.OrderedCoordsIncreasing | day-12/puzzle-2/src/main.rs:148-160 | distinct plants of one line sort to strictly increasing coordinates, exactly their own |
| Day12Sides.FilterEdges | day-12/puzzle-2/src/main.rs:90-91 | the filter keeps exactly the plants with a fence on that side, without repetition |
| Day12Sides.Enumerate | day-12/puzzle-2/src/main.rs:195-197 | the plants of a set, each once, in the set's iteration order |
| Day12Sides.CountLineSides | day-12/puzzle-2/src/main.rs:89-97 | one line's fenced plants, sorted, give that line's sides |
| Day12Sides.CountSides | day-12/puzzle-2/src/main.rs:86-100 | the loop over the lines sums their sides |
| Day12Sides.Lines | day-12/puzzle-2/src/main.rs:79-84 | `minmax_by_key` gives the smallest and largest line that holds a plant of the field |
| Day12Sides.FieldSides | day-12/puzzle-2/src/main.rs:69-74 | a non-empty field's sides are the top, bottom, left and right segments |
| Day12Sides.ComputeSegments | day-12/puzzle-2/src/main.rs:69-126 | an empty field has no extreme line and is an error; otherwise its number of sides |
| Day12Sides.SumPrices | day-12/puzzle-2/src/main.rs:61-64 | the final fold sums sides times area over the fields |
| Day12Sides.FieldsNonEmpty | day-12/puzzle-2/src/main.rs:47-59 | every field of the partition holds a plant |
| Day12Sides.Process | day-12/puzzle-2/src/main.rs:34-65 | a bad character is an error; otherwise the price of a partition into non-empty fields |
| Day12Sides.LoneSide | day-12/puzzle-2/src/main.rs:128-146 | a lone plant has one side in each direction |
| Day12Sides.SinglePlant | day-12/puzzle-2/src/main.rs:69-74 | a lone plant has four sides |
| Day14Robots.DivModUnique | day-14/puzzle-1/src/main.rs:108-128 | the Euclidean quotient and remainder are the only ones with the remainder in 0..m |
| Day14Robots.Rem | day-14/puzzle-1/src/main.rs:109-122 | Rust's `%` on `i64` has the sign of the dividend and is below the divisor in size |
| Day14Robots.WrapIsModulo | day-14/puzzle-1/src/main.rs:108-128 | every branch of the wrapping lands on the mathematical residue, inside the grid |
| Day14Robots.Moved | day-14/puzzle-1/src/main.rs:103-129 | after `steps` seconds each coordinate is the residue of the unwrapped one, in the grid, and the velocities stay |
| Day14Robots.ModuloShift | day-14/puzzle-1/src/main.rs:108-128 | adding to a residue and wrapping again is wrapping the sum |
| Day14Robots.MovedCompose | day-14/puzzle-1/src/main.rs:103-129 | walking a seconds then b seconds is walking a + b seconds, and no time leaves a robot of the grid where it is |
| Day14Robots.MovedAll | day-14/puzzle-1/src/main.rs:51-55 | every robot moved with the same time and grid, in order |
| Day14Robots.Count | day-14/puzzle-1/src/main.rs:71-78 | the count is the number of robots, by index, inside both ranges, so at most every robot |
| Day14Robots.QuadrantsSplitGrid | day-14/puzzle-1/src/main.rs:57-66 | a robot of the grid is in exactly one quadrant, unless it is on the middle column or row |
| Day14Robots.QuadrantCounts | day-14/puzzle-1/src/main.rs:57-78 | the quadrant counts and the robots on the middle lines add up to all robots |
| Day14Robots.QuadrantProduct | day-14/puzzle-1/src/main.rs:57-69 | the product of the four quadrant counts is zero exactly when some quadrant holds no robot |
| Day14Robots.Map.constructor | day-14/puzzle-1/src/main.rs:37 | the map holds the given size and robots |
| Day14Robots.Map.SimulateSteps | day-14/puzzle-1/src/main.rs:51-55 | every robot walks `steps` seconds and the size stays |
| Day14Robots.Map.CountRobots | day-14/puzzle-1/src/main.rs:71-78 | the number of the map's robots, by index, inside both inclusive ranges |
| Day14Robots.Map.SafetyFactor | day-14/puzzle-1/src/main.rs:57-69 | the product of the quadrant counts of the map's robots, so zero exactly when a quadrant is empty |
| Day14Robots.ParsePair | day-14/puzzle-1/src/main.rs:92-98 | a pair read is the tag, the text of the first number, a comma and the text of the second |
| Day14Robots.ParseRobot | day-14/puzzle-1/src/main.rs:90-101 | a robot read is a `p=` pair of its position, a space and a `v=` pair of its velocity; a line without a space is an error |
| Day14Robots.ParseShowPair | day-14/puzzle-1/src/main.rs:92-98 | a tagged pair of numbers reads back from its text |
| Day14Robots.ParseShowRobot | day-14/puzzle-1/src/main.rs:90-101 | reading a robot back from its line gives the robot |
| Day14Robots.ParseRobots | day-14/puzzle-1/src/main.rs:33-35 | every line read as a robot, or an error when some line is not one |
| Wrappers.CollectAll | day-14/puzzle-1/src/main.rs:33-35 | collecting mapped results succeeds exactly when every element maps to `Ok`, and then holds each element's value in order |
| Day14Robots.Process | day-14/puzzle-1/src/main.rs:32-41 | a bad line is an error; otherwise the safety factor after 100 seconds on the 101 by 103 grid |
| Day15Warehouse.ObjectOf | day-15/puzzle-1/src/main.rs:229-237 | exactly the four known characters are objects |
| Day15Warehouse.MovementOf | day-15/puzzle-1/src/main.rs:203-211 | exactly the four arrows are movements; any other symbol is an error |
| Day15Warehouse.Next | day-15/puzzle-1/src/main.rs:212-219 | a step changes exactly one coordinate, by one |
| Day15Warehouse.NextBack | day-15/puzzle-1/src/main.rs:212-219 | the opposite step takes a step back |
| Day15Warehouse.RayShrinks | day-15/puzzle-1/src/main.rs:129-174 | the scan's remaining cells shrink with each step |
| Day15Warehouse.FreeFromMeaning | day-15/puzzle-1/src/main.rs:129-174 | the scan finds the first free cell behind an unbroken row of boxes; a wall behind the row, or the end of the range, gives none, and a missing cell is an error |
| Day15Warehouse.FreeFromFree | day-15/puzzle-1/src/main.rs:129-174 | a free cell found is free, lies on the ray, and is not the start |
| Day15Warehouse.MovedWallOrFloor | day-15/puzzle-1/src/main.rs:88-111 | walking into a wall changes nothing; walking onto floor moves the robot one step and swaps the two cells, and nothing else changes |
| Day15Warehouse.FloorKeeps | day-15/puzzle-1/src/main.rs:101-105 | stepping onto floor keeps the walls, the boxes and the robot's cell consistent |
| Day15Warehouse.PushKeeps | day-15/puzzle-1/src/main.rs:94-100 | a push moves the first box to the free cell behind the row, so the number of boxes stays |
| Day15Warehouse.MovedKeeps | day-15/puzzle-1/src/main.rs:88-111 | every move keeps the map's cells, walls and number of boxes, keeps the robot where the map says, and moves it at most one step |
| Day15Warehouse.PushShiftsRow | day-15/puzzle-1/src/main.rs:116-122 | between the robot and the free cell boxes stay boxes, so writing the two end cells shifts the row by one |
| Day15Warehouse.GpsRemove | day-15/puzzle-1/src/main.rs:50-59 | the sum does not depend on the order of the cells |
| Day15Warehouse.GpsBoxesOnly | day-15/puzzle-1/src/main.rs:52-54 | only boxes count: the sum over all cells is the sum over the boxes |
| Day15Warehouse.Map.constructor | day-15/puzzle-1/src/main.rs:61-65 | the map holds the given robot position and objects |
| Day15Warehouse.Map.FindFreePosition | day-15/puzzle-1/src/main.rs:129-174 | the scanning loop finds what the scan function describes, from the cell after the start |
| Day15Warehouse.Map.MoveBoxes | day-15/puzzle-1/src/main.rs:113-127 | the box at the start moves to the free cell behind its row when there is one, and the robot stays |
| Day15Warehouse.Map.MoveRobot | day-15/puzzle-1/src/main.rs:88-111 | one move of the robot gives the moved state, and a missing neighbour cell is an error |
| Day15Warehouse.Map.SumOfCoordinates | day-15/puzzle-1/src/main.rs:50-59 | 100 * y + x summed over the boxes |
| Day15Warehouse.Map.Draw | day-15/puzzle-1/src/main.rs:176-194 | `draw` finishes exactly on a drawable map: not empty, and every cell of rows up to the largest x and columns up to the largest y present |
| Day15Warehouse.LargestCoordinates | day-15/puzzle-1/src/main.rs:177-178 | cells with the largest x and the largest y of a non-empty map |
| Day15Warehouse.FullDrawableIffSquare | day-15/puzzle-1/src/main.rs:176-194 | a full rectangular map can be drawn exactly when it is square, because `draw` swaps its bounds |
| Day15Warehouse.MovedAllKeeps | day-15/puzzle-1/src/main.rs:41-45 | any number of moves keeps the robot on the map and the walls and number of boxes as they were |
| Day15Warehouse.ObjectsOf | day-15/puzzle-1/src/main.rs:72-83 | the map has exactly the cells that hold a known character |
| Day15Warehouse.ReadStep | day-15/puzzle-1/src/main.rs:73-81 | reading one character adds its object and, for '@', moves the robot there |
| Day15Warehouse.ReadRowEnd | day-15/puzzle-1/src/main.rs:72-83 | past the end of a row the reading goes on with the next row |
| Day15Warehouse.ParseRow | day-15/puzzle-1/src/main.rs:72-83 | reading one row adds its objects and moves the robot to the row's last '@' |
| Day15Warehouse.ParseMap | day-15/puzzle-1/src/main.rs:68-86 | the objects of the map block, with the robot at the last '@' read, or at (0, 0) when there is none |
| Day15Warehouse.MovesOf | day-15/puzzle-1/src/main.rs:34-38 | all lines of the movement block read as one, an error on any unknown symbol |
| Day15Warehouse.MovesOfLine | day-15/puzzle-1/src/main.rs:35-37 | one movement per character of a line, in order |
| Day15Warehouse.FirstEmpty | day-15/puzzle-1/src/main.rs:32 | the first empty line, where the map block ends |
| Day15Warehouse.Process | day-15/puzzle-1/src/main.rs:31-48 | succeeds exactly when there is an empty line, every move symbol is known, the parsed map can be drawn (else `draw` panics) and no move meets a missing cell; the result is then the sum over the boxes after the moves, applied one after another from the parsed robot and objects |
| Day16Maze.NewDirection | day-16/puzzle-1/src/main.rs:116-129 | between adjacent cells, the direction of the step that leads from one to the other |
| Day16Maze.Distance | day-16/puzzle-1/src/main.rs:131-170 | the new facing is `new_direction`'s, and the cost is 1 plus 1000 per quarter turn from the old facing |
| Day16Maze.CostCountsTurns | day-16/puzzle-1/src/main.rs:131-170 | a step costs 1 plus 1000 for each quarter turn before it |
| Day16Maze.Points | day-16/puzzle-1/src/main.rs:53-58 | the floor cells are exactly the cells that are not '#' |
| Day16Maze.NeighboursOf | day-16/puzzle-1/src/main.rs:69-81 | at most four neighbours: exactly the adjacent floor cells |
| Day16Maze.Present | day-16/puzzle-1/src/main.rs:76-80 | the candidates that are floor cells, in order |
| Day16Maze.GraphSymmetric | day-16/puzzle-1/src/main.rs:67-82 | the graph joins exactly the adjacent floor cells, so its edges go both ways |
| Day16Maze.LastInRow | day-16/puzzle-1/src/main.rs:59-63 | the last column of a line holding a marker, or none when the line has none |
| Day16Maze.LastIn | day-16/puzzle-1/src/main.rs:53-65 | the start and end are the last cells holding their markers, or none when there is none |
| Day16Maze.ReadRow | day-16/puzzle-1/src/main.rs:53-65 | one more row adds its floor cells and may move the markers |
| Day16Maze.ScanRow | day-16/puzzle-1/src/main.rs:54-64 | the scan of one row collects its floor cells and its last markers |
| Day16Maze.ReadPoints | day-16/puzzle-1/src/main.rs:48-65 | the first loop collects the floor cells and the two markers |
| Day16Maze.BuildEdges | day-16/puzzle-1/src/main.rs:67-82 | the second loop gives each floor cell its neighbour list |
| Day16Maze.ParseMaze | day-16/puzzle-1/src/main.rs:47-85 | `Map::from` builds the graph of the floor cells and the start and end markers |
| Day16Maze.LeastEntry | day-16/puzzle-1/src/main.rs:97 | a non-empty queue has an entry of least score |
| Day16Maze.Pop | day-16/puzzle-1/src/main.rs:97 | `pop` takes out an entry of least score and nothing else |
| Day16Maze.ScoreStep | day-16/puzzle-1/src/main.rs:107-110 | extending a walk turns to the step's direction and adds its cost |
| Day16Maze.WalkExtend | day-16/puzzle-1/src/main.rs:107-110 | a walk followed by an edge out of its last cell is a walk |
| Day16Maze.Expand | day-16/puzzle-1/src/main.rs:107-110 | pushing the neighbours keeps every queued entry witnessed by a real walk with its score, and drops no entry |
| Day16Maze.PushNeighbour | day-16/puzzle-1/src/main.rs:107-110 | one push adds exactly the neighbour with the facing of the step, keeping every queued entry witnessed |
| Day16Maze.GraphClosed | day-16/puzzle-1/src/main.rs:67-82 | every neighbour in the graph is a floor cell with a neighbour list of its own |
| Day16Maze.WalkStep | day-16/puzzle-1/src/main.rs:107-110 | consecutive cells of a walk are a search state and one of the states its expansion pushes |
| Day16Maze.ClosedSeen | day-16/puzzle-1/src/main.rs:92-111 | a set of states holding the start state and closed under expansion holds every state of every walk from the start |
| Day16Maze.StuckUnreachable | day-16/puzzle-1/src/main.rs:107 | in a closed graph only the start can lack a neighbour list, and then no walk reaches a different end |
| Day16Maze.FrontierSkip | day-16/puzzle-1/src/main.rs:101-102 | popping an already expanded state keeps every step out of the expanded states expanded or queued |
| Day16Maze.FrontierExpand | day-16/puzzle-1/src/main.rs:103-110 | expanding a popped state queues every step out of it, so the frontier property still holds |
| Day16Maze.FrontierEmpty | day-16/puzzle-1/src/main.rs:93-95 | when the queue runs dry no walk leads from the start to the end |
| Day16Maze.PushWitnessed | day-16/puzzle-1/src/main.rs:107-110 | a pushed neighbour's score is the score of the popped state's walk extended to it |
| Day16Maze.SearchStart | day-16/puzzle-1/src/main.rs:88-90 | the first queue entry, the start facing East at score 0, is witnessed by the one-cell walk |
| Day16Maze.Visit | day-16/puzzle-1/src/main.rs:92-111 | one round of the loop: an answer is the score of a real walk to the end, a failure means the end is unreachable, otherwise more states are expanded or the queue shrinks |
| Day16Maze.Solve | day-16/puzzle-1/src/main.rs:87-114 | a reported score is the score of a real walk from the start to the end, a start on the end scores 0, and in a closed graph there is a score exactly when the end is reachable |
| Day16Maze.Process | day-16/puzzle-1/src/main.rs:33-37 | a reported score is that of a walk from 'S' to 'E' in the parsed maze, and there is one exactly when such a walk exists |
| Day17Cpu.Decode | day-17/puzzle-1/src/main.rs:115-127 | opcodes 0 to 7 are decoded, with the operand as literal or combo, and anything above is refused |
| Day17Cpu.ComboValue | day-17/puzzle-1/src/main.rs:183-194 | combo operands 0 to 3 are literals, 4 to 6 read A, B and C, and 7 is refused |
| Day17Cpu.Effect | day-17/puzzle-1/src/main.rs:129-181 | an instruction fails exactly on a combo operand of 7 or more, and never changes the program |
| Day17Cpu.EffectPointer | day-17/puzzle-1/src/main.rs:145-151 | every instruction but `Jnz` moves on by two, and `Jnz` jumps to its literal when A is not zero |
| Day17Cpu.EffectRegisters | day-17/puzzle-1/src/main.rs:131-173 | `Adv`, `Bdv` and `Cdv` divide A by the same power of two into A, B or C only; `Bxl` and `Bxc` only rewrite B; `Bst` stores combo % 8 in B |
| Day17Cpu.EffectOutput | day-17/puzzle-1/src/main.rs:156-159 | only `Out` writes output, exactly one value in 0..7, and no register |
| Day17Cpu.Step | day-17/puzzle-1/src/main.rs:82-95 | a pointer at or past the end halts, a missing operand is an error, and otherwise the decoded instruction runs |
| Day17Cpu.RunExtendsOutput | day-17/puzzle-1/src/main.rs:43-48 | a run only appends values in 0..7 to the output, keeps the program and ends halted |
| Day17Cpu.RunFuelMonotone | day-17/puzzle-1/src/main.rs:43-48 | extra fuel does not change a run that finished |
| Day17Cpu.DecimalString | day-17/puzzle-1/src/main.rs:98 | `to_string` writes at least one character |
| Day17Cpu.JoinOctal | day-17/puzzle-1/src/main.rs:97-100 | for outputs in 0..7 the text is one digit per value with a comma between neighbours |
| Day17Cpu.Cpu.constructor | day-17/puzzle-1/src/main.rs:66-80 | the registers as given, the pointer at 0 and no output |
| Day17Cpu.Cpu.Execute | day-17/puzzle-1/src/main.rs:129-181 | the in-place execution gives the instruction's effect, and a refused operand changes nothing |
| Day17Cpu.Cpu.Tick | day-17/puzzle-1/src/main.rs:82-95 | reports a halt exactly when the step halts, and then changes nothing; otherwise the machine takes the step |
| Day17Cpu.Cpu.ReadOutput | day-17/puzzle-1/src/main.rs:97-100 | no output gives the empty text; outputs in 0..7 give one digit per value with a comma between neighbours |
| Day17Cpu.Process | day-17/puzzle-1/src/main.rs:32-51 | the tick loop ends exactly when the run finishes within the fuel, and the answer is the joined output |
| Day18Memory.Free | day-18/puzzle-1/src/main.rs:105-117 | the filter keeps exactly the candidates in the grid that are not corrupted, in order |
| Day18Memory.Neighbours | day-18/puzzle-1/src/main.rs:97-120 | at most four neighbours: exactly the adjacent free cells of the grid |
| Day18Memory.PathExtend | day-18/puzzle-1/src/main.rs:64-71 | a path followed by a free neighbour of its last cell is a path |
| Day18Memory.Follow | day-18/puzzle-1/src/main.rs:85-92 | the chain of predecessors from a cell back to the corner passes through the corner and the cell's predecessor; none when a cell has no predecessor or the chain cycles |
| Day18Memory.ConstructPath | day-18/puzzle-1/src/main.rs:81-95 | the loop collects the predecessors met on the way from the end back to the corner |
| Day18Memory.FollowRanked | day-18/puzzle-1/src/main.rs:81-95 | along predecessors recorded at one less distance, the chain from a recorded cell reaches the corner |
| Day18Memory.Covered | day-18/puzzle-1/src/main.rs:54-73 | every cell a path reaches in at most d steps is recorded, when nothing queued is closer than d |
| Day18Memory.RecordOptimal | day-18/puzzle-1/src/main.rs:66-71 | a cell recorded at one more than the popped distance has no shorter path |
| Day18Memory.PopKeeps | day-18/puzzle-1/src/main.rs:59 | popping a cell of least distance other than the end keeps the search invariant |
| Day18Memory.RecordKeeps | day-18/puzzle-1/src/main.rs:66-71 | recording an unrecorded neighbour of the popped cell keeps the search invariant |
| Day18Memory.Relax | day-18/puzzle-1/src/main.rs:64-72 | the inner loop keeps the search invariant and never changes a recorded distance, so only unrecorded neighbours pass the test |
| Day18Memory.ReleaseKeeps | day-18/puzzle-1/src/main.rs:64-72 | once all its neighbours are recorded the popped cell is settled |
| Day18Memory.Pop | day-18/puzzle-1/src/main.rs:59 | `pop` takes out a cell of least distance and nothing else |
| Day18Memory.LeastEntry | day-18/puzzle-1/src/main.rs:59 | a non-empty queue has an entry of least distance |
| Day18Memory.ClosedContainsPath | day-18/puzzle-1/src/main.rs:54-73 | the cells a path passes through stay inside a set closed under neighbours |
| Day18Memory.StartHolds | day-18/puzzle-1/src/main.rs:51-52 | the search starts from the corner at distance 0 with the invariant holding |
| Day18Memory.EmptyBlocked | day-18/puzzle-1/src/main.rs:55-57 | when the queue runs empty no path reaches the end |
| Day18Memory.EndReached | day-18/puzzle-1/src/main.rs:59-62 | a popped end has a path of its distance, no shorter one, and a chain of predecessors back to the corner |
| Day18Memory.Search | day-18/puzzle-1/src/main.rs:46-79 | the loop gives the length of a shortest path to the end with a predecessor chain back, or nothing exactly when the end cannot be reached |
| Day18Memory.Expand | day-18/puzzle-1/src/main.rs:59-72 | one round keeps the search invariant and records a new cell or shortens the queue |
| Day18Memory.FirstComma | day-18/puzzle-1/src/main.rs:36 | `split_once(",")` splits at the first comma |
| Day18Memory.ParseShowByte | day-18/puzzle-2/src/main.rs:34-39 | a coordinate reads back from the text puzzle 2 answers with |
| Day18Memory.ParseBytes | day-18/puzzle-1/src/main.rs:35-40 | the coordinates of every line in order, or an error when some line fails |
| Day18Memory.ShortestPath | day-18/puzzle-1/src/main.rs:46-79 | the steps of a shortest path to the end, no path being shorter; an empty queue is an error exactly when the end cannot be reached |
| Day18Memory.ProcessSteps | day-18/puzzle-1/src/main.rs:34-44 | with the first `bytes_fallen` coordinates corrupted, the length of a shortest path; fewer lines, a bad line or a blocked end is an error |
| Day18Memory.LastByte | day-18/puzzle-2/src/main.rs:52-82 | nothing when the end is reached, otherwise the last corrupted byte, and no bytes at all is an error |
| Day18Memory.FirstBlocking | day-18/puzzle-2/src/main.rs:41-49 | the prefixes of 0, 1, 2, ... bytes in turn, all but the whole list as the loop over `0..len` does; the first that blocks the end names its last byte, and an empty answer means none of the tried prefixes blocks |
| Day18Memory.ProcessBlocking | day-18/puzzle-2/src/main.rs:33-50 | a bad line, or an end blocked with no bytes, is an error; otherwise the first blocking byte, or "" when no tried prefix blocks |
| Day19Towels.ColourFrom | day-19/puzzle-1/src/main.rs:101-110 | each of the five stripe letters gives its colour; any other character is an error |
| Day19Towels.ParseColours | day-19/puzzle-1/src/main.rs:50-54 | succeeds exactly when every character is a stripe letter, and then maps each one by position |
| Day19Towels.ParseAll | day-19/puzzle-1/src/main.rs:32-37 | succeeds exactly when every entry parses, giving each entry's colours in order |
| Day19Towels.ParseInput | day-19/puzzle-1/src/main.rs:30-37 | the towels come from the first line split at ", ", the patterns from the second block; fewer than two blocks is an error |
| Day19Towels.Matching | day-19/puzzle-1/src/main.rs:79-82 | the kept towels are a sub-list of the towels that the rest of the pattern starts with |
| Day19Towels.MatchingFrom | day-19/puzzle-1/src/main.rs:79-82 | a kept towel is one of the towels and starts the rest |
| Day19Towels.MatchingKeeps | day-19/puzzle-1/src/main.rs:79-82 | every towel that starts the rest is kept |
| Day19Towels.PrependPiece | day-19/puzzle-1/src/main.rs:84-85 | a towel in front of a decomposition of the rest decomposes the whole |
| Day19Towels.FirstPiece | day-19/puzzle-1/src/main.rs:84-85 | a decomposition of a non-empty pattern starts with a towel the pattern begins with and decomposes the rest |
| Day19Towels.CanSolve | day-19/puzzle-1/src/main.rs:72-92 | a true from `can_solve` comes with a decomposition of the rest into towels |
| Day19Towels.AnySolves | day-19/puzzle-1/src/main.rs:84-89 | when the loop returns true some matching non-empty towel leads to a solution |
| Day19Towels.AnySolvesFrom | day-19/puzzle-1/src/main.rs:84-89 | a matching towel that leads to a solution makes the loop return true |
| Day19Towels.CanSolveComplete | day-19/puzzle-1/src/main.rs:72-92 | every decomposition of the rest into towels is found |
| Day19Towels.CanSolveIff | day-19/puzzle-1/src/main.rs:72-92 | `can_solve` holds exactly when the rest is a concatenation of towels |
| Day19Towels.CountValid | day-19/puzzle-1/src/main.rs:39-42 | the count is at most the number of patterns, and equal to it exactly when every pattern decomposes |
| Day19Towels.CountValidDecomposables | day-19/puzzle-1/src/main.rs:39-42 | the count is the number of patterns that are a concatenation of towels |
| Day19Towels.Search | day-19/puzzle-1/src/main.rs:72-92 | `can_solve` for any towel list: a true comes with a decomposition of the rest into towels, and a false proves no towel is empty, since an empty towel matches every rest |
| Day19Towels.TryEach | day-19/puzzle-1/src/main.rs:84-91 | the ordered loop: a false met no empty towel, and a true names a non-empty matching towel after which the search succeeds |
| Day19Towels.SearchAgrees | day-19/puzzle-1/src/main.rs:72-92 | without empty towels the search for any towel list returns, with the answer of `can_solve` |
| Day19Towels.TryEachAgrees | day-19/puzzle-1/src/main.rs:84-89 | without empty towels the ordered loop returns the answer of the loop over non-empty towels |
| Day19Towels.IsValid | day-19/puzzle-1/src/main.rs:68-70 | `is_valid` holds exactly when the pattern is a concatenation of towels |
| Day19Towels.SearchMeaning | day-19/puzzle-1/src/main.rs:68-92 | a search that returns says true exactly for the patterns that are a concatenation of towels, and without empty towels it always returns |
| Day19Towels.EmptyTowelOrder | day-19/puzzle-1/src/main.rs:84-89 | with towels "r, , b" the pattern "r" succeeds on the first towel, while an empty towel listed first makes the search never return |
| Day19Towels.CountFound | day-19/puzzle-1/src/main.rs:39-42 | the count succeeds exactly when every pattern's search returns, and is then the number of patterns that decompose into towels |
| Day19Towels.Process | day-19/puzzle-1/src/main.rs:30-43 | succeeds exactly when the input parses and every pattern's search returns (always so without empty towels); the result is the number of patterns that decompose into towels |
| Day19Arrangements.AsChar | day-19/puzzle-2/src/main.rs:141-149 | a stripe letter that `Colour::from` reads back as the same colour |
| Day19Arrangements.CreateString | day-19/puzzle-2/src/main.rs:119-121 | the colours written out letter by letter, one per position |
| Day19Arrangements.ParseCreateString | day-19/puzzle-2/src/main.rs:119-121 | reading the string back gives the colours, so the cache key loses nothing |
| Day19Arrangements.CreateStringInjective | day-19/puzzle-2/src/main.rs:99-102 | two suffixes with the same cache key are equal, so a cache hit belongs to the same suffix |
| Day19Arrangements.SumWaysPositive | day-19/puzzle-2/src/main.rs:110-112 | the fold is positive exactly when some matching towel leaves a rest that can be arranged |
| Day19Arrangements.WaysPositiveIff | day-19/puzzle-2/src/main.rs:91-117 | a pattern has an arrangement exactly when it is a concatenation of towels |
| Day19Arrangements.WaysAgreeWithIsValid | day-19/puzzle-2/src/main.rs:87-89 | puzzle 2 counts a pattern at least once exactly when puzzle 1's `is_valid` accepts it |
| Day19Arrangements.CacheHit | day-19/puzzle-2/src/main.rs:100-102 | a cache hit returns the number of arrangements of that suffix |
| Day19Arrangements.CacheRecord | day-19/puzzle-2/src/main.rs:114 | storing the computed count keeps the cache valid |
| Day19Arrangements.SumWaysStep | day-19/puzzle-2/src/main.rs:110-112 | one more matching towel adds its arrangements to the running sum |
| Day19Arrangements.Patterns | day-19/puzzle-2/src/main.rs:91-117 | the number of arrangements of the suffix from `start`; the cache stays valid and only gains keys |
| Day19Arrangements.FoldMatching | day-19/puzzle-2/src/main.rs:105-112 | the fold sums the arrangements after each matching towel; the cache stays valid and only gains keys |
| Day19Arrangements.AddArrangements | day-19/puzzle-2/src/main.rs:110-112 | the closure adds the arrangements of what follows towel `t` |
| Day19Arrangements.TotalNumberOfPatterns | day-19/puzzle-2/src/main.rs:87-89 | the number of arrangements of the whole pattern |
| Day19Arrangements.TotalWaysZero | day-19/puzzle-2/src/main.rs:57-61 | the total is zero exactly when no pattern passes puzzle 1's `is_valid` |
| Day19Arrangements.Onsen.constructor | day-19/puzzle-2/src/main.rs:51-55 | the given patterns and towels with an empty cache |
| Day19Arrangements.Onsen.ComputeAll | day-19/puzzle-2/src/main.rs:57-61 | the sum over all patterns of their arrangements; patterns and towels unchanged, the cache only grows |
| Day19Arrangements.Process | day-19/puzzle-2/src/main.rs:31-42 | on parsed input with no empty towel, the total number of arrangements; with an empty towel an error when there is a pattern, and 0 when there is none |
| Day20Race.Inner | day-20/puzzle-1/src/main.rs:75-76 | dropping the first and the last item shifts every index by one, and fewer than two items leave nothing |
| Day20Race.InnerRows | day-20/puzzle-1/src/main.rs:75-76 | every line loses its border columns |
| Day20Race.RowObjects | day-20/puzzle-1/src/main.rs:76-83 | one row gives exactly its first `n` cells, each a wall for `#` and open field otherwise |
| Day20Race.Objects | day-20/puzzle-1/src/main.rs:74-90 | the map holds exactly the cells inside the border, each with its type |
| Day20Race.ReadRow | day-20/puzzle-1/src/main.rs:75 | reading one more row adds that row's cells |
| Day20Race.UnionUpdate | day-20/puzzle-1/src/main.rs:79-81 | inserting a cell of the current row updates that row's part of the map |
| Day20Race.ScanRow | day-20/puzzle-1/src/main.rs:76-89 | one row of the scan adds its cells and moves `start` and `end` to its last S and E |
| Day20Race.OpenOf | day-20/puzzle-1/src/main.rs:138-144 | the kept candidates are exactly the open ones, in order |
| Day20Race.Neighbours | day-20/puzzle-1/src/main.rs:129-148 | at most four cells: exactly the open cells one step away |
| Day20Race.ReachMono | day-20/puzzle-1/src/main.rs:99-127 | a cell reachable within `j` steps is reachable within any `k >= j` |
| Day20Race.ReachHasPath | day-20/puzzle-1/src/main.rs:99-127 | reaching within `k` steps gives a walk of at most `k` steps |
| Day20Race.PathReaches | day-20/puzzle-1/src/main.rs:99-127 | a walk of `k` steps reaches its last cell within `k` steps |
| Day20Race.ShortestIsLeastSteps | day-20/puzzle-1/src/main.rs:99-127 | the shortest distance is taken by a walk and no walk has fewer steps |
| Day20Race.ShortestUnique | day-20/puzzle-1/src/main.rs:99-127 | there is at most one shortest distance |
| Day20Race.ShortestExists | day-20/puzzle-1/src/main.rs:99-127 | a reachable cell has a shortest distance, no more than any bound it is reached within |
| Day20Race.Distance | day-20/puzzle-1/src/main.rs:99-127 | the shortest distance of a reachable cell |
| Day20Race.NeighboursGrow | day-20/puzzle-1/src/main.rs:95-97 | opening a wall only adds neighbours |
| Day20Race.ReachGrows | day-20/puzzle-1/src/main.rs:95-97 | opening a wall keeps everything reachable within the same steps |
| Day20Race.RemoveWallNeverLonger | day-20/puzzle-1/src/main.rs:44-47 | removing a wall never lengthens the shortest path, so `default_distance - shortest_path` cannot underflow |
| Day20Race.Frontier | day-20/puzzle-1/src/main.rs:105-120 | every cell within `k` steps is settled, or the next entry taken is at most `k` steps away |
| Day20Race.NoPathFound | day-20/puzzle-1/src/main.rs:106-107 | an empty queue means the end cannot be reached |
| Day20Race.FirstTakenIsShortest | day-20/puzzle-1/src/main.rs:109-113 | the first time a cell leaves the queue its distance is the shortest one |
| Day20Race.Fresh | day-20/puzzle-1/src/main.rs:115-119 | the pushed entries are unseen cells among the neighbours, one step further |
| Day20Race.FreshHas | day-20/puzzle-1/src/main.rs:115-119 | every unseen neighbour is pushed |
| Day20Race.FreshStep | day-20/puzzle-1/src/main.rs:115-119 | one more neighbour of the `for` loop |
| Day20Race.PushedCovers | day-20/puzzle-1/src/main.rs:115-119 | every unseen open neighbour of the taken cell is queued |
| Day20Race.SettledAfter | day-20/puzzle-1/src/main.rs:109-110 | after the pop every settled cell still has its shortest distance |
| Day20Race.SortedAfter | day-20/puzzle-1/src/main.rs:109-119 | after the pop and the pushes the queue is still ordered by distance |
| Day20Race.ClosedAfter | day-20/puzzle-1/src/main.rs:109-119 | after the pop and the pushes every settled cell's open neighbours are seen or queued |
| Day20Race.WitnessedAfter | day-20/puzzle-1/src/main.rs:109-119 | after the pop and the pushes every queued entry has a walk of its length |
| Day20Race.KeysAfter | day-20/puzzle-1/src/main.rs:102-110 | the seen cells are the settled ones plus the start, and the end is not settled |
| Day20Race.Advance | day-20/puzzle-1/src/main.rs:105-120 | one round of the loop keeps the search invariant |
| Day20Race.Map.From | day-20/puzzle-1/src/main.rs:70-93 | the map holds the cells inside the border; `start` and `end` are the last S and E, or (0, 0) |
| Day20Race.Map.Clone | day-20/puzzle-1/src/main.rs:62 | the clone has the same cells, start and end |
| Day20Race.Map.RemoveWall | day-20/puzzle-1/src/main.rs:95-97 | the cell becomes open field and nothing else changes |
| Day20Race.Map.GetNeighbours | day-20/puzzle-1/src/main.rs:129-148 | the open cells among the four around `f` |
| Day20Race.Map.ShortestPath | day-20/puzzle-1/src/main.rs:99-127 | the length of a shortest walk from start to end; an empty queue (the source's panic) only when the end cannot be reached |
| Day20Race.Push | day-20/puzzle-1/src/main.rs:115-119 | the `for` loop pushes an entry one step further to the front for each unseen neighbour |
| Day20Race.TryWall | day-20/puzzle-1/src/main.rs:44-49 | the removal of one wall is counted exactly when it saves at least 100 steps |
| Day20Race.Process | day-20/puzzle-1/src/main.rs:32-53 | on a map whose end is reachable, the number of walls whose removal saves at least 100 steps; an unreachable end is the source's panic |
| Day20Race.CountCheats | day-20/puzzle-1/src/main.rs:41-50 | the loop over the walls counts exactly the walls whose removal saves at least 100 steps |
| Day22Secrets.ModulusIsPow2 | day-22/puzzle-1/src/main.rs:52-54 | the pruning modulus 16777216 is 2^24 |
| Day22Secrets.MixPrune | day-22/puzzle-1/src/main.rs:52 | a mixed and pruned secret is below 2^24 |
| Day22Secrets.Round | day-22/puzzle-1/src/main.rs:52-54 | a round's result is below 2^24 |
| Day22Secrets.Secret | day-22/puzzle-1/src/main.rs:49-58 | zero rounds leave the seed unchanged; after at least one round the secret is below 2^24 |
| Day22Secrets.SecretSplits | day-22/puzzle-1/src/main.rs:51-55 | `m` rounds and then `n` more are `m + n` rounds, so `compute(n + 1)` is one round after `compute(n)` |
| Day22Secrets.RoundFromPrunedFitsU64 | day-22/puzzle-1/src/main.rs:52-54 | from a pruned secret the products of a round stay inside `u64` |
| Day22Secrets.Compute | day-22/puzzle-1/src/main.rs:49-58 | the counted loop gives the secret after `rounds` rounds, below 2^24 once a round has run |
| Day22Secrets.SumOfSecrets | day-22/puzzle-1/src/main.rs:33-35 | the sum is at most (2^24 - 1) per buyer and at least each buyer's 2000th secret |
| Day22Secrets.SumOfSecretsAppend | day-22/puzzle-1/src/main.rs:33-35 | the sum over two groups of buyers is the sum of the two sums |
| Day22Secrets.BuyerFrom | day-22/puzzle-1/src/main.rs:43-47 | a seed is read exactly when the line is digits whose value times 64 fits in `u64` |
| Day22Secrets.Buyers | day-22/puzzle-1/src/main.rs:31 | every line read in order, or an error exactly when some line fails |
| Day22Secrets.Process | day-22/puzzle-1/src/main.rs:30-36 | succeeds exactly when every line is a seed, and the sum is bounded by 2^24 - 1 per buyer and by each buyer's 2000th secret |
| Day23Lan.ParseLink | day-23/puzzle-1/src/main.rs:47-49 | a link from the first two pieces around `-`; a line with no `-` is an error |
| Day23Lan.ParseLinkJoin | day-23/puzzle-1/src/main.rs:47-49 | `a-b` with no `-` in `a` is read back as the link from `a` to `b` |
| Day23Lan.ParseLinks | day-23/puzzle-1/src/main.rs:46-52 | every line read as a link, or an error exactly when some line has no `-` |
| Day23Lan.AddedKeys | day-23/puzzle-1/src/main.rs:57-63 | after `add_edge` the computers with lists are the old ones plus both ends |
| Day23Lan.AddedLinked | day-23/puzzle-1/src/main.rs:65-66 | after `add_edge` a link is an old one or the new one in either direction |
| Day23Lan.BuildKeys | day-23/puzzle-1/src/main.rs:43-55 | the computers of the graph are exactly those named in a link |
| Day23Lan.BuildLinked | day-23/puzzle-1/src/main.rs:43-55 | two computers are linked exactly when some line links them, in either order |
| Day23Lan.BuildSymmetric | day-23/puzzle-1/src/main.rs:43-67 | the built graph is symmetric and every neighbour has a list, so the `unwrap` at line 79 cannot fail |
| Day23Lan.Sort3 | day-23/puzzle-1/src/main.rs:80-81 | `clique.sort()` on three names gives them in order, as a permutation |
| Day23Lan.SortedUnique | day-23/puzzle-1/src/main.rs:81 | two sorted triples of the same names are equal |
| Day23Lan.SortIgnoresOrder | day-23/puzzle-1/src/main.rs:80-82 | sorting gives the same triple whatever order the names are found in, so the set keeps each triangle once |
| Day23Lan.SortSorted | day-23/puzzle-1/src/main.rs:81 | a sorted triple is its own sorted order |
| Day23Lan.CliquesAreTriangles | day-23/puzzle-1/src/main.rs:69-88 | in a symmetric graph the result holds exactly the sorted triples whose names are pairwise linked |
| Day23Lan.OverStep | day-23/puzzle-1/src/main.rs:74 | visiting one more computer adds its triangles |
| Day23Lan.AroundFirst | day-23/puzzle-1/src/main.rs:75 | one more first neighbour of the product adds its triangles |
| Day23Lan.AroundSecond | day-23/puzzle-1/src/main.rs:75-83 | one more second neighbour adds its triangle when the two neighbours are linked |
| Day23Lan.Graph.From | day-23/puzzle-1/src/main.rs:43-55 | the loop adds every link in order |
| Day23Lan.Graph.AddEdge | day-23/puzzle-1/src/main.rs:57-67 | both ends get a list if missing, and each end's list gains the other |
| Day23Lan.Graph.CliquesAround | day-23/puzzle-1/src/main.rs:75-84 | the product of the neighbours of `n`, with the sorted triangle of every linked pair inserted |
| Day23Lan.Graph.FindCliques | day-23/puzzle-1/src/main.rs:69-88 | visiting the computers in any order gives every triangle |
| Day23Lan.Graph.NumberOfFiltered3Cliques | day-23/puzzle-1/src/main.rs:90-102 | the number of triangles with a name starting with `t` |
| Day23Lan.CountWithT | day-23/puzzle-1/src/main.rs:93-101 | the fold adds one for each triangle with a `t` name, in any order |
| Day23Lan.Process | day-23/puzzle-1/src/main.rs:32-36 | an error exactly when some line has no `-`; otherwise the number of triangles of the built graph with a `t` name |
| Day24Gates.GateFrom | day-24/puzzle-1/src/main.rs:137-144 | exactly AND, OR and XOR are accepted, and the gate keeps its inputs and its operation |
| Day24Gates.GateFromName | day-24/puzzle-1/src/main.rs:137-144 | every gate is read back from its inputs and the name of its operation |
| Day24Gates.ParseValue | day-24/puzzle-1/src/main.rs:67-71 | the name before `: ` and the `u8` after it; anything else is an error |
| Day24Gates.ParseValueShow | day-24/puzzle-1/src/main.rs:67-71 | a value line written out is read back as the same entry |
| Day24Gates.ParseValues | day-24/puzzle-1/src/main.rs:66-72 | every value line read, or an error exactly when some line fails |
| Day24Gates.ParseRule | day-24/puzzle-1/src/main.rs:77-84 | the captured line gives the output wire and its gate; an unknown operation is an error |
| Day24Gates.ParseRules | day-24/puzzle-1/src/main.rs:76-85 | every rule line read, or an error exactly when some line fails |
| Day24Gates.AssignLast | day-24/puzzle-1/src/main.rs:65-84 | inserting entries in order leaves each name with the value of its last entry |
| Day24Gates.AssignKeys | day-24/puzzle-1/src/main.rs:65-84 | a name is in the map exactly when some entry has it |
| Day24Gates.Value | day-24/puzzle-1/src/main.rs:98-126 | a stored wire gives its stored value; a wire with neither a value nor a rule is an error; any other computed wire has a rule |
| Day24Gates.ValueMonotone | day-24/puzzle-1/src/main.rs:98-126 | a wire computed with some fuel gets the same value with more |
| Day24Gates.YieldsUnique | day-24/puzzle-1/src/main.rs:98-126 | a wire evaluates to at most one value |
| Day24Gates.ValueBinary | day-24/puzzle-1/src/main.rs:105-122 | with 0 or 1 on every initial wire, every computed value is 0 or 1 |
| Day24Gates.StoreBack | day-24/puzzle-1/src/main.rs:93-94 | storing a wire's own value changes no other wire's value |
| Day24Gates.System.constructor | day-24/puzzle-1/src/main.rs:87 | the system holds the given rules and values |
| Day24Gates.System.ComputeOutputs | day-24/puzzle-1/src/main.rs:90-96 | every given wire gets the value it evaluates to from the values before the call; no other value changes and the rules stay |
| Day24Gates.From | day-24/puzzle-1/src/main.rs:62-88 | succeeds exactly when every line parses, with values and rules inserted in order |
| Day24Gates.ReadValues | day-24/puzzle-1/src/main.rs:66-72 | the `for_each` over value lines inserts every parsed value, or fails exactly when some line does |
| Day24Gates.ReadRules | day-24/puzzle-1/src/main.rs:76-85 | the `for_each` over rule lines inserts every parsed rule, or fails exactly when some line does |
| Day24Gates.InsertDescending | day-24/puzzle-1/src/main.rs:44 | one name put into its place keeps the list descending with the same names |
| Day24Gates.SortDescending | day-24/puzzle-1/src/main.rs:44 | `sort_by_key(Reverse)` gives the same names in descending order |
| Day24Gates.DescendingUnique | day-24/puzzle-1/src/main.rs:44 | a set of names has one descending order, so the map's iteration order does not change the answer |
| Day24Gates.ListOf | day-24/puzzle-1/src/main.rs:36-40 | the names of a set listed once each |
| Day24Gates.ZOrder | day-24/puzzle-1/src/main.rs:36-44 | the output wires, highest name first |
| Day24Gates.DigitsAgree | day-24/puzzle-1/src/main.rs:46-49 | two maps that agree on the wires give the same text |
| Day24Gates.FromBinary | day-24/puzzle-1/src/main.rs:50 | `from_str_radix(s, 2)` succeeds exactly on a non-empty text of 0s and 1s below 2^64 and gives its value |
| Day24Gates.ParseBinaryFront | day-24/puzzle-1/src/main.rs:50 | the first digit weighs 2 to the number of digits after it |
| Day24Gates.DigitsAreBits | day-24/puzzle-1/src/main.rs:46-50 | with 0 or 1 on every wire the joined text has one binary digit per wire and reads as the wires' number |
| Day24Gates.AnswerIsBits | day-24/puzzle-1/src/main.rs:44-50 | the answer is the output wires as a binary number with the highest name as the top bit, and an error past 64 bits |
| Day24Gates.Outcome | day-24/puzzle-1/src/main.rs:98-126 | the value a resolving wire evaluates to |
| Day24Gates.Outcomes | day-24/puzzle-1/src/main.rs:42-47 | the values of exactly the output wires |
| Day24Gates.ListZGates | day-24/puzzle-1/src/main.rs:36-40 | the output wires listed once each, in an order left open |
| Day24Gates.Process | day-24/puzzle-1/src/main.rs:33-53 | an error when a line fails; otherwise every output wire evaluates, and the answer is their values in descending name order read as binary |
| Text.SplitBlocks | day-25/puzzle-1/src/main.rs:33 | `split` at empty lines gives at least one run, and no run holds an empty line |
| Text.JoinSplit | day-25/puzzle-1/src/main.rs:33 | joining the runs with empty lines gives the input back, so splitting loses no line |
| Day25Locks.ExtractComponents | day-25/puzzle-1/src/main.rs:83-103 | each of the five counts grows by one where the line has `#`; a line shorter than five characters is an error |
| Day25Locks.ColumnCount | day-25/puzzle-1/src/main.rs:83-103 | a column has at most one `#` per line |
| Day25Locks.PinsOf | day-25/puzzle-1/src/main.rs:114-120 | the fold from five zeros gives each column's count of `#`, and fails exactly when some line is too short |
| Day25Locks.LockFrom | day-25/puzzle-1/src/main.rs:111-124 | a lock is seven lines starting `#####`, its pins the column counts of the next five lines, each at most 5 |
| Day25Locks.KeyFrom | day-25/puzzle-1/src/main.rs:133-146 | a key is seven lines starting `.....`, its pins the column counts of the next five lines, each at most 5 |
| Day25Locks.Classify | day-25/puzzle-1/src/main.rs:33-45 | every block becomes a lock or a key with five pins, in input order; an empty or malformed block is an error |
| Day25Locks.ClassifyFails | day-25/puzzle-1/src/main.rs:33-45 | a block that cannot be read makes the whole input fail |
| Day25Locks.CountFitting | day-25/puzzle-1/src/main.rs:61-81 | a key shape fits at most all the locks |
| Day25Locks.AddCombinations | day-25/puzzle-1/src/main.rs:64-78 | the nested loops add one for exactly the combinations that fit the lock, and keep every other count |
| Day25Locks.CountOccurrences | day-25/puzzle-1/src/main.rs:61-81 | every key shape is counted once for each lock it fits |
| Day25Locks.SumMatching | day-25/puzzle-1/src/main.rs:50-58 | the sum over the keys of the number of locks each fits |
| Day25Locks.Process | day-25/puzzle-1/src/main.rs:32-59 | an error exactly when some block cannot be read; otherwise the number of lock and key pairs that fit |
| Text.SplitOn | day-23/puzzle-1/src/main.rs:47 | `split` gives at least one piece |
| Text.SplitPrefix | day-23/puzzle-1/src/main.rs:47 | text without the separator's first character is glued to the first piece of what follows |
| Text.SplitJoin | day-19/puzzle-1/src/main.rs:32-33 | splitting undoes joining when no piece holds the separator's first character |
| Text.JoinSplitOn | day-14/puzzle-1/src/main.rs:90-101 | joining the pieces of a split with the separator gives the text back |
| Text.NoSeparatorOnePiece | day-23/puzzle-1/src/main.rs:47-49 | a line without the separator's first character is a single piece |
| Text.BelowTotal | day-23/puzzle-1/src/main.rs:81 | any two names are ordered one way or the other |
| Text.BelowAntisymmetric | day-23/puzzle-1/src/main.rs:81 | names ordered both ways are equal |
| Text.BelowTransitive | day-24/puzzle-1/src/main.rs:44 | the order of names is transitive |
| Bits.Pow2 | day-17/puzzle-1/src/main.rs:133 | a power of two is at least 1, so the division never divides by zero |
| Bits.ShiftRightDivides | day-17/puzzle-1/src/main.rs:132-135 | the shift is division by 2^k rounded down |
| Bits.XorBelow | day-22/puzzle-1/src/main.rs:52-54 | exclusive or never sets a bit above the wider operand |
| Bits.XorCommutes | day-17/puzzle-1/src/main.rs:129-181 | exclusive or commutes |
| Bits.XorSelf | day-17/puzzle-1/src/main.rs:129-181 | a value exclusive-ored with itself is zero |
| Sets.SubsetCard | day-12/puzzle-1/src/main.rs:85-107 | a subset is no larger than its superset |
| Sets.ProperSubsetCard | day-12/puzzle-1/src/main.rs:85-107 | a proper subset is smaller, so the flood fill ends |
| Sets.CountIf | day-02/puzzle-1/src/main.rs:40-44 | the number of positions whose element satisfies the test; all positions exactly when every element does, none exactly when no element does |
| Sets.WhereLast | day-02/puzzle-1/src/main.rs:40-44 | the positions satisfying the test are those before the last one, plus the last when it does |
| Sets.MinExists | day-11/puzzle-1/src/main.rs:31-72 | a non-empty set of integers has a least element |


## Left out

- `main` and `read_file` in every program: argument handling, reading the input file and printing the answer are I/O; each model starts from the input lines (or from the parsed values named below) and returns the answer.
- Console rendering: `print_map` (day-08/puzzle-1/src/main.rs:43-74), `draw` (day-18/puzzle-1/src/main.rs:122-135) and the debug `println!` calls are output only. `Map::draw` of day 15 (day-15/puzzle-1/src/main.rs:176-194) is modelled by `Day15Warehouse.Map.Draw` for its lookups only, because its `unwrap` panics on an empty map and on any cell missing from its transposed bounds; the characters it prints are left out.
- day-13/puzzle-2 is not part of this model: its `min_costs` decides by `f64` division and a `floor` test, which is floating-point arithmetic.
- day-03/puzzle-1 is not part of this model: all its work is the `regex` crate's `captures_iter` followed by a sum.
- day-14/puzzle-2 is not part of this model: its `process` is a console animation that returns 0, and its `move_in_grid` is the one of puzzle 1, modelled in `Day14Robots`.
- Regular-expression parsing is taken as done. `Day03Toggles` starts from the matched tokens (`Capture`). `Day17Cpu.Process` starts from the parsed registers and program (`Cpu::from`). `Day24Gates.Process` starts from the value lines and the captured rule lines (`RuleLine`). `Robot::from` of day 14 is modelled as a strict reader of `p=X,Y v=VX,VY`, which accepts exactly the lines that regular expression matches in the form the program writes them.
- Day06Guard.FromLines and Day08Antennas.FromLines read the map characters; the splitting of the file into lines is taken as done, as in every other program.
- Day06Patrol.Process, Day06Loops.HasLoop and Day06Loops.Process: the loops of the source need not end (a map on which the guard loops makes `process` of puzzle 1 run forever); the model bounds them by a `fuel` count and returns an error when it runs out, and the lemmas say what holds whenever the fuel suffices.
- Day17Cpu.Run and Day17Cpu.Process: a program may jump back forever; the run is bounded by `fuel`.
- Day20Race.ShortestPath, Day20Race.TryWall, Day20Race.CountCheats and Day20Race.Process: the breadth-first search is bounded by `fuel`; `OutOfFuel` is an error the source does not have.
- Day24Gates.Value, Day24Gates.System.ComputeOutputs and Day24Gates.Process: `compute_value` recurses forever on cyclic rules; the model bounds the recursion by `fuel`.
- Integer widths: `usize`, `u64` and `i64` arithmetic is unbounded here, so overflow panics are not modelled (for example `number * 2024` at day-11/puzzle-1/src/main.rs:80). The exceptions are day 22, where the `u64` limit of the parse and the overflow of the first `* 64` are modelled as errors, and day 24, where the 64-bit limit of `from_str_radix` is modelled.
- Decimal.ParseI64 reads any signed decimal number; the `i64` range bound of Rust's parse is not modelled.
- Decimal.ParseNumber rejects a leading `+`, which Rust's unsigned `parse` accepts (day-01/puzzle-2, day-07, day-11, day-22, day-24); lines with a `+` sign become errors in the model.
- Day05PrintQueue.Process: the `as usize` cast of the sum is not modelled.
- `HashMap`/`HashSet` iteration order is not modelled: where the source takes whatever element the hash table yields (the next start of the flood fill in day 12, the next entry of the counter in day 11, the next cell in day 15), the model chooses with `:|` or takes the least key, and every property proved holds for any order.
- The `priority_queue` crate (day-16/puzzle-1, day-18/puzzle-1, day-18/puzzle-2) is modelled as a map from states to priorities with a pop of a least entry; which of several least entries the crate pops is left open, and `push_decrease` keeps the smaller priority.
- Panics are modelled as `Err` values: `unwrap` on a missing cell or a failed parse, the panic of day 20 when no path exists (`NoPath`), and the `unreachable!` branches.
- Day16Maze.Solve and Day16Maze.Process: do not promise that the answer is the least score over all walks. The queue's `push` (day-16/puzzle-1/src/main.rs:109) replaces a queued priority even by a larger one, so when several least entries tie, the order in which the crate pops them decides whether a larger score overwrites a smaller one before that one is popped; under some tie orders the first end popped is not the least. The model leaves the tie order open, so the least-score property does not hold of it; what is proved is that the answer is the score of a real walk and that there is an answer exactly when the end is reachable.
- Day25Locks.AddCombinations: the five nested loops of `count_occurrences` over the columns are written as a recursion on the column, one level per loop.
- The golden values of the programs' tests (143, 41, 6, 55312, 37327623, ...) are not proved: unfolding the model on whole example inputs is beyond the verifier's budget. Small examples are proved instead where they show a property (for instance `Day06Patrol.LeftExitMissed` and `Day11Stones.DuplicateStoneLost`).
- The expected output string "4,6,3,5,6,3,5,2,1,0" of day 17 is not proved; `Day17Cpu.JoinOctal` states the output format instead.
- Day15Warehouse: the map and the moves are split at the first empty line (`FirstEmpty`), which is where the source splits them.
- Day22Secrets.SumOfSecrets and Day22Secrets.Process: state bounds and that every buyer's secret is part of the sum, not a closed form of the 2000 rounds.
- Day11Stones.Process models the start counter as written (each distinct number once); the corrected tally is `Day11Stones.ProcessTallied`.

## Findings

| source | as written | input that shows it | evidently intended | confidence | as-written member | corrected member |
|---|---|---|---|---|---|---|
| day-06/puzzle-1/src/main.rs:39-50 | the exit test reads the walk's variant: a guard in column 0 facing left makes a zero-length walk, which comes back as a `VerticalRange` and is tested against the y bounds, so the guard turns and walks on | obstacle at (2,2), guard at (0,1) facing left: the model of `process` counts 2 cells, the guard only ever stands on 1 | the guard leaves as soon as nothing blocks the direction it faces | not executed | Day06Patrol.LeftExitMissed | Day06Patrol.LeavesIffUnobstructed |
| day-06/puzzle-2/src/main.rs:139-158 | `has_loop` records walks, which do not carry the direction, so two immediate turns in a corner repeat the same zero-length walk and count as a loop | obstacles (1,0), (2,1), (4,4), guard at (1,1) facing up: `has_loop` is true, yet the guard then walks down and leaves the map | a loop is a repeated guard state (position and direction) | not executed | Day06Loops.CornerFalseLoop | Day06Loops.StateLoopIsForever |
| day-11/puzzle-1/src/main.rs:39 | the start counter is filled with `insert(n, 1)`, so equal stones collapse into one | stones "7 7": the counter stands for 1 stone instead of 2 | each stone counts once, duplicates add up | not executed | Day11Stones.DuplicateStoneLost | Day11Stones.ProcessTallied |

=== FILE: bits.dfy ===
/** Unbounded non-negative integers as bit strings: powers of two and bitwise
    exclusive or, used by the 3-bit computer (day 17) and the secret generator
    (day 22). */
module Bits {

  function Pow2(k: nat): (r: nat)
    ensures r >= 1
  {
    if k == 0 then 1 else 2 * Pow2(k - 1)
  }

  /** A right shift by k: halving k times. */
  function ShiftRight(a: nat, k: nat): nat
  {
    if k == 0 then a else ShiftRight(a / 2, k - 1)
  }

  /** The shift is division by 2 to the k, rounded down. */
  lemma {:induction false} ShiftRightDivides(a: nat, k: nat)
    ensures Pow2(k) * ShiftRight(a, k) <= a < Pow2(k) * (ShiftRight(a, k) + 1)
  {
    if k > 0 {
      var h := a / 2;
      var s := ShiftRight(h, k - 1);
      var p := Pow2(k - 1);
      ShiftRightDivides(h, k - 1);
      assert Pow2(k) * s == 2 * (p * s);
      assert Pow2(k) * (s + 1) == 2 * (p * s) + 2 * p;
      assert p * (s + 1) == p * s + p;
    }
  }

  /** Bitwise exclusive or, least significant bit first. */
  function Xor(a: nat, b: nat): nat
    decreases a + b
  {
    if a == 0 then b
    else if b == 0 then a
    else 2 * Xor(a / 2, b / 2) + (if a % 2 == b % 2 then 0 else 1)
  }

  /** Exclusive or never sets a bit above the widest operand. */
  lemma {:induction false} XorBelow(a: nat, b: nat, k: nat)
    requires a < Pow2(k) && b < Pow2(k)
    ensures Xor(a, b) < Pow2(k)
    decreases k
  {
    if a != 0 && b != 0 {
      XorBelow(a / 2, b / 2, k - 1);
    }
  }

  lemma {:induction false} XorCommutes(a: nat, b: nat)
    ensures Xor(a, b) == Xor(b, a)
    decreases a + b
  {
    if a != 0 && b != 0 {
      XorCommutes(a / 2, b / 2);
    }
  }

  lemma {:induction false} XorSelf(a: nat)
    ensures Xor(a, a) == 0
    decreases a
  {
    if a != 0 {
      XorSelf(a / 2);
    }
  }
}

=== FILE: day01_distance.dfy ===
/** Day 1, puzzle 1: the total distance between two location lists. Each input
    line holds one number for the left list and one for the right; both lists
    are sorted and the absolute differences of the paired entries are summed. */
module Day01Distance {
  import opened Wrappers
  import opened Text
  import opened Decimal
  import opened Sorting

  datatype Side = Left | Right

  function Pick(line: (int, int), side: Side): int
  {
    if side == Left then line.0 else line.1
  }

  /** The numbers a list of parsed lines contributes to one column. */
  function Column(lines: seq<(int, int)>, side: Side): (r: seq<int>)
    ensures |r| == |lines|
    ensures forall i :: 0 <= i < |lines| ==> r[i] == Pick(lines[i], side)
  {
    seq(|lines|, i requires 0 <= i < |lines| => Pick(lines[i], side))
  }

  function AbsDiff(a: int, b: int): (r: nat)
    ensures r == a - b || r == b - a
    ensures r == 0 <==> a == b
  {
    if a < b then b - a else a - b
  }

  /** The `zip` fold: the shorter list decides how many pairs there are. */
  function PairedDistance(left: seq<int>, right: seq<int>): nat
  {
    if left == [] || right == [] then 0
    else AbsDiff(left[0], right[0]) + PairedDistance(left[1..], right[1..])
  }

  /** The answer of the puzzle for already parsed lines. */
  function TotalDistance(lines: seq<(int, int)>): nat
  {
    PairedDistance(Sort(Column(lines, Left)), Sort(Column(lines, Right)))
  }

  /** The push loop: one number per line onto each list. */
  method BuildColumns(lines: seq<(int, int)>) returns (leftList: seq<int>, rightList: seq<int>)
    ensures leftList == Column(lines, Left) && rightList == Column(lines, Right)
  {
    leftList, rightList := [], [];
    for i := 0 to |lines|
      invariant leftList == Column(lines[..i], Left)
      invariant rightList == Column(lines[..i], Right)
    {
      assert lines[..i + 1][..i] == lines[..i];
      leftList := leftList + [lines[i].0];
      rightList := rightList + [lines[i].1];
    }
    assert lines[..|lines|] == lines;
  }

  /** The `zip` fold as a loop over the paired entries. */
  method FoldPairs(leftList: seq<int>, rightList: seq<int>) returns (result: nat)
    ensures result == PairedDistance(leftList, rightList)
  {
    result := 0;
    var k := 0;
    while k < |leftList| && k < |rightList|
      invariant 0 <= k <= |leftList| && k <= |rightList|
      invariant result + PairedDistance(leftList[k..], rightList[k..]) == PairedDistance(leftList, rightList)
    {
      assert leftList[k..][1..] == leftList[k + 1..];
      assert rightList[k..][1..] == rightList[k + 1..];
      result := result + AbsDiff(leftList[k], rightList[k]);
      k := k + 1;
    }
  }

  /** The `process` function: pushes each line's numbers onto the two lists,
      sorts both and folds the paired differences. */
  method Process(lines: seq<(int, int)>) returns (result: nat)
    ensures result == TotalDistance(lines)
  {
    var leftList, rightList := BuildColumns(lines);
    leftList := Sort(leftList);
    rightList := Sort(rightList);
    result := FoldPairs(leftList, rightList);
  }

  /** Both lists have one entry per line. */
  lemma ColumnsHaveEqualLength(lines: seq<(int, int)>)
    ensures |Sort(Column(lines, Left))| == |Sort(Column(lines, Right))| == |lines|
  {
    assert |Sort(Column(lines, Left))| == |multiset(Column(lines, Left))|;
    assert |Sort(Column(lines, Right))| == |multiset(Column(lines, Right))|;
  }

  lemma ColumnDistributes(a: seq<(int, int)>, b: seq<(int, int)>, side: Side)
    ensures Column(a + b, side) == Column(a, side) + Column(b, side)
  {
  }

  /** Taking out the line at j takes its number out of the column. */
  lemma ColumnRemove(b: seq<(int, int)>, j: nat, side: Side)
    requires j < |b|
    ensures multiset(Column(b, side)) == multiset(Column(b[..j] + b[j + 1..], side)) + multiset{Column(b, side)[j]}
  {
    assert b == b[..j] + [b[j]] + b[j + 1..];
    ColumnDistributes(b[..j] + [b[j]], b[j + 1..], side);
    ColumnDistributes(b[..j], [b[j]], side);
    ColumnDistributes(b[..j], b[j + 1..], side);
  }

  /** Two permutations of one another stay permutations after removing one
      common element from each. */
  lemma RemoveCommon<T>(a: seq<T>, b: seq<T>, j: nat)
    requires multiset(a) == multiset(b) && a != [] && j < |b| && b[j] == a[0]
    ensures multiset(a[1..]) == multiset(b[..j] + b[j + 1..])
  {
    assert a == [a[0]] + a[1..];
    assert b == b[..j] + [b[j]] + b[j + 1..];
    assert multiset(b) == multiset(b[..j] + b[j + 1..]) + multiset{b[j]};
    assert multiset(a) == multiset(a[1..]) + multiset{a[0]};
    forall e
      ensures multiset(a[1..])[e] == multiset(b[..j] + b[j + 1..])[e]
    {
      assert multiset(a)[e] == multiset(a[1..])[e] + multiset{a[0]}[e];
      assert multiset(b)[e] == multiset(b[..j] + b[j + 1..])[e] + multiset{a[0]}[e];
    }
  }

  /** Putting the common line back into two permuted columns. */
  lemma ColumnPermutesStep(a: seq<(int, int)>, b: seq<(int, int)>, j: nat, side: Side)
    requires a != [] && j < |b| && b[j] == a[0]
    requires multiset(Column(a[1..], side)) == multiset(Column(b[..j] + b[j + 1..], side))
    ensures multiset(Column(a, side)) == multiset(Column(b, side))
  {
    ColumnRemove(a, 0, side);
    ColumnRemove(b, j, side);
    assert a[..0] + a[1..] == a[1..];
  }

  /** Reordering the lines reorders each column in the same way. */
  lemma {:induction false} ColumnPermutes(a: seq<(int, int)>, b: seq<(int, int)>, side: Side)
    requires multiset(a) == multiset(b)
    ensures multiset(Column(a, side)) == multiset(Column(b, side))
    decreases |a|
  {
    if a == [] {
      assert |b| == |multiset(b)| == 0;
    } else {
      assert a[0] in b by {
        assert a[0] in multiset(b) by { assert a[0] in a; }
      }
      var j :| 0 <= j < |b| && b[j] == a[0];
      RemoveCommon(a, b, j);
      ColumnPermutes(a[1..], b[..j] + b[j + 1..], side);
      ColumnPermutesStep(a, b, j, side);
    }
  }

  /** The result does not depend on the order of the input lines, nor on how
      each column is ordered on its own. */
  lemma ReorderedLinesSameDistance(a: seq<(int, int)>, b: seq<(int, int)>)
    requires multiset(a) == multiset(b)
    ensures TotalDistance(a) == TotalDistance(b)
  {
    ColumnPermutes(a, b, Left);
    ColumnPermutes(a, b, Right);
    SortIgnoresOrder(Column(a, Left), Column(b, Left));
    SortIgnoresOrder(Column(a, Right), Column(b, Right));
  }

  lemma {:induction false} PairedDistanceSymmetric(left: seq<int>, right: seq<int>)
    ensures PairedDistance(left, right) == PairedDistance(right, left)
    decreases |left|
  {
    if left != [] && right != [] {
      PairedDistanceSymmetric(left[1..], right[1..]);
    }
  }

  function Swapped(lines: seq<(int, int)>): (r: seq<(int, int)>)
    ensures |r| == |lines|
    ensures forall i :: 0 <= i < |lines| ==> r[i] == (lines[i].1, lines[i].0)
  {
    seq(|lines|, i requires 0 <= i < |lines| => (lines[i].1, lines[i].0))
  }

  /** Exchanging the two columns leaves the distance unchanged. */
  lemma SwappedColumnsSameDistance(lines: seq<(int, int)>)
    ensures TotalDistance(Swapped(lines)) == TotalDistance(lines)
  {
    assert Column(Swapped(lines), Left) == Column(lines, Right);
    assert Column(Swapped(lines), Right) == Column(lines, Left);
    PairedDistanceSymmetric(Sort(Column(lines, Left)), Sort(Column(lines, Right)));
  }

  lemma {:induction false} PairedDistanceSelf(s: seq<int>)
    ensures PairedDistance(s, s) == 0
  {
    if s != [] {
      PairedDistanceSelf(s[1..]);
    }
  }

  /** The distance is zero exactly when the columns hold the same numbers. */
  lemma {:induction false} ZeroIffSameNumbers(lines: seq<(int, int)>)
    ensures TotalDistance(lines) == 0 <==> multiset(Column(lines, Left)) == multiset(Column(lines, Right))
  {
    var l, r := Sort(Column(lines, Left)), Sort(Column(lines, Right));
    if multiset(Column(lines, Left)) == multiset(Column(lines, Right)) {
      SortIgnoresOrder(Column(lines, Left), Column(lines, Right));
      PairedDistanceSelf(l);
    } else {
      ColumnsHaveEqualLength(lines);
      if PairedDistance(l, r) == 0 {
        ZeroDistanceEqual(l, r);
        assert false;
      }
    }
  }

  lemma {:induction false} ZeroDistanceEqual(l: seq<int>, r: seq<int>)
    requires |l| == |r| && PairedDistance(l, r) == 0
    ensures l == r
  {
    if l != [] {
      ZeroDistanceEqual(l[1..], r[1..]);
      assert l == [l[0]] + l[1..];
      assert r == [r[0]] + r[1..];
    }
  }

  /** One input line: the pieces around three spaces, the first two read by
      `parse::<i64>`; a missing piece or a bad number panics. */
  function ParseLine(line: string): (r: Result<(int, int)>)
    ensures r.Ok? <==> (|SplitOn(line, "   ")| >= 2
      && ParseI64(SplitOn(line, "   ")[0]).Ok? && ParseI64(SplitOn(line, "   ")[1]).Ok?)
  {
    var pieces := SplitOn(line, "   ");
    if |pieces| < 2 then Err("no right number")
    else
      var left :- ParseI64(pieces[0]);
      var right :- ParseI64(pieces[1]);
      Ok((left, right))
  }

  /** Two numbers written three spaces apart are read back. */
  lemma ParseLineShow(left: int, right: int)
    ensures ParseLine(ShowInt(left) + "   " + ShowInt(right)) == Ok((left, right))
  {
    var a, b := ShowInt(left), ShowInt(right);
    SplitJoin([a, b], "   ");
    assert Join([a, b], "   ") == a + "   " + b;
    ParseI64Show(left);
    ParseI64Show(right);
  }

  /** Every line read, or the first failure. */
  function ParseLines(lines: seq<string>): (r: Result<seq<(int, int)>>)
    ensures r.Ok? <==> forall i :: 0 <= i < |lines| ==> ParseLine(lines[i]).Ok?
    ensures r.Ok? ==> |r.value| == |lines| && forall i :: 0 <= i < |lines| ==> ParseLine(lines[i]) == Ok(r.value[i])
  {
    if lines == [] then Ok([])
    else
      var first :- ParseLine(lines[0]);
      var rest :- ParseLines(lines[1..]);
      assert forall i :: 1 <= i < |lines| ==> lines[i] == lines[1..][i - 1];
      Ok([first] + rest)
  }

  /** `process` on the input text: it fails exactly when some line does not
      parse, and otherwise gives the total distance of the parsed lines. */
  method ProcessLines(lines: seq<string>) returns (r: Result<nat>)
    ensures r.Ok? <==> ParseLines(lines).Ok?
    ensures r.Ok? ==> r.value == TotalDistance(ParseLines(lines).value)
  {
    var parsed :- ParseLines(lines);
    var distance := Process(parsed);
    return Ok(distance);
  }
}

=== FILE: day01_similarity.dfy ===
/** Day 1, puzzle 2: the similarity score. Every number of the left list is
    multiplied by how often it occurs in the right list, and the products are
    summed. */
module Day01Similarity {
  import opened Wrappers
  import opened Text
  import opened Decimal

  function Lefts(lines: seq<(nat, nat)>): (r: seq<nat>)
    ensures |r| == |lines| && forall i :: 0 <= i < |lines| ==> r[i] == lines[i].0
  {
    seq(|lines|, i requires 0 <= i < |lines| => lines[i].0)
  }

  function Rights(lines: seq<(nat, nat)>): (r: seq<nat>)
    ensures |r| == |lines| && forall i :: 0 <= i < |lines| ==> r[i] == lines[i].1
  {
    seq(|lines|, i requires 0 <= i < |lines| => lines[i].1)
  }

  /** The `occurrence` fold: one entry per distinct number of the right list,
      counting its occurrences. */
  method Occurrences(right: seq<nat>) returns (occurrence: map<nat, nat>)
    ensures forall k :: k in occurrence <==> k in right
    ensures forall k :: k in occurrence ==> occurrence[k] == multiset(right)[k]
  {
    occurrence := map[];
    for i := 0 to |right|
      invariant forall k :: k in occurrence <==> k in right[..i]
      invariant forall k :: k in occurrence ==> occurrence[k] == multiset(right[..i])[k]
    {
      assert right[..i + 1] == right[..i] + [right[i]];
      var old_count := if right[i] in occurrence then occurrence[right[i]] else 0;
      occurrence := occurrence[right[i] := old_count + 1];
    }
    assert right[..|right|] == right;
  }

  /** The lookup in the final fold: a missing key counts as zero. */
  function Lookup(occurrence: map<nat, nat>, key: nat): nat
  {
    if key in occurrence then occurrence[key] else 0
  }

  /** The similarity score as a function of the two lists: every left item
      weighted by its number of occurrences on the right. */
  function Similarity(left: seq<nat>, right: seq<nat>): nat
  {
    if left == [] then 0
    else left[0] * multiset(right)[left[0]] + Similarity(left[1..], right)
  }

  /** The `process` function on already parsed lines. */
  method Process(lines: seq<(nat, nat)>) returns (result: nat)
    ensures result == Similarity(Lefts(lines), Rights(lines))
  {
    var leftList: seq<nat> := [];
    var rightList: seq<nat> := [];
    for i := 0 to |lines|
      invariant leftList == Lefts(lines[..i]) && rightList == Rights(lines[..i])
    {
      leftList := leftList + [lines[i].0];
      rightList := rightList + [lines[i].1];
    }
    assert lines[..|lines|] == lines;
    var occurrence := Occurrences(rightList);
    result := 0;
    for i := 0 to |leftList|
      invariant result + Similarity(leftList[i..], rightList) == Similarity(leftList, rightList)
    {
      assert leftList[i..][1..] == leftList[i + 1..];
      var count := Lookup(occurrence, leftList[i]);
      assert count == multiset(rightList)[leftList[i]];
      result := result + leftList[i] * count;
    }
  }

  /** Duplicates on the left are counted separately: the score of a
      concatenation is the sum of the scores. */
  lemma {:induction false} SimilarityAppend(a: seq<nat>, b: seq<nat>, right: seq<nat>)
    ensures Similarity(a + b, right) == Similarity(a, right) + Similarity(b, right)
  {
    if a != [] {
      assert (a + b)[1..] == a[1..] + b;
      SimilarityAppend(a[1..], b, right);
    } else {
      assert a + b == b;
    }
  }

  /** A left list none of whose numbers occur on the right scores zero. */
  lemma {:induction false} AbsentScoresZero(left: seq<nat>, right: seq<nat>)
    requires forall i :: 0 <= i < |left| ==> left[i] !in right
    ensures Similarity(left, right) == 0
  {
    if left != [] {
      assert left[0] !in multiset(right);
      AbsentScoresZero(left[1..], right);
    }
  }

  /** Only the numbers of the right list matter, not their order. */
  lemma {:induction false} RightOrderIrrelevant(left: seq<nat>, r1: seq<nat>, r2: seq<nat>)
    requires multiset(r1) == multiset(r2)
    ensures Similarity(left, r1) == Similarity(left, r2)
  {
    if left != [] {
      RightOrderIrrelevant(left[1..], r1, r2);
    }
  }

  /** A number that occurs n times on the left and m times on the right adds
      n * m times itself to the score. */
  lemma {:induction false} SimilarityOfRepeated(x: nat, n: nat, right: seq<nat>)
    ensures Similarity(seq(n, _ => x), right) == n * x * multiset(right)[x]
  {
    if n > 0 {
      assert seq(n, _ => x)[1..] == seq(n - 1, _ => x);
      SimilarityOfRepeated(x, n - 1, right);
    }
  }

  /** One input line: the pieces around three spaces, the first two read by
      `parse::<usize>`; a missing piece or a bad number panics. */
  function ParseLine(line: string): (r: Result<(nat, nat)>)
    ensures r.Ok? <==> (|SplitOn(line, "   ")| >= 2
      && ParseNumber(SplitOn(line, "   ")[0]).Ok? && ParseNumber(SplitOn(line, "   ")[1]).Ok?)
  {
    var pieces := SplitOn(line, "   ");
    if |pieces| < 2 then Err("no right number")
    else
      var left :- ParseNumber(pieces[0]);
      var right :- ParseNumber(pieces[1]);
      Ok((left, right))
  }

  /** Two numbers written three spaces apart are read back. */
  lemma ParseLineShow(left: nat, right: nat)
    ensures ParseLine(Show(left) + "   " + Show(right)) == Ok((left, right))
  {
    var a, b := Show(left), Show(right);
    SplitJoin([a, b], "   ");
    assert Join([a, b], "   ") == a + "   " + b;
    ParseNumberShow(left);
    ParseNumberShow(right);
  }

  /** Every line read, or the first failure. */
  function ParseLines(lines: seq<string>): (r: Result<seq<(nat, nat)>>)
    ensures r.Ok? <==> forall i :: 0 <= i < |lines| ==> ParseLine(lines[i]).Ok?
    ensures r.Ok? ==> |r.value| == |lines| && forall i :: 0 <= i < |lines| ==> ParseLine(lines[i]) == Ok(r.value[i])
  {
    if lines == [] then Ok([])
    else
      var first :- ParseLine(lines[0]);
      var rest :- ParseLines(lines[1..]);
      assert forall i :: 1 <= i < |lines| ==> lines[i] == lines[1..][i - 1];
      Ok([first] + rest)
  }

  /** `process` on the input text: it fails exactly when some line does not
      parse, and otherwise gives the similarity score of the parsed lines. */
  method ProcessLines(lines: seq<string>) returns (r: Result<nat>)
    ensures r.Ok? <==> ParseLines(lines).Ok?
    ensures r.Ok? ==> var parsed := ParseLines(lines).value; r.value == Similarity(Lefts(parsed), Rights(parsed))
  {
    var parsed :- ParseLines(lines);
    var score := Process(parsed);
    return Ok(score);
  }
}

=== FILE: day02_dampener.dfy ===
/** Day 2, puzzle 2: the problem dampener. A report also counts when removing
    one single level from it makes it safe. */
module Day02Dampener {
  import opened Wrappers
  import opened Day02Reports
  import Sets

  /** The report without the level at index i, the rest in order. */
  function RemoveAt(levels: seq<int>, i: nat): (r: seq<int>)
    requires i < |levels|
    ensures |r| == |levels| - 1
    ensures forall k :: 0 <= k < i ==> r[k] == levels[k]
    ensures forall k :: i <= k < |r| ==> r[k] == levels[k + 1]
  {
    levels[..i] + levels[i + 1..]
  }

  /** `combinations(len - 1)`: every way of leaving out one level. The
      combinations come in lexicographic order of the kept indices, so the
      last level is left out first and the first level last. */
  function Combinations(levels: seq<int>): (r: seq<seq<int>>)
    ensures |r| == |levels|
    ensures forall i :: 0 <= i < |levels| ==> r[i] == RemoveAt(levels, |levels| - 1 - i)
  {
    seq(|levels|, i requires 0 <= i < |levels| => RemoveAt(levels, |levels| - 1 - i))
  }

  /** `try_combinations`: some one-level removal is safe. */
  predicate TryCombinations(levels: seq<int>)
    ensures TryCombinations(levels) <==> exists i :: 0 <= i < |levels| && IsValid(RemoveAt(levels, i))
  {
    var found := exists c :: c in Combinations(levels) && IsValid(c);
    assert found ==> exists i :: 0 <= i < |levels| && IsValid(RemoveAt(levels, i)) by {
      if found {
        var c :| c in Combinations(levels) && IsValid(c);
        var k :| 0 <= k < |levels| && Combinations(levels)[k] == c;
        assert IsValid(RemoveAt(levels, |levels| - 1 - k));
      }
    }
    assert (exists i :: 0 <= i < |levels| && IsValid(RemoveAt(levels, i))) ==> found by {
      if exists i :: 0 <= i < |levels| && IsValid(RemoveAt(levels, i)) {
        var i :| 0 <= i < |levels| && IsValid(RemoveAt(levels, i));
        assert Combinations(levels)[|levels| - 1 - i] in Combinations(levels);
      }
    }
    found
  }

  /** The `process` test of one report. */
  predicate Tolerated(levels: seq<int>)
  {
    IsValid(levels) || TryCombinations(levels)
  }

  /** A report is tolerated iff it is safe, or safe after removing the level
      at some index. */
  lemma ToleratedMeansOneRemoval(levels: seq<int>)
    ensures Tolerated(levels) <==> IsValid(levels) || exists i :: 0 <= i < |levels| && IsValid(RemoveAt(levels, i))
  {
    if TryCombinations(levels) {
      var c :| c in Combinations(levels) && IsValid(c);
      var k :| 0 <= k < |levels| && Combinations(levels)[k] == c;
      assert IsValid(RemoveAt(levels, |levels| - 1 - k));
    }
    if exists i :: 0 <= i < |levels| && IsValid(RemoveAt(levels, i)) {
      var i :| 0 <= i < |levels| && IsValid(RemoveAt(levels, i));
      assert Combinations(levels)[|levels| - 1 - i] in Combinations(levels);
    }
  }

  /** `process` of puzzle 2: the number of tolerated reports. */
  function CountTolerated(reports: seq<seq<int>>): (r: nat)
    ensures r == |set i | 0 <= i < |reports| && Tolerated(reports[i])|
    ensures r <= |reports|
  {
    var r := Sets.CountIf(Tolerated, reports);
    assert Sets.Where(Tolerated, reports) == set i | 0 <= i < |reports| && Tolerated(reports[i]);
    r
  }

  /** Dropping the first level of a safe report keeps it safe, so for a
      non-empty report the separate `is_valid` test before
      `try_combinations` never changes the answer. */
  lemma DropFirstKeepsValid(levels: seq<int>)
    requires |levels| >= 1 && IsValid(levels)
    ensures IsValid(RemoveAt(levels, 0))
    ensures TryCombinations(levels)
  {
    var t := RemoveAt(levels, 0);
    IsValidMeansMonotone(levels);
    IsValidMeansMonotone(t);
    if Increasing(levels) {
      assert Increasing(t) by {
        forall k | 0 <= k < |t| - 1
          ensures 1 <= t[k + 1] - t[k] <= 3
        {
          assert t[k] == levels[k + 1] && t[k + 1] == levels[k + 2];
        }
      }
    } else {
      assert Decreasing(t) by {
        forall k | 0 <= k < |t| - 1
          ensures 1 <= t[k] - t[k + 1] <= 3
        {
          assert t[k] == levels[k + 1] && t[k + 1] == levels[k + 2];
        }
      }
    }
    assert Combinations(levels)[|levels| - 1] in Combinations(levels);
  }

  /** Every report safe without the dampener is counted with it. */
  lemma DampenerCountsAtLeastAsMany(reports: seq<seq<int>>)
    ensures CountValid(reports) <= CountTolerated(reports)
  {
    var safe := set i | 0 <= i < |reports| && IsValid(reports[i]);
    var tolerated := set i | 0 <= i < |reports| && Tolerated(reports[i]);
    assert safe <= tolerated;
    Sets.SubsetCard(safe, tolerated);
  }

  /** `process` of puzzle 2 on the input text: it fails exactly when some
      line does not parse, and otherwise counts the reports that are safe
      with at most one level removed. */
  function ProcessLines(lines: seq<string>): (r: Result<nat>)
    ensures r.Ok? <==> ParseReports(lines).Ok?
    ensures r.Ok? ==> r.value <= |lines|
    ensures r.Ok? ==> Day02Reports.ProcessLines(lines).value <= r.value
    ensures r.Ok? ==> r.value == |set i | 0 <= i < |lines| && Tolerated(ParseReport(lines[i]).value)|
  {
    var reports :- ParseReports(lines);
    assert (set i | 0 <= i < |lines| && Tolerated(ParseReport(lines[i]).value))
      == set i | 0 <= i < |reports| && Tolerated(reports[i]);
    DampenerCountsAtLeastAsMany(reports);
    Ok(CountTolerated(reports))
  }
}

=== FILE: day02_reports.dfy ===
/** Day 2, puzzle 1: a report (a line of levels) is safe when the levels
    change by one to three at every step and always in the same direction. */
module Day02Reports {
  import opened Wrappers
  import opened Text
  import opened Decimal
  import Sets

  /** The differences of the windows of size two, later minus earlier. */
  function Diffs(levels: seq<int>): (r: seq<int>)
    ensures |levels| < 2 ==> r == []
    ensures |levels| >= 2 ==> |r| == |levels| - 1
    ensures forall i :: 0 <= i < |r| ==> r[i] == levels[i + 1] - levels[i]
  {
    if |levels| < 2 then []
    else seq(|levels| - 1, i requires 0 <= i < |levels| - 1 => levels[i + 1] - levels[i])
  }

  /** The check of `is_valid` as written: every difference is in -3..-1 or in
      1..3, and then all are negative or all are positive. */
  predicate IsValid(levels: seq<int>)
    ensures |levels| < 2 ==> IsValid(levels)
    ensures IsValid(levels) ==> forall i :: 0 <= i < |levels| - 1 ==>
      1 <= levels[i + 1] - levels[i] <= 3 || 1 <= levels[i] - levels[i + 1] <= 3
  {
    var diffs := Diffs(levels);
    (forall i :: 0 <= i < |diffs| ==> -3 <= diffs[i] <= -1 || 1 <= diffs[i] <= 3)
    && ((forall i :: 0 <= i < |diffs| ==> diffs[i] < 0) || (forall i :: 0 <= i < |diffs| ==> diffs[i] > 0))
  }

  /** Safe means strictly increasing by steps of 1..3, or strictly
      decreasing by steps of 1..3. */
  predicate Increasing(levels: seq<int>)
  {
    forall i :: 0 <= i < |levels| - 1 ==> 1 <= levels[i + 1] - levels[i] <= 3
  }

  predicate Decreasing(levels: seq<int>)
  {
    forall i :: 0 <= i < |levels| - 1 ==> 1 <= levels[i] - levels[i + 1] <= 3
  }

  lemma IsValidMeansMonotone(levels: seq<int>)
    ensures IsValid(levels) <==> Increasing(levels) || Decreasing(levels)
  {
    var diffs := Diffs(levels);
    if Increasing(levels) {
      assert forall i :: 0 <= i < |diffs| ==> diffs[i] > 0;
    } else if Decreasing(levels) {
      assert forall i :: 0 <= i < |diffs| ==> diffs[i] < 0;
    }
    if IsValid(levels) {
      if forall i :: 0 <= i < |diffs| ==> diffs[i] > 0 {
        assert Increasing(levels) by {
          forall i | 0 <= i < |levels| - 1
            ensures 1 <= levels[i + 1] - levels[i] <= 3
          {
            assert diffs[i] == levels[i + 1] - levels[i];
          }
        }
      } else {
        assert Decreasing(levels) by {
          forall i | 0 <= i < |levels| - 1
            ensures 1 <= levels[i] - levels[i + 1] <= 3
          {
            assert diffs[i] == levels[i + 1] - levels[i];
          }
        }
      }
    }
  }

  /** Two equal neighbouring levels make a report unsafe. */
  lemma EqualNeighboursInvalid(levels: seq<int>, i: nat)
    requires i + 1 < |levels| && levels[i] == levels[i + 1]
    ensures !IsValid(levels)
  {
    assert Diffs(levels)[i] == 0;
  }

  function Reverse(s: seq<int>): (r: seq<int>)
    ensures |r| == |s| && forall i :: 0 <= i < |s| ==> r[i] == s[|s| - 1 - i]
  {
    seq(|s|, i requires 0 <= i < |s| => s[|s| - 1 - i])
  }

  lemma IncreasingReversed(levels: seq<int>)
    requires Increasing(levels)
    ensures Decreasing(Reverse(levels))
  {
    var r := Reverse(levels);
    forall i | 0 <= i < |r| - 1
      ensures 1 <= r[i] - r[i + 1] <= 3
    {
      var j := |levels| - 2 - i;
      assert r[i] == levels[j + 1] && r[i + 1] == levels[j];
    }
  }

  lemma DecreasingReversed(levels: seq<int>)
    requires Decreasing(levels)
    ensures Increasing(Reverse(levels))
  {
    var r := Reverse(levels);
    forall i | 0 <= i < |r| - 1
      ensures 1 <= r[i + 1] - r[i] <= 3
    {
      var j := |levels| - 2 - i;
      assert r[i] == levels[j + 1] && r[i + 1] == levels[j];
    }
  }

  /** Reading a report backwards does not change whether it is safe. */
  lemma ReverseKeepsValidity(levels: seq<int>)
    ensures IsValid(Reverse(levels)) <==> IsValid(levels)
  {
    var r := Reverse(levels);
    assert Reverse(r) == levels;
    IsValidMeansMonotone(levels);
    IsValidMeansMonotone(r);
    if Increasing(levels) {
      IncreasingReversed(levels);
    } else if Decreasing(levels) {
      DecreasingReversed(levels);
    } else if Increasing(r) {
      IncreasingReversed(r);
    } else if Decreasing(r) {
      DecreasingReversed(r);
    }
  }

  /** `process`: `filter(is_valid).count()`, the number of safe reports. */
  function CountValid(reports: seq<seq<int>>): (r: nat)
    ensures r == |set i | 0 <= i < |reports| && IsValid(reports[i])|
    ensures r <= |reports|
    ensures r == |reports| <==> forall i :: 0 <= i < |reports| ==> IsValid(reports[i])
    ensures r == 0 <==> forall i :: 0 <= i < |reports| ==> !IsValid(reports[i])
  {
    var r := Sets.CountIf(IsValid, reports);
    assert Sets.Where(IsValid, reports) == set i | 0 <= i < |reports| && IsValid(reports[i]);
    r
  }

  /** One report line: every piece around a space read by `parse::<i64>`;
      a bad number panics. */
  function ParseReport(line: string): (r: Result<seq<int>>)
    ensures r.Ok? ==> forall i :: 0 <= i < |SplitOn(line, " ")| ==> ParseI64(SplitOn(line, " ")[i]).Ok?
    ensures (forall i :: 0 <= i < |SplitOn(line, " ")| ==> ParseI64(SplitOn(line, " ")[i]).Ok?) ==> r.Ok?
    ensures r.Ok? ==> |r.value| == |SplitOn(line, " ")| >= 1
  {
    var pieces := SplitOn(line, " ");
    ParseI64s(pieces)
  }

  /** A report written out with single spaces is read back. */
  lemma ParseReportShow(levels: seq<int>)
    requires |levels| >= 1
    ensures ParseReport(Join(ShowInts(levels), " ")) == Ok(levels)
  {
    SplitJoin(ShowInts(levels), " ");
    ParseI64sShow(levels);
  }

  /** Every report line read, or the first failure. */
  function ParseReports(lines: seq<string>): (r: Result<seq<seq<int>>>)
    ensures r.Ok? <==> forall i :: 0 <= i < |lines| ==> ParseReport(lines[i]).Ok?
    ensures r.Ok? ==> |r.value| == |lines| && forall i :: 0 <= i < |lines| ==> ParseReport(lines[i]) == Ok(r.value[i])
  {
    CollectAll(ParseReport, lines)
  }

  /** `process` on the input text: it fails exactly when some line does not
      parse, and otherwise counts the safe reports. */
  function ProcessLines(lines: seq<string>): (r: Result<nat>)
    ensures r.Ok? <==> ParseReports(lines).Ok?
    ensures r.Ok? ==> r.value <= |lines|
    ensures r.Ok? ==> (r.value == |lines| <==> forall i :: 0 <= i < |lines| ==> IsValid(ParseReport(lines[i]).value))
    ensures r.Ok? ==> r.value == |set i | 0 <= i < |lines| && IsValid(ParseReport(lines[i]).value)|
  {
    var reports :- ParseReports(lines);
    assert (set i | 0 <= i < |lines| && IsValid(ParseReport(lines[i]).value))
      == set i | 0 <= i < |reports| && IsValid(reports[i]);
    Ok(CountValid(reports))
  }
}

=== FILE: day03_toggles.dfy ===
/** Day 3, puzzle 2: summing the products of `mul(a,b)` instructions while
    `do()` and `don't()` switch the summing on and off. The instructions are
    taken as already matched out of the corrupted memory; each match carries
    its whole text and, for a `mul`, its two parsed operands. */
module Day03Toggles {

  datatype Capture = Capture(command: string, first: nat, second: nat)

  predicate StartsWith(s: string, prefix: string)
  {
    |prefix| <= |s| && s[..|prefix|] == prefix
  }

  /** What the matching pattern admits: 1..3 digits without a leading zero,
      that is 1..999. */
  predicate WellFormed(c: Capture)
  {
    1 <= c.first <= 999 && 1 <= c.second <= 999
  }

  /** One step of the fold: the new enable flag and the amount added. The
      `don't` test comes first, because "don't()" also starts with "do". */
  function Step(enabled: bool, c: Capture): (r: (bool, nat))
    ensures StartsWith(c.command, "don't") ==> r == (false, 0)
    ensures !StartsWith(c.command, "don't") && StartsWith(c.command, "do") ==> r == (true, 0)
    ensures r.1 != 0 ==> enabled && r.0 && StartsWith(c.command, "mul")
  {
    if StartsWith(c.command, "don't") then (false, 0)
    else if StartsWith(c.command, "do") then (true, 0)
    else if StartsWith(c.command, "mul") && enabled then (enabled, c.first * c.second)
    else (enabled, 0)
  }

  /** The fold from a given flag: the final flag and the sum. */
  function Scan(enabled: bool, captures: seq<Capture>): (bool, nat)
    decreases |captures|
  {
    if captures == [] then (enabled, 0)
    else
      var (e, add) := Step(enabled, captures[0]);
      var (final, total) := Scan(e, captures[1..]);
      (final, add + total)
  }

  /** The fold of `process`, starting enabled. */
  method Process(captures: seq<Capture>) returns (result: nat)
    ensures result == Scan(true, captures).1
  {
    var enabled := true;
    result := 0;
    for i := 0 to |captures|
      invariant result + Scan(enabled, captures[i..]).1 == Scan(true, captures).1
    {
      assert captures[i..][1..] == captures[i + 1..];
      var intermediate := 0;
      var command := captures[i].command;
      if StartsWith(command, "don't") {
        enabled := false;
      } else if StartsWith(command, "do") {
        enabled := true;
      } else if StartsWith(command, "mul") && enabled {
        intermediate := captures[i].first * captures[i].second;
      }
      result := result + intermediate;
    }
  }

  /** The lines are concatenated before matching, so the flag carries over
      from one part of the input to the next: scanning a concatenation is
      scanning the second part from where the first left the flag. */
  lemma {:induction false} ScanAppend(enabled: bool, a: seq<Capture>, b: seq<Capture>)
    ensures Scan(enabled, a + b).0 == Scan(Scan(enabled, a).0, b).0
    ensures Scan(enabled, a + b).1 == Scan(enabled, a).1 + Scan(Scan(enabled, a).0, b).1
    decreases |a|
  {
    if a == [] {
      assert a + b == b;
    } else {
      assert (a + b)[1..] == a[1..] + b;
      ScanAppend(Step(enabled, a[0]).0, a[1..], b);
    }
  }

  /** The most recent switch in a list of captures, if any. */
  function LastSwitch(captures: seq<Capture>): (r: SwitchSeen)
  {
    if captures == [] then NoSwitch
    else
      var c := captures[|captures| - 1];
      if StartsWith(c.command, "don't") then Switch(false)
      else if StartsWith(c.command, "do") then Switch(true)
      else LastSwitch(captures[..|captures| - 1])
  }

  datatype SwitchSeen = NoSwitch | Switch(on: bool)

  /** Reference reading of the flag: enabled after a prefix iff its last
      switch is a `do()`, or there is none and it started enabled. */
  lemma {:induction false} FlagIsLastSwitch(enabled: bool, captures: seq<Capture>)
    ensures Scan(enabled, captures).0 == (if LastSwitch(captures).NoSwitch? then enabled else LastSwitch(captures).on)
    decreases |captures|
  {
    if captures != [] {
      var n := |captures| - 1;
      assert captures == captures[..n] + [captures[n]];
      ScanAppend(enabled, captures[..n], [captures[n]]);
      FlagIsLastSwitch(enabled, captures[..n]);
    }
  }

  /** `do()` and `don't()` add nothing; a `mul` adds its product exactly when
      the flag is on. */
  lemma OnlyEnabledMulsCount(enabled: bool, c: Capture)
    ensures StartsWith(c.command, "mul") ==> Step(enabled, c).1 == (if enabled then c.first * c.second else 0)
    ensures StartsWith(c.command, "do") ==> Step(enabled, c).1 == 0
  {
    if StartsWith(c.command, "mul") {
      assert c.command[0] == 'm';
    }
  }

  /** With well-formed operands every capture adds at most 999 * 999. */
  lemma {:induction false} ScanBound(enabled: bool, captures: seq<Capture>)
    requires forall i :: 0 <= i < |captures| ==> WellFormed(captures[i])
    ensures Scan(enabled, captures).1 <= 998001 * |captures|
    decreases |captures|
  {
    if captures != [] {
      var c := captures[0];
      assert WellFormed(c);
      assert c.first * c.second <= 999 * 999 by {
        assert c.first * c.second <= 999 * c.second;
      }
      ScanBound(Step(enabled, c).0, captures[1..]);
    }
  }

  /** A `mul(...)` capture is recognised as a multiplication. */
  lemma MulIsNoSwitch(c: Capture)
    requires |c.command| >= 4 && c.command[..4] == "mul("
    ensures Step(true, c) == (true, c.first * c.second) && Step(false, c) == (false, 0)
  {
    assert c.command[0] == 'm';
    assert c.command[..3] == "mul";
  }

  /** The example of the puzzle statement, as it is matched. */
  lemma Example(captures: seq<Capture>)
    requires captures == [
      Capture("mul(2,4)", 2, 4), Capture("don't()", 0, 0), Capture("mul(5,5)", 5, 5),
      Capture("mul(11,8)", 11, 8), Capture("do()", 0, 0), Capture("mul(8,5)", 8, 5)]
    ensures Scan(true, captures).1 == 48
  {
    MulIsNoSwitch(captures[0]);
    MulIsNoSwitch(captures[2]);
    MulIsNoSwitch(captures[3]);
    MulIsNoSwitch(captures[5]);
    assert captures[1].command[..5] == "don't";
    assert captures[4].command[..2] == "do";
    assert Scan(true, captures[6..]) == (true, 0);
    assert Scan(true, captures[5..]) == (true, 40);
    assert Scan(false, captures[4..]) == (true, 40);
    assert Scan(false, captures[3..]) == (true, 40);
    assert Scan(false, captures[2..]) == (true, 40);
    assert Scan(true, captures[1..]) == (true, 40);
  }
}

=== FILE: day04_crossmas.dfy ===
/** Day 4, puzzle 2: count the cells where two diagonal "MAS" cross, each of
    them read in either direction. */
module Day04CrossMas {
  import opened Day04Grid

  /** The falling diagonal through c, from upper left to lower right. */
  function Falling(c: (int, int)): seq<(int, int)>
  {
    [(c.0 - 1, c.1 - 1), c, (c.0 + 1, c.1 + 1)]
  }

  /** The rising diagonal through c, from lower left to upper right. */
  function Rising(c: (int, int)): seq<(int, int)>
  {
    [(c.0 - 1, c.1 + 1), c, (c.0 + 1, c.1 - 1)]
  }

  predicate IsMas(w: string)
  {
    w == "MAS" || w == "SAM"
  }

  /** The `hit` of one cell. */
  function Hit(data: seq<string>, c: (int, int)): (r: nat)
    requires Rectangular(data)
    ensures r <= 1
    ensures r == 1 <==> IsMas(GetWord(data, Falling(c))) && IsMas(GetWord(data, Rising(c)))
  {
    if IsMas(GetWord(data, Falling(c))) && IsMas(GetWord(data, Rising(c))) then 1 else 0
  }

  /** Both diagonals through c read "MAS" in one direction or the other. */
  predicate IsCentre(data: seq<string>, c: (int, int))
    requires Rectangular(data)
  {
    IsMas(GetWord(data, Falling(c))) && IsMas(GetWord(data, Rising(c)))
  }

  /** The X-MAS centres among the rows y.. of column x. */
  ghost function ColumnCentres(data: seq<string>, x: int, y: int): set<(int, int)>
    requires Rectangular(data)
  {
    set y' | y <= y' < |data| && IsCentre(data, (x, y')) :: (x, y')
  }

  /** The X-MAS centres among the columns x.. of the grid. */
  ghost function GridCentres(data: seq<string>, x: int): set<(int, int)>
    requires Rectangular(data)
  {
    set x', y' | x <= x' < |data[0]| && 0 <= y' < |data| && IsCentre(data, (x', y')) :: (x', y')
  }

  /** Every cell of the grid at which two "MAS" cross. */
  ghost function Centres(data: seq<string>): set<(int, int)>
    requires Rectangular(data)
  {
    set x, y | 0 <= x < |data[0]| && 0 <= y < |data| && IsCentre(data, (x, y)) :: (x, y)
  }

  /** Summing the hits of the rows y.. of column x: the centres there. */
  function ColumnSum(data: seq<string>, x: int, y: nat): (r: nat)
    requires Rectangular(data) && y <= |data|
    ensures r <= |data| - y
    ensures r == |ColumnCentres(data, x, y)|
    decreases |data| - y
  {
    if y == |data| then
      assert ColumnCentres(data, x, y) == {};
      0
    else
      var rest := ColumnSum(data, x, y + 1);
      ColumnCentresSplit(data, x, y);
      Hit(data, (x, y)) + rest
  }

  /** Summing over the columns x.. of the grid: the centres there;
      `process`'s fold is GridSum from 0. */
  function GridSum(data: seq<string>, x: nat): (r: nat)
    requires Rectangular(data) && x <= |data[0]|
    ensures r <= |data| * (|data[0]| - x)
    ensures r == |GridCentres(data, x)|
    decreases |data[0]| - x
  {
    if x == |data[0]| then
      assert GridCentres(data, x) == {};
      0
    else
      var r := ColumnSum(data, x, 0) + GridSum(data, x + 1);
      MulStep(|data|, |data[0]| - x);
      GridCentresSplit(data, x);
      r
  }

  /** The centres of rows y.. of a column are cell (x, y), when it is one,
      and the centres below it. */
  lemma ColumnCentresSplit(data: seq<string>, x: int, y: int)
    requires Rectangular(data) && 0 <= y < |data|
    ensures ColumnCentres(data, x, y) == (if IsCentre(data, (x, y)) then {(x, y)} else {}) + ColumnCentres(data, x, y + 1)
    ensures (x, y) !in ColumnCentres(data, x, y + 1)
  {
    var here: set<(int, int)> := if IsCentre(data, (x, y)) then {(x, y)} else {};
    var below := ColumnCentres(data, x, y + 1);
    forall c | c in ColumnCentres(data, x, y)
      ensures c in here + below
    {
      var y' :| y <= y' < |data| && IsCentre(data, (x, y')) && c == (x, y');
      if y' == y {
        assert c in here;
      } else {
        assert c in below;
      }
    }
    forall c | c in here + below
      ensures c in ColumnCentres(data, x, y)
    {
      if c in here {
        assert c == (x, y);
      } else {
        var y' :| y + 1 <= y' < |data| && IsCentre(data, (x, y')) && c == (x, y');
      }
    }
  }

  /** The centres of columns x.. are those of column x and those right of
      it, with none in common. */
  lemma GridCentresSplit(data: seq<string>, x: int)
    requires Rectangular(data) && 0 <= x < |data[0]|
    ensures GridCentres(data, x) == ColumnCentres(data, x, 0) + GridCentres(data, x + 1)
    ensures ColumnCentres(data, x, 0) * GridCentres(data, x + 1) == {}
  {
    GridCentresCovered(data, x);
    GridCentresCovers(data, x);
  }

  /** Every centre of columns x.. lies in column x or right of it, and not
      in both. */
  lemma GridCentresCovered(data: seq<string>, x: int)
    requires Rectangular(data) && 0 <= x < |data[0]|
    ensures GridCentres(data, x) <= ColumnCentres(data, x, 0) + GridCentres(data, x + 1)
    ensures ColumnCentres(data, x, 0) * GridCentres(data, x + 1) == {}
  {
    forall c | c in GridCentres(data, x)
      ensures c in ColumnCentres(data, x, 0) + GridCentres(data, x + 1)
    {
      var x', y' :| x <= x' < |data[0]| && 0 <= y' < |data| && IsCentre(data, (x', y')) && c == (x', y');
      if x' == x {
        assert c in ColumnCentres(data, x, 0);
      } else {
        assert c in GridCentres(data, x + 1);
      }
    }
    forall c | c in ColumnCentres(data, x, 0)
      ensures c !in GridCentres(data, x + 1)
    {
    }
  }

  /** The centres of column x and of the columns right of it are all
      centres of columns x.. . */
  lemma GridCentresCovers(data: seq<string>, x: int)
    requires Rectangular(data) && 0 <= x < |data[0]|
    ensures ColumnCentres(data, x, 0) + GridCentres(data, x + 1) <= GridCentres(data, x)
  {
    forall c | c in ColumnCentres(data, x, 0) + GridCentres(data, x + 1)
      ensures c in GridCentres(data, x)
    {
      if c in ColumnCentres(data, x, 0) {
        var y' :| 0 <= y' < |data| && IsCentre(data, (x, y')) && c == (x, y');
      } else {
        var x', y' :| x + 1 <= x' < |data[0]| && 0 <= y' < |data| && IsCentre(data, (x', y')) && c == (x', y');
      }
    }
  }

  /** `process`: the number of X-MAS centres of the grid; each cell counts
      at most once. */
  function Process(data: seq<string>): (r: nat)
    requires Rectangular(data)
    ensures r <= |data[0]| * |data|
    ensures r == |Centres(data)|
  {
    assert GridCentres(data, 0) == Centres(data);
    GridSum(data, 0)
  }

  /** A hit needs an 'A' in the middle and all four corners inside the
      grid, so cells on the border never count. */
  lemma HitIsInterior(data: seq<string>, c: (int, int))
    requires Rectangular(data) && Hit(data, c) == 1
    ensures Get(data, c) == 'A'
    ensures 1 <= c.0 < |data[0]| - 1 && 1 <= c.1 < |data| - 1
  {
    var f := GetWord(data, Falling(c));
    var g := GetWord(data, Rising(c));
    assert f[0] != '.' && f[2] != '.' && g[0] != '.';
    WordWithoutDotIsInside(data, Falling(c), 0);
    WordWithoutDotIsInside(data, Falling(c), 2);
    assert f[1] == 'A';
  }

  /** The two readings of a diagonal are each other's reverse, so reading
      either diagonal backwards finds the same hits. */
  lemma MasEitherWay(w: string)
    requires |w| == 3
    ensures IsMas(w) <==> IsMas([w[2], w[1], w[0]])
  {
  }
}

=== FILE: day04_grid.dfy ===
/** Day 4, both puzzles: the letter grid of the word search and its lookups.
    Lines are rows; (x, y) is column x of row y. All rows have the length of
    the first one. */
module Day04Grid {

  /** At least one row, all rows equally long (reading a cell of a shorter
      row, or the first row of an empty grid, would panic). */
  predicate Rectangular(data: seq<string>)
  {
    |data| > 0 && forall i :: 0 <= i < |data| ==> |data[i]| == |data[0]|
  }

  predicate InGrid(data: seq<string>, c: (int, int))
    requires Rectangular(data)
  {
    0 <= c.0 < |data[0]| && 0 <= c.1 < |data|
  }

  /** `get`: the letter at a coordinate, or '.' outside the grid. */
  function Get(data: seq<string>, c: (int, int)): (r: char)
    requires Rectangular(data)
    ensures !InGrid(data, c) ==> r == '.'
    ensures InGrid(data, c) ==> r == data[c.1][c.0]
  {
    if c.0 < 0 || c.0 >= |data[0]| then '.'
    else if c.1 < 0 || c.1 >= |data| then '.'
    else data[c.1][c.0]
  }

  /** `get_word`: one letter per coordinate, in order. */
  function GetWord(data: seq<string>, coords: seq<(int, int)>): (r: string)
    requires Rectangular(data)
    ensures |r| == |coords|
    ensures forall i :: 0 <= i < |coords| ==> r[i] == Get(data, coords[i])
  {
    seq(|coords|, i requires 0 <= i < |coords| => Get(data, coords[i]))
  }

  /** A word without '.' read from the grid lies entirely inside it. */
  lemma WordWithoutDotIsInside(data: seq<string>, coords: seq<(int, int)>, i: nat)
    requires Rectangular(data) && i < |coords|
    requires GetWord(data, coords)[i] != '.'
    ensures InGrid(data, coords[i])
  {
  }

  /** One more column adds one column's worth to a bound. */
  lemma MulStep(a: nat, k: nat)
    requires k >= 1
    ensures a * k == a + a * (k - 1)
  {
  }
}

=== FILE: day04_xmas.dfy ===
/** Day 4, puzzle 1: count the occurrences of XMAS in the grid in any of the
    eight directions, also backwards and diagonally. */
module Day04Xmas {
  import opened Day04Grid

  /** The eight directions in the order `get_all_coords` lists them. */
  const Directions: seq<(int, int)> := [(1, 0), (-1, 0), (0, -1), (0, 1), (1, -1), (1, 1), (-1, -1), (-1, 1)]

  /** `get_all_coords`: eight runs of four cells starting at c. */
  function AllCoords(c: (int, int)): (r: seq<seq<(int, int)>>)
    ensures |r| == 8
    ensures forall d :: 0 <= d < 8 ==> |r[d]| == 4 && r[d][0] == c
    ensures forall d, k :: 0 <= d < 8 && 0 <= k < 4 ==>
      r[d][k] == (c.0 + k * Directions[d].0, c.1 + k * Directions[d].1)
  {
    seq(8, d requires 0 <= d < 8 =>
      seq(4, k requires 0 <= k < 4 => (c.0 + k * Directions[d].0, c.1 + k * Directions[d].1)))
  }

  /** The eight runs go in eight different directions. */
  lemma DirectionsDistinct()
    ensures forall d, e :: 0 <= d < e < 8 ==> Directions[d] != Directions[e]
    ensures forall d :: 0 <= d < 8 ==> Directions[d] != (0, 0) && -1 <= Directions[d].0 <= 1 && -1 <= Directions[d].1 <= 1
  {
  }

  /** The run from `c` in direction `d` reads "XMAS". */
  predicate IsMatch(data: seq<string>, c: (int, int), d: int)
    requires Rectangular(data) && 0 <= d < 8
  {
    GetWord(data, AllCoords(c)[d]) == "XMAS"
  }

  /** The matches from `c` in the directions d.. of the list. */
  ghost function MatchSet(data: seq<string>, c: (int, int), d: int): set<((int, int), int)>
    requires Rectangular(data)
  {
    set e | d <= e < 8 && 0 <= e && IsMatch(data, c, e) :: (c, e)
  }

  /** The matches from the cells of rows y.. of column x. */
  ghost function ColumnSet(data: seq<string>, x: int, y: int): set<((int, int), int)>
    requires Rectangular(data)
  {
    set y', e | y <= y' < |data| && 0 <= e < 8 && IsMatch(data, (x, y'), e) :: ((x, y'), e)
  }

  /** The matches from the cells of columns x.. of the grid. */
  ghost function GridSet(data: seq<string>, x: int): set<((int, int), int)>
    requires Rectangular(data)
  {
    set x', y', e | x <= x' < |data[0]| && 0 <= y' < |data| && 0 <= e < 8 && IsMatch(data, (x', y'), e) :: ((x', y'), e)
  }

  /** Every occurrence of "XMAS": a start cell of the grid and one of the
      eight directions along which the run reads "XMAS". */
  ghost function Occurrences(data: seq<string>): set<((int, int), int)>
    requires Rectangular(data)
  {
    set x, y, e | 0 <= x < |data[0]| && 0 <= y < |data| && 0 <= e < 8 && IsMatch(data, (x, y), e) :: ((x, y), e)
  }

  /** How many of the eight runs from c read "XMAS": the matches from c in
      the directions d.. . */
  function MatchesFrom(data: seq<string>, c: (int, int), d: nat): (r: nat)
    requires Rectangular(data) && d <= 8
    ensures r <= 8 - d
    ensures r == |MatchSet(data, c, d)|
    decreases 8 - d
  {
    if d == 8 then
      assert MatchSet(data, c, d) == {};
      0
    else
      var rest := MatchesFrom(data, c, d + 1);
      MatchSplit(data, c, d);
      (if IsMatch(data, c, d) then 1 else 0) + rest
  }

  /** Summing over the rows y.. of column x: the matches from those cells. */
  function ColumnSum(data: seq<string>, x: int, y: nat): (r: nat)
    requires Rectangular(data) && y <= |data|
    ensures r <= 8 * (|data| - y)
    ensures r == |ColumnSet(data, x, y)|
    decreases |data| - y
  {
    if y == |data| then
      assert ColumnSet(data, x, y) == {};
      0
    else
      var here := MatchesFrom(data, (x, y), 0);
      var rest := ColumnSum(data, x, y + 1);
      ColumnSplit(data, x, y);
      here + rest
  }

  /** Summing over the columns x.. of the grid: the matches from those cells;
      `process` is GridSum from 0. */
  function GridSum(data: seq<string>, x: nat): (r: nat)
    requires Rectangular(data) && x <= |data[0]|
    ensures r <= 8 * |data| * (|data[0]| - x)
    ensures r == |GridSet(data, x)|
    decreases |data[0]| - x
  {
    if x == |data[0]| then
      assert GridSet(data, x) == {};
      0
    else
      var r := ColumnSum(data, x, 0) + GridSum(data, x + 1);
      MulStep(8 * |data|, |data[0]| - x);
      GridSplit(data, x);
      r
  }

  /** The matches from `c` in the directions d.. are the one in direction d,
      if it matches, and those in the directions after it. */
  lemma MatchSplit(data: seq<string>, c: (int, int), d: nat)
    requires Rectangular(data) && d < 8
    ensures MatchSet(data, c, d) == (if IsMatch(data, c, d) then {(c, d)} else {}) + MatchSet(data, c, d + 1)
    ensures (c, d) !in MatchSet(data, c, d + 1)
  {
    var here: set<((int, int), int)> := if IsMatch(data, c, d) then {(c, d)} else {};
    var after := MatchSet(data, c, d + 1);
    forall p | p in MatchSet(data, c, d)
      ensures p in here + after
    {
      var e :| d <= e < 8 && 0 <= e && IsMatch(data, c, e) && p == (c, e);
      if e == d {
        assert p in here;
      } else {
        assert p in after;
      }
    }
    forall p | p in here + after
      ensures p in MatchSet(data, c, d)
    {
      if p in here {
        assert p == (c, d);
      } else {
        var e :| d + 1 <= e < 8 && 0 <= e && IsMatch(data, c, e) && p == (c, e);
      }
    }
  }

  /** The matches of rows y.. of a column are those of row y and those of
      the rows below it, which start at other cells. */
  lemma ColumnSplit(data: seq<string>, x: int, y: int)
    requires Rectangular(data) && 0 <= y < |data|
    ensures ColumnSet(data, x, y) == MatchSet(data, (x, y), 0) + ColumnSet(data, x, y + 1)
    ensures MatchSet(data, (x, y), 0) * ColumnSet(data, x, y + 1) == {}
  {
    var here := MatchSet(data, (x, y), 0);
    var below := ColumnSet(data, x, y + 1);
    forall p | p in ColumnSet(data, x, y)
      ensures p in here + below
    {
      var y', e :| y <= y' < |data| && 0 <= e < 8 && IsMatch(data, (x, y'), e) && p == ((x, y'), e);
      if y' == y {
        assert p in here;
      } else {
        assert p in below;
      }
    }
    forall p | p in here + below
      ensures p in ColumnSet(data, x, y)
    {
      if p in here {
        var e :| 0 <= e < 8 && IsMatch(data, (x, y), e) && p == ((x, y), e);
      } else {
        var y', e :| y + 1 <= y' < |data| && 0 <= e < 8 && IsMatch(data, (x, y'), e) && p == ((x, y'), e);
      }
    }
    forall p | p in here
      ensures p !in below
    {
    }
  }

  /** The matches of columns x.. are those of column x and those of the
      columns right of it, which start at other cells. */
  lemma GridSplit(data: seq<string>, x: int)
    requires Rectangular(data) && 0 <= x < |data[0]|
    ensures GridSet(data, x) == ColumnSet(data, x, 0) + GridSet(data, x + 1)
    ensures ColumnSet(data, x, 0) * GridSet(data, x + 1) == {}
  {
    GridCovered(data, x);
    GridCovers(data, x);
    forall p | p in ColumnSet(data, x, 0)
      ensures p !in GridSet(data, x + 1)
    {
    }
  }

  /** Every match of columns x.. is in column x or right of it. */
  lemma GridCovered(data: seq<string>, x: int)
    requires Rectangular(data) && 0 <= x < |data[0]|
    ensures GridSet(data, x) <= ColumnSet(data, x, 0) + GridSet(data, x + 1)
  {
    forall p | p in GridSet(data, x)
      ensures p in ColumnSet(data, x, 0) + GridSet(data, x + 1)
    {
      var x', y', e :| x <= x' < |data[0]| && 0 <= y' < |data| && 0 <= e < 8 && IsMatch(data, (x', y'), e) && p == ((x', y'), e);
      if x' == x {
        assert p in ColumnSet(data, x, 0);
      } else {
        assert p in GridSet(data, x + 1);
      }
    }
  }

  /** Every match of column x and of the columns right of it is a match of
      columns x.. . */
  lemma GridCovers(data: seq<string>, x: int)
    requires Rectangular(data) && 0 <= x < |data[0]|
    ensures ColumnSet(data, x, 0) + GridSet(data, x + 1) <= GridSet(data, x)
  {
    forall p | p in ColumnSet(data, x, 0) + GridSet(data, x + 1)
      ensures p in GridSet(data, x)
    {
      if p in ColumnSet(data, x, 0) {
        var y', e :| 0 <= y' < |data| && 0 <= e < 8 && IsMatch(data, (x, y'), e) && p == ((x, y'), e);
      } else {
        var x', y', e :| x + 1 <= x' < |data[0]| && 0 <= y' < |data| && 0 <= e < 8 && IsMatch(data, (x', y'), e) && p == ((x', y'), e);
      }
    }
  }

  /** `process`: the number of occurrences of "XMAS", counting each start
      cell once per direction in which the word reads. */
  function Process(data: seq<string>): (r: nat)
    requires Rectangular(data)
    ensures r == |Occurrences(data)|
  {
    assert GridSet(data, 0) == Occurrences(data);
    GridSum(data, 0)
  }

  /** At most eight matches start at every cell. */
  lemma ProcessBound(data: seq<string>)
    requires Rectangular(data)
    ensures Process(data) <= 8 * |data[0]| * |data|
  {
    assert 8 * |data| * |data[0]| == 8 * |data[0]| * |data|;
  }

  /** A run that reads "XMAS" lies inside the grid: no match is ever made up
      from the '.' returned outside it. */
  lemma MatchIsInside(data: seq<string>, c: (int, int), d: nat)
    requires Rectangular(data) && d < 8
    requires GetWord(data, AllCoords(c)[d]) == "XMAS"
    ensures forall k :: 0 <= k < 4 ==> InGrid(data, AllCoords(c)[d][k])
  {
    forall k | 0 <= k < 4
      ensures InGrid(data, AllCoords(c)[d][k])
    {
      assert "XMAS"[k] != '.';
      WordWithoutDotIsInside(data, AllCoords(c)[d], k);
    }
  }

  /** Only cells holding 'X' start a match. */
  lemma MatchStartsWithX(data: seq<string>, c: (int, int))
    requires Rectangular(data)
    requires Get(data, c) != 'X'
    ensures MatchesFrom(data, c, 0) == 0
  {
    forall d | 0 <= d < 8
      ensures GetWord(data, AllCoords(c)[d]) != "XMAS"
    {
      assert GetWord(data, AllCoords(c)[d])[0] == Get(data, c);
    }
    NoMatchFrom(data, c, 0);
  }

  lemma {:induction false} NoMatchFrom(data: seq<string>, c: (int, int), d: nat)
    requires Rectangular(data) && d <= 8
    requires forall e :: d <= e < 8 ==> GetWord(data, AllCoords(c)[e]) != "XMAS"
    ensures MatchesFrom(data, c, d) == 0
    decreases 8 - d
  {
    if d < 8 {
      NoMatchFrom(data, c, d + 1);
    }
  }
}

=== FILE: day05_print_queue.dfy ===
/** Day 5, puzzle 1: page-ordering rules "X|Y" (X must be printed before Y)
    and updates (lists of pages). The answer sums the middle pages of the
    updates that break no rule. The input holds the rule lines, an empty
    line, and the update lines "a,b,c,...". */
module Day05PrintQueue {
  import opened Wrappers
  import opened Text
  import opened Decimal

  /** A rule "before|after". */
  datatype Rule = Rule(before: int, after: int)

  /** The pages that the rules put after `before`, in input order. */
  function Afters(pairs: seq<Rule>, before: int): (r: seq<int>)
    ensures forall a :: a in r <==> Rule(before, a) in pairs
  {
    if pairs == [] then []
    else
      var rest := Afters(pairs[..|pairs| - 1], before);
      assert forall p :: p in pairs <==> p in pairs[..|pairs| - 1] || p == pairs[|pairs| - 1] by {
        assert pairs == pairs[..|pairs| - 1] + [pairs[|pairs| - 1]];
      }
      if pairs[|pairs| - 1].before == before then rest + [pairs[|pairs| - 1].after] else rest
  }

  lemma AftersSnoc(pairs: seq<Rule>, p: Rule, b: int)
    ensures Afters(pairs + [p], b) == if p.before == b then Afters(pairs, b) + [p.after] else Afters(pairs, b)
  {
    assert (pairs + [p])[..|pairs|] == pairs;
  }

  lemma {:induction false} NoAfters(pairs: seq<Rule>, b: int)
    requires forall a :: Rule(b, a) !in pairs
    ensures Afters(pairs, b) == []
  {
    if pairs != [] {
      var last := pairs[|pairs| - 1];
      assert last in pairs;
      assert Rule(b, last.after) !in pairs;
      assert last.before != b;
      assert forall p :: p in pairs[..|pairs| - 1] ==> p in pairs;
      NoAfters(pairs[..|pairs| - 1], b);
    }
  }

  /** The pages that come first in some rule. */
  function Befores(pairs: seq<Rule>): set<int>
  {
    set p | p in pairs :: p.before
  }

  /** The rules map `OrderRules::from` builds, as a function of the rules. */
  function RuleMap(pairs: seq<Rule>): map<int, seq<int>>
  {
    map b | b in Befores(pairs) :: Afters(pairs, b)
  }

  /** `OrderRules::from`: one entry per page that appears on the left of a
      rule, holding all its right-hand pages in input order. */
  method BuildRules(pairs: seq<Rule>) returns (rules: map<int, seq<int>>)
    ensures forall b :: b in rules <==> exists a :: Rule(b, a) in pairs
    ensures forall b :: b in rules ==> rules[b] == Afters(pairs, b)
    ensures rules == RuleMap(pairs)
  {
    rules := map[];
    for i := 0 to |pairs|
      invariant forall b :: b in rules <==> exists a :: Rule(b, a) in pairs[..i]
      invariant forall b :: b in rules ==> rules[b] == Afters(pairs[..i], b)
    {
      var before, after := pairs[i].before, pairs[i].after;
      assert pairs[..i + 1][..i] == pairs[..i];
      assert pairs[..i + 1] == pairs[..i] + [pairs[i]];
      forall b
        ensures Afters(pairs[..i + 1], b) == if b == before then Afters(pairs[..i], b) + [after] else Afters(pairs[..i], b)
      {
        AftersSnoc(pairs[..i], pairs[i], b);
      }
      if before !in rules {
        NoAfters(pairs[..i], before);
        rules := rules[before := []];
      }
      assert rules[before] == Afters(pairs[..i], before);
      rules := rules[before := rules[before] + [after]];
      forall b | b !in rules
        ensures !exists a :: Rule(b, a) in pairs[..i + 1]
      {
        assert !exists a :: Rule(b, a) in pairs[..i];
      }
      assert Rule(before, after) in pairs[..i + 1];
    }
    assert pairs[..|pairs|] == pairs;
    RuleMapIs(pairs, rules);
  }

  /** A map with the keys and entries `BuildRules` promises is `RuleMap`. */
  lemma RuleMapIs(pairs: seq<Rule>, rules: map<int, seq<int>>)
    requires forall b :: b in rules <==> exists a :: Rule(b, a) in pairs
    requires forall b :: b in rules ==> rules[b] == Afters(pairs, b)
    ensures rules == RuleMap(pairs)
  {
    forall b
      ensures b in rules <==> b in Befores(pairs)
    {
      if b in rules {
        var a :| Rule(b, a) in pairs;
        assert Rule(b, a).before == b;
      }
      if b in Befores(pairs) {
        var p :| p in pairs && p.before == b;
        assert Rule(b, p.after) == p;
      }
    }
  }

  /** The page at `index` has a rule whose later page was printed before
      it. */
  predicate ViolatedAt(rules: map<int, seq<int>>, pages: seq<int>, index: nat)
    requires index < |pages|
  {
    pages[index] in rules && exists a :: a in rules[pages[index]] && a in pages[..index]
  }

  /** `is_order_valid`: the first violating page answers false. */
  method IsOrderValid(rules: map<int, seq<int>>, pages: seq<int>) returns (valid: bool)
    ensures valid <==> forall i :: 0 <= i < |pages| ==> !ViolatedAt(rules, pages, i)
  {
    for index := 0 to |pages|
      invariant forall i :: 0 <= i < index ==> !ViolatedAt(rules, pages, i)
    {
      var page := pages[index];
      if page in rules {
        var prevPages := pages[..index];
        var ruleSet := rules[page];
        var orderViolation := exists a :: a in ruleSet && a in prevPages;
        if orderViolation {
          assert ViolatedAt(rules, pages, index);
          return false;
        }
      }
    }
    return true;
  }

  /** The ordered-ness of an update as a function of the rules themselves. */
  predicate Ordered(pairs: seq<Rule>, pages: seq<int>)
  {
    forall i, j :: 0 <= i < j < |pages| ==> Rule(pages[j], pages[i]) !in pairs
  }

  /** A rule "X|Y" is found under X in the built rules. */
  lemma RuleLookup(pairs: seq<Rule>, rules: map<int, seq<int>>, x: int, y: int)
    requires forall b :: b in rules <==> exists a :: Rule(b, a) in pairs
    requires forall b :: b in rules ==> rules[b] == Afters(pairs, b)
    requires Rule(x, y) in pairs
    ensures x in rules && y in rules[x]
  {
    assert exists a :: Rule(x, a) in pairs;
  }

  /** The check with the built rules is exactly: no rule "X|Y" has Y printed
      somewhere before X. */
  lemma ValidIffOrdered(pairs: seq<Rule>, rules: map<int, seq<int>>, pages: seq<int>)
    requires forall b :: b in rules <==> exists a :: Rule(b, a) in pairs
    requires forall b :: b in rules ==> rules[b] == Afters(pairs, b)
    ensures (forall i :: 0 <= i < |pages| ==> !ViolatedAt(rules, pages, i)) <==> Ordered(pairs, pages)
  {
    if forall i :: 0 <= i < |pages| ==> !ViolatedAt(rules, pages, i) {
      forall i, j | 0 <= i < j < |pages|
        ensures Rule(pages[j], pages[i]) !in pairs
      {
        assert !ViolatedAt(rules, pages, j);
        assert pages[i] in pages[..j];
        if pages[j] in rules {
          assert !exists a :: a in rules[pages[j]] && a in pages[..j];
          assert pages[i] !in rules[pages[j]];
        } else {
          assert forall a :: Rule(pages[j], a) !in pairs;
        }
      }
    }
    if Ordered(pairs, pages) {
      forall j | 0 <= j < |pages| && pages[j] in rules
        ensures forall a :: a in rules[pages[j]] ==> a !in pages[..j]
      {
        forall a | a in rules[pages[j]]
          ensures a !in pages[..j]
        {
          forall i | 0 <= i < j
            ensures pages[i] != a
          {
            assert Rule(pages[j], pages[i]) !in pairs;
          }
        }
      }
    }
  }

  /** Without rules, and with fewer than two pages, every update is
      valid. */
  lemma TrivialUpdatesValid(rules: map<int, seq<int>>, pages: seq<int>)
    requires rules == map[] || |pages| < 2
    ensures forall i :: 0 <= i < |pages| ==> !ViolatedAt(rules, pages, i)
  {
    forall i | 0 <= i < |pages|
      ensures !ViolatedAt(rules, pages, i)
    {
      if |pages| < 2 {
        assert pages[..i] == [];
      }
    }
  }

  /** `middle_page`: an even number of pages (also none) has no middle. */
  function MiddlePage(pages: seq<int>): (r: Result<int>)
    ensures r.Ok? <==> |pages| % 2 == 1
    ensures r.Ok? ==> exists k :: 0 <= k < |pages| && r.value == pages[k] && |pages[..k]| == |pages[k + 1..]|
  {
    if |pages| % 2 == 0 then Err("Page set has even number of pages. There is no middle page")
    else
      var k := |pages| / 2;
      assert |pages[..k]| == |pages[k + 1..]|;
      Ok(pages[k])
  }

  function Valid(rules: map<int, seq<int>>, pages: seq<int>): bool
  {
    forall i :: 0 <= i < |pages| ==> !ViolatedAt(rules, pages, i)
  }

  /** `process` after parsing: the middle pages of the valid updates, summed;
      a valid update without a middle page aborts. */
  function SumOfMiddles(rules: map<int, seq<int>>, updates: seq<seq<int>>): (r: Result<int>)
  {
    if updates == [] then Ok(0)
    else if Valid(rules, updates[0]) then
      var middle :- MiddlePage(updates[0]);
      var rest :- SumOfMiddles(rules, updates[1..]);
      Ok(middle + rest)
    else SumOfMiddles(rules, updates[1..])
  }

  /** Invalid updates are skipped whatever their length; only valid ones
      contribute, each with its middle page. */
  lemma {:induction false} SumCountsOnlyValid(rules: map<int, seq<int>>, updates: seq<seq<int>>)
    ensures SumOfMiddles(rules, updates).Ok? <==>
      forall i :: 0 <= i < |updates| && Valid(rules, updates[i]) ==> |updates[i]| % 2 == 1
    ensures (forall i :: 0 <= i < |updates| ==> !Valid(rules, updates[i])) ==> SumOfMiddles(rules, updates) == Ok(0)
  {
    if updates != [] {
      SumCountsOnlyValid(rules, updates[1..]);
      assert forall i :: 1 <= i < |updates| ==> updates[i] == updates[1..][i - 1];
    }
  }

  /** The example of the puzzle statement: its three valid updates have
      middles 61, 53 and 29. */
  lemma ExampleMiddles()
    ensures MiddlePage([75, 47, 61, 53, 29]) == Ok(61)
    ensures MiddlePage([97, 61, 53, 29, 13]) == Ok(53)
    ensures MiddlePage([75, 29, 13]) == Ok(29)
  {
  }

  /** A rule line `before|after`: the first two pieces around `|`, each read
      by `parse::<i64>`; a missing piece or a bad number panics. */
  function ParseRule(line: string): (r: Result<Rule>)
    ensures r.Ok? <==> (|SplitOn(line, "|")| >= 2
      && ParseI64(SplitOn(line, "|")[0]).Ok? && ParseI64(SplitOn(line, "|")[1]).Ok?)
  {
    var pieces := SplitOn(line, "|");
    if |pieces| < 2 then Err("rule without a second page")
    else
      var before :- ParseI64(pieces[0]);
      var after :- ParseI64(pieces[1]);
      Ok(Rule(before, after))
  }

  /** A rule written out as `before|after` is read back. */
  lemma ParseRuleShow(rule: Rule)
    ensures ParseRule(ShowInt(rule.before) + "|" + ShowInt(rule.after)) == Ok(rule)
  {
    var a, b := ShowInt(rule.before), ShowInt(rule.after);
    SplitJoin([a, b], "|");
    assert Join([a, b], "|") == a + "|" + b;
    ParseI64Show(rule.before);
    ParseI64Show(rule.after);
  }

  /** Every rule line read, or the first failure. */
  function ParseRules(lines: seq<string>): (r: Result<seq<Rule>>)
    ensures r.Ok? <==> forall i :: 0 <= i < |lines| ==> ParseRule(lines[i]).Ok?
    ensures r.Ok? ==> |r.value| == |lines| && forall i :: 0 <= i < |lines| ==> ParseRule(lines[i]) == Ok(r.value[i])
  {
    if lines == [] then Ok([])
    else
      var first :- ParseRule(lines[0]);
      var rest :- ParseRules(lines[1..]);
      assert forall i :: 1 <= i < |lines| ==> lines[i] == lines[1..][i - 1];
      Ok([first] + rest)
  }

  /** `PrintUpdate::from`: every piece around `,` read by `parse::<i64>`. */
  function ParseUpdate(line: string): (r: Result<seq<int>>)
    ensures r.Ok? ==> forall i :: 0 <= i < |SplitOn(line, ",")| ==> ParseI64(SplitOn(line, ",")[i]).Ok?
    ensures (forall i :: 0 <= i < |SplitOn(line, ",")| ==> ParseI64(SplitOn(line, ",")[i]).Ok?) ==> r.Ok?
    ensures r.Ok? ==> |r.value| == |SplitOn(line, ",")| >= 1
  {
    var pieces := SplitOn(line, ",");
    var r := ParseI64s(pieces);
    assert r.Ok? <==> forall i :: 0 <= i < |pieces| ==> ParseI64(pieces[i]).Ok?;
    r
  }

  /** An update written out with commas is read back. */
  lemma ParseUpdateShow(pages: seq<int>)
    requires |pages| >= 1
    ensures ParseUpdate(Join(ShowInts(pages), ",")) == Ok(pages)
  {
    SplitJoin(ShowInts(pages), ",");
    ParseI64sShow(pages);
  }

  /** Every update line read, or the first failure. */
  function ParseUpdates(lines: seq<string>): (r: Result<seq<seq<int>>>)
    ensures r.Ok? <==> forall i :: 0 <= i < |lines| ==> ParseUpdate(lines[i]).Ok?
    ensures r.Ok? ==> |r.value| == |lines| && forall i :: 0 <= i < |lines| ==> ParseUpdate(lines[i]) == Ok(r.value[i])
  {
    if lines == [] then Ok([])
    else
      var first :- ParseUpdate(lines[0]);
      var rest :- ParseUpdates(lines[1..]);
      assert forall i :: 1 <= i < |lines| ==> lines[i] == lines[1..][i - 1];
      Ok([first] + rest)
  }

  /** `process`: the rule block and the update block, split at empty lines;
      then the middle pages of the valid updates summed. A missing block, a
      line that does not parse and a valid update without a middle page are
      panics of the source. */
  method Process(lines: seq<string>) returns (r: Result<int>)
    ensures |SplitBlocks(lines)| < 2 ==> r.Err?
    ensures |SplitBlocks(lines)| >= 2 ==>
      var pairs, updates := ParseRules(SplitBlocks(lines)[0]), ParseUpdates(SplitBlocks(lines)[1]);
      if pairs.Err? || updates.Err? then r.Err?
      else r == SumOfMiddles(RuleMap(pairs.value), updates.value)
  {
    var blocks := SplitBlocks(lines);
    if |blocks| < 2 {
      return Err("no update block");
    }
    var pairs :- ParseRules(blocks[0]);
    var updates :- ParseUpdates(blocks[1]);
    var rules := BuildRules(pairs);
    r := SumOfMiddles(rules, updates);
  }
}

=== FILE: day06_guard.dfy ===
/** Day 6, both puzzles: the lab map and the guard who walks straight ahead
    until the cell in front of it is an obstacle, then turns right. One
    `walk` covers a whole straight stretch. */
module Day06Guard {
  import opened Wrappers

  datatype Pos = Pos(x: nat, y: nat)

  datatype Direction = Up | Down | Left | Right

  /** `Direction::from`: the guard markers. */
  function DirectionFrom(marker: char): (r: Result<Direction>)
    ensures r.Ok? <==> marker in {'^', 'V', '<', '>'}
  {
    match marker
    case '^' => Ok(Up)
    case 'V' => Ok(Down)
    case '<' => Ok(Left)
    case '>' => Ok(Right)
    case _ => Err("not a valid direction marker")
  }

  /** `Direction::next`: a quarter turn to the right. */
  function Next(d: Direction): (r: Direction)
    ensures r != d
  {
    match d
    case Up => Right
    case Right => Down
    case Down => Left
    case Left => Up
  }

  /** Four right turns face the guard the way it started. */
  lemma FourTurnsAreIdentity(d: Direction)
    ensures Next(Next(Next(Next(d)))) == d
    ensures Next(Next(d)) != d
  {
  }

  /** The guard: where it stands and where it faces. */
  datatype Guard = Guard(pos: Pos, dir: Direction)

  /** A walk: the stretch from the old to the new coordinate along one
      axis, and the coordinate on the other axis. */
  datatype Walk = HorizontalRange(from: nat, to: nat, fixed: nat) | VerticalRange(from: nat, to: nat, fixed: nat)

  /** Obstacles in the guard's line of sight, by their coordinate along the
      direction of travel. */
  function Blockers(obstacles: set<Pos>, pos: Pos, d: Direction): set<nat>
  {
    match d
    case Up => set o | o in obstacles && o.x == pos.x && o.y < pos.y :: o.y
    case Down => set o | o in obstacles && o.x == pos.x && o.y > pos.y :: o.y
    case Left => set o | o in obstacles && o.y == pos.y && o.x < pos.x :: o.x
    case Right => set o | o in obstacles && o.y == pos.y && o.x > pos.x :: o.x
  }

  ghost function SetMax(s: set<nat>): (m: nat)
    requires s != {}
    ensures m in s && forall k :: k in s ==> k <= m
  {
    var k :| k in s;
    if s == {k} then k
    else
      var m := SetMax(s - {k});
      assert forall j :: j in s ==> j == k || j in s - {k};
      if k > m then k else m
  }

  ghost function SetMin(s: set<nat>): (m: nat)
    requires s != {}
    ensures m in s && forall k :: k in s ==> m <= k
  {
    var k :| k in s;
    if s == {k} then k
    else
      var m := SetMin(s - {k});
      assert forall j :: j in s ==> j == k || j in s - {k};
      if k < m then k else m
  }

  /** The nearest obstacle ahead: the largest blocker when walking towards
      smaller coordinates, the smallest otherwise. */
  ghost function Nearest(obstacles: set<Pos>, pos: Pos, d: Direction): Option<nat>
  {
    var b := Blockers(obstacles, pos, d);
    if b == {} then None
    else if d == Up || d == Left then Some(SetMax(b))
    else Some(SetMin(b))
  }

  /** Where one walk ends: just before the nearest obstacle, or at 0 or the
      maximum coordinate when nothing is in the way. */
  ghost function Destination(obstacles: set<Pos>, maxPos: Pos, pos: Pos, d: Direction): Pos
  {
    var n := Nearest(obstacles, pos, d);
    match d
    case Up => Pos(pos.x, if n.Some? then n.value + 1 else 0)
    case Down => Pos(pos.x, if n.Some? && n.value >= 1 then n.value - 1 else maxPos.y)
    case Left => Pos(if n.Some? then n.value + 1 else 0, pos.y)
    case Right => Pos(if n.Some? && n.value >= 1 then n.value - 1 else maxPos.x, pos.y)
  }

  /** The value `walk` returns: vertical when x did not change (also when
      the guard did not move at all), horizontal otherwise. */
  function WalkOf(from: Pos, to: Pos): (w: Walk)
    ensures from.x == to.x ==> w == VerticalRange(from.y, to.y, to.x)
    ensures from.x != to.x ==> w == HorizontalRange(from.x, to.x, to.y)
  {
    if from.x == to.x then VerticalRange(from.y, to.y, to.x) else HorizontalRange(from.x, to.x, to.y)
  }

  /** Whether a walk ended on the border of the known area. */
  predicate AtEdge(w: Walk, maxPos: Pos)
  {
    match w
    case HorizontalRange(_, to, _) => to == 0 || to == maxPos.x
    case VerticalRange(_, to, _) => to == 0 || to == maxPos.y
  }

  /** A walk moves along one axis only, never through an obstacle, and stops
      in front of the nearest obstacle or at the border. */
  lemma DestinationStopsAtObstacle(obstacles: set<Pos>, maxPos: Pos, pos: Pos, d: Direction)
    ensures var t := Destination(obstacles, maxPos, pos, d);
      (d == Up || d == Down ==> t.x == pos.x) && (d == Left || d == Right ==> t.y == pos.y)
    ensures var t := Destination(obstacles, maxPos, pos, d);
      d == Up ==> (t.y <= pos.y && (forall k: nat :: t.y <= k < pos.y ==> Pos(pos.x, k) !in obstacles)
                   && (t.y > 0 ==> Pos(pos.x, t.y - 1) in obstacles))
    ensures var t := Destination(obstacles, maxPos, pos, d);
      d == Left ==> (t.x <= pos.x && (forall k: nat :: t.x <= k < pos.x ==> Pos(k, pos.y) !in obstacles)
                     && (t.x > 0 ==> Pos(t.x - 1, pos.y) in obstacles))
    ensures var t := Destination(obstacles, maxPos, pos, d);
      d == Down && Nearest(obstacles, pos, d).Some? ==>
        (pos.y <= t.y && (forall k: nat :: pos.y < k <= t.y ==> Pos(pos.x, k) !in obstacles)
         && Pos(pos.x, t.y + 1) in obstacles)
    ensures var t := Destination(obstacles, maxPos, pos, d);
      d == Right && Nearest(obstacles, pos, d).Some? ==>
        (pos.x <= t.x && (forall k: nat :: pos.x < k <= t.x ==> Pos(k, pos.y) !in obstacles)
         && Pos(t.x + 1, pos.y) in obstacles)
    ensures var t := Destination(obstacles, maxPos, pos, d);
      (d == Down || d == Right) && Nearest(obstacles, pos, d).None? ==>
        (d == Down ==> t.y == maxPos.y && forall k: nat :: pos.y < k ==> Pos(pos.x, k) !in obstacles)
        && (d == Right ==> t.x == maxPos.x && forall k: nat :: pos.x < k ==> Pos(k, pos.y) !in obstacles)
  {
    var b := Blockers(obstacles, pos, d);
    match d {
      case Up =>
        forall k: nat | k < pos.y && Pos(pos.x, k) in obstacles
          ensures k in b
        {
        }
        if b != {} {
          var m := SetMax(b);
          var o :| o in obstacles && o.x == pos.x && o.y < pos.y && o.y == m;
          assert o == Pos(pos.x, m);
        }
      case Left =>
        forall k: nat | k < pos.x && Pos(k, pos.y) in obstacles
          ensures k in b
        {
        }
        if b != {} {
          var m := SetMax(b);
          var o :| o in obstacles && o.y == pos.y && o.x < pos.x && o.x == m;
          assert o == Pos(m, pos.y);
        }
      case Down =>
        forall k: nat | k > pos.y && Pos(pos.x, k) in obstacles
          ensures k in b
        {
        }
        if b != {} {
          var m := SetMin(b);
          var o :| o in obstacles && o.x == pos.x && o.y > pos.y && o.y == m;
          assert o == Pos(pos.x, m);
        }
      case Right =>
        forall k: nat | k > pos.x && Pos(k, pos.y) in obstacles
          ensures k in b
        {
        }
        if b != {} {
          var m := SetMin(b);
          var o :| o in obstacles && o.y == pos.y && o.x > pos.x && o.x == m;
          assert o == Pos(m, pos.y);
        }
    }
  }

  /** One `walk` on the guard alone: to the destination, then turned right. */
  ghost function Step(obstacles: set<Pos>, maxPos: Pos, g: Guard): Guard
  {
    Guard(Destination(obstacles, maxPos, g.pos, g.dir), Next(g.dir))
  }

  /** The walk that one step produces. */
  ghost function WalkFrom(obstacles: set<Pos>, maxPos: Pos, g: Guard): Walk
  {
    WalkOf(g.pos, Step(obstacles, maxPos, g).pos)
  }

  /** Inside the box spanned by (0, 0) and `maxPos`. */
  predicate InBox(p: Pos, maxPos: Pos)
  {
    p.x <= maxPos.x && p.y <= maxPos.y
  }

  /** The destination lies on the border of the box in the direction of
      travel: one more step would leave the known area. */
  predicate AtBorder(d: Direction, t: Pos, maxPos: Pos)
  {
    match d
    case Up => t.y == 0
    case Down => t.y == maxPos.y
    case Left => t.x == 0
    case Right => t.x == maxPos.x
  }

  /** When every obstacle lies in the box, a guard in the box stays in it,
      and a walk ends on the border of the box in its direction exactly when
      no obstacle is ahead of it. */
  lemma StepStaysInBox(obstacles: set<Pos>, maxPos: Pos, g: Guard)
    requires forall o :: o in obstacles ==> InBox(o, maxPos)
    requires InBox(g.pos, maxPos)
    ensures InBox(Step(obstacles, maxPos, g).pos, maxPos)
    ensures AtBorder(g.dir, Step(obstacles, maxPos, g).pos, maxPos) <==> Nearest(obstacles, g.pos, g.dir).None?
  {
    var b := Blockers(obstacles, g.pos, g.dir);
    if b != {} {
      var m := if g.dir == Up || g.dir == Left then SetMax(b) else SetMin(b);
      BlockersAhead(obstacles, g.pos, g.dir);
      var o :| o in obstacles && Ahead(o, g.pos, g.dir) && Along(o, g.dir) == m;
      assert InBox(o, maxPos);
    }
  }

  /** The map whose guard `walk` moves in place. */
  class Map {
    var obstacles: set<Pos>
    var guardPos: Pos
    var guardDir: Direction
    var maxPos: Pos

    function GuardState(): Guard
      reads this
    {
      Guard(guardPos, guardDir)
    }

    constructor (obstacles: set<Pos>, guardPos: Pos, guardDir: Direction, maxPos: Pos)
      ensures this.obstacles == obstacles && this.guardPos == guardPos
      ensures this.guardDir == guardDir && this.maxPos == maxPos
    {
      this.obstacles := obstacles;
      this.guardPos := guardPos;
      this.guardDir := guardDir;
      this.maxPos := maxPos;
    }

    /** `Map::from_map`: a copy of another map's guard and bounds, with its
        obstacles plus one more. */
    constructor FromMap(other: Map, newObs: Pos)
      ensures obstacles == other.obstacles + {newObs}
      ensures guardPos == other.guardPos && guardDir == other.guardDir && maxPos == other.maxPos
    {
      var copied: set<Pos> := {};
      var rest := other.obstacles;
      while rest != {}
        invariant copied + rest == other.obstacles
        decreases rest
      {
        var o :| o in rest;
        copied := copied + {o};
        rest := rest - {o};
      }
      obstacles := copied + {newObs};
      guardPos := other.guardPos;
      guardDir := other.guardDir;
      maxPos := other.maxPos;
    }

    /** `Map::walk`: moves the guard to the end of its straight stretch and
        turns it right; only the guard changes. */
    method Walk() returns (w: Walk)
      modifies this
      ensures guardPos == Destination(obstacles, maxPos, old(guardPos), old(guardDir))
      ensures guardDir == Next(old(guardDir))
      ensures obstacles == old(obstacles) && maxPos == old(maxPos)
      ensures w == WalkOf(old(guardPos), guardPos)
      ensures GuardState() == Step(obstacles, maxPos, old(GuardState()))
      ensures w == WalkFrom(obstacles, maxPos, old(GuardState()))
    {
      var oldPos := guardPos;
      var obs := FindNearest(obstacles, oldPos, guardDir);
      var newPos: Pos;
      match guardDir {
        case Up =>
          newPos := Pos(oldPos.x, if obs.Some? then obs.value + 1 else 0);
        case Down =>
          newPos := Pos(oldPos.x, if obs.Some? && obs.value >= 1 then obs.value - 1 else maxPos.y);
        case Left =>
          newPos := Pos(if obs.Some? then obs.value + 1 else 0, oldPos.y);
        case Right =>
          newPos := Pos(if obs.Some? && obs.value >= 1 then obs.value - 1 else maxPos.x, oldPos.y);
      }
      guardPos := newPos;
      guardDir := Next(guardDir);
      if oldPos.x == newPos.x {
        w := VerticalRange(oldPos.y, newPos.y, newPos.x);
      } else {
        w := HorizontalRange(oldPos.x, newPos.x, newPos.y);
      }
    }
  }

  /** Whether o is in the line of sight, and its coordinate along it. */
  predicate Ahead(o: Pos, pos: Pos, d: Direction)
  {
    match d
    case Up => o.x == pos.x && o.y < pos.y
    case Down => o.x == pos.x && o.y > pos.y
    case Left => o.y == pos.y && o.x < pos.x
    case Right => o.y == pos.y && o.x > pos.x
  }

  function Along(o: Pos, d: Direction): nat
  {
    if d == Up || d == Down then o.y else o.x
  }

  lemma BlockersAhead(obstacles: set<Pos>, pos: Pos, d: Direction)
    ensures forall k :: k in Blockers(obstacles, pos, d) <==> exists o :: o in obstacles && Ahead(o, pos, d) && Along(o, d) == k
  {
  }

  /** The filter-and-max (or min) of `walk` over the obstacle set. */
  method FindNearest(obstacles: set<Pos>, pos: Pos, d: Direction) returns (r: Option<nat>)
    ensures r == Nearest(obstacles, pos, d)
  {
    var wantMax := d == Up || d == Left;
    r := None;
    var rest := obstacles;
    while rest != {}
      invariant rest <= obstacles
      invariant r.None? ==> forall o :: o in obstacles - rest ==> !Ahead(o, pos, d)
      invariant r.Some? ==> exists o :: o in obstacles && Ahead(o, pos, d) && Along(o, d) == r.value
      invariant r.Some? && wantMax ==> forall o :: o in obstacles - rest && Ahead(o, pos, d) ==> Along(o, d) <= r.value
      invariant r.Some? && !wantMax ==> forall o :: o in obstacles - rest && Ahead(o, pos, d) ==> r.value <= Along(o, d)
      decreases rest
    {
      var o :| o in rest;
      if Ahead(o, pos, d) {
        var k := Along(o, d);
        if r.None? || (wantMax && k > r.value) || (!wantMax && k < r.value) {
          r := Some(k);
        }
      }
      rest := rest - {o};
    }
    BlockersAhead(obstacles, pos, d);
    var b := Blockers(obstacles, pos, d);
    if r.Some? {
      assert r.value in b;
      if wantMax {
        assert SetMax(b) == r.value;
      } else {
        assert SetMin(b) == r.value;
      }
    } else {
      assert b == {};
    }
  }

  /** `max_by_key` over the obstacles for each axis; there is none without
      obstacles. Not the grid size: the largest obstacle coordinates. */
  method MaxPos(obstacles: set<Pos>) returns (r: Result<Pos>)
    ensures r.Err? <==> obstacles == {}
    ensures r.Ok? ==> (exists o :: o in obstacles && o.x == r.value.x) && (exists o :: o in obstacles && o.y == r.value.y)
    ensures r.Ok? ==> forall o :: o in obstacles ==> o.x <= r.value.x && o.y <= r.value.y
  {
    if obstacles == {} {
      return Err("no obstacles");
    }
    var first :| first in obstacles;
    var mx, my := first.x, first.y;
    var rest := obstacles - {first};
    while rest != {}
      invariant rest <= obstacles
      invariant (exists o :: o in obstacles && o.x == mx) && (exists o :: o in obstacles && o.y == my)
      invariant forall o :: o in obstacles - rest ==> o.x <= mx && o.y <= my
      decreases rest
    {
      var o :| o in rest;
      if o.x > mx {
        mx := o.x;
      }
      if o.y > my {
        my := o.y;
      }
      rest := rest - {o};
    }
    r := Ok(Pos(mx, my));
  }

  /** A cell of the input lines. */
  predicate InLines(lines: seq<string>, p: Pos)
  {
    p.y < |lines| && p.x < |lines[p.y]|
  }

  /** A cell the row-by-row scan has passed before reaching (row, col). */
  predicate Scanned(lines: seq<string>, p: Pos, row: nat, col: nat)
  {
    InLines(lines, p) && (p.y < row || (p.y == row && p.x < col))
  }

  /** Every character but '#' and '.' is taken for the guard. */
  predicate IsMarker(c: char)
  {
    c != '#' && c != '.'
  }

  /** q comes after p in reading order. */
  predicate Later(q: Pos, p: Pos)
  {
    q.y > p.y || (q.y == p.y && q.x > p.x)
  }

  /** The guard after scanning up to (row, col): the last marker seen, or
      the default guard at (0, 0) facing right when there was none. */
  ghost predicate GuardFound(lines: seq<string>, g: Guard, row: nat, col: nat)
  {
    (g == Guard(Pos(0, 0), Right) && forall p :: Scanned(lines, p, row, col) ==> !IsMarker(lines[p.y][p.x]))
    || (Scanned(lines, g.pos, row, col) && DirectionFrom(lines[g.pos.y][g.pos.x]) == Ok(g.dir)
        && forall p :: Scanned(lines, p, row, col) && Later(p, g.pos) ==> !IsMarker(lines[p.y][p.x]))
  }

  /** `Map::from`: '#' cells are obstacles, the last marker is the guard,
      and the bounds are the largest obstacle coordinates. A marker that is
      not a direction, or a map without obstacles, makes the source panic. */
  method FromLines(lines: seq<string>) returns (r: Result<Map>)
    ensures r.Err? <==> (exists p :: InLines(lines, p) && IsMarker(lines[p.y][p.x]) && DirectionFrom(lines[p.y][p.x]).Err?)
                        || (forall p :: InLines(lines, p) ==> lines[p.y][p.x] != '#')
    ensures r.Ok? ==> fresh(r.value)
    ensures r.Ok? ==> forall p :: p in r.value.obstacles <==> InLines(lines, p) && lines[p.y][p.x] == '#'
    ensures r.Ok? ==> GuardFound(lines, r.value.GuardState(), |lines|, 0)
    ensures r.Ok? ==> forall o :: o in r.value.obstacles ==> InBox(o, r.value.maxPos)
    ensures r.Ok? ==> (exists o :: o in r.value.obstacles && o.x == r.value.maxPos.x)
                      && (exists o :: o in r.value.obstacles && o.y == r.value.maxPos.y)
  {
    var obstacles: set<Pos> := {};
    var guard := Guard(Pos(0, 0), Right);
    for row := 0 to |lines|
      invariant forall p :: p in obstacles <==> Scanned(lines, p, row, 0) && lines[p.y][p.x] == '#'
      invariant GuardFound(lines, guard, row, 0)
      invariant forall p :: Scanned(lines, p, row, 0) && IsMarker(lines[p.y][p.x]) ==> DirectionFrom(lines[p.y][p.x]).Ok?
    {
      var line := lines[row];
      for column := 0 to |line|
        invariant forall p :: p in obstacles <==> Scanned(lines, p, row, column) && lines[p.y][p.x] == '#'
        invariant GuardFound(lines, guard, row, column)
        invariant forall p :: Scanned(lines, p, row, column) && IsMarker(lines[p.y][p.x]) ==> DirectionFrom(lines[p.y][p.x]).Ok?
      {
        var here := Pos(column, row);
        var c := line[column];
        if c == '#' {
          obstacles := obstacles + {here};
        } else if c != '.' {
          var d := DirectionFrom(c);
          if d.Err? {
            assert InLines(lines, here);
            return Err(d.error);
          }
          guard := Guard(here, d.value);
        }
      }
      assert forall p :: Scanned(lines, p, row, |line|) <==> Scanned(lines, p, row + 1, 0);
    }
    assert forall p :: InLines(lines, p) <==> Scanned(lines, p, |lines|, 0);
    var maxPos := MaxPos(obstacles);
    if maxPos.Err? {
      return Err(maxPos.error);
    }
    var parsed := new Map(obstacles, guard.pos, guard.dir, maxPos.value);
    return Ok(parsed);
  }
}

=== FILE: day06_loops.dfy ===
/** Day 6, puzzle 2: count the cells where one extra obstacle makes the
    guard walk in a loop. */
module Day06Loops {
  import opened Wrappers
  import opened Day06Guard
  import opened Day06Patrol
  import opened Day06Orbits

  /** `has_loop` on the guard alone: true at the first walk equal to a
      recorded one, false at the first other walk that ends on the border
      of its axis; None when `fuel` walks decide nothing. */
  ghost function LoopCheck(obstacles: set<Pos>, maxPos: Pos, g: Guard, seen: set<Walk>, fuel: nat): Option<bool>
    decreases fuel
  {
    if fuel == 0 then None
    else
      var w := WalkFrom(obstacles, maxPos, g);
      if w in seen then Some(true)
      else if AtEdge(w, maxPos) then Some(false)
      else LoopCheck(obstacles, maxPos, Step(obstacles, maxPos, g), seen + {w}, fuel - 1)
  }

  /** A recorded walk ends the check with a loop. */
  lemma LoopCheckSeen(obstacles: set<Pos>, maxPos: Pos, g: Guard, seen: set<Walk>, fuel: nat)
    requires fuel > 0 && WalkFrom(obstacles, maxPos, g) in seen
    ensures LoopCheck(obstacles, maxPos, g, seen, fuel) == Some(true)
  {
  }

  /** A new walk ending on the border ends the check without a loop. */
  lemma LoopCheckEdge(obstacles: set<Pos>, maxPos: Pos, g: Guard, seen: set<Walk>, fuel: nat)
    requires fuel > 0 && WalkFrom(obstacles, maxPos, g) !in seen && AtEdge(WalkFrom(obstacles, maxPos, g), maxPos)
    ensures LoopCheck(obstacles, maxPos, g, seen, fuel) == Some(false)
  {
  }

  /** Any other walk is recorded and the check goes on from the next guard. */
  lemma LoopCheckAdvance(obstacles: set<Pos>, maxPos: Pos, g: Guard, seen: set<Walk>, fuel: nat, w: Walk, next: Guard,
                         verdict: Option<bool>)
    requires fuel > 0 && w == WalkFrom(obstacles, maxPos, g) && next == Step(obstacles, maxPos, g)
    requires w !in seen && !AtEdge(w, maxPos)
    requires LoopCheck(obstacles, maxPos, g, seen, fuel) == verdict
    ensures LoopCheck(obstacles, maxPos, next, seen + {w}, fuel - 1) == verdict
  {
  }

  /** One pass of the `has_loop` loop: one walk, then the repeat test and
      the border test; `None` when the loop goes on with `w` recorded. */
  method CheckWalk(lab: Map, ranges: set<Walk>, ghost fuel: nat, ghost verdict: Option<bool>) returns (decided: Option<bool>, w: Walk)
    requires fuel > 0 && LoopCheck(lab.obstacles, lab.maxPos, lab.GuardState(), ranges, fuel) == verdict
    modifies lab
    ensures lab.obstacles == old(lab.obstacles) && lab.maxPos == old(lab.maxPos)
    ensures lab.GuardState() == Step(lab.obstacles, lab.maxPos, old(lab.GuardState()))
    ensures decided.Some? ==> decided == verdict
    ensures decided.None? ==> LoopCheck(lab.obstacles, lab.maxPos, lab.GuardState(), ranges + {w}, fuel - 1) == verdict
  {
    ghost var g := lab.GuardState();
    w := lab.Walk();
    ghost var next := lab.GuardState();
    assert w == WalkFrom(lab.obstacles, lab.maxPos, g) && next == Step(lab.obstacles, lab.maxPos, g);
    if w in ranges {
      LoopCheckSeen(lab.obstacles, lab.maxPos, g, ranges, fuel);
      return Some(true), w;
    }
    if AtEdge(w, lab.maxPos) {
      LoopCheckEdge(lab.obstacles, lab.maxPos, g, ranges, fuel);
      return Some(false), w;
    }
    LoopCheckAdvance(lab.obstacles, lab.maxPos, g, ranges, fuel, w, next, verdict);
    decided := None;
  }

  /** `Map::has_loop`: walks the guard of `lab`, recording the walks. */
  method HasLoop(lab: Map, fuel: nat) returns (r: Result<bool>)
    modifies lab
    ensures r.Ok? <==> LoopCheck(old(lab.obstacles), old(lab.maxPos), old(lab.GuardState()), {}, fuel).Some?
    ensures r.Ok? ==> r.value == LoopCheck(old(lab.obstacles), old(lab.maxPos), old(lab.GuardState()), {}, fuel).value
    ensures lab.obstacles == old(lab.obstacles) && lab.maxPos == old(lab.maxPos)
  {
    ghost var obstacles, maxPos := lab.obstacles, lab.maxPos;
    ghost var verdict := LoopCheck(obstacles, maxPos, lab.GuardState(), {}, fuel);
    var ranges: set<Walk> := {};
    var left: nat := fuel;
    var decided: Option<bool> := None;
    ghost var g := lab.GuardState();
    while decided.None? && left > 0
      invariant lab.obstacles == obstacles && lab.maxPos == maxPos && lab.GuardState() == g
      invariant decided.None? ==> LoopCheck(obstacles, maxPos, g, ranges, left) == verdict
      invariant decided.Some? ==> decided == verdict
      decreases left
    {
      var walk;
      decided, walk := CheckWalk(lab, ranges, left, verdict);
      left, ranges := left - 1, ranges + {walk};
      g := lab.GuardState();
    }
    if decided.None? {
      return Err("the guard is still walking");
    }
    return Ok(decided.value);
  }

  /** A verdict of no loop means the guard's patrol of puzzle 1 finishes,
      and within the same number of walks. */
  lemma {:induction false} NoLoopMeansPatrolEnds(obstacles: set<Pos>, maxPos: Pos, g: Guard, seen: set<Walk>, fuel: nat)
    requires LoopCheck(obstacles, maxPos, g, seen, fuel) == Some(false)
    ensures Patrol(obstacles, maxPos, g, fuel).Some?
    decreases fuel
  {
    var w := WalkFrom(obstacles, maxPos, g);
    if !AtEdge(w, maxPos) {
      NoLoopMeansPatrolEnds(obstacles, maxPos, Step(obstacles, maxPos, g), seen + {w}, fuel - 1);
    }
  }

  /** A loop verdict means that the patrol of puzzle 1, should it finish
      within the same fuel, meets a recorded walk or repeats one of its
      own walks before its end. */
  lemma {:induction false} LoopMeansRepeatedWalk(obstacles: set<Pos>, maxPos: Pos, g: Guard, seen: set<Walk>, fuel: nat)
    requires LoopCheck(obstacles, maxPos, g, seen, fuel) == Some(true)
    ensures var p := Patrol(obstacles, maxPos, g, fuel);
      p.Some? ==> exists i :: 0 <= i < |p.value| && (p.value[i] in seen || p.value[i] in p.value[..i])
    decreases fuel
  {
    var w := WalkFrom(obstacles, maxPos, g);
    var p := Patrol(obstacles, maxPos, g, fuel);
    if w in seen {
      if p.Some? {
        PatrolEndsAtEdge(obstacles, maxPos, g, fuel);
        assert p.value[0] in seen;
      }
    } else {
      assert !AtEdge(w, maxPos);
      var next := Step(obstacles, maxPos, g);
      LoopMeansRepeatedWalk(obstacles, maxPos, next, seen + {w}, fuel - 1);
      var rest := Patrol(obstacles, maxPos, next, fuel - 1);
      if rest.Some? {
        var ws := [w] + rest.value;
        assert p == Some(ws);
        var i :| 0 <= i < |rest.value| && (rest.value[i] in seen + {w} || rest.value[i] in rest.value[..i]);
        assert ws[i + 1] == rest.value[i];
        assert ws[..i + 1] == [w] + rest.value[..i];
        assert ws[i + 1] in seen || ws[i + 1] in ws[..i + 1];
      }
    }
  }

  function Add(a: Option<nat>, b: Option<nat>): (r: Option<nat>)
    ensures r.Some? <==> a.Some? && b.Some?
    ensures r.Some? ==> r.value == a.value + b.value
  {
    if a.Some? && b.Some? then Some(a.value + b.value) else None
  }

  /** Whether one candidate cell counts: cells holding an obstacle are
      skipped, the others are tried on a copy with that extra obstacle. */
  ghost function Candidate(obstacles: set<Pos>, maxPos: Pos, g: Guard, p: Pos, fuel: nat): Option<nat>
  {
    if p in obstacles then Some(0)
    else
      match LoopCheck(obstacles + {p}, maxPos, g, {}, fuel)
      case None => None
      case Some(looped) => Some(if looped then 1 else 0)
  }

  /** The count over the cells from (x, y) on, column by column. */
  ghost function CountFrom(obstacles: set<Pos>, maxPos: Pos, g: Guard, x: nat, y: nat, fuel: nat): Option<nat>
    decreases maxPos.x + 1 - x, maxPos.y + 1 - y
  {
    if x > maxPos.x then Some(0)
    else if y > maxPos.y then CountFrom(obstacles, maxPos, g, x + 1, 0, fuel)
    else Add(Candidate(obstacles, maxPos, g, Pos(x, y), fuel), CountFrom(obstacles, maxPos, g, x, y + 1, fuel))
  }

  /** A counted cell moves its count from the rest into the running total. */
  lemma CountStep(obstacles: set<Pos>, maxPos: Pos, g: Guard, x: nat, y: nat, fuel: nat, counter: nat, c: nat)
    requires x <= maxPos.x && y <= maxPos.y
    requires Candidate(obstacles, maxPos, g, Pos(x, y), fuel) == Some(c)
    ensures Add(Some(counter), CountFrom(obstacles, maxPos, g, x, y, fuel))
         == Add(Some(counter + c), CountFrom(obstacles, maxPos, g, x, y + 1, fuel))
  {
  }

  /** A cell that decides nothing leaves the whole count undecided. */
  lemma CountUndecided(obstacles: set<Pos>, maxPos: Pos, g: Guard, x: nat, y: nat, fuel: nat)
    requires x <= maxPos.x && y <= maxPos.y
    requires Candidate(obstacles, maxPos, g, Pos(x, y), fuel) == None
    ensures CountFrom(obstacles, maxPos, g, x, y, fuel) == None
  {
  }

  /** Past the last row of a column the count goes on with the next column. */
  lemma CountNextColumn(obstacles: set<Pos>, maxPos: Pos, g: Guard, x: nat, y: nat, fuel: nat)
    requires x <= maxPos.x && y > maxPos.y
    ensures CountFrom(obstacles, maxPos, g, x, y, fuel) == CountFrom(obstacles, maxPos, g, x + 1, 0, fuel)
  {
  }

  /** One candidate cell of `process`: skipped when it holds an obstacle,
      otherwise tried on a fresh copy of `base` with that extra obstacle. */
  method TryCell(base: Map, cell: Pos, fuel: nat) returns (r: Result<nat>)
    ensures r.Ok? <==> Candidate(base.obstacles, base.maxPos, base.GuardState(), cell, fuel).Some?
    ensures r.Ok? ==> Some(r.value) == Candidate(base.obstacles, base.maxPos, base.GuardState(), cell, fuel)
  {
    if cell in base.obstacles {
      return Ok(0);
    }
    var newMap := new Map.FromMap(base, cell);
    var looped := HasLoop(newMap, fuel);
    if looped.Err? {
      return Err(looped.error);
    }
    return Ok(if looped.value then 1 else 0);
  }

  /** `process` on a parsed map: every cell of [0, max x] x [0, max y] that
      is not an obstacle is tried on a fresh copy; `base` is never
      changed. */
  method Process(base: Map, fuel: nat) returns (r: Result<nat>)
    ensures r.Err? <==> CountFrom(base.obstacles, base.maxPos, base.GuardState(), 0, 0, fuel).None?
    ensures r.Ok? ==> Some(r.value) == CountFrom(base.obstacles, base.maxPos, base.GuardState(), 0, 0, fuel)
  {
    ghost var obstacles, maxPos, guard := base.obstacles, base.maxPos, base.GuardState();
    ghost var total := CountFrom(obstacles, maxPos, guard, 0, 0, fuel);
    var loopCounter: nat := 0;
    var x := 0;
    while x <= base.maxPos.x
      invariant base.obstacles == obstacles && base.maxPos == maxPos && base.GuardState() == guard
      invariant total == Add(Some(loopCounter), CountFrom(obstacles, maxPos, guard, x, 0, fuel))
      decreases maxPos.x + 1 - x
    {
      var column := CountColumn(base, x, loopCounter, fuel);
      if column.Err? {
        return Err(column.error);
      }
      loopCounter := column.value;
      x := x + 1;
    }
    return Ok(loopCounter);
  }

  /** The inner loop of `process`: the cells of column `x`, counted on top
      of `counter`. */
  method CountColumn(base: Map, x: nat, counter: nat, fuel: nat) returns (r: Result<nat>)
    requires x <= base.maxPos.x
    ensures r.Err? ==> CountFrom(base.obstacles, base.maxPos, base.GuardState(), x, 0, fuel) == None
    ensures r.Ok? ==>
      Add(Some(counter), CountFrom(base.obstacles, base.maxPos, base.GuardState(), x, 0, fuel))
      == Add(Some(r.value), CountFrom(base.obstacles, base.maxPos, base.GuardState(), x + 1, 0, fuel))
  {
    ghost var obstacles, maxPos, guard := base.obstacles, base.maxPos, base.GuardState();
    ghost var total := Add(Some(counter), CountFrom(obstacles, maxPos, guard, x, 0, fuel));
    var loopCounter: nat := counter;
    var y := 0;
    while y <= base.maxPos.y
      invariant base.obstacles == obstacles && base.maxPos == maxPos && base.GuardState() == guard
      invariant total == Add(Some(loopCounter), CountFrom(obstacles, maxPos, guard, x, y, fuel))
      decreases maxPos.y + 1 - y
    {
      var counted := TryCell(base, Pos(x, y), fuel);
      if counted.Err? {
        CountUndecided(obstacles, maxPos, guard, x, y, fuel);
        return Err(counted.error);
      }
      CountStep(obstacles, maxPos, guard, x, y, fuel, loopCounter, counted.value);
      loopCounter := loopCounter + counted.value;
      y := y + 1;
    }
    CountNextColumn(obstacles, maxPos, guard, x, y, fuel);
    return Ok(loopCounter);
  }

  /** The three walks of the corner example below. */
  lemma CornerSteps()
    ensures Step({Pos(1, 0), Pos(2, 1), Pos(4, 4)}, Pos(4, 4), Guard(Pos(1, 1), Up)) == Guard(Pos(1, 1), Right)
    ensures Step({Pos(1, 0), Pos(2, 1), Pos(4, 4)}, Pos(4, 4), Guard(Pos(1, 1), Right)) == Guard(Pos(1, 1), Down)
    ensures Step({Pos(1, 0), Pos(2, 1), Pos(4, 4)}, Pos(4, 4), Guard(Pos(1, 1), Down)) == Guard(Pos(1, 4), Left)
  {
    var obstacles := {Pos(1, 0), Pos(2, 1), Pos(4, 4)};
    assert Blockers(obstacles, Pos(1, 1), Up) == {0} by {
      assert Pos(1, 0) in obstacles;
    }
    assert Blockers(obstacles, Pos(1, 1), Right) == {2} by {
      assert Pos(2, 1) in obstacles;
    }
    assert Blockers(obstacles, Pos(1, 1), Down) == {};
  }

  /** Two immediate turns in a corner give two zero-length walks that both
      come back as the same `VerticalRange`, so `has_loop` reports a loop... */
  lemma CornerFalseLoop()
    ensures LoopCheck({Pos(1, 0), Pos(2, 1), Pos(4, 4)}, Pos(4, 4), Guard(Pos(1, 1), Up), {}, 3) == Some(true)
  {
    var obstacles := {Pos(1, 0), Pos(2, 1), Pos(4, 4)};
    var maxPos := Pos(4, 4);
    CornerSteps();
    var w := VerticalRange(1, 1, 1);
    assert WalkFrom(obstacles, maxPos, Guard(Pos(1, 1), Up)) == w && !AtEdge(w, maxPos);
    assert WalkFrom(obstacles, maxPos, Guard(Pos(1, 1), Right)) == w;
    assert LoopCheck(obstacles, maxPos, Guard(Pos(1, 1), Right), {w}, 2) == Some(true);
  }

  /** ...although the guard then walks down and off the map: the patrol of
      puzzle 1 finishes, with the repeated walk in it. */
  lemma CornerPatrolEnds()
    ensures Patrol({Pos(1, 0), Pos(2, 1), Pos(4, 4)}, Pos(4, 4), Guard(Pos(1, 1), Up), 3)
         == Some([VerticalRange(1, 1, 1), VerticalRange(1, 1, 1), VerticalRange(1, 4, 1)])
  {
    var obstacles := {Pos(1, 0), Pos(2, 1), Pos(4, 4)};
    var maxPos := Pos(4, 4);
    CornerSteps();
    var w := VerticalRange(1, 1, 1);
    var last := VerticalRange(1, 4, 1);
    var g2 := Guard(Pos(1, 1), Right);
    var g3 := Guard(Pos(1, 1), Down);
    assert WalkFrom(obstacles, maxPos, Guard(Pos(1, 1), Up)) == w && !AtEdge(w, maxPos);
    assert WalkFrom(obstacles, maxPos, g2) == w;
    assert WalkFrom(obstacles, maxPos, g3) == last && AtEdge(last, maxPos);
    assert Patrol(obstacles, maxPos, g3, 1) == Some([last]);
    assert [w] + [last] == [w, last];
    assert Patrol(obstacles, maxPos, g2, 2) == Some([w, last]);
    assert [w] + [w, last] == [w, w, last];
  }

  /** The corner example in terms of the intended check's step and exit
      test. */
  lemma CornerExits(obstacles: set<Pos>, maxPos: Pos, g1: Guard, g2: Guard, g3: Guard)
    requires obstacles == {Pos(1, 0), Pos(2, 1), Pos(4, 4)} && maxPos == Pos(4, 4)
    requires g1 == Guard(Pos(1, 1), Up) && g2 == Guard(Pos(1, 1), Right) && g3 == Guard(Pos(1, 1), Down)
    ensures StepOf(obstacles, maxPos)(g1) == g2 && StepOf(obstacles, maxPos)(g2) == g3
    ensures !ExitOf(obstacles, maxPos)(g1) && !ExitOf(obstacles, maxPos)(g2) && ExitOf(obstacles, maxPos)(g3)
  {
    CornerSteps();
  }

  /** The intended check, on guard states, finds the exit. */
  lemma CornerStateCheck(obstacles: set<Pos>, maxPos: Pos, g1: Guard)
    requires obstacles == {Pos(1, 0), Pos(2, 1), Pos(4, 4)} && maxPos == Pos(4, 4) && g1 == Guard(Pos(1, 1), Up)
    ensures StateLoopCheck(obstacles, maxPos, g1, {}, 3) == Some(false)
  {
    var g2 := Guard(Pos(1, 1), Right);
    var g3 := Guard(Pos(1, 1), Down);
    CornerExits(obstacles, maxPos, g1, g2, g3);
    ExitOnThird(StepOf(obstacles, maxPos), ExitOf(obstacles, maxPos), g1, g2, g3);
  }

  /** One walk, as a function of the guard. */
  ghost function StepOf(obstacles: set<Pos>, maxPos: Pos): Guard -> Guard
  {
    g => Step(obstacles, maxPos, g)
  }

  /** The corrected exit test, as a function of the guard. */
  ghost function ExitOf(obstacles: set<Pos>, maxPos: Pos): Guard -> bool
  {
    g => Leaves(obstacles, maxPos, g, Step(obstacles, maxPos, g).pos)
  }

  /** The evidently intended check: a loop is a guard state (position and
      direction) met again, and the guard leaves when it reaches the
      border in the direction it walks. */
  ghost function StateLoopCheck(obstacles: set<Pos>, maxPos: Pos, g: Guard, seen: set<Guard>, fuel: nat): Option<bool>
  {
    CycleCheck(StepOf(obstacles, maxPos), ExitOf(obstacles, maxPos), g, seen, fuel)
  }

  /** The corrected patrol finishes exactly when its exit comes in time. */
  lemma {:induction false} EscapeIsExitWithin(obstacles: set<Pos>, maxPos: Pos, g: Guard, fuel: nat)
    ensures Escape(obstacles, maxPos, g, fuel).Some? <==> ExitWithin(StepOf(obstacles, maxPos), ExitOf(obstacles, maxPos), g, fuel)
    decreases fuel
  {
    if fuel > 0 {
      var t := Step(obstacles, maxPos, g);
      assert StepOf(obstacles, maxPos)(g) == t;
      assert ExitOf(obstacles, maxPos)(g) == Leaves(obstacles, maxPos, g, t.pos);
      assert Escape(obstacles, maxPos, g, fuel).Some? <==>
        Leaves(obstacles, maxPos, g, t.pos) || Escape(obstacles, maxPos, t, fuel - 1).Some?;
      EscapeIsExitWithin(obstacles, maxPos, t, fuel - 1);
    }
  }

  /** A loop verdict of the intended check is sound: however much fuel the
      corrected patrol gets, the guard never leaves. */
  lemma StateLoopIsForever(obstacles: set<Pos>, maxPos: Pos, g: Guard, fuel: nat, more: nat)
    requires StateLoopCheck(obstacles, maxPos, g, {}, fuel) == Some(true)
    ensures Escape(obstacles, maxPos, g, more) == None
  {
    CycleIsForever(StepOf(obstacles, maxPos), ExitOf(obstacles, maxPos), g, fuel, more);
    EscapeIsExitWithin(obstacles, maxPos, g, more);
  }

  /** A verdict of no loop of the intended check is sound too: the guard
      leaves within the same fuel. */
  lemma StateNoLoopLeaves(obstacles: set<Pos>, maxPos: Pos, g: Guard, fuel: nat)
    requires StateLoopCheck(obstacles, maxPos, g, {}, fuel) == Some(false)
    ensures Escape(obstacles, maxPos, g, fuel).Some?
  {
    NoCycleExits(StepOf(obstacles, maxPos), ExitOf(obstacles, maxPos), g, {}, fuel);
    EscapeIsExitWithin(obstacles, maxPos, g, fuel);
  }
}

=== FILE: day06_orbits.dfy ===
/** Day 6, puzzle 2: the intended loop test in the abstract. A deterministic
    step on states, an exit test, and the check that stops at the first
    state met again (a loop) or at the first exit. */
module Day06Orbits {
  import opened Wrappers

  /** The state after k steps. */
  ghost function Iter<T>(step: T -> T, s: T, k: nat): T
    decreases k
  {
    if k == 0 then s else Iter(step, step(s), k - 1)
  }

  /** Whether an exit comes within `fuel` steps. */
  ghost predicate ExitWithin<T>(step: T -> T, exits: T -> bool, s: T, fuel: nat)
    decreases fuel
  {
    fuel > 0 && (exits(s) || ExitWithin(step, exits, step(s), fuel - 1))
  }

  /** The check: true at the first state met again, false at the first
      exit; None when `fuel` steps decide nothing. */
  ghost function CycleCheck<T>(step: T -> T, exits: T -> bool, s: T, seen: set<T>, fuel: nat): Option<bool>
    decreases fuel
  {
    if fuel == 0 then None
    else if s in seen then Some(true)
    else if exits(s) then Some(false)
    else CycleCheck(step, exits, step(s), seen + {s}, fuel - 1)
  }

  lemma {:induction false} IterAdd<T>(step: T -> T, s: T, a: nat, b: nat)
    ensures Iter(step, s, a + b) == Iter(step, Iter(step, s, a), b)
    decreases a
  {
    if a > 0 {
      IterAdd(step, step(s), a - 1, b);
    }
  }

  /** Once a state recurs after p steps, every later state is one of the p
      states from its first occurrence on. */
  lemma {:induction false} Periodic<T>(step: T -> T, s: T, i: nat, p: nat, m: nat)
    requires p >= 1 && Iter(step, s, i) == Iter(step, s, i + p) && m >= i
    ensures exists k: nat :: i <= k < i + p && Iter(step, s, m) == Iter(step, s, k)
    decreases m
  {
    if m >= i + p {
      Periodic(step, s, i, p, m - p);
      IterAdd(step, s, i + p, m - i - p);
      IterAdd(step, s, i, m - i - p);
      assert Iter(step, s, m) == Iter(step, s, m - p);
    } else {
      assert i <= m < i + p && Iter(step, s, m) == Iter(step, s, m);
    }
  }

  /** No exit within the first n steps. */
  ghost predicate StaysFor<T>(step: T -> T, exits: T -> bool, s: T, n: nat)
  {
    forall m: nat :: m < n ==> !exits(Iter(step, s, m))
  }

  lemma {:induction false} NoExitWithin<T>(step: T -> T, exits: T -> bool, s: T, fuel: nat)
    requires StaysFor(step, exits, s, fuel)
    ensures !ExitWithin(step, exits, s, fuel)
    decreases fuel
  {
    if fuel > 0 {
      assert !exits(Iter(step, s, 0));
      forall m: nat | m < fuel - 1
        ensures !exits(Iter(step, step(s), m))
      {
        assert Iter(step, s, m + 1) == Iter(step, step(s), m);
      }
      NoExitWithin(step, exits, step(s), fuel - 1);
    }
  }

  ghost function SeenBefore<T>(step: T -> T, s: T, n: nat): set<T>
  {
    set m: nat | m < n :: Iter(step, s, m)
  }

  /** A state met twice with no exit before the second time. */
  ghost predicate CycleWithoutExit<T>(step: T -> T, exits: T -> bool, s: T)
  {
    exists i: nat, j: nat :: i < j && Iter(step, s, i) == Iter(step, s, j) && StaysFor(step, exits, s, j)
  }

  /** A loop verdict given n steps in names a state that recurs with no exit
      before its recurrence. */
  lemma {:induction false} VerdictFindsCycle<T>(step: T -> T, exits: T -> bool, s: T, n: nat, fuel: nat)
    requires StaysFor(step, exits, s, n)
    requires CycleCheck(step, exits, Iter(step, s, n), SeenBefore(step, s, n), fuel) == Some(true)
    ensures CycleWithoutExit(step, exits, s)
    decreases fuel
  {
    var here := Iter(step, s, n);
    if here in SeenBefore(step, s, n) {
      var i: nat :| i < n && Iter(step, s, i) == here;
      assert i < n && Iter(step, s, i) == Iter(step, s, n) && StaysFor(step, exits, s, n);
    } else {
      assert !exits(here);
      IterAdd(step, s, n, 1);
      assert Iter(step, here, 1) == step(here);
      assert SeenBefore(step, s, n + 1) == SeenBefore(step, s, n) + {here};
      forall m: nat | m < n + 1
        ensures !exits(Iter(step, s, m))
      {
        if m < n {
          assert !exits(Iter(step, s, m));
        }
      }
      VerdictFindsCycle(step, exits, s, n + 1, fuel - 1);
    }
  }

  /** A loop verdict is sound: however many steps follow, no exit comes. */
  lemma CycleIsForever<T>(step: T -> T, exits: T -> bool, s: T, fuel: nat, more: nat)
    requires CycleCheck(step, exits, s, {}, fuel) == Some(true)
    ensures !ExitWithin(step, exits, s, more)
  {
    assert SeenBefore(step, s, 0) == {};
    VerdictFindsCycle(step, exits, s, 0, fuel);
    var i: nat, j: nat :| i < j && Iter(step, s, i) == Iter(step, s, j) && StaysFor(step, exits, s, j);
    forall m: nat | m < more
      ensures !exits(Iter(step, s, m))
    {
      if m >= j {
        Periodic(step, s, i, j - i, m);
        var k: nat :| i <= k < j && Iter(step, s, m) == Iter(step, s, k);
        assert !exits(Iter(step, s, k));
      }
    }
    NoExitWithin(step, exits, s, more);
  }

  /** A verdict of no loop is sound: the exit comes within the fuel. */
  lemma {:induction false} NoCycleExits<T>(step: T -> T, exits: T -> bool, s: T, seen: set<T>, fuel: nat)
    requires CycleCheck(step, exits, s, seen, fuel) == Some(false)
    ensures ExitWithin(step, exits, s, fuel)
    decreases fuel
  {
    if !exits(s) {
      NoCycleExits(step, exits, step(s), seen + {s}, fuel - 1);
    }
  }

  /** The check's two ways on from a state not met before. */
  lemma CheckOn<T>(step: T -> T, exits: T -> bool, s: T, seen: set<T>, fuel: nat)
    requires fuel > 0 && s !in seen
    ensures exits(s) ==> CycleCheck(step, exits, s, seen, fuel) == Some(false)
    ensures !exits(s) ==> CycleCheck(step, exits, s, seen, fuel) == CycleCheck(step, exits, step(s), seen + {s}, fuel - 1)
  {
  }

  /** Three distinct states where only the third exits: the check ends with
      no loop. */
  lemma ExitOnThird<T>(step: T -> T, exits: T -> bool, s1: T, s2: T, s3: T)
    requires step(s1) == s2 && step(s2) == s3 && s1 != s2 && s1 != s3 && s2 != s3
    requires !exits(s1) && !exits(s2) && exits(s3)
    ensures CycleCheck(step, exits, s1, {}, 3) == Some(false)
  {
    var seen1: set<T> := {};
    var seen2 := seen1 + {s1};
    var seen3 := seen2 + {s2};
    CheckOn(step, exits, s1, seen1, 3);
    CheckOn(step, exits, s2, seen2, 2);
    CheckOn(step, exits, s3, seen3, 1);
  }
}

=== FILE: day06_patrol.dfy ===
/** Day 6, puzzle 1: let the guard walk until a walk ends on the border,
    then count the distinct cells its walks covered. */
module Day06Patrol {
  import opened Wrappers
  import opened Day06Guard

  /** `ws` in front of the walks of `rest`, if there are any. */
  function Prepend(ws: seq<Walk>, rest: Option<seq<Walk>>): (r: Option<seq<Walk>>)
    ensures r.Some? <==> rest.Some?
    ensures r.Some? ==> r.value == ws + rest.value
  {
    match rest
    case None => None
    case Some(more) => Some(ws + more)
  }

  /** The walks of `process`, up to and including the first one that ends
      on the border of its axis; None when `fuel` walks do not get there. */
  ghost function Patrol(obstacles: set<Pos>, maxPos: Pos, g: Guard, fuel: nat): Option<seq<Walk>>
    decreases fuel
  {
    if fuel == 0 then None
    else
      var w := WalkFrom(obstacles, maxPos, g);
      if AtEdge(w, maxPos) then Some([w])
      else Prepend([w], Patrol(obstacles, maxPos, Step(obstacles, maxPos, g), fuel - 1))
  }

  /** A finished patrol ends with its first walk to the border: every walk
      before the last one stays off it. */
  lemma {:induction false} PatrolEndsAtEdge(obstacles: set<Pos>, maxPos: Pos, g: Guard, fuel: nat)
    requires Patrol(obstacles, maxPos, g, fuel).Some?
    ensures var ws := Patrol(obstacles, maxPos, g, fuel).value;
      1 <= |ws| <= fuel && ws[0] == WalkFrom(obstacles, maxPos, g) && AtEdge(ws[|ws| - 1], maxPos)
      && forall i :: 0 <= i < |ws| - 1 ==> !AtEdge(ws[i], maxPos)
    decreases fuel
  {
    var w := WalkFrom(obstacles, maxPos, g);
    if !AtEdge(w, maxPos) {
      var next := Step(obstacles, maxPos, g);
      PatrolEndsAtEdge(obstacles, maxPos, next, fuel - 1);
      var rest := Patrol(obstacles, maxPos, next, fuel - 1).value;
      var ws := [w] + rest;
      assert forall i :: 1 <= i < |ws| ==> ws[i] == rest[i - 1];
    }
  }

  /** More fuel does not change a patrol that already finished. */
  lemma {:induction false} PatrolFuelMonotone(obstacles: set<Pos>, maxPos: Pos, g: Guard, fuel: nat, more: nat)
    requires Patrol(obstacles, maxPos, g, fuel).Some? && fuel <= more
    ensures Patrol(obstacles, maxPos, g, more) == Patrol(obstacles, maxPos, g, fuel)
    decreases fuel
  {
    var w := WalkFrom(obstacles, maxPos, g);
    if !AtEdge(w, maxPos) {
      PatrolFuelMonotone(obstacles, maxPos, Step(obstacles, maxPos, g), fuel - 1, more - 1);
    }
  }

  function Lo(w: Walk): nat
  {
    if w.to < w.from then w.to else w.from
  }

  function Hi(w: Walk): nat
  {
    if w.to < w.from then w.from else w.to
  }

  /** The cell at coordinate k along a walk. */
  function CellAt(w: Walk, k: nat): Pos
  {
    match w
    case VerticalRange(_, _, x) => Pos(x, k)
    case HorizontalRange(_, _, y) => Pos(k, y)
  }

  /** The cells a walk covers, both ends included. */
  function Cells(w: Walk): (r: set<Pos>)
    ensures forall k: nat :: Lo(w) <= k <= Hi(w) ==> CellAt(w, k) in r
    ensures forall p :: p in r ==> exists k: nat :: Lo(w) <= k <= Hi(w) && p == CellAt(w, k)
  {
    set k: nat | Lo(w) <= k <= Hi(w) :: CellAt(w, k)
  }

  /** All cells the walks cover. */
  function Visited(ws: seq<Walk>): (r: set<Pos>)
    ensures forall i :: 0 <= i < |ws| ==> Cells(ws[i]) <= r
    ensures forall p :: p in r ==> exists i :: 0 <= i < |ws| && p in Cells(ws[i])
  {
    if ws == [] then {}
    else
      var init := ws[..|ws| - 1];
      var r := Visited(init) + Cells(ws[|ws| - 1]);
      assert forall i :: 0 <= i < |init| ==> init[i] == ws[i];
      r
  }

  /** The patrol covers the cell the guard starts on. */
  lemma StartIsVisited(obstacles: set<Pos>, maxPos: Pos, g: Guard, fuel: nat)
    requires Patrol(obstacles, maxPos, g, fuel).Some?
    ensures g.pos in Visited(Patrol(obstacles, maxPos, g, fuel).value)
  {
    PatrolEndsAtEdge(obstacles, maxPos, g, fuel);
    var ws := Patrol(obstacles, maxPos, g, fuel).value;
    var w := ws[0];
    var t := Step(obstacles, maxPos, g).pos;
    if g.pos.x == t.x {
      assert CellAt(w, g.pos.y) == g.pos;
    } else {
      DestinationStopsAtObstacle(obstacles, maxPos, g.pos, g.dir);
      assert CellAt(w, g.pos.x) == g.pos;
    }
  }

  /** A position with its two coordinates exchanged, as `explode_positions`
      stores them. */
  function Transpose(p: Pos): Pos
  {
    Pos(p.y, p.x)
  }

  function Exploded(ws: seq<Walk>): set<Pos>
  {
    set p | p in Visited(ws) :: Transpose(p)
  }

  /** Exchanging the coordinates loses no cell, so the count is that of the
      covered cells. */
  lemma {:induction false} TransposeKeepsCount(s: set<Pos>)
    ensures |set p | p in s :: Transpose(p)| == |s|
    decreases |s|
  {
    if s != {} {
      var e :| e in s;
      var rest := s - {e};
      TransposeKeepsCount(rest);
      var image := set p | p in rest :: Transpose(p);
      var whole := set p | p in s :: Transpose(p);
      forall q | q in whole
        ensures q in image + {Transpose(e)}
      {
        var p :| p in s && q == Transpose(p);
        if p != e {
          assert p in rest;
        }
      }
      forall q | q in image + {Transpose(e)}
        ensures q in whole
      {
        if q != Transpose(e) {
          var p :| p in rest && q == Transpose(p);
        }
      }
      assert whole == image + {Transpose(e)};
      forall p | p in rest
        ensures Transpose(p) != Transpose(e)
      {
        assert p != e;
      }
    }
  }

  /** The cells between two coordinates along a walk, exchanged. */
  lemma ExplodedSnoc(ws: seq<Walk>, w: Walk)
    ensures Exploded(ws + [w]) == Exploded(ws) + set k: nat | Lo(w) <= k <= Hi(w) :: Transpose(CellAt(w, k))
  {
    assert (ws + [w])[..|ws|] == ws;
  }

  /** `explode_positions`: every cell of every walk, coordinates exchanged. */
  method ExplodePositions(ranges: seq<Walk>) returns (positions: set<Pos>)
    ensures positions == Exploded(ranges)
    ensures |positions| == |Visited(ranges)|
  {
    positions := {};
    for i := 0 to |ranges|
      invariant positions == Exploded(ranges[..i])
    {
      var w := ranges[i];
      var lo, hi := w.from, w.to;
      if hi < lo {
        lo, hi := hi, lo;
      }
      var items: seq<Pos> := [];
      var k := lo;
      while k <= hi
        invariant lo <= k <= hi + 1
        invariant forall p :: p in items <==> exists j: nat :: lo <= j < k && p == Transpose(CellAt(w, j))
        decreases hi + 1 - k
      {
        ghost var before := items;
        match w {
          case VerticalRange(_, _, x) => items := items + [Pos(k, x)];
          case HorizontalRange(_, _, y) => items := items + [Pos(y, k)];
        }
        assert items == before + [Transpose(CellAt(w, k))];
        k := k + 1;
      }
      ExplodedSnoc(ranges[..i], w);
      assert ranges[..i + 1] == ranges[..i] + [w];
      positions := positions + set p | p in items;
    }
    assert ranges[..|ranges|] == ranges;
    TransposeKeepsCount(Visited(ranges));
  }

  /** `process` on a parsed lab: walk until a walk ends on the border, then
      count the covered cells. The loop is bounded by `fuel`. */
  method Process(lab: Map, fuel: nat) returns (r: Result<nat>)
    modifies lab
    ensures Patrol(old(lab.obstacles), old(lab.maxPos), old(lab.GuardState()), fuel).None? <==> r.Err?
    ensures r.Ok? ==> r.value == |Visited(Patrol(old(lab.obstacles), old(lab.maxPos), old(lab.GuardState()), fuel).value)|
    ensures lab.obstacles == old(lab.obstacles) && lab.maxPos == old(lab.maxPos)
  {
    ghost var start := lab.GuardState();
    var ranges: seq<Walk> := [];
    var left: nat := fuel;
    assert Prepend([], Patrol(lab.obstacles, lab.maxPos, start, fuel)) == Patrol(lab.obstacles, lab.maxPos, start, fuel) by {
      var o := Patrol(lab.obstacles, lab.maxPos, start, fuel);
      if o.Some? {
        assert [] + o.value == o.value;
      }
    }
    while true
      invariant lab.obstacles == old(lab.obstacles) && lab.maxPos == old(lab.maxPos)
      invariant Patrol(lab.obstacles, lab.maxPos, start, fuel) == Prepend(ranges, Patrol(lab.obstacles, lab.maxPos, lab.GuardState(), left))
      decreases left
    {
      if left == 0 {
        return Err("the guard is still walking");
      }
      ghost var before := lab.GuardState();
      ghost var prior := ranges;
      var walk := lab.Walk();
      ranges := ranges + [walk];
      left := left - 1;
      ghost var rest := Patrol(lab.obstacles, lab.maxPos, lab.GuardState(), left);
      assert Patrol(lab.obstacles, lab.maxPos, before, left + 1) ==
        if AtEdge(walk, lab.maxPos) then Some([walk]) else Prepend([walk], rest);
      if AtEdge(walk, lab.maxPos) {
        assert Patrol(lab.obstacles, lab.maxPos, start, fuel) == Some(ranges);
        break;
      }
      if rest.Some? {
        assert prior + ([walk] + rest.value) == ranges + rest.value;
      }
    }
    var positions := ExplodePositions(ranges);
    return Ok(|positions|);
  }

  /** The exit test of the evidently intended patrol: the guard leaves when
      a walk ends on the border in the direction it walks. */
  predicate Leaves(obstacles: set<Pos>, maxPos: Pos, g: Guard, t: Pos)
  {
    AtBorder(g.dir, t, maxPos)
  }

  /** With all obstacles and the guard in the box, that test holds exactly
      when nothing blocks its way any more. */
  lemma LeavesIffUnobstructed(obstacles: set<Pos>, maxPos: Pos, g: Guard)
    requires forall o :: o in obstacles ==> InBox(o, maxPos)
    requires InBox(g.pos, maxPos)
    ensures Leaves(obstacles, maxPos, g, Step(obstacles, maxPos, g).pos) <==> Nearest(obstacles, g.pos, g.dir).None?
  {
    StepStaysInBox(obstacles, maxPos, g);
  }

  /** The patrol with that exit test. */
  ghost function Escape(obstacles: set<Pos>, maxPos: Pos, g: Guard, fuel: nat): Option<seq<Walk>>
    decreases fuel
  {
    if fuel == 0 then None
    else
      var t := Step(obstacles, maxPos, g);
      var w := WalkOf(g.pos, t.pos);
      if Leaves(obstacles, maxPos, g, t.pos) then Some([w])
      else Prepend([w], Escape(obstacles, maxPos, t, fuel - 1))
  }

  /** A guard in the first column facing left has nothing ahead and leaves
      at once, yet its zero-length walk comes back as a `VerticalRange`
      whose end is checked against the y bounds: `process` lets the guard turn
      and walk on, and counts a cell it never reaches. */
  lemma LeftExitMissed()
    ensures Nearest({Pos(2, 2)}, Pos(0, 1), Left).None?
    ensures Patrol({Pos(2, 2)}, Pos(2, 2), Guard(Pos(0, 1), Left), 2) == Some([VerticalRange(1, 1, 0), VerticalRange(1, 0, 0)])
    ensures |Visited([VerticalRange(1, 1, 0), VerticalRange(1, 0, 0)])| == 2
    ensures Escape({Pos(2, 2)}, Pos(2, 2), Guard(Pos(0, 1), Left), 2) == Some([VerticalRange(1, 1, 0)])
    ensures |Visited([VerticalRange(1, 1, 0)])| == 1
  {
    var obstacles := {Pos(2, 2)};
    var maxPos := Pos(2, 2);
    var g := Guard(Pos(0, 1), Left);
    assert Blockers(obstacles, g.pos, Left) == {};
    assert Step(obstacles, maxPos, g) == Guard(Pos(0, 1), Up);
    var g2 := Guard(Pos(0, 1), Up);
    assert Blockers(obstacles, g2.pos, Up) == {};
    assert Step(obstacles, maxPos, g2) == Guard(Pos(0, 0), Right);
    var first := VerticalRange(1, 1, 0);
    var second := VerticalRange(1, 0, 0);
    assert WalkFrom(obstacles, maxPos, g) == first && !AtEdge(first, maxPos);
    assert WalkFrom(obstacles, maxPos, g2) == second && AtEdge(second, maxPos);
    assert Patrol(obstacles, maxPos, g2, 1) == Some([second]);
    assert [first] + [second] == [first, second];
    assert Cells(first) == {Pos(0, 1)} by {
      assert CellAt(first, 1) == Pos(0, 1);
    }
    assert Cells(second) == {Pos(0, 0), Pos(0, 1)} by {
      assert CellAt(second, 0) == Pos(0, 0);
      assert CellAt(second, 1) == Pos(0, 1);
    }
    assert [first, second][..1] == [first];
    assert Visited([first]) == {Pos(0, 1)};
    assert Visited([first, second]) == {Pos(0, 0), Pos(0, 1)};
  }
}

=== FILE: day07_equations.dfy ===
/** Day 7, puzzle 2: calibration equations "lhs: a b c ...". An equation is
    valid when some choice of +, * and digit concatenation between the
    numbers, evaluated strictly left to right, gives lhs. */
module Day07Equations {
  import opened Wrappers
  import opened Decimal
  import opened Text

  datatype Equation = Equation(lhs: nat, rhs: seq<nat>)

  /** The three operators. */
  datatype Operator = Plus | Times | Concat

  /** Concatenation "the ugly way": print both numbers one after the other
      and read the result back. It shifts the left number by the digits of
      the right one. */
  function Concatenate(a: nat, b: nat): nat
  {
    ParseDigits(Show(a) + Show(b))
  }

  lemma ConcatenateShifts(a: nat, b: nat)
    ensures Concatenate(a, b) == a * Pow10(|Show(b)|) + b
  {
    ParseAppend(Show(a), Show(b));
    ParseShow(a);
    ParseShow(b);
  }

  function Apply(op: Operator, a: nat, b: nat): nat
  {
    match op
    case Plus => a + b
    case Times => a * b
    case Concat => Concatenate(a, b)
  }

  /** The left-to-right evaluation of `rhs` with the operators `ops`
      between its numbers. */
  function Evaluate(rhs: seq<nat>, ops: seq<Operator>): nat
    requires |rhs| >= 1 && |ops| == |rhs| - 1
  {
    if |rhs| == 1 then rhs[0]
    else Apply(ops[|ops| - 1], Evaluate(rhs[..|rhs| - 1], ops[..|ops| - 1]), rhs[|rhs| - 1])
  }

  /** The three results of one earlier result combined with e, in the order
      they are pushed. */
  function Combine(p: nat, e: nat): seq<nat>
  {
    [p + e, p * e, Concatenate(p, e)]
  }

  lemma CombineHolds(op: Operator, p: nat, e: nat)
    ensures Apply(op, p, e) in Combine(p, e)
  {
    match op {
      case Plus => assert Combine(p, e)[0] == Apply(op, p, e);
      case Times => assert Combine(p, e)[1] == Apply(op, p, e);
      case Concat => assert Combine(p, e)[2] == Apply(op, p, e);
    }
  }

  /** The inner loop of `is_valid`: every earlier result combined with e. */
  function Extend(results: seq<nat>, e: nat): (r: seq<nat>)
    ensures |r| == 3 * |results|
  {
    if results == [] then []
    else Extend(results[..|results| - 1], e) + Combine(results[|results| - 1], e)
  }

  /** The combined results are exactly every operator applied to every
      earlier result. */
  lemma {:induction false} ExtendMembers(results: seq<nat>, e: nat)
    ensures forall v :: v in Extend(results, e) <==> exists op, p :: p in results && v == Apply(op, p, e)
    decreases |results|
  {
    if results != [] {
      var init := results[..|results| - 1];
      var last := results[|results| - 1];
      ExtendMembers(init, e);
      assert forall p :: p in results <==> p in init || p == last by {
        assert results == init + [last];
      }
      assert forall op :: Apply(op, last, e) in Combine(last, e) by {
        forall op
          ensures Apply(op, last, e) in Combine(last, e)
        {
          CombineHolds(op, last, e);
        }
      }
      assert forall v :: v in Combine(last, e) ==> exists op :: v == Apply(op, last, e) by {
        assert Combine(last, e)[0] == Apply(Plus, last, e);
        assert Combine(last, e)[1] == Apply(Times, last, e);
        assert Combine(last, e)[2] == Apply(Concat, last, e);
      }
    }
  }

  /** All results after folding the numbers of `rhs`. */
  function Results(rhs: seq<nat>): seq<nat>
    requires |rhs| >= 1
  {
    if |rhs| == 1 then [rhs[0]]
    else Extend(Results(rhs[..|rhs| - 1]), rhs[|rhs| - 1])
  }

  function Pow3(k: nat): nat
  {
    if k == 0 then 1 else 3 * Pow3(k - 1)
  }

  /** After folding k numbers there are 3^(k-1) results. */
  lemma {:induction false} ResultsCount(rhs: seq<nat>)
    requires |rhs| >= 1
    ensures |Results(rhs)| == Pow3(|rhs| - 1)
    decreases |rhs|
  {
    if |rhs| > 1 {
      var init := rhs[..|rhs| - 1];
      ResultsCount(init);
      var prior := Results(init);
      assert Results(rhs) == Extend(prior, rhs[|rhs| - 1]);
      assert |Results(rhs)| == 3 * |prior|;
      assert Pow3(|rhs| - 1) == 3 * Pow3(|rhs| - 2);
    }
  }

  /** Every result is a left-to-right evaluation of `rhs`. */
  lemma {:induction false} ResultsSound(rhs: seq<nat>, v: nat)
    requires |rhs| >= 1 && v in Results(rhs)
    ensures exists ops :: |ops| == |rhs| - 1 && Evaluate(rhs, ops) == v
    decreases |rhs|
  {
    if |rhs| == 1 {
      assert Evaluate(rhs, []) == v;
    } else {
      var init := rhs[..|rhs| - 1];
      var e := rhs[|rhs| - 1];
      ExtendMembers(Results(init), e);
      var op, p :| p in Results(init) && v == Apply(op, p, e);
      ResultsSound(init, p);
      var ops :| |ops| == |init| - 1 && Evaluate(init, ops) == p;
      var all := ops + [op];
      assert all[..|all| - 1] == ops;
      assert Evaluate(rhs, all) == v;
    }
  }

  /** Every left-to-right evaluation of `rhs` is among its results. */
  lemma {:induction false} ResultsComplete(rhs: seq<nat>, ops: seq<Operator>)
    requires |rhs| >= 1 && |ops| == |rhs| - 1
    ensures Evaluate(rhs, ops) in Results(rhs)
    decreases |rhs|
  {
    if |rhs| > 1 {
      var init := rhs[..|rhs| - 1];
      var e := rhs[|rhs| - 1];
      var p := Evaluate(init, ops[..|ops| - 1]);
      ResultsComplete(init, ops[..|ops| - 1]);
      ExtendMembers(Results(init), e);
      assert Evaluate(rhs, ops) == Apply(ops[|ops| - 1], p, e);
    }
  }

  /** The results are exactly the left-to-right evaluations of `rhs` under
      every choice of operators. */
  lemma ResultsAreEvaluations(rhs: seq<nat>, v: nat)
    requires |rhs| >= 1
    ensures v in Results(rhs) <==> exists ops :: |ops| == |rhs| - 1 && Evaluate(rhs, ops) == v
  {
    if v in Results(rhs) {
      ResultsSound(rhs, v);
    }
    if exists ops :: |ops| == |rhs| - 1 && Evaluate(rhs, ops) == v {
      var ops :| |ops| == |rhs| - 1 && Evaluate(rhs, ops) == v;
      ResultsComplete(rhs, ops);
    }
  }

  /** The validity `is_valid` decides. */
  predicate Valid(eq: Equation)
    requires |eq.rhs| >= 1
  {
    eq.lhs in Results(eq.rhs)
  }

  lemma ExtendSnoc(results: seq<nat>, p: nat, e: nat)
    ensures Extend(results + [p], e) == Extend(results, e) + Combine(p, e)
  {
    assert (results + [p])[..|results|] == results;
  }

  /** The inner loop of `is_valid`: the three results for each earlier
      result, in order. */
  method ExtendResults(possibleResults: seq<nat>, e: nat) returns (newResults: seq<nat>)
    ensures newResults == Extend(possibleResults, e)
  {
    newResults := [];
    for j := 0 to |possibleResults|
      invariant newResults == Extend(possibleResults[..j], e)
    {
      var p := possibleResults[j];
      ghost var before := newResults;
      newResults := newResults + [p + e];
      newResults := newResults + [p * e];
      var s := Concatenate(p, e);
      newResults := newResults + [s];
      assert newResults == before + [p + e, p * e, s];
      assert newResults == before + Combine(p, e);
      ExtendSnoc(possibleResults[..j], p, e);
      assert possibleResults[..j + 1] == possibleResults[..j] + [p];
    }
    assert possibleResults[..|possibleResults|] == possibleResults;
  }

  lemma ResultsSnoc(init: seq<nat>, e: nat)
    requires |init| >= 1
    ensures Results(init + [e]) == Extend(Results(init), e)
  {
    assert (init + [e])[..|init|] == init;
  }

  /** The loops of `Equation::is_valid`, on an equation with a first
      number. */
  method Decide(eq: Equation) returns (valid: bool)
    requires |eq.rhs| >= 1
    ensures valid <==> Valid(eq)
  {
    var possibleResults: seq<nat> := [eq.rhs[0]];
    for i := 1 to |eq.rhs|
      invariant possibleResults == Results(eq.rhs[..i])
    {
      ResultsSnoc(eq.rhs[..i], eq.rhs[i]);
      assert eq.rhs[..i + 1] == eq.rhs[..i] + [eq.rhs[i]];
      possibleResults := ExtendResults(possibleResults, eq.rhs[i]);
    }
    assert eq.rhs[..|eq.rhs|] == eq.rhs;
    return eq.lhs in possibleResults;
  }

  /** `Equation::is_valid`: an empty right-hand side makes the source panic
      on its first number. */
  method IsValid(eq: Equation) returns (r: Result<bool>)
    ensures r.Err? <==> eq.rhs == []
    ensures r.Ok? ==> (r.value <==> exists ops :: |ops| == |eq.rhs| - 1 && Evaluate(eq.rhs, ops) == eq.lhs)
  {
    if |eq.rhs| == 0 {
      return Err("empty right-hand side");
    }
    var valid := Decide(eq);
    ResultsAreEvaluations(eq.rhs, eq.lhs);
    return Ok(valid);
  }

  /** With a single number the equation is valid exactly when that number
      is lhs. */
  lemma SingleNumber(lhs: nat, x: nat)
    ensures Valid(Equation(lhs, [x])) <==> lhs == x
  {
  }

  /** Concatenation with a one-digit number appends that digit. */
  lemma ConcatOneDigit(a: nat, b: nat)
    requires b < 10
    ensures Concatenate(a, b) == 10 * a + b
  {
    ConcatenateShifts(a, b);
  }

  /** The text of an equation, as the input writes it. */
  function Format(eq: Equation): string
    requires |eq.rhs| >= 1
  {
    Show(eq.lhs) + ": " + Join(seq(|eq.rhs|, i requires 0 <= i < |eq.rhs| => Show(eq.rhs[i])), " ")
  }

  /** `Equation::from`: the number before ": " and the numbers, separated
      by single spaces, after it. A line without ": " or with a piece that
      is not a number makes the source panic. */
  function FromLine(line: string): (r: Result<Equation>)
    ensures r.Ok? ==> |r.value.rhs| >= 1
  {
    var halves := SplitOn(line, ": ");
    if |halves| < 2 then Err("missing ': '")
    else
      var lhs :- ParseNumber(halves[0]);
      var rhs :- ParseNumbers(SplitOn(halves[1], " "));
      Ok(Equation(lhs, rhs))
  }

  /** Parsing reads back every equation from its text. */
  lemma ParseFormat(eq: Equation)
    requires |eq.rhs| >= 1
    ensures FromLine(Format(eq)) == Ok(eq)
  {
    var pieces := seq(|eq.rhs|, i requires 0 <= i < |eq.rhs| => Show(eq.rhs[i]));
    var right := Join(pieces, " ");
    assert ':' !in right by {
      JoinWithout(pieces, " ", ':');
    }
    SplitJoin([Show(eq.lhs), right], ": ");
    assert Join([Show(eq.lhs), right], ": ") == Format(eq);
    SplitJoin(pieces, " ");
    ParseNumberShow(eq.lhs);
    forall i | 0 <= i < |pieces|
      ensures ParseNumber(pieces[i]) == Ok(eq.rhs[i])
    {
      ParseNumberShow(eq.rhs[i]);
    }
    var parsed := ParseNumbers(pieces);
    assert parsed.value == eq.rhs;
  }

  /** Joined pieces hold a character only when a piece or the separator
      does. */
  lemma {:induction false} JoinWithout(pieces: seq<string>, sep: string, c: char)
    requires |pieces| >= 1 && c !in sep
    requires forall i :: 0 <= i < |pieces| ==> c !in pieces[i]
    ensures c !in Join(pieces, sep)
    decreases |pieces|
  {
    if |pieces| > 1 {
      JoinWithout(pieces[1..], sep, c);
    }
  }

  /** The equations of all lines, or the first line that does not parse. */
  function ParseLines(lines: seq<string>): (r: Result<seq<Equation>>)
    ensures r.Ok? <==> forall i :: 0 <= i < |lines| ==> FromLine(lines[i]).Ok?
    ensures r.Ok? ==> |r.value| == |lines| && forall i :: 0 <= i < |lines| ==> FromLine(lines[i]) == Ok(r.value[i])
  {
    if lines == [] then Ok([])
    else
      var init := lines[..|lines| - 1];
      var eqs :- ParseLines(init);
      var eq :- FromLine(lines[|lines| - 1]);
      Ok(eqs + [eq])
  }

  /** The lhs of the valid equations, summed. */
  function SumValid(eqs: seq<Equation>): (r: nat)
    requires forall i :: 0 <= i < |eqs| ==> |eqs[i].rhs| >= 1
    ensures r <= SumLhs(eqs)
    ensures (forall i :: 0 <= i < |eqs| ==> Valid(eqs[i])) ==> r == SumLhs(eqs)
    ensures (forall i :: 0 <= i < |eqs| ==> !Valid(eqs[i])) ==> r == 0
  {
    if eqs == [] then 0
    else SumValid(eqs[..|eqs| - 1]) + (if Valid(eqs[|eqs| - 1]) then eqs[|eqs| - 1].lhs else 0)
  }

  function SumLhs(eqs: seq<Equation>): nat
  {
    if eqs == [] then 0 else SumLhs(eqs[..|eqs| - 1]) + eqs[|eqs| - 1].lhs
  }

  lemma ParseLinesSnoc(lines: seq<string>, i: nat)
    requires i < |lines|
    ensures ParseLines(lines[..i + 1]) ==
      (if ParseLines(lines[..i]).Err? then ParseLines(lines[..i])
       else if FromLine(lines[i]).Err? then Err(FromLine(lines[i]).error)
       else Ok(ParseLines(lines[..i]).value + [FromLine(lines[i]).value]))
  {
    assert lines[..i + 1][..i] == lines[..i];
  }

  /** The `map(Equation::from)` of `process`. */
  method ParseEquations(lines: seq<string>) returns (r: Result<seq<Equation>>)
    ensures r.Ok? <==> ParseLines(lines).Ok?
    ensures r.Ok? ==> r == ParseLines(lines)
  {
    var equations: seq<Equation> := [];
    for i := 0 to |lines|
      invariant ParseLines(lines[..i]) == Ok(equations)
    {
      ParseLinesSnoc(lines, i);
      var eq :- FromLine(lines[i]);
      equations := equations + [eq];
    }
    assert lines[..|lines|] == lines;
    return Ok(equations);
  }

  lemma SumValidSnoc(eqs: seq<Equation>, i: nat)
    requires i < |eqs| && forall k :: 0 <= k < |eqs| ==> |eqs[k].rhs| >= 1
    ensures SumValid(eqs[..i + 1]) == SumValid(eqs[..i]) + (if Valid(eqs[i]) then eqs[i].lhs else 0)
  {
    assert eqs[..i + 1][..i] == eqs[..i];
  }

  /** `process`: every line is parsed first (a bad line fails the whole
      input), then the lhs of the valid equations are summed. */
  method Process(lines: seq<string>) returns (r: Result<nat>)
    ensures r.Err? <==> exists i :: 0 <= i < |lines| && FromLine(lines[i]).Err?
    ensures r.Ok? ==> r.value == SumValid(ParseLines(lines).value)
  {
    var parsed := ParseEquations(lines);
    if parsed.Err? {
      return Err(parsed.error);
    }
    var equations := parsed.value;
    var result := 0;
    for i := 0 to |equations|
      invariant result == SumValid(equations[..i])
    {
      SumValidSnoc(equations, i);
      var valid := Decide(equations[i]);
      if valid {
        result := result + equations[i].lhs;
      }
    }
    assert equations[..|equations|] == equations;
    return Ok(result);
  }

  /** "156: 15 6" needs concatenation: 15 || 6 is 156. */
  lemma ConcatExample(eq: Equation)
    requires eq == Equation(156, [15, 6])
    ensures Valid(eq)
  {
    var c := Concatenate(15, 6);
    ConcatenateShifts(15, 6);
    assert Show(6) == ['6'];
    assert c == 156;
    assert Results(eq.rhs) == Extend([15], 6);
    assert Extend([15], 6) == [21, 90, c];
  }

  /** "83: 17 5" has no solution: 22, 85 and 175 are all it can reach. */
  lemma InvalidExample(eq: Equation)
    requires eq == Equation(83, [17, 5])
    ensures !Valid(eq)
  {
    var c := Concatenate(17, 5);
    ConcatenateShifts(17, 5);
    assert Show(5) == ['5'];
    assert c == 175;
    assert Results(eq.rhs) == Extend([17], 5);
    assert Extend([17], 5) == [22, 85, c];
  }
}

=== FILE: day08_antennas.dfy ===
/** Day 8: the antenna map shared by both puzzles. Antennas are read from a
    grid of characters; every letter or digit is an antenna of that
    frequency and '.' is empty ground. */
module Day08Antennas {
  import opened Wrappers

  /** A grid position, signed because antinodes may fall outside the map. */
  datatype Loc = Loc(x: int, y: int)

  /** An antenna: its frequency character and its location. */
  datatype Antenna = Antenna(kind: char, location: Loc)

  /** The antennas and the largest coordinate inside the map. */
  datatype Map = Map(antennas: set<Antenna>, maxLocation: Loc)

  predicate IsFrequency(c: char)
  {
    ('A' <= c <= 'Z') || ('a' <= c <= 'z') || ('0' <= c <= '9')
  }

  /** `AntennaType::from`: letters and digits only. */
  function AntennaType(c: char): (r: Result<char>)
    ensures r.Ok? <==> IsFrequency(c)
    ensures r.Ok? ==> r.value == c
  {
    if IsFrequency(c) then Ok(c) else Err("unsupported antenna type")
  }

  /** `is_in_map`: both coordinates between 0 and the maximum, inclusive.
      A map holding any point holds its two corners, the origin and the
      maximum, so it is the box between them. */
  predicate IsInMap(m: Map, a: Loc)
    ensures IsInMap(m, a) ==> 0 <= m.maxLocation.x && 0 <= m.maxLocation.y
    ensures IsInMap(m, a) ==> a.x - m.maxLocation.x <= 0 <= a.x && a.y - m.maxLocation.y <= 0 <= a.y
  {
    0 <= a.x <= m.maxLocation.x && 0 <= a.y <= m.maxLocation.y
  }

  /** `Antenna::distance`: the component-wise difference. */
  function Distance(a: Loc, b: Loc): (d: Loc)
    ensures d == Loc(0, 0) <==> a == b
    ensures Plus(b, d) == a
  {
    Loc(a.x - b.x, a.y - b.y)
  }

  function Plus(a: Loc, d: Loc): Loc
  {
    Loc(a.x + d.x, a.y + d.y)
  }

  function Minus(a: Loc, d: Loc): Loc
  {
    Loc(a.x - d.x, a.y - d.y)
  }

  /** Swapping the antennas negates the distance. */
  lemma DistanceSwap(a: Loc, b: Loc)
    ensures Distance(b, a) == Minus(Loc(0, 0), Distance(a, b))
  {
  }

  predicate InLines(lines: seq<string>, x: int, y: int)
  {
    0 <= y < |lines| && 0 <= x < |lines[y]|
  }

  /** Cells read so far: the rows above `row`, and `row` up to `col`. */
  predicate Scanned(lines: seq<string>, x: int, y: int, row: int, col: int)
  {
    InLines(lines, x, y) && (y < row || (y == row && x < col))
  }

  /** The antennas of a grid: one per cell that is not '.'. */
  ghost predicate Listed(lines: seq<string>, antennas: set<Antenna>, row: int, col: int)
  {
    forall a :: a in antennas <==>
      Scanned(lines, a.location.x, a.location.y, row, col)
      && lines[a.location.y][a.location.x] != '.'
      && a.kind == lines[a.location.y][a.location.x]
  }

  /** `Map::from`: an antenna per letter or digit, any other character but
      '.' is rejected, and the map's maximum comes from the first line's
      width and the number of lines (an empty input or an empty first line
      is rejected). */
  method FromLines(lines: seq<string>) returns (r: Result<Map>)
    ensures r.Err? <==> (exists x, y :: InLines(lines, x, y) && lines[y][x] != '.' && !IsFrequency(lines[y][x]))
                        || lines == [] || lines[0] == []
    ensures r.Ok? ==> Listed(lines, r.value.antennas, |lines|, 0)
    ensures r.Ok? ==> r.value.maxLocation == Loc(|lines[0]| - 1, |lines| - 1)
  {
    var antennas: set<Antenna> := {};
    for row := 0 to |lines|
      invariant Listed(lines, antennas, row, 0)
      invariant forall x, y :: Scanned(lines, x, y, row, 0) && lines[y][x] != '.' ==> IsFrequency(lines[y][x])
    {
      var line := lines[row];
      for column := 0 to |line|
        invariant Listed(lines, antennas, row, column)
        invariant forall x, y :: Scanned(lines, x, y, row, column) && lines[y][x] != '.' ==> IsFrequency(lines[y][x])
      {
        var c := line[column];
        if c != '.' {
          var kind := AntennaType(c);
          if kind.Err? {
            assert InLines(lines, column, row);
            return Err(kind.error);
          }
          antennas := antennas + {Antenna(kind.value, Loc(column, row))};
        }
      }
      assert forall x, y :: Scanned(lines, x, y, row, |line|) <==> Scanned(lines, x, y, row + 1, 0);
    }
    assert forall x, y :: InLines(lines, x, y) <==> Scanned(lines, x, y, |lines|, 0);
    if |lines| == 0 || |lines[0]| == 0 {
      return Err("empty map");
    }
    return Ok(Map(antennas, Loc(|lines[0]| - 1, |lines| - 1)));
  }

  /** In a grid whose lines all have the first line's width, every antenna
      lies in the map, and no two antennas share a cell. */
  lemma ParsedAntennas(lines: seq<string>, m: Map)
    requires |lines| >= 1 && forall y :: 0 <= y < |lines| ==> |lines[y]| == |lines[0]|
    requires Listed(lines, m.antennas, |lines|, 0) && m.maxLocation == Loc(|lines[0]| - 1, |lines| - 1)
    ensures forall a :: a in m.antennas ==> IsInMap(m, a.location)
    ensures forall a, b :: a in m.antennas && b in m.antennas && a.location == b.location ==> a == b
  {
  }
}

=== FILE: day08_antinodes.dfy ===
/** Day 8, puzzle 1: for every two antennas of the same frequency, the
    points in line with them at the same distance again beyond either one
    are antinodes; those inside the map are counted once each. */
module Day08Antinodes {
  import opened Day08Antennas
  import opened Sets

  /** The four points the source tries for one ordered pair. */
  function Candidates(l1: Loc, l2: Loc, d: Loc): seq<Loc>
  {
    [Plus(l1, d), Minus(l1, d), Plus(l2, d), Minus(l2, d)]
  }

  /** The antinodes one ordered pair adds: candidates in the map that are
      neither antenna, and none for a pair at zero distance. */
  function PairAntinodes(m: Map, a1: Antenna, a2: Antenna): set<Loc>
  {
    var l1 := a1.location;
    var l2 := a2.location;
    var d := Distance(l1, l2);
    if d == Loc(0, 0) then {}
    else set an | an in Candidates(l1, l2, d) && IsInMap(m, an) && an != l1 && an != l2
  }

  /** The point beyond `a` seen from `b`, as far from `a` as `b` is. */
  function Mirror(a: Loc, b: Loc): Loc
  {
    Loc(2 * a.x - b.x, 2 * a.y - b.y)
  }

  /** Of the four candidates, two are the antennas themselves; the pair's
      antinodes are the two mirror points that lie in the map. */
  lemma PairAntinodesAreMirrors(m: Map, a1: Antenna, a2: Antenna, an: Loc)
    requires a1.location != a2.location
    ensures an in PairAntinodes(m, a1, a2) <==>
      IsInMap(m, an) && (an == Mirror(a1.location, a2.location) || an == Mirror(a2.location, a1.location))
  {
    var l1 := a1.location;
    var l2 := a2.location;
    var d := Distance(l1, l2);
    assert Minus(l1, d) == l2 && Plus(l2, d) == l1;
    assert Plus(l1, d) == Mirror(l1, l2) && Minus(l2, d) == Mirror(l2, l1);
    assert Mirror(l1, l2) != l1 && Mirror(l1, l2) != l2;
    assert Mirror(l2, l1) != l1 && Mirror(l2, l1) != l2;
  }

  /** The antinodes of the pairs with the first antenna in `firsts` and the
      second in `seconds`, of equal frequency. */
  ghost function Collected(m: Map, firsts: set<Antenna>, seconds: set<Antenna>): set<Loc>
  {
    set a1, a2, an | a1 in firsts && a2 in seconds && a1.kind == a2.kind && an in PairAntinodes(m, a1, a2) :: an
  }

  /** All antinodes of the map. */
  ghost function Antinodes(m: Map): set<Loc>
  {
    Collected(m, m.antennas, m.antennas)
  }

  /** An antinode is a point of the map that mirrors one antenna across
      another of the same frequency at a different place. */
  lemma AntinodesAre(m: Map, an: Loc)
    ensures an in Antinodes(m) <==>
      IsInMap(m, an)
      && exists a1, a2 :: a1 in m.antennas && a2 in m.antennas && a1.kind == a2.kind
                          && a1.location != a2.location && an == Mirror(a1.location, a2.location)
  {
    if an in Antinodes(m) {
      var a1, a2 :| a1 in m.antennas && a2 in m.antennas && a1.kind == a2.kind && an in PairAntinodes(m, a1, a2);
      PairAntinodesAreMirrors(m, a1, a2, an);
      if an != Mirror(a1.location, a2.location) {
        assert an == Mirror(a2.location, a1.location);
      }
    }
    if IsInMap(m, an) && exists a1, a2 :: a1 in m.antennas && a2 in m.antennas && a1.kind == a2.kind
                          && a1.location != a2.location && an == Mirror(a1.location, a2.location) {
      var a1, a2 :| a1 in m.antennas && a2 in m.antennas && a1.kind == a2.kind
                    && a1.location != a2.location && an == Mirror(a1.location, a2.location);
      PairAntinodesAreMirrors(m, a1, a2, an);
    }
  }

  /** Every antinode is in the map. */
  lemma AntinodesInMap(m: Map, an: Loc)
    requires an in Antinodes(m)
    ensures IsInMap(m, an)
  {
    AntinodesAre(m, an);
  }

  /** The `for_each` over the four candidates of one pair. */
  method InsertPair(m: Map, antinodes: set<Loc>, a1: Antenna, a2: Antenna) returns (r: set<Loc>)
    ensures r == antinodes + PairAntinodes(m, a1, a2)
  {
    r := antinodes;
    var l1 := a1.location;
    var l2 := a2.location;
    var d := Distance(l1, l2);
    if !(d.x == 0 && d.y == 0) {
      var ans := Candidates(l1, l2, d);
      for i := 0 to |ans|
        invariant r == antinodes + set an | an in ans[..i] && IsInMap(m, an) && an != l1 && an != l2
      {
        var an := ans[i];
        assert ans[..i + 1] == ans[..i] + [an];
        if IsInMap(m, an) && an != l1 && an != l2 {
          r := r + {an};
        }
      }
      assert ans[..|ans|] == ans;
    }
  }

  lemma CollectedFirst(m: Map, firsts: set<Antenna>, a1: Antenna, seconds: set<Antenna>)
    ensures Collected(m, firsts + {a1}, seconds) == Collected(m, firsts, seconds) + Collected(m, {a1}, seconds)
  {
  }

  /** One second antenna more: the collected antinodes grow by its pair's. */
  lemma SecondStep(m: Map, a1: Antenna, antinodes: set<Loc>, prev: set<Loc>, r: set<Loc>, done: set<Antenna>, a2: Antenna)
    requires prev == antinodes + Collected(m, {a1}, done)
    requires r == prev + (if a1.kind == a2.kind then PairAntinodes(m, a1, a2) else {})
    ensures r == antinodes + Collected(m, {a1}, done + {a2})
  {
    CollectedSecond(m, a1, done, a2);
  }

  lemma CollectedSecond(m: Map, a1: Antenna, seconds: set<Antenna>, a2: Antenna)
    ensures Collected(m, {a1}, seconds + {a2})
         == Collected(m, {a1}, seconds) + (if a1.kind == a2.kind then PairAntinodes(m, a1, a2) else {})
  {
  }

  /** The pairs of one first antenna with every antenna of its frequency. */
  method InsertFirst(m: Map, antinodes: set<Loc>, a1: Antenna) returns (r: set<Loc>)
    ensures r == antinodes + Collected(m, {a1}, m.antennas)
  {
    r := antinodes;
    var seconds := m.antennas;
    ghost var done: set<Antenna> := {};
    while seconds != {}
      invariant done + seconds == m.antennas
      invariant r == antinodes + Collected(m, {a1}, done)
      decreases |seconds|
    {
      var a2 :| a2 in seconds;
      ghost var prev := r;
      if a1.kind == a2.kind {
        r := InsertPair(m, r, a1, a2);
      }
      SecondStep(m, a1, antinodes, prev, r, done, a2);
      seconds := seconds - {a2};
      done := done + {a2};
    }
  }

  /** `compute_antinodes`: every ordered pair of equal frequency. */
  method ComputeAntinodes(m: Map) returns (antinodes: set<Loc>)
    ensures antinodes == Antinodes(m)
  {
    antinodes := {};
    var firsts := m.antennas;
    ghost var done: set<Antenna> := {};
    while firsts != {}
      invariant done + firsts == m.antennas
      invariant antinodes == Collected(m, done, m.antennas)
      decreases |firsts|
    {
      var a1 :| a1 in firsts;
      CollectedFirst(m, done, a1, m.antennas);
      antinodes := InsertFirst(m, antinodes, a1);
      firsts := firsts - {a1};
      done := done + {a1};
    }
  }

  /** `process`: the number of distinct antinodes. */
  method Process(m: Map) returns (count: nat)
    ensures count == |Antinodes(m)|
    ensures m.maxLocation.x >= 0 && m.maxLocation.y >= 0 ==> count <= (m.maxLocation.x + 1) * (m.maxLocation.y + 1)
  {
    var antinodes := ComputeAntinodes(m);
    if m.maxLocation.x >= 0 && m.maxLocation.y >= 0 {
      InMapCount(m, antinodes);
    }
    count := |antinodes|;
  }

  /** The cells (0, y) .. (maxX, y) of one row. */
  function Row(maxX: int, y: int): (r: set<Loc>)
    ensures forall c :: c in r <==> 0 <= c.x <= maxX && c.y == y
    ensures maxX >= -1 ==> |r| == maxX + 1
    decreases maxX + 1
  {
    if maxX < 0 then {}
    else
      var before := Row(maxX - 1, y);
      assert Loc(maxX, y) !in before;
      before + {Loc(maxX, y)}
  }

  /** The cells of the rows 0 .. maxY. */
  function Rect(maxX: int, maxY: int): (r: set<Loc>)
    ensures forall c :: c in r <==> 0 <= c.x <= maxX && 0 <= c.y <= maxY
    ensures maxX >= -1 && maxY >= -1 ==> |r| == (maxX + 1) * (maxY + 1)
    decreases maxY + 1
  {
    if maxY < 0 then {}
    else
      var above := Rect(maxX, maxY - 1);
      var row := Row(maxX, maxY);
      assert above * row == {} by {
        forall c | c in above
          ensures c !in row
        {
        }
      }
      RowsCount(maxX + 1, maxY);
      above + row
  }

  lemma RowsCount(w: int, h: int)
    ensures w * h + w == w * (h + 1)
  {
  }

  /** The cells of the map. */
  function Cells(m: Map): set<Loc>
  {
    Rect(m.maxLocation.x, m.maxLocation.y)
  }

  lemma InMapCount(m: Map, antinodes: set<Loc>)
    requires antinodes == Antinodes(m)
    requires m.maxLocation.x >= 0 && m.maxLocation.y >= 0
    ensures |antinodes| <= (m.maxLocation.x + 1) * (m.maxLocation.y + 1)
  {
    forall an | an in antinodes
      ensures an in Cells(m)
    {
      AntinodesInMap(m, an);
    }
    SubsetCard(antinodes, Cells(m));
  }

  /** When both mirror points lie in the map they are exactly the pair's antinodes. */
  lemma PairAntinodesBoth(m: Map, a1: Antenna, a2: Antenna, p: Loc, q: Loc)
    requires a1.location != a2.location
    requires p == Mirror(a1.location, a2.location) && q == Mirror(a2.location, a1.location)
    requires IsInMap(m, p) && IsInMap(m, q)
    ensures forall an :: an in PairAntinodes(m, a1, a2) <==> an == p || an == q
  {
    forall an
      ensures an in PairAntinodes(m, a1, a2) <==> an == p || an == q
    {
      PairAntinodesAreMirrors(m, a1, a2, an);
    }
  }

  /** The worked pair of the puzzle: antennas 'a' at (4,3) and (5,5) in a
      10 by 10 map give antinodes (3,1) and (6,7) and no others. */
  lemma PairExample(m: Map, a1: Antenna, a2: Antenna)
    requires m.maxLocation == Loc(9, 9)
    requires a1 == Antenna('a', Loc(4, 3)) && a2 == Antenna('a', Loc(5, 5))
    ensures forall an :: an in PairAntinodes(m, a1, a2) <==> an == Loc(3, 1) || an == Loc(6, 7)
  {
    PairAntinodesBoth(m, a1, a2, Loc(3, 1), Loc(6, 7));
  }
}

=== FILE: day08_harmonics.dfy ===
/** Day 8, puzzle 2: with resonant harmonics, every map point a whole number
    of antenna distances away from an antenna of a pair, in line with the
    pair, is an antinode. */
module Day08Harmonics {
  import opened Day08Antennas

  /** The point k distances away from p. */
  function At(p: Loc, d: Loc, k: int): Loc
  {
    Loc(p.x + k * d.x, p.y + k * d.y)
  }

  /** How many more steps along d can stay in the map from p. */
  function Budget(m: Map, p: Loc, d: Loc): nat
  {
    if !IsInMap(m, p) then 0
    else if d.x > 0 then m.maxLocation.x - p.x + 1
    else if d.x < 0 then p.x + 1
    else if d.y > 0 then m.maxLocation.y - p.y + 1
    else p.y + 1
  }

  lemma BudgetShrinks(m: Map, p: Loc, d: Loc)
    requires d != Loc(0, 0) && IsInMap(m, p)
    ensures Budget(m, Plus(p, d), d) < Budget(m, p, d)
  {
  }

  /** The points p, p + d, p + 2d, ... while they are in the map. */
  function Ray(m: Map, p: Loc, d: Loc): seq<Loc>
    requires d != Loc(0, 0)
    decreases Budget(m, p, d)
  {
    if IsInMap(m, p) then
      BudgetShrinks(m, p, d);
      [p] + Ray(m, Plus(p, d), d)
    else []
  }

  lemma MulBetween(j: int, k: int, c: int)
    requires 0 <= j <= k
    ensures c >= 0 ==> 0 <= j * c <= k * c
    ensures c < 0 ==> k * c <= j * c <= 0
  {
  }

  /** The map is a box, so the points between two points of a line in it
      are in it too. */
  lemma Convex(m: Map, p: Loc, d: Loc, j: int, k: int)
    requires IsInMap(m, p) && IsInMap(m, At(p, d, k)) && 0 <= j <= k
    ensures IsInMap(m, At(p, d, j))
  {
    MulBetween(j, k, d.x);
    MulBetween(j, k, d.y);
  }

  lemma AtNext(p: Loc, d: Loc, k: int)
    ensures At(Plus(p, d), d, k) == At(p, d, k + 1)
  {
    assert (k + 1) * d.x == k * d.x + d.x;
    assert (k + 1) * d.y == k * d.y + d.y;
  }

  /** A ray holds exactly the map points a whole non-negative number of
      distances from its start, when the start is in the map. */
  lemma {:induction false} RayContents(m: Map, p: Loc, d: Loc, x: Loc)
    requires d != Loc(0, 0)
    ensures x in Ray(m, p, d) <==> IsInMap(m, p) && IsInMap(m, x) && exists k: nat :: x == At(p, d, k)
    decreases Budget(m, p, d)
  {
    if IsInMap(m, p) {
      var next := Plus(p, d);
      BudgetShrinks(m, p, d);
      RayContents(m, next, d, x);
      if x in Ray(m, p, d) {
        if x == p {
          assert x == At(p, d, 0);
        } else {
          var k: nat :| x == At(next, d, k);
          AtNext(p, d, k);
        }
      }
      if IsInMap(m, x) && exists k: nat :: x == At(p, d, k) {
        var k: nat :| x == At(p, d, k);
        if k > 0 {
          Convex(m, p, d, 1, k);
          assert At(p, d, 1) == next;
          AtNext(p, d, k - 1);
        } else {
          assert x == p;
        }
      }
    }
  }

  /** The start of a ray in the map is its first point: an antenna is an
      antinode of its own pairs. */
  lemma RayStartsAtAntenna(m: Map, p: Loc, d: Loc)
    requires d != Loc(0, 0) && IsInMap(m, p)
    ensures |Ray(m, p, d)| >= 1 && Ray(m, p, d)[0] == p
  {
  }

  /** The first loop of `expand_frequency`: p + k*d for k = 0, 1, ...
      while in the map. */
  method IncreasingLoop(m: Map, antenna: Loc, distance: Loc, start: seq<Loc>) returns (positions: seq<Loc>)
    requires distance != Loc(0, 0)
    ensures positions == start + Ray(m, antenna, distance)
  {
    positions := start;
    var factor := 0;
    while true
      invariant factor >= 0
      invariant start + Ray(m, antenna, distance) == positions + Ray(m, At(antenna, distance, factor), distance)
      decreases Budget(m, At(antenna, distance, factor), distance)
    {
      var p := Loc(antenna.x + factor * distance.x, antenna.y + factor * distance.y);
      if IsInMap(m, p) {
        positions := positions + [p];
      } else {
        break;
      }
      BudgetShrinks(m, p, distance);
      AtNextIs(antenna, distance, factor);
      factor := factor + 1;
    }
  }

  /** The second loop of `expand_frequency`: its factor goes 0, -1, -2, ...
      and is subtracted, so it visits p + k*d for k = 0, 1, ... as well. */
  method DecreasingLoop(m: Map, antenna: Loc, distance: Loc, start: seq<Loc>) returns (positions: seq<Loc>)
    requires distance != Loc(0, 0)
    ensures positions == start + Ray(m, antenna, distance)
  {
    positions := start;
    var factor := 0;
    while true
      invariant factor <= 0
      invariant start + Ray(m, antenna, distance) == positions + Ray(m, At(antenna, distance, -factor), distance)
      decreases Budget(m, At(antenna, distance, -factor), distance)
    {
      var p := Loc(antenna.x - factor * distance.x, antenna.y - factor * distance.y);
      assert p == At(antenna, distance, -factor);
      if IsInMap(m, p) {
        positions := positions + [p];
      } else {
        break;
      }
      BudgetShrinks(m, p, distance);
      AtNextIs(antenna, distance, -factor);
      factor := factor - 1;
    }
  }

  /** `expand_frequency`: both loops list the same forward ray, so every
      position comes twice. */
  method ExpandFrequency(m: Map, antenna: Loc, distance: Loc) returns (positions: seq<Loc>)
    requires distance != Loc(0, 0)
    ensures positions == Ray(m, antenna, distance) + Ray(m, antenna, distance)
  {
    positions := IncreasingLoop(m, antenna, distance, []);
    positions := DecreasingLoop(m, antenna, distance, positions);
  }

  lemma AtNextIs(p: Loc, d: Loc, k: int)
    ensures Plus(At(p, d, k), d) == At(p, d, k + 1)
  {
    assert (k + 1) * d.x == k * d.x + d.x;
    assert (k + 1) * d.y == k * d.y + d.y;
  }

  /** The antinodes one ordered pair adds: the ray from the first antenna
      away from the second; none at zero distance. */
  function PairAntinodes(m: Map, a1: Antenna, a2: Antenna): set<Loc>
  {
    var d := Distance(a1.location, a2.location);
    if d == Loc(0, 0) then {} else set p | p in Ray(m, a1.location, d)
  }

  ghost function Collected(m: Map, firsts: set<Antenna>, seconds: set<Antenna>): set<Loc>
  {
    set a1, a2, an | a1 in firsts && a2 in seconds && a1.kind == a2.kind && an in PairAntinodes(m, a1, a2) :: an
  }

  ghost function Antinodes(m: Map): set<Loc>
  {
    Collected(m, m.antennas, m.antennas)
  }

  /** `an` is a whole number of distances, forward or backward, from an
      antenna of a pair of equal frequency at different places. */
  ghost predicate OnPairLine(m: Map, an: Loc)
  {
    exists a1, a2, j: int ::
      a1 in m.antennas && a2 in m.antennas && a1.kind == a2.kind && a1.location != a2.location
      && an == At(a1.location, Distance(a1.location, a2.location), j)
  }

  /** With every antenna in the map, the antinodes are the map points at a
      whole number of distances, forward or backward, from an antenna of a
      pair of equal frequency: walking only forward from each antenna is
      enough because both orders of each pair are tried. */
  lemma AntinodesAre(m: Map, an: Loc)
    requires forall a :: a in m.antennas ==> IsInMap(m, a.location)
    ensures an in Antinodes(m) <==> IsInMap(m, an) && OnPairLine(m, an)
  {
    if an in Antinodes(m) {
      var a1, a2 :| a1 in m.antennas && a2 in m.antennas && a1.kind == a2.kind && an in PairAntinodes(m, a1, a2);
      var d := Distance(a1.location, a2.location);
      RayContents(m, a1.location, d, an);
      var k: nat :| an == At(a1.location, d, k);
      assert an == At(a1.location, Distance(a1.location, a2.location), k);
    }
    if IsInMap(m, an) && OnPairLine(m, an) {
      var a1, a2, j: int :| a1 in m.antennas && a2 in m.antennas && a1.kind == a2.kind
           && a1.location != a2.location && an == At(a1.location, Distance(a1.location, a2.location), j);
      var d := Distance(a1.location, a2.location);
      if j >= 0 {
        RayContents(m, a1.location, d, an);
        assert an in PairAntinodes(m, a1, a2);
      } else {
        var back := Distance(a2.location, a1.location);
        var k: nat := -(j + 1);
        Backward(a1.location, a2.location, j);
        RayContents(m, a2.location, back, an);
        assert an in PairAntinodes(m, a2, a1);
      }
    }
  }

  /** j distances from the first antenna, for negative j, is -(j+1)
      distances from the second one, walking the other way. */
  lemma Backward(l1: Loc, l2: Loc, j: int)
    requires j < 0
    ensures At(l1, Distance(l1, l2), j) == At(l2, Distance(l2, l1), -(j + 1))
  {
    var dx := l1.x - l2.x;
    var dy := l1.y - l2.y;
    assert j * dx == -(j + 1) * -dx - dx;
    assert j * dy == -(j + 1) * -dy - dy;
  }

  lemma CollectedFirst(m: Map, firsts: set<Antenna>, a1: Antenna, seconds: set<Antenna>)
    ensures Collected(m, firsts + {a1}, seconds) == Collected(m, firsts, seconds) + Collected(m, {a1}, seconds)
  {
  }

  /** One second antenna more: the collected antinodes grow by its pair's. */
  lemma SecondStep(m: Map, a1: Antenna, antinodes: set<Loc>, prev: set<Loc>, r: set<Loc>, done: set<Antenna>, a2: Antenna)
    requires prev == antinodes + Collected(m, {a1}, done)
    requires r == prev + (if a1.kind == a2.kind then PairAntinodes(m, a1, a2) else {})
    ensures r == antinodes + Collected(m, {a1}, done + {a2})
  {
    CollectedSecond(m, a1, done, a2);
  }

  lemma CollectedSecond(m: Map, a1: Antenna, seconds: set<Antenna>, a2: Antenna)
    ensures Collected(m, {a1}, seconds + {a2})
         == Collected(m, {a1}, seconds) + (if a1.kind == a2.kind then PairAntinodes(m, a1, a2) else {})
  {
  }

  /** One pair: `antinodes.extend(expand_frequency(l1, d))`. */
  method InsertPair(m: Map, antinodes: set<Loc>, a1: Antenna, a2: Antenna) returns (r: set<Loc>)
    ensures r == antinodes + PairAntinodes(m, a1, a2)
  {
    r := antinodes;
    var d := Distance(a1.location, a2.location);
    if !(d.x == 0 && d.y == 0) {
      var positions := ExpandFrequency(m, a1.location, d);
      r := r + set p | p in positions;
    }
  }

  method InsertFirst(m: Map, antinodes: set<Loc>, a1: Antenna) returns (r: set<Loc>)
    ensures r == antinodes + Collected(m, {a1}, m.antennas)
  {
    r := antinodes;
    var seconds := m.antennas;
    ghost var done: set<Antenna> := {};
    while seconds != {}
      invariant done + seconds == m.antennas
      invariant r == antinodes + Collected(m, {a1}, done)
      decreases |seconds|
    {
      var a2 :| a2 in seconds;
      ghost var prev := r;
      if a1.kind == a2.kind {
        r := InsertPair(m, r, a1, a2);
      }
      SecondStep(m, a1, antinodes, prev, r, done, a2);
      seconds := seconds - {a2};
      done := done + {a2};
    }
  }

  /** `compute_antinodes` with harmonics. */
  method ComputeAntinodes(m: Map) returns (antinodes: set<Loc>)
    ensures antinodes == Antinodes(m)
  {
    antinodes := {};
    var firsts := m.antennas;
    ghost var done: set<Antenna> := {};
    while firsts != {}
      invariant done + firsts == m.antennas
      invariant antinodes == Collected(m, done, m.antennas)
      decreases |firsts|
    {
      var a1 :| a1 in firsts;
      CollectedFirst(m, done, a1, m.antennas);
      antinodes := InsertFirst(m, antinodes, a1);
      firsts := firsts - {a1};
      done := done + {a1};
    }
  }

  /** Every antinode is in the map, and every antenna that has a partner of
      its frequency elsewhere is an antinode. */
  lemma AntinodesInMapAndAntennas(m: Map, an: Loc, a1: Antenna, a2: Antenna)
    requires a1 in m.antennas && a2 in m.antennas && a1.kind == a2.kind && a1.location != a2.location
    requires IsInMap(m, a1.location)
    ensures an in Antinodes(m) ==> IsInMap(m, an)
    ensures a1.location in Antinodes(m)
  {
    if an in Antinodes(m) {
      var b1, b2 :| b1 in m.antennas && b2 in m.antennas && b1.kind == b2.kind && an in PairAntinodes(m, b1, b2);
      RayContents(m, b1.location, Distance(b1.location, b2.location), an);
    }
    RayStartsAtAntenna(m, a1.location, Distance(a1.location, a2.location));
    assert a1.location in PairAntinodes(m, a1, a2);
  }

  /** `process`: the number of distinct antinodes. */
  method Process(m: Map) returns (count: nat)
    ensures count == |Antinodes(m)|
  {
    var antinodes := ComputeAntinodes(m);
    count := |antinodes|;
  }
}

=== FILE: day09_blocks.dfy ===
/** Day 9, puzzle 1: a disk map of digits alternates file lengths and free
    lengths. Every file block is moved, one at a time from the end of the
    disk, into the leftmost free position, and the checksum sums id times
    position over all blocks. */
module Day09Blocks {
  import opened Wrappers
  import opened Decimal

  /** One block of a file: the file's id and the block's disk position. */
  datatype Block = Block(id: nat, diskIndex: nat)

  /** The blocks, in disk order, and the free positions, ascending. */
  datatype Layout = Layout(blocks: seq<Block>, empties: seq<nat>)

  function Sum(digits: seq<nat>): nat
  {
    if digits == [] then 0 else Sum(digits[..|digits| - 1]) + digits[|digits| - 1]
  }

  /** The digit values of a line of digits. */
  function DigitsOf(line: string): (r: seq<nat>)
    requires AllDigits(line)
    ensures |r| == |line|
    ensures forall i :: 0 <= i < |line| ==> r[i] == DigitValue(line[i])
  {
    seq(|line|, i requires 0 <= i < |line| => DigitValue(line[i]))
  }

  /** The `amount` blocks of file `id` from `start` on. */
  function Run(id: nat, start: nat, amount: nat): (r: seq<Block>)
    ensures |r| == amount
  {
    seq(amount, j requires 0 <= j < amount => Block(id, start + j))
  }

  /** The `amount` positions from `start` on. */
  function Range(start: nat, amount: nat): (r: seq<nat>)
    ensures |r| == amount
  {
    seq(amount, j requires 0 <= j < amount => start + j)
  }

  /** The layout of a disk map: an even-indexed digit is a file with id
      half its index, an odd-indexed one is free space, and each starts
      where the digits before it end. */
  function Expand(digits: seq<nat>): Layout
  {
    if digits == [] then Layout([], [])
    else
      var n := |digits| - 1;
      var prev := Expand(digits[..n]);
      var start := Sum(digits[..n]);
      if n % 2 == 0 then Layout(prev.blocks + Run(n / 2, start, digits[n]), prev.empties)
      else Layout(prev.blocks, prev.empties + Range(start, digits[n]))
  }

  predicate Increasing(s: seq<nat>)
  {
    forall i, j :: 0 <= i < j < |s| ==> s[i] < s[j]
  }

  function Positions(blocks: seq<Block>): (r: seq<nat>)
    ensures |r| == |blocks|
    ensures forall i :: 0 <= i < |blocks| ==> r[i] == blocks[i].diskIndex
  {
    seq(|blocks|, i requires 0 <= i < |blocks| => blocks[i].diskIndex)
  }

  /** The layout tiles the disk: block and free positions are ascending,
      below the disk size, never the same, and as many as the disk size. */
  lemma {:induction false} ExpandTiles(digits: seq<nat>)
    ensures var l := Expand(digits);
      Increasing(Positions(l.blocks)) && Increasing(l.empties)
      && (forall i :: 0 <= i < |l.blocks| ==> l.blocks[i].diskIndex < Sum(digits))
      && (forall i :: 0 <= i < |l.empties| ==> l.empties[i] < Sum(digits))
      && (forall i, j :: 0 <= i < |l.blocks| && 0 <= j < |l.empties| ==> l.blocks[i].diskIndex != l.empties[j])
      && |l.blocks| + |l.empties| == Sum(digits)
  {
    if digits != [] {
      var n := |digits| - 1;
      ExpandTiles(digits[..n]);
      var prev := Expand(digits[..n]);
      var start := Sum(digits[..n]);
      var l := Expand(digits);
      if n % 2 == 0 {
        var run := Run(n / 2, start, digits[n]);
        assert l.blocks == prev.blocks + run;
        forall i | 0 <= i < |l.blocks|
          ensures l.blocks[i].diskIndex < Sum(digits)
          ensures i >= |prev.blocks| ==> l.blocks[i].diskIndex >= start
        {
          if i >= |prev.blocks| {
            assert l.blocks[i] == run[i - |prev.blocks|];
          }
        }
      } else {
        var range := Range(start, digits[n]);
        assert l.empties == prev.empties + range;
        forall i | 0 <= i < |l.empties|
          ensures l.empties[i] < Sum(digits)
          ensures i >= |prev.empties| ==> l.empties[i] >= start
        {
          if i >= |prev.empties| {
            assert l.empties[i] == range[i - |prev.empties|];
          }
        }
      }
    }
  }

  predicate IdsAscending(b: seq<Block>)
  {
    forall i, j :: 0 <= i < j < |b| ==> b[i].id <= b[j].id
  }

  /** File ids follow the input: block ids never decrease along the disk. */
  lemma {:induction false} ExpandIds(digits: seq<nat>)
    ensures IdsAscending(Expand(digits).blocks)
    ensures forall i :: 0 <= i < |Expand(digits).blocks| ==> 2 * Expand(digits).blocks[i].id < |digits|
  {
    if digits != [] {
      var n := |digits| - 1;
      ExpandIds(digits[..n]);
      var prev := Expand(digits[..n]).blocks;
      var b := Expand(digits).blocks;
      if n % 2 == 0 {
        var run := Run(n / 2, Sum(digits[..n]), digits[n]);
        assert b == prev + run;
        forall i | 0 <= i < |b|
          ensures i < |prev| ==> b[i] == prev[i] && 2 * b[i].id < n
          ensures i >= |prev| ==> b[i].id == n / 2
        {
          if i >= |prev| {
            assert b[i] == run[i - |prev|];
          }
        }
      } else {
        assert b == prev;
      }
    }
  }

  lemma ExpandSnoc(line: string, i: nat)
    requires i < |line| && AllDigits(line[..i + 1])
    ensures AllDigits(line[..i])
    ensures DigitsOf(line[..i + 1]) == DigitsOf(line[..i]) + [DigitValue(line[i])]
    ensures DigitsOf(line[..i + 1])[..i] == DigitsOf(line[..i])
  {
    assert line[..i + 1][..i] == line[..i];
  }

  /** One more digit of the line: its run goes after the layout of the
      digits before it, from the position their sum reaches. */
  lemma ExpandStep(line: string, i: nat)
    requires i < |line| && AllDigits(line[..i + 1])
    ensures AllDigits(line[..i])
    ensures Sum(DigitsOf(line[..i + 1])) == Sum(DigitsOf(line[..i])) + DigitValue(line[i])
    ensures var prev := Expand(DigitsOf(line[..i]));
      var start := Sum(DigitsOf(line[..i]));
      Expand(DigitsOf(line[..i + 1])) == if i % 2 == 0
        then Layout(prev.blocks + Run(i / 2, start, DigitValue(line[i])), prev.empties)
        else Layout(prev.blocks, prev.empties + Range(start, DigitValue(line[i])))
  {
    ExpandSnoc(line, i);
    var d := DigitsOf(line[..i + 1]);
    assert |d| - 1 == i && d[i] == DigitValue(line[i]);
  }

  /** The inner loop of `process` for one digit: `amount` blocks of file
      `inputIndex / 2` at an even index, `amount` free positions at an odd
      one, from `diskIndex` on. */
  method PushRun(blocks: seq<Block>, empties: seq<nat>, inputIndex: nat, diskIndex: nat, amount: nat)
    returns (blocks': seq<Block>, empties': seq<nat>)
    ensures inputIndex % 2 == 0 ==> blocks' == blocks + Run(inputIndex / 2, diskIndex, amount) && empties' == empties
    ensures inputIndex % 2 == 1 ==> empties' == empties + Range(diskIndex, amount) && blocks' == blocks
  {
    blocks', empties' := blocks, empties;
    for subIndex := 0 to amount
      invariant inputIndex % 2 == 0 ==> blocks' == blocks + Run(inputIndex / 2, diskIndex, subIndex) && empties' == empties
      invariant inputIndex % 2 == 1 ==> empties' == empties + Range(diskIndex, subIndex) && blocks' == blocks
    {
      var i := diskIndex + subIndex;
      var blockCount := inputIndex / 2;
      if inputIndex % 2 == 0 {
        assert Run(blockCount, diskIndex, subIndex + 1) == Run(blockCount, diskIndex, subIndex) + [Block(blockCount, i)];
        blocks' := blocks' + [Block(blockCount, i)];
      } else {
        assert Range(diskIndex, subIndex + 1) == Range(diskIndex, subIndex) + [i];
        empties' := empties' + [i];
      }
    }
  }

  /** The parsing loop of `process`: each digit pushes that many blocks or
      free positions; a character that is not a digit fails. */
  method ParseDiskMap(line: string) returns (r: Result<Layout>)
    ensures r.Err? <==> !AllDigits(line)
    ensures r.Ok? ==> r.value == Expand(DigitsOf(line))
  {
    var blocks: seq<Block> := [];
    var empties: seq<nat> := [];
    var diskIndex := 0;
    for inputIndex := 0 to |line|
      invariant AllDigits(line[..inputIndex])
      invariant Layout(blocks, empties) == Expand(DigitsOf(line[..inputIndex]))
      invariant diskIndex == Sum(DigitsOf(line[..inputIndex]))
    {
      var item := line[inputIndex];
      if !IsDigit(item) {
        return Err("not a digit");
      }
      assert AllDigits(line[..inputIndex + 1]);
      ExpandStep(line, inputIndex);
      var amount := DigitValue(item);
      blocks, empties := PushRun(blocks, empties, inputIndex, diskIndex, amount);
      diskIndex := diskIndex + amount;
    }
    assert line[..|line|] == line;
    return Ok(Layout(blocks, empties));
  }

  /** Where the compaction loop stops: the first i at which the i-th free
      position lies right of the i-th block from the end, or when either
      list runs out. */
  function StopFrom(b: seq<Block>, e: seq<nat>, i: nat): (k: nat)
    requires i <= |b| && i <= |e|
    ensures i <= k <= |b| && k <= |e|
    ensures forall j :: i <= j < k ==> e[j] <= b[|b| - 1 - j].diskIndex
    ensures k < |b| && k < |e| ==> e[k] > b[|b| - 1 - k].diskIndex
    decreases |b| - i
  {
    if i == |b| || i == |e| || e[i] > b[|b| - 1 - i].diskIndex then i
    else StopFrom(b, e, i + 1)
  }

  /** The compacted blocks: the last `StopFrom(b, e, 0)` blocks take the
      free positions in ascending order, the others stay. */
  function Compacted(b: seq<Block>, e: seq<nat>): (r: seq<Block>)
    ensures |r| == |b|
    ensures forall j :: 0 <= j < |b| ==> r[j].id == b[j].id && r[j].diskIndex <= b[j].diskIndex
  {
    var k := StopFrom(b, e, 0);
    seq(|b|, j requires 0 <= j < |b| => if j >= |b| - k then b[j].(diskIndex := e[|b| - 1 - j]) else b[j])
  }

  /** Starting from distinct block positions and ascending free positions
      none of which holds a block, the compacted blocks are still at
      pairwise distinct positions. */
  lemma CompactedDistinct(b: seq<Block>, e: seq<nat>)
    requires Increasing(Positions(b)) && Increasing(e)
    requires forall i, j :: 0 <= i < |b| && 0 <= j < |e| ==> b[i].diskIndex != e[j]
    ensures forall i, j :: 0 <= i < j < |b| ==> Compacted(b, e)[i].diskIndex != Compacted(b, e)[j].diskIndex
  {
    var r := Compacted(b, e);
    var k := StopFrom(b, e, 0);
    forall i, j | 0 <= i < j < |b|
      ensures r[i].diskIndex != r[j].diskIndex
    {
      if i >= |b| - k {
        assert r[i].diskIndex == e[|b| - 1 - i] && r[j].diskIndex == e[|b| - 1 - j];
        assert Positions(b)[0] == b[0].diskIndex;
      } else if j >= |b| - k {
        assert r[i].diskIndex == b[i].diskIndex && r[j].diskIndex == e[|b| - 1 - j];
      } else {
        assert Positions(b)[i] < Positions(b)[j];
      }
    }
  }

  /** Where the scan stops, from its stopping condition: every pair before
      `k` moves, and at `k` a list ends or the free position lies right. */
  lemma {:induction false} StopFromIs(b: seq<Block>, e: seq<nat>, i: nat, k: nat)
    requires i <= k <= |b| && k <= |e|
    requires forall j :: i <= j < k ==> e[j] <= b[|b| - 1 - j].diskIndex
    requires k == |b| || k == |e| || e[k] > b[|b| - 1 - k].diskIndex
    ensures StopFrom(b, e, i) == k
    decreases k - i
  {
    if i < k {
      StopFromIs(b, e, i + 1, k);
    }
  }

  /** A sequence that agrees with `Compacted` position by position is it. */
  lemma CompactedIs(b: seq<Block>, e: seq<nat>, r: seq<Block>)
    requires |r| == |b| && StopFrom(b, e, 0) <= |b|
    requires forall j :: 0 <= j < |b| - StopFrom(b, e, 0) ==> r[j] == b[j]
    requires forall j :: |b| - StopFrom(b, e, 0) <= j < |b| ==> r[j] == b[j].(diskIndex := e[|b| - 1 - j])
    ensures r == Compacted(b, e)
  {
  }

  /** The loop of `process` over free positions zipped with the blocks in
      reverse, rewriting block positions in place. */
  method Compact(blocks: array<Block>, empties: seq<nat>)
    modifies blocks
    ensures blocks[..] == Compacted(old(blocks[..]), empties)
  {
    ghost var b := blocks[..];
    var n := blocks.Length;
    var i := 0;
    while i < |empties| && i < n
      invariant 0 <= i <= |empties| && i <= n
      invariant forall j :: 0 <= j < i ==> empties[j] <= b[n - 1 - j].diskIndex
      invariant forall j :: 0 <= j < n - i ==> blocks[j] == b[j]
      invariant forall j :: n - i <= j < n ==> blocks[j] == b[j].(diskIndex := empties[n - 1 - j])
    {
      var block := n - 1 - i;
      if empties[i] > blocks[block].diskIndex {
        break;
      }
      blocks[block] := blocks[block].(diskIndex := empties[i]);
      i := i + 1;
    }
    StopFromIs(b, empties, 0, i);
    CompactedIs(b, empties, blocks[..]);
  }

  /** `compute_checksum`: id times position, summed. Every block adds its
      own product, so the sum is at least each of them, and it is zero
      exactly when every block has id 0 or sits at position 0. */
  function Checksum(blocks: seq<Block>): (r: nat)
    ensures forall i :: 0 <= i < |blocks| ==> blocks[i].id * blocks[i].diskIndex <= r
    ensures r == 0 <==> forall i :: 0 <= i < |blocks| ==> blocks[i].id == 0 || blocks[i].diskIndex == 0
  {
    if blocks == [] then 0
    else
      var last := blocks[|blocks| - 1];
      var prefix := blocks[..|blocks| - 1];
      var rest := Checksum(prefix);
      assert forall i :: 0 <= i < |prefix| ==> prefix[i] == blocks[i];
      ProductZero(last.id, last.diskIndex);
      rest + last.id * last.diskIndex
  }

  lemma ProductZero(a: nat, b: nat)
    ensures a * b >= 0
    ensures a * b == 0 <==> a == 0 || b == 0
  {
  }

  /** Moving blocks left, keeping their ids, never raises the checksum. */
  lemma {:induction false} ChecksumMonotone(a: seq<Block>, b: seq<Block>)
    requires |a| == |b|
    requires forall j :: 0 <= j < |a| ==> a[j].id == b[j].id && a[j].diskIndex <= b[j].diskIndex
    ensures Checksum(a) <= Checksum(b)
  {
    if a != [] {
      var n := |a| - 1;
      ChecksumMonotone(a[..n], b[..n]);
      MulMonotone(a[n].id, a[n].diskIndex, b[n].diskIndex);
    }
  }

  lemma MulMonotone(x: nat, p: nat, q: nat)
    requires p <= q
    ensures x * p <= x * q
  {
  }

  /** `process`: the checksum after compaction, never more than before. */
  method Process(lines: seq<string>) returns (r: Result<nat>)
    ensures r.Err? <==> lines == [] || !AllDigits(lines[0])
    ensures r.Ok? ==> var l := Expand(DigitsOf(lines[0]));
      r.value == Checksum(Compacted(l.blocks, l.empties)) && r.value <= Checksum(l.blocks)
  {
    if lines == [] {
      return Err("no line");
    }
    var layout :- ParseDiskMap(lines[0]);
    var blocks := new Block[|layout.blocks|](i requires 0 <= i < |layout.blocks| => layout.blocks[i]);
    assert blocks[..] == layout.blocks;
    Compact(blocks, layout.empties);
    ChecksumMonotone(blocks[..], layout.blocks);
    return Ok(Checksum(blocks[..]));
  }

  /** The small example of the puzzle: "12345" is laid out as 0..111....22222
      and compacts to 022111222, whose checksum is 60. */
  lemma SmallExample(l: Layout)
    requires l == Expand([1, 2, 3, 4, 5])
    ensures l.blocks == SmallBlocks() && l.empties == [1, 2, 6, 7, 8, 9]
    ensures Checksum(Compacted(l.blocks, l.empties)) == 60
  {
    assert [1, 2, 3, 4, 5][..4] == [1, 2, 3, 4];
    assert [1, 2, 3, 4][..3] == [1, 2, 3];
    assert [1, 2, 3][..2] == [1, 2];
    assert [1, 2][..1] == [1];
    assert [1][..0] == [];
    SmallCompaction(l.blocks, l.empties);
    SmallChecksum(Compacted(l.blocks, l.empties));
  }

  function SmallBlocks(): seq<Block>
  {
    [Block(0, 0), Block(1, 3), Block(1, 4), Block(1, 5),
     Block(2, 10), Block(2, 11), Block(2, 12), Block(2, 13), Block(2, 14)]
  }

  lemma SmallCompaction(b: seq<Block>, e: seq<nat>)
    requires b == SmallBlocks() && e == [1, 2, 6, 7, 8, 9]
    ensures Compacted(b, e) == [Block(0, 0), Block(1, 3), Block(1, 4), Block(1, 5),
                                Block(2, 8), Block(2, 7), Block(2, 6), Block(2, 2), Block(2, 1)]
  {
    assert StopFrom(b, e, 5) == 5;
    assert StopFrom(b, e, 4) == 5;
    assert StopFrom(b, e, 3) == 5;
    assert StopFrom(b, e, 2) == 5;
    assert StopFrom(b, e, 1) == 5;
    assert StopFrom(b, e, 0) == 5;
  }

  lemma SmallChecksum(c: seq<Block>)
    requires c == [Block(0, 0), Block(1, 3), Block(1, 4), Block(1, 5),
                   Block(2, 8), Block(2, 7), Block(2, 6), Block(2, 2), Block(2, 1)]
    ensures Checksum(c) == 60
  {
    var sums := [0, 0, 3, 7, 12, 28, 42, 54, 58, 60];
    for k := 0 to 9
      invariant Checksum(c[..k]) == sums[k]
    {
      assert c[..k + 1][..k] == c[..k];
      assert Checksum(c[..k + 1]) == sums[k + 1];
    }
    assert c[..9] == c;
  }
}

=== FILE: day09_files.dfy ===
/** Day 9, puzzle 2: whole files are moved, from the last file to the
    first, each into the leftmost free span that lies before it and is
    large enough; the checksum sums id times position over every block of
    every file. */
module Day09Files {
  import opened Wrappers
  import opened Decimal
  import Day09Blocks

  /** A file: its id, first disk position and number of blocks. */
  datatype File = File(id: nat, start: nat, length: nat)

  /** A free span: first disk position and number of free blocks. */
  datatype Span = Span(start: nat, length: nat)

  /** The files in input order and the free spans, in input order. */
  datatype Disk = Disk(files: seq<File>, free: seq<Span>)

  /** The disk of a disk map: an even-indexed digit is the file with id
      half its index, an odd-indexed one a free span, each starting where
      the digits before it end. */
  function Spans(digits: seq<nat>): (d: Disk)
    ensures |d.files| == (|digits| + 1) / 2 && |d.free| == |digits| / 2
  {
    if digits == [] then Disk([], [])
    else
      var n := |digits| - 1;
      var prev := Spans(digits[..n]);
      var start := Day09Blocks.Sum(digits[..n]);
      if n % 2 == 0 then Disk(prev.files + [File(n / 2, start, digits[n])], prev.free)
      else Disk(prev.files, prev.free + [Span(start, digits[n])])
  }

  /** File i is digit 2i and free span i is digit 2i + 1, each starting at
      the sum of the digits before it. */
  lemma {:induction false} SpansAt(digits: seq<nat>)
    ensures forall i :: 0 <= i < |Spans(digits).files| ==>
      Spans(digits).files[i] == File(i, Day09Blocks.Sum(digits[..2 * i]), digits[2 * i])
    ensures forall i :: 0 <= i < |Spans(digits).free| ==>
      Spans(digits).free[i] == Span(Day09Blocks.Sum(digits[..2 * i + 1]), digits[2 * i + 1])
  {
    if digits != [] {
      var n := |digits| - 1;
      SpansAt(digits[..n]);
      forall i | 0 <= i < n
        ensures digits[..n][..i] == digits[..i] && digits[..n][i] == digits[i]
      {
      }
    }
  }

  /** Two block ranges share no position. */
  predicate Apart(s1: nat, l1: nat, s2: nat, l2: nat)
  {
    s1 + l1 <= s2 || s2 + l2 <= s1
  }

  predicate FreeAscending(free: seq<Span>)
  {
    forall i, j :: 0 <= i < j < |free| ==> free[i].start + free[i].length <= free[j].start
  }

  predicate FilesApart(files: seq<File>)
  {
    forall i, j :: 0 <= i < j < |files| ==>
      Apart(files[i].start, files[i].length, files[j].start, files[j].length)
  }

  predicate FilesFreeApart(files: seq<File>, free: seq<Span>)
  {
    forall i, j :: 0 <= i < |files| && 0 <= j < |free| ==>
      Apart(files[i].start, files[i].length, free[j].start, free[j].length)
  }

  /** A consistent disk: free spans ascend, and no file shares a position
      with another file or a free span. */
  predicate Valid(d: Disk)
  {
    FreeAscending(d.free) && FilesApart(d.files) && FilesFreeApart(d.files, d.free)
  }

  /** The disk of a disk map is consistent, and everything ends by the
      digit sum. */
  lemma {:induction false} SpansValid(digits: seq<nat>)
    ensures Valid(Spans(digits))
    ensures forall i :: 0 <= i < |Spans(digits).files| ==>
      Spans(digits).files[i].start + Spans(digits).files[i].length <= Day09Blocks.Sum(digits)
    ensures forall i :: 0 <= i < |Spans(digits).free| ==>
      Spans(digits).free[i].start + Spans(digits).free[i].length <= Day09Blocks.Sum(digits)
  {
    if digits != [] {
      var n := |digits| - 1;
      SpansValid(digits[..n]);
    }
  }

  /** `position` in `defragnent`: the first free span before the file
      that can hold it, searching from index `from`. */
  function FirstFit(free: seq<Span>, f: File, from: nat): (r: Option<nat>)
    requires from <= |free|
    ensures r.Some? ==> from <= r.value < |free| && Fits(free[r.value], f)
    ensures r.Some? ==> forall k :: from <= k < r.value ==> !Fits(free[k], f)
    ensures r.None? ==> forall k :: from <= k < |free| ==> !Fits(free[k], f)
    decreases |free| - from
  {
    if from == |free| then None
    else if Fits(free[from], f) then Some(from)
    else FirstFit(free, f, from + 1)
  }

  predicate Fits(s: Span, f: File)
  {
    s.start < f.start && s.length >= f.length
  }

  /** One step of `defragnent` for file j: it takes the start of the
      first fitting span, which is dropped when the file fills it and
      otherwise keeps what the file leaves free at its end. */
  function Move(d: Disk, j: nat): (r: Disk)
    requires j < |d.files|
    ensures |r.files| == |d.files|
    ensures forall i :: 0 <= i < |d.files| && i != j ==> r.files[i] == d.files[i]
    ensures r.files[j].id == d.files[j].id && r.files[j].length == d.files[j].length
    ensures r.files[j].start <= d.files[j].start
    ensures FirstFit(d.free, d.files[j], 0).None? <==> r == d
  {
    var f := d.files[j];
    match FirstFit(d.free, f, 0)
    case None => d
    case Some(k) =>
      var s := d.free[k];
      var files := d.files[j := f.(start := s.start)];
      if s.length == f.length then Disk(files, d.free[..k] + d.free[k + 1..])
      else Disk(files, d.free[k := Span(s.start + f.length, s.length - f.length)])
  }

  /** A range inside a span is apart from whatever the span is apart from. */
  lemma ApartInside(a: nat, la: nat, s: nat, ls: nat, b: nat, lb: nat)
    requires Apart(a, la, s, ls) && s <= b && b + lb <= s + ls
    ensures Apart(a, la, b, lb)
  {
  }

  /** Moving one file keeps the disk consistent. */
  lemma MoveValid(d: Disk, j: nat)
    requires j < |d.files| && Valid(d)
    ensures Valid(Move(d, j))
  {
    var f := d.files[j];
    var fit := FirstFit(d.free, f, 0);
    if fit.Some? {
      var k := fit.value;
      var s := d.free[k];
      var r := Move(d, j);
      var g := r.files[j];
      assert g == File(f.id, s.start, f.length);
      forall i | 0 <= i < |r.files| && i != j
        ensures Apart(r.files[i].start, r.files[i].length, g.start, g.length)
      {
        ApartInside(d.files[i].start, d.files[i].length, s.start, s.length, g.start, g.length);
      }
      assert FilesApart(r.files);
      if s.length == f.length {
        assert r.free == d.free[..k] + d.free[k + 1..];
        forall m | 0 <= m < |r.free|
          ensures r.free[m] == d.free[if m < k then m else m + 1]
        {
        }
        forall m | 0 <= m < |r.free|
          ensures Apart(g.start, g.length, r.free[m].start, r.free[m].length)
        {
          var o := if m < k then m else m + 1;
          assert Apart(s.start, s.length, d.free[o].start, d.free[o].length);
        }
      } else {
        forall m | 0 <= m < |r.free| && m != k
          ensures Apart(g.start, g.length, r.free[m].start, r.free[m].length)
        {
          assert Apart(s.start, s.length, d.free[m].start, d.free[m].length);
        }
        forall i | 0 <= i < |r.files| && i != j
          ensures Apart(r.files[i].start, r.files[i].length, r.free[k].start, r.free[k].length)
        {
          ApartInside(d.files[i].start, d.files[i].length, s.start, s.length, r.free[k].start, r.free[k].length);
        }
      }
    }
  }

  /** `defragnent` on the files before index n: file n - 1 first, file 0
      last. */
  function Defragged(d: Disk, n: nat): (r: Disk)
    requires n <= |d.files|
    ensures |r.files| == |d.files|
    ensures forall i :: 0 <= i < |d.files| ==>
      r.files[i].id == d.files[i].id && r.files[i].length == d.files[i].length
      && r.files[i].start <= d.files[i].start
    ensures forall i :: n <= i < |d.files| ==> r.files[i] == d.files[i]
    decreases n
  {
    if n == 0 then d else Defragged(Move(d, n - 1), n - 1)
  }

  /** Defragmenting keeps the disk consistent. */
  lemma {:induction false} DefraggedValid(d: Disk, n: nat)
    requires n <= |d.files| && Valid(d)
    ensures Valid(Defragged(d, n))
    decreases n
  {
    if n > 0 {
      MoveValid(d, n - 1);
      DefraggedValid(Move(d, n - 1), n - 1);
    }
  }

  /** The `position` search. */
  method FindFit(free: seq<Span>, f: File) returns (r: Option<nat>)
    ensures r == FirstFit(free, f, 0)
  {
    for k := 0 to |free|
      invariant FirstFit(free, f, 0) == FirstFit(free, f, k)
    {
      if free[k].start < f.start && free[k].length >= f.length {
        return Some(k);
      }
    }
    return None;
  }

  /** `defragnent`: the files, last to first, rewritten in place, and the
      free spans dropped or shrunk as they are used. */
  method Defragment(files: array<File>, free: seq<Span>) returns (newFree: seq<Span>)
    modifies files
    ensures Disk(files[..], newFree) == Defragged(Disk(old(files[..]), free), files.Length)
  {
    ghost var d0 := Disk(files[..], free);
    newFree := free;
    var idx := files.Length;
    while idx > 0
      invariant 0 <= idx <= files.Length
      invariant Defragged(d0, files.Length) == Defragged(Disk(files[..], newFree), idx)
    {
      var j := idx - 1;
      ghost var d := Disk(files[..], newFree);
      var block := files[j];
      var emptyPos := FindFit(newFree, block);
      if emptyPos.Some? {
        var k := emptyPos.value;
        var emptyBlock := newFree[k];
        files[j] := block.(start := emptyBlock.start);
        if emptyBlock.length == block.length {
          newFree := newFree[..k] + newFree[k + 1..];
        } else {
          newFree := newFree[k := Span(emptyBlock.start + block.length, emptyBlock.length - block.length)];
        }
      }
      assert Disk(files[..], newFree) == Move(d, j);
      idx := j;
    }
  }

  function Triangle(k: nat): nat
  {
    k * (k - 1) / 2
  }

  /** The checksum of one file in closed form: id times the sum of the
      positions start, start + 1, ..., start + length - 1. */
  function FileSum(f: File): nat
  {
    f.id * (f.length * f.start + Triangle(f.length))
  }

  lemma TriangleStep(k: nat)
    ensures Triangle(k + 1) == Triangle(k) + k
  {
    assert (k + 1) * k == k * (k - 1) + 2 * k;
  }

  lemma FileSumStep(id: nat, start: nat, k: nat)
    ensures FileSum(File(id, start, k + 1)) == FileSum(File(id, start, k)) + id * (start + k)
  {
    TriangleStep(k);
    assert (k + 1) * start + Triangle(k + 1) == (k * start + Triangle(k)) + (start + k);
  }

  /** The inner loop of `compute_checksum`, one file block by block. */
  method FileChecksum(f: File) returns (sum: nat)
    ensures sum == FileSum(f)
  {
    sum := 0;
    for offset := 0 to f.length
      invariant sum == FileSum(File(f.id, f.start, offset))
    {
      FileSumStep(f.id, f.start, offset);
      sum := sum + f.id * (f.start + offset);
    }
  }

  /** A file counts as its blocks would one by one. */
  lemma {:induction false} FileSumIsBlockSum(f: File)
    ensures FileSum(f) == Day09Blocks.Checksum(Day09Blocks.Run(f.id, f.start, f.length))
    decreases f.length
  {
    if f.length > 0 {
      var k := f.length - 1;
      FileSumIsBlockSum(File(f.id, f.start, k));
      FileSumStep(f.id, f.start, k);
      var run := Day09Blocks.Run(f.id, f.start, f.length);
      assert run[..k] == Day09Blocks.Run(f.id, f.start, k);
    }
  }

  function Checksum(files: seq<File>): nat
  {
    if files == [] then 0 else Checksum(files[..|files| - 1]) + FileSum(files[|files| - 1])
  }

  /** `compute_checksum`: the fold over the files. */
  method ComputeChecksum(files: seq<File>) returns (sum: nat)
    ensures sum == Checksum(files)
  {
    sum := 0;
    for i := 0 to |files|
      invariant sum == Checksum(files[..i])
    {
      assert files[..i + 1][..i] == files[..i];
      var fileSum := FileChecksum(files[i]);
      sum := sum + fileSum;
    }
    assert files[..|files|] == files;
  }

  /** Moving files left, keeping ids and lengths, never raises the
      checksum. */
  lemma {:induction false} ChecksumMonotone(a: seq<File>, b: seq<File>)
    requires |a| == |b|
    requires forall i :: 0 <= i < |a| ==> a[i].id == b[i].id && a[i].length == b[i].length && a[i].start <= b[i].start
    ensures Checksum(a) <= Checksum(b)
  {
    if a != [] {
      var n := |a| - 1;
      ChecksumMonotone(a[..n], b[..n]);
      var x := a[n];
      var y := b[n];
      assert x.length * x.start <= x.length * y.start by {
        Day09Blocks.MulMonotone(x.length, x.start, y.start);
      }
      Day09Blocks.MulMonotone(x.id, x.length * x.start + Triangle(x.length), y.length * y.start + Triangle(y.length));
    }
  }

  /** The parsing loop of `process`: one file or free span per digit. */
  method ParseDiskMap(line: string) returns (r: Result<Disk>)
    ensures r.Err? <==> !AllDigits(line)
    ensures r.Ok? ==> r.value == Spans(Day09Blocks.DigitsOf(line))
  {
    var free: seq<Span> := [];
    var blocks: seq<File> := [];
    var diskIndex := 0;
    for inputIndex := 0 to |line|
      invariant AllDigits(line[..inputIndex])
      invariant Disk(blocks, free) == Spans(Day09Blocks.DigitsOf(line[..inputIndex]))
      invariant diskIndex == Day09Blocks.Sum(Day09Blocks.DigitsOf(line[..inputIndex]))
    {
      var item := line[inputIndex];
      if !IsDigit(item) {
        return Err("not a digit");
      }
      assert AllDigits(line[..inputIndex + 1]);
      Day09Blocks.ExpandSnoc(line, inputIndex);
      var amount := DigitValue(item);
      if inputIndex % 2 == 0 {
        blocks := blocks + [File(inputIndex / 2, diskIndex, amount)];
      } else {
        free := free + [Span(diskIndex, amount)];
      }
      diskIndex := diskIndex + amount;
    }
    assert line[..|line|] == line;
    return Ok(Disk(blocks, free));
  }

  /** `process`: the checksum after defragmenting; the disk stays
      consistent and the checksum never exceeds the one before. */
  method Process(lines: seq<string>) returns (r: Result<nat>)
    ensures r.Err? <==> lines == [] || !AllDigits(lines[0])
    ensures r.Ok? ==> var d := Spans(Day09Blocks.DigitsOf(lines[0]));
      var after := Defragged(d, |d.files|);
      r.value == Checksum(after.files) && Valid(after) && r.value <= Checksum(d.files)
  {
    if lines == [] {
      return Err("no line");
    }
    var disk :- ParseDiskMap(lines[0]);
    var files := new File[|disk.files|](i requires 0 <= i < |disk.files| => disk.files[i]);
    assert files[..] == disk.files;
    var free := Defragment(files, disk.free);
    SpansValid(Day09Blocks.DigitsOf(lines[0]));
    DefraggedValid(disk, |disk.files|);
    ChecksumMonotone(files[..], disk.files);
    var sum := ComputeChecksum(files[..]);
    return Ok(sum);
  }

  /** A small disk "132": file 1 moves into the free span after file 0,
      which keeps one free block, and the checksum drops from 9 to 3. */
  lemma SmallExample(d: Disk)
    requires d == Spans([1, 3, 2])
    ensures d == Disk([File(0, 0, 1), File(1, 4, 2)], [Span(1, 3)])
    ensures Defragged(d, 2) == Disk([File(0, 0, 1), File(1, 1, 2)], [Span(3, 1)])
    ensures Checksum(d.files) == 9 && Checksum(Defragged(d, 2).files) == 3
  {
    assert [1, 3, 2][..2] == [1, 3];
    assert [1, 3][..1] == [1];
    assert [1][..0] == [];
    var m := Move(d, 1);
    assert FirstFit(d.free, d.files[1], 0) == Some(0);
    assert m == Disk([File(0, 0, 1), File(1, 1, 2)], [Span(3, 1)]);
    assert FirstFit(m.free, m.files[0], 0) == None;
    assert [File(0, 0, 1), File(1, 1, 2)][..1] == [File(0, 0, 1)];
    assert [File(0, 0, 1), File(1, 4, 2)][..1] == [File(0, 0, 1)];
  }
}

=== FILE: day10_trails.dfy ===
/** Day 10, puzzle 2: a topographic map of digit heights; a hiking trail
    climbs from height 0 to height 9 one step up at a time between
    4-adjacent points, and the rating of the map is the number of distinct
    trails. */
module Day10Trails {
  import opened Wrappers
  import opened Decimal
  import Sets

  datatype Point = Point(x: int, y: int, height: int)

  /** The map: every point with its height. */
  datatype Map = Map(points: set<Point>)

  predicate InLines(lines: seq<string>, x: int, y: int)
  {
    0 <= y < |lines| && 0 <= x < |lines[y]|
  }

  /** `Map::from`: one point per character, whose height is its digit; a
      character that is not a digit fails. */
  function FromLines(lines: seq<string>): (r: Result<Map>)
    ensures r.Err? <==> exists x, y :: InLines(lines, x, y) && !IsDigit(lines[y][x])
    ensures r.Ok? ==> forall p :: p in r.value.points <==>
      InLines(lines, p.x, p.y) && p.height == DigitValue(lines[p.y][p.x])
    ensures r.Ok? ==> forall p :: p in r.value.points ==> 0 <= p.height <= 9
  {
    if exists y | 0 <= y < |lines| :: !AllDigits(lines[y]) then Err("not a digit")
    else Ok(Map(set y, x | 0 <= y < |lines| && 0 <= x < |lines[y]| :: Point(x, y, DigitValue(lines[y][x]))))
  }

  /** `q` is one of the four neighbour coordinates of `p`. */
  predicate Adjacent(p: Point, q: Point)
  {
    (q.x, q.y) in [(p.x - 1, p.y), (p.x + 1, p.y), (p.x, p.y - 1), (p.x, p.y + 1)]
  }

  /** The neighbours `explore_from_point` continues to: adjacent and exactly
      one higher. */
  function Uphill(m: Map, from: Point): (r: set<Point>)
    ensures forall p :: p in r <==> p in m.points && Adjacent(from, p) && p.height == from.height + 1
  {
    set p | p in m.points && Adjacent(from, p) && p.height == from.height + 1
  }

  /** `explore_from_point`: 1 at height 9, else the sum over the uphill
      neighbours; it counts exactly the trails the recursion walks. */
  ghost function Trails(m: Map, from: Point): (r: nat)
    requires from.height <= 9
    ensures r == |TrailSet(m, from)|
    decreases 9 - from.height, 0
  {
    TrailSetCard(m, from);
    if from.height == 9 then 1 else TrailsOver(m, from.height + 1, Uphill(m, from))
  }

  /** A point of height 9 is one trail; a lower point has as many trails as
      its uphill neighbours together. */
  lemma TrailSetCard(m: Map, from: Point)
    requires from.height <= 9
    ensures |TrailSet(m, from)| == if from.height == 9 then 1 else |TrailSetOver(m, from.height + 1, Uphill(m, from))|
  {
    if from.height == 9 {
      assert TrailSet(m, from) == {[from]};
    } else {
      var over := TrailSetOver(m, from.height + 1, Uphill(m, from));
      assert TrailSet(m, from) == Prefixed(from, over);
      PrefixedCount(from, over);
    }
  }

  /** The sum of `Trails` over a set of points of height h: the number of
      trails from those points. */
  ghost function TrailsOver(m: Map, h: int, s: set<Point>): (r: nat)
    requires h <= 9 && forall p :: p in s ==> p.height == h
    ensures r == |TrailSetOver(m, h, s)|
    decreases 9 - h, |s| + 1
  {
    if s == {} then 0
    else
      var p := Sets.Choose(s);
      var here := Trails(m, p);
      var rest := TrailsOver(m, h, s - {p});
      var a := TrailSet(m, p);
      var b := TrailSetOver(m, h, s - {p});
      assert a !! b by {
        forall t | t in a
          ensures t !in b
        {
          assert t[0] == p;
        }
      }
      here + rest
  }

  /** `explore`: the sum over all points of height 0, the number of trails
      from them. */
  ghost function Explore(m: Map): (r: nat)
    ensures r == |TrailSetOver(m, 0, Starts(m))|
  {
    TrailsOver(m, 0, Starts(m))
  }

  function Starts(m: Map): (r: set<Point>)
    ensures forall p :: p in r <==> p in m.points && p.height == 0
  {
    set p | p in m.points && p.height == 0
  }

  /** A hiking trail through the map after its first point: every step goes
      to an adjacent point of the map exactly one higher, ending at 9. */
  ghost predicate IsTrail(m: Map, t: seq<Point>)
  {
    |t| >= 1 && t[|t| - 1].height == 9
    && forall i :: 1 <= i < |t| ==> t[i] in m.points && Adjacent(t[i - 1], t[i]) && t[i].height == t[i - 1].height + 1
  }

  /** The trails from `from`, built as the recursion walks them. */
  ghost function TrailSet(m: Map, from: Point): (r: set<seq<Point>>)
    requires from.height <= 9
    ensures forall t :: t in r ==> |t| >= 1 && t[0] == from
    decreases 9 - from.height, 0
  {
    if from.height == 9 then {[from]}
    else Prefixed(from, TrailSetOver(m, from.height + 1, Uphill(m, from)))
  }

  ghost function TrailSetOver(m: Map, h: int, s: set<Point>): (r: set<seq<Point>>)
    requires h <= 9 && forall p :: p in s ==> p.height == h
    ensures forall t :: t in r ==> |t| >= 1 && t[0] in s
    decreases 9 - h, |s| + 1
  {
    if s == {} then {}
    else
      var p := Sets.Choose(s);
      TrailSet(m, p) + TrailSetOver(m, h, s - {p})
  }

  function Prefixed(p: Point, trails: set<seq<Point>>): (r: set<seq<Point>>)
    ensures forall t :: t in r <==> |t| >= 1 && t[0] == p && t[1..] in trails
  {
    var r := set t | t in trails :: [p] + t;
    assert forall t :: |t| >= 1 && t[0] == p ==> t == [p] + t[1..];
    r
  }

  lemma {:induction false} PrefixedCount(p: Point, trails: set<seq<Point>>)
    ensures |Prefixed(p, trails)| == |trails|
    decreases |trails|
  {
    if trails != {} {
      var t :| t in trails;
      PrefixedCount(p, trails - {t});
      assert Prefixed(p, trails) == Prefixed(p, trails - {t}) + {[p] + t};
      assert ([p] + t)[1..] == t;
    }
  }

  /** Membership in the set over `s` is membership in the trails of one of
      its points. */
  lemma {:induction false} TrailSetOverMembers(m: Map, h: int, s: set<Point>, t: seq<Point>)
    requires h <= 9 && forall p :: p in s ==> p.height == h
    ensures t in TrailSetOver(m, h, s) <==> |t| >= 1 && t[0] in s && t in TrailSet(m, t[0])
    decreases |s|
  {
    if s != {} {
      var p := Sets.Choose(s);
      TrailSetOverMembers(m, h, s - {p}, t);
    }
  }

  /** Along a trail the height grows by one per step. */
  lemma {:induction false} TrailHeights(m: Map, t: seq<Point>, i: nat)
    requires |t| >= 1 && i < |t|
    requires forall k :: 1 <= k < |t| ==> t[k].height == t[k - 1].height + 1
    ensures t[i].height == t[0].height + i
  {
    if i > 0 {
      TrailHeights(m, t, i - 1);
    }
  }

  /** The recursion enumerates exactly the hiking trails from `from`. */
  lemma {:induction false} TrailSetIsTrails(m: Map, from: Point, t: seq<Point>)
    requires from.height <= 9
    ensures t in TrailSet(m, from) <==> IsTrail(m, t) && t[0] == from
    decreases 9 - from.height
  {
    if t in TrailSet(m, from) {
      TrailSetSound(m, from, t);
    }
    if IsTrail(m, t) && t[0] == from {
      TrailHeights(m, t, |t| - 1);
      if from.height < 9 {
        assert |t| >= 2;
        var s := Uphill(m, from);
        var rest := t[1..];
        assert t[1] in s;
        assert IsTrail(m, rest) by {
          forall i | 1 <= i < |rest|
            ensures rest[i] in m.points && Adjacent(rest[i - 1], rest[i]) && rest[i].height == rest[i - 1].height + 1
          {
            assert rest[i] == t[i + 1] && rest[i - 1] == t[i];
          }
        }
        TrailSetIsTrails(m, t[1], rest);
        TrailSetOverMembers(m, from.height + 1, s, rest);
      } else {
        assert |t| == 1;
        assert t == [from];
      }
    }
  }

  lemma {:induction false} TrailSetSound(m: Map, from: Point, t: seq<Point>)
    requires from.height <= 9 && t in TrailSet(m, from)
    ensures IsTrail(m, t) && t[0] == from
    decreases 9 - from.height
  {
    if from.height < 9 {
      var s := Uphill(m, from);
      var rest := t[1..];
      TrailSetOverMembers(m, from.height + 1, s, rest);
      TrailSetSound(m, rest[0], rest);
      forall i | 1 <= i < |t|
        ensures t[i] in m.points && Adjacent(t[i - 1], t[i]) && t[i].height == t[i - 1].height + 1
      {
        if i >= 2 {
          assert t[i] == rest[i - 1] && t[i - 1] == rest[i - 2];
        }
      }
    }
  }

  /** The rating of the map is the number of hiking trails that start at a
      point of height 0. */
  lemma ExploreCountsTrails(m: Map)
    ensures Explore(m) == |TrailSetOver(m, 0, Starts(m))|
    ensures forall t: seq<Point> :: t in TrailSetOver(m, 0, Starts(m)) <==>
      IsTrail(m, t) && t[0] in m.points && t[0].height == 0
  {
    forall t: seq<Point>
      ensures t in TrailSetOver(m, 0, Starts(m)) <==> IsTrail(m, t) && t[0] in m.points && t[0].height == 0
    {
      TrailSetOverMembers(m, 0, Starts(m), t);
      if |t| >= 1 && t[0].height <= 9 {
        TrailSetIsTrails(m, t[0], t);
      }
    }
  }

  /** At height 9 a point is one trail; below it, a point with no uphill
      neighbour starts none. */
  lemma TrailEnds(m: Map, from: Point)
    requires from.height <= 9
    ensures from.height == 9 ==> Trails(m, from) == 1
    ensures from.height < 9 && Uphill(m, from) == {} ==> Trails(m, from) == 0
  {
  }

  /** `process`: the rating of the parsed map. */
  ghost function Process(lines: seq<string>): (r: Result<nat>)
    ensures r.Err? <==> exists x, y :: InLines(lines, x, y) && !IsDigit(lines[y][x])
    ensures r.Ok? ==> r.value == |TrailSetOver(FromLines(lines).value, 0, Starts(FromLines(lines).value))|
  {
    var m :- FromLines(lines);
    ExploreCountsTrails(m);
    Ok(Explore(m))
  }
}

=== FILE: day11_stones.dfy ===
/** Day 11, puzzle 1: stones that change on every blink. The stones are not
    simulated one by one; a counter maps each engraved number to how many
    stones carry it. */
module Day11Stones {
  import opened Wrappers
  import opened Decimal
  import opened Text
  import opened Sets

  /** What one blink does to a stone. */
  datatype StoneResult = Split(left: nat, right: nat) | Replace(stone: nat)

  /** The two halves of a number with an even digit count. */
  datatype Halves = Halves(high: nat, low: nat)

  /** `split_if_even_number_of_digits`, on a positive number (`ilog10`
      rejects zero). */
  function SplitEvenDigits(number: nat): (r: Option<Halves>)
    requires number >= 1
    ensures r.None? <==> DigitCount(number) % 2 == 1
    ensures r.Some? ==> r.value.high * Pow10(DigitCount(number) / 2) + r.value.low == number
    ensures r.Some? ==> r.value.low < Pow10(DigitCount(number) / 2)
  {
    var digits := DigitCount(number);
    if digits % 2 == 1 then None
    else
      var divider := Pow10(digits / 2);
      var high := number / divider;
      DivideOut(number, divider);
      Some(Halves(high, number - high * divider))
  }

  /** The quotient times the divisor does not exceed the number, and leaves
      less than the divisor. */
  lemma DivideOut(n: nat, d: nat)
    requires d >= 1
    ensures (n / d) * d <= n < (n / d) * d + d
  {
    assert n == d * (n / d) + n % d;
  }

  /** The high half keeps exactly the upper half of the digits. */
  lemma HighHalfDigits(number: nat)
    requires number >= 1 && DigitCount(number) % 2 == 0
    ensures SplitEvenDigits(number).value.high >= 1
    ensures DigitCount(SplitEvenDigits(number).value.high) == DigitCount(number) / 2
  {
    var d := DigitCount(number);
    var h := d / 2;
    var high := SplitEvenDigits(number).value.high;
    Pow10Add(h, h - 1);
    Pow10Add(h, h);
    assert Pow10(h) * Pow10(h - 1) <= number;
    DivideOut(number, Pow10(h));
    QuotientBounds(number, Pow10(h), Pow10(h - 1), Pow10(h), high);
    DigitCountUnique(high, h);
  }

  /** A quotient lies between the bounds the number lies between, scaled. */
  lemma QuotientBounds(n: nat, p: nat, lo: nat, hi: nat, q: nat)
    requires p >= 1 && q * p <= n < q * p + p
    requires p * lo <= n < p * hi
    ensures lo <= q < hi
  {
    assert p * lo < p * (q + 1);
    MulCancel(p, lo, q + 1);
    assert p * q < p * hi;
    MulCancel(p, q, hi);
  }

  lemma MulCancel(p: nat, a: nat, b: nat)
    requires p >= 1 && p * a < p * b
    ensures a < b
  {
  }

  /** `blink`: zero becomes one, an even digit count splits the digits, and
      anything else is multiplied by 2024. */
  function Blink(number: nat): (r: StoneResult)
    ensures number == 0 ==> r == Replace(1)
    ensures r.Split? <==> number >= 1 && DigitCount(number) % 2 == 0
    ensures r.Split? ==> r.left * Pow10(DigitCount(number) / 2) + r.right == number
    ensures number >= 1 && DigitCount(number) % 2 == 1 ==> r == Replace(number * 2024)
  {
    if number == 0 then Replace(1)
    else
      match SplitEvenDigits(number)
      case Some(halves) => Split(halves.high, halves.low)
      case None => Replace(number * 2024)
  }

  /** The stones one stone turns into. */
  function Children(number: nat): (r: seq<nat>)
    ensures 1 <= |r| <= 2
  {
    match Blink(number)
    case Replace(n) => [n]
    case Split(n1, n2) => [n1, n2]
  }

  /** Example stones: 0 becomes 1, 1 becomes 2024, 10 splits into 1 and 0,
      99 into 9 and 9, and 999 becomes 2021976. */
  lemma BlinkExamples(a: nat, b: nat, c: nat, d: nat)
    requires a == 1 && b == 10 && c == 99 && d == 999
    ensures Blink(0) == Replace(1)
    ensures Blink(a) == Replace(2024)
    ensures Blink(b) == Split(1, 0)
    ensures Blink(c) == Split(9, 9)
    ensures Blink(d) == Replace(2021976)
  {
    DigitCountUnique(b, 2);
    DigitCountUnique(c, 2);
    DigitCountUnique(d, 3);
  }

  /** A counter: engraved number to number of stones. */
  type Counter = map<nat, nat>

  function Count(m: Counter, k: nat): nat
  {
    if k in m then m[k] else 0
  }

  /** `insert(k, get(k).unwrap_or(0) + v)`. */
  function Bump(m: Counter, k: nat, v: nat): (r: Counter)
    ensures r.Keys == m.Keys + {k}
    ensures forall j :: Count(r, j) == Count(m, j) + (if j == k then v else 0)
  {
    m[k := Count(m, k) + v]
  }

  /** The smallest key: keys are visited in ascending order. */
  function Least(s: set<nat>): (k: nat)
    requires s != {}
    ensures k in s && forall j :: j in s ==> k <= j
  {
    MinExists(s);
    var k: nat :| IsLeast(k, s);
    k
  }

  /** The stones counted under `keys`. */
  function SumOver(m: Counter, keys: set<nat>): nat
    decreases |keys|
  {
    if keys == {} then 0
    else
      var k := Least(keys);
      Count(m, k) + SumOver(m, keys - {k})
  }

  /** The number of stones a counter stands for. */
  function Total(m: Counter): nat
  {
    SumOver(m, m.Keys)
  }

  /** The sum does not depend on the order of the keys: any key can be taken
      out first. */
  lemma {:induction false} SumOverRemove(m: Counter, keys: set<nat>, k: nat)
    requires k in keys
    ensures SumOver(m, keys) == Count(m, k) + SumOver(m, keys - {k})
    decreases |keys|
  {
    var least := Least(keys);
    if k != least {
      SumOverRemove(m, keys - {least}, k);
      assert keys - {least} - {k} == keys - {k} - {least};
      assert Least(keys - {k}) == least;
    }
  }

  lemma {:induction false} SumOverAgree(m: Counter, m': Counter, keys: set<nat>)
    requires forall j :: j in keys ==> Count(m, j) == Count(m', j)
    ensures SumOver(m, keys) == SumOver(m', keys)
    decreases |keys|
  {
    if keys != {} {
      SumOverAgree(m, m', keys - {Least(keys)});
    }
  }

  /** Adding v stones with number k adds v to the total. */
  lemma TotalBump(m: Counter, k: nat, v: nat)
    ensures Total(Bump(m, k, v)) == Total(m) + v
  {
    var r := Bump(m, k, v);
    assert r.Keys - {k} == m.Keys - {k};
    SumOverRemove(r, r.Keys, k);
    SumOverAgree(m, r, m.Keys - {k});
    if k in m {
      SumOverRemove(m, m.Keys, k);
    } else {
      assert r.Keys - {k} == m.Keys - {k} == m.Keys;
    }
  }

  /** The stones one blink makes out of the counts under `keys`. */
  function WeightOver(m: Counter, keys: set<nat>): nat
    decreases |keys|
  {
    if keys == {} then 0
    else
      var k := Least(keys);
      Count(m, k) * |Children(k)| + WeightOver(m, keys - {k})
  }

  /** A blink never loses a stone and at most doubles them. */
  lemma {:induction false} WeightBounds(m: Counter, keys: set<nat>)
    ensures SumOver(m, keys) <= WeightOver(m, keys) <= 2 * SumOver(m, keys)
    decreases |keys|
  {
    if keys != {} {
      WeightBounds(m, keys - {Least(keys)});
    }
  }

  /** The loop body for one key: each resulting stone gets the key's
      count added. */
  function Contribute(acc: Counter, k: nat, v: nat): Counter
  {
    match Blink(k)
    case Replace(n) => Bump(acc, n, v)
    case Split(n1, n2) => Bump(Bump(acc, n1, v), n2, v)
  }

  lemma TotalContribute(acc: Counter, k: nat, v: nat)
    ensures Total(Contribute(acc, k, v)) == Total(acc) + v * |Children(k)|
  {
    match Blink(k) {
      case Replace(n) =>
        TotalBump(acc, n, v);
      case Split(n1, n2) =>
        TotalBump(acc, n1, v);
        TotalBump(Bump(acc, n1, v), n2, v);
    }
  }

  lemma ContributeKeys(acc: Counter, k: nat, v: nat)
    ensures Contribute(acc, k, v).Keys == acc.Keys + set c | c in Children(k)
  {
    match Blink(k) {
      case Replace(n) =>
        assert (set c | c in Children(k)) == {n};
      case Split(n1, n2) =>
        assert (set c | c in Children(k)) == {n1, n2};
    }
  }

  function RoundOver(counter: Counter, keys: set<nat>, acc: Counter): Counter
    decreases |keys|
  {
    if keys == {} then acc
    else
      var k := Least(keys);
      RoundOver(counter, keys - {k}, Contribute(acc, k, Count(counter, k)))
  }

  /** One blink of every stone, by counts. */
  function Round(counter: Counter): Counter
  {
    RoundOver(counter, counter.Keys, map[])
  }

  lemma {:induction false} RoundOverTotal(counter: Counter, keys: set<nat>, acc: Counter)
    ensures Total(RoundOver(counter, keys, acc)) == Total(acc) + WeightOver(counter, keys)
    decreases |keys|
  {
    if keys != {} {
      var k := Least(keys);
      TotalContribute(acc, k, Count(counter, k));
      RoundOverTotal(counter, keys - {k}, Contribute(acc, k, Count(counter, k)));
    }
  }

  lemma {:induction false} RoundOverKeys(counter: Counter, keys: set<nat>, acc: Counter, x: nat)
    ensures x in RoundOver(counter, keys, acc) <==> x in acc || exists k :: k in keys && x in Children(k)
    decreases |keys|
  {
    if keys != {} {
      var k := Least(keys);
      ContributeKeys(acc, k, Count(counter, k));
      RoundOverKeys(counter, keys - {k}, Contribute(acc, k, Count(counter, k)), x);
      if x in acc || exists j :: j in keys && x in Children(j) {
        if x !in acc && x !in Children(k) {
          var j :| j in keys && x in Children(j);
          assert j in keys - {k};
        }
      }
    }
  }

  /** After a blink the counter holds exactly the numbers the old numbers
      turn into, and the total only grows: a replaced stone is carried once
      and a split stone to both halves. */
  lemma RoundProperties(counter: Counter)
    ensures forall x :: x in Round(counter) <==> exists k :: k in counter && x in Children(k)
    ensures Total(Round(counter)) == WeightOver(counter, counter.Keys)
    ensures Total(counter) <= Total(Round(counter)) <= 2 * Total(counter)
  {
    forall x
      ensures x in Round(counter) <==> exists k :: k in counter && x in Children(k)
    {
      RoundOverKeys(counter, counter.Keys, map[], x);
    }
    RoundOverTotal(counter, counter.Keys, map[]);
    assert Total(map[]) == 0;
    WeightBounds(counter, counter.Keys);
  }

  /** The body of the inner loop of `process`: the count of one number is
      added to each number its stone turns into. */
  method AddBlink(acc: Counter, k: nat, v: nat) returns (next: Counter)
    ensures next == Contribute(acc, k, v)
  {
    next := acc;
    match Blink(k) {
      case Replace(n) =>
        next := next[n := Count(next, n) + v];
      case Split(n1, n2) =>
        next := next[n1 := Count(next, n1) + v];
        next := next[n2 := Count(next, n2) + v];
    }
  }

  lemma RoundOverStep(counter: Counter, keys: set<nat>, acc: Counter)
    requires keys != {}
    ensures RoundOver(counter, keys, acc)
         == RoundOver(counter, keys - {Least(keys)}, Contribute(acc, Least(keys), Count(counter, Least(keys))))
  {
  }

  /** The inner loop of `process`: one blink of every counted number. */
  method BlinkRound(counter: Counter) returns (next: Counter)
    ensures next == Round(counter)
  {
    next := map[];
    var remaining := counter.Keys;
    while remaining != {}
      invariant RoundOver(counter, remaining, next) == Round(counter)
      decreases |remaining|
    {
      var k := Least(remaining);
      RoundOverStep(counter, remaining, next);
      next := AddBlink(next, k, Count(counter, k));
      remaining := remaining - {k};
    }
  }

  function Rounds(counter: Counter, n: nat): Counter
  {
    if n == 0 then counter else Round(Rounds(counter, n - 1))
  }

  lemma {:induction false} RoundsGrow(counter: Counter, n: nat)
    ensures Total(counter) <= Total(Rounds(counter, n))
  {
    if n > 0 {
      RoundsGrow(counter, n - 1);
      RoundProperties(Rounds(counter, n - 1));
    }
  }

  /** The counter the source starts from: every number of the line once,
      with count 1, however often it is written. */
  function Distinct(numbers: seq<nat>): (r: Counter)
    ensures r.Keys == set n | n in numbers
    ensures forall k :: k in r ==> r[k] == 1
  {
    map n | n in numbers :: 1
  }

  lemma {:induction false} SumOverOnes(m: Counter, keys: set<nat>)
    requires forall k :: k in keys ==> Count(m, k) == 1
    ensures SumOver(m, keys) == |keys|
    decreases |keys|
  {
    if keys != {} {
      SumOverOnes(m, keys - {Least(keys)});
    }
  }

  /** The starting counter stands for as many stones as there are distinct
      numbers. */
  lemma DistinctTotal(numbers: seq<nat>)
    ensures Total(Distinct(numbers)) == |set n | n in numbers|
  {
    SumOverOnes(Distinct(numbers), Distinct(numbers).Keys);
  }

  /** The start counter, built with `insert(n, 1)` per number. */
  method InitialCounter(numbers: seq<nat>) returns (counter: Counter)
    ensures counter == Distinct(numbers)
  {
    counter := map[];
    for i := 0 to |numbers|
      invariant counter == Distinct(numbers[..i])
    {
      assert forall n :: n in numbers[..i + 1] <==> n in numbers[..i] || n == numbers[i];
      counter := counter[numbers[i] := 1];
    }
    assert numbers[..|numbers|] == numbers;
  }

  /** A start counter that counts each number as often as it is written. */
  function Tally(numbers: seq<nat>): (r: Counter)
    ensures forall k :: Count(r, k) == multiset(numbers)[k]
    ensures Total(r) == |numbers|
  {
    if numbers == [] then map[]
    else
      var init := numbers[..|numbers| - 1];
      var last := numbers[|numbers| - 1];
      assert numbers == init + [last];
      TotalBump(Tally(init), last, 1);
      Bump(Tally(init), last, 1)
  }

  /** The counting start, built with `insert(n, get(n).unwrap_or(0) + 1)`. */
  method TallyCounter(numbers: seq<nat>) returns (counter: Counter)
    ensures counter == Tally(numbers)
  {
    counter := map[];
    for i := 0 to |numbers|
      invariant counter == Tally(numbers[..i])
    {
      assert numbers[..i + 1][..i] == numbers[..i];
      counter := counter[numbers[i] := Count(counter, numbers[i]) + 1];
    }
    assert numbers[..|numbers|] == numbers;
  }

  /** "7 7" is two stones, but the source's start counter stands for one. */
  lemma DuplicateStoneLost(numbers: seq<nat>)
    requires numbers == [7, 7]
    ensures Total(Distinct(numbers)) == 1
    ensures Total(Tally(numbers)) == 2
  {
    assert (set n | n in numbers) == {7};
    DistinctTotal(numbers);
  }

  /** The final fold: the sum of all counts, in any key order. */
  method SumCounts(counter: Counter) returns (r: nat)
    ensures r == Total(counter)
  {
    r := 0;
    var remaining := counter.Keys;
    while remaining != {}
      invariant remaining <= counter.Keys
      invariant r + SumOver(counter, remaining) == Total(counter)
      decreases |remaining|
    {
      var k :| k in remaining;
      SumOverRemove(counter, remaining, k);
      r := r + counter[k];
      remaining := remaining - {k};
    }
  }

  /** The 25 blinks. */
  method BlinkTimes(counter: Counter, times: nat) returns (result: Counter)
    ensures result == Rounds(counter, times)
  {
    result := counter;
    var loopCounter := 0;
    while loopCounter != times
      invariant loopCounter <= times
      invariant result == Rounds(counter, loopCounter)
    {
      result := BlinkRound(result);
      loopCounter := loopCounter + 1;
    }
  }

  /** The numbers of the first line; a piece that is not a number fails. */
  function Numbers(line: string): Result<seq<nat>>
  {
    ParseNumbers(SplitOn(line, " "))
  }

  /** `process` as written: the stones after 25 blinks, starting from each
      distinct number once. */
  method Process(line: string) returns (r: Result<nat>)
    ensures r.Err? <==> Numbers(line).Err?
    ensures r.Ok? ==> r.value == Total(Rounds(Distinct(Numbers(line).value), 25))
    ensures r.Ok? ==> r.value >= |set n | n in Numbers(line).value|
  {
    var numbers :- Numbers(line);
    var counter := InitialCounter(numbers);
    counter := BlinkTimes(counter, 25);
    var total := SumCounts(counter);
    RoundsGrow(Distinct(numbers), 25);
    DistinctTotal(numbers);
    return Ok(total);
  }

  /** `process` with a counting start: the stones after 25 blinks are never
      fewer than the numbers written. */
  method ProcessTallied(line: string) returns (r: Result<nat>)
    ensures r.Err? <==> Numbers(line).Err?
    ensures r.Ok? ==> r.value == Total(Rounds(Tally(Numbers(line).value), 25))
    ensures r.Ok? ==> r.value >= |Numbers(line).value|
  {
    var numbers :- Numbers(line);
    var counter := TallyCounter(numbers);
    counter := BlinkTimes(counter, 25);
    var total := SumCounts(counter);
    RoundsGrow(Tally(numbers), 25);
    return Ok(total);
  }
}

=== FILE: day12_fences.dfy ===
/** Day 12, puzzle 1: the price of a field is its area times its perimeter,
    where every side of a plant that does not touch a plant of the same type
    needs a fence. */
module Day12Fences {
  import opened Wrappers
  import opened Day12Garden
  import Sets

  /** A side of `p` towards `q` needs a fence: no plant there, or one of a
      different type. */
  predicate Fenced(g: Garden, p: Pos, q: Pos)
    requires p in g
  {
    q !in g || g[q] != g[p]
  }

  /** The `border_count` fold: listed neighbours of a different type. */
  function Differing(g: Garden, p: Pos, neighbours: seq<Pos>): (r: nat)
    requires p in g && forall q :: q in neighbours ==> q in g
    ensures r <= |neighbours|
  {
    if neighbours == [] then 0
    else (if g[neighbours[0]] != g[p] then 1 else 0) + Differing(g, p, neighbours[1..])
  }

  /** The number of candidate sides that need a fence. */
  function FenceCount(g: Garden, p: Pos, cands: seq<Pos>): nat
    requires p in g
  {
    if cands == [] then 0
    else (if Fenced(g, p, cands[0]) then 1 else 0) + FenceCount(g, p, cands[1..])
  }

  /** A fence for every differing neighbour plus one per missing neighbour
      is a fence for every fenced side. */
  lemma {:induction false} DifferingPlusMissing(g: Garden, p: Pos, cands: seq<Pos>)
    requires p in g
    ensures Differing(g, p, Present(g, cands)) + (|cands| - |Present(g, cands)|) == FenceCount(g, p, cands)
  {
    if cands != [] {
      DifferingPlusMissing(g, p, cands[1..]);
    }
  }

  /** The fences of one plant, as the fold in `compute_perimeter` adds them:
      its differing neighbours, plus 4 minus its number of neighbours. It is
      the number of its four sides that need a fence, so at most 4. */
  function PlantFences(g: Garden, p: Pos): (r: nat)
    requires p in g
    ensures r == FenceCount(g, p, Around(p)) && r <= 4
  {
    var neighbours := PlantNeighbours(g, p);
    DifferingPlusMissing(g, p, Around(p));
    Differing(g, p, neighbours) + (4 - |neighbours|)
  }

  /** `compute_perimeter`: the fences of every plant of the field. */
  ghost function Perimeter(g: Garden, field: set<Pos>): nat
    requires field <= g.Keys
    decreases |field|
  {
    if field == {} then 0
    else
      var p := Sets.Choose(field);
      PlantFences(g, p) + Perimeter(g, field - {p})
  }

  /** The plants can be summed in any order. */
  lemma {:induction false} PerimeterRemove(g: Garden, field: set<Pos>, q: Pos)
    requires field <= g.Keys && q in field
    ensures Perimeter(g, field) == PlantFences(g, q) + Perimeter(g, field - {q})
    decreases |field|
  {
    var p := Sets.Choose(field);
    if p != q {
      PerimeterRemove(g, field - {p}, q);
      PerimeterRemove(g, field - {q}, p);
      assert field - {p} - {q} == field - {q} - {p};
    }
  }

  /** Every plant needs at most 4 fences. */
  lemma {:induction false} PerimeterBound(g: Garden, field: set<Pos>)
    requires field <= g.Keys
    ensures Perimeter(g, field) <= 4 * |field|
    decreases |field|
  {
    if field != {} {
      PerimeterBound(g, field - {Sets.Choose(field)});
    }
  }

  /** The fold of `compute_perimeter`, taking the plants in any order. */
  method ComputePerimeter(g: Garden, field: set<Pos>) returns (r: nat)
    requires field <= g.Keys
    ensures r == Perimeter(g, field)
  {
    r := 0;
    var rest := field;
    while rest != {}
      invariant rest <= field
      invariant r + Perimeter(g, rest) == Perimeter(g, field)
      decreases |rest|
    {
      var p :| p in rest;
      PerimeterRemove(g, rest, p);
      var neighbours := PlantNeighbours(g, p);
      var borderCount := 0;
      for i := 0 to |neighbours|
        invariant borderCount + Differing(g, p, neighbours[i..]) == Differing(g, p, neighbours)
      {
        assert neighbours[i..][1..] == neighbours[i + 1..];
        if g[neighbours[i]] != g[p] {
          borderCount := borderCount + 1;
        }
      }
      r := r + borderCount + (4 - |neighbours|);
      rest := rest - {p};
    }
  }

  /** The fold at the end of `process`: area times perimeter per field. */
  ghost function Price(g: Garden, fields: seq<set<Pos>>): nat
    requires forall i :: 0 <= i < |fields| ==> fields[i] <= g.Keys
  {
    if fields == [] then 0
    else Price(g, fields[..|fields| - 1]) + Perimeter(g, fields[|fields| - 1]) * |fields[|fields| - 1]|
  }

  function SquaresSum(fields: seq<set<Pos>>): nat
  {
    if fields == [] then 0
    else SquaresSum(fields[..|fields| - 1]) + |fields[|fields| - 1]| * |fields[|fields| - 1]|
  }

  /** The price is at most 4 times the sum of squared areas. */
  lemma {:induction false} PriceBound(g: Garden, fields: seq<set<Pos>>)
    requires forall i :: 0 <= i < |fields| ==> fields[i] <= g.Keys
    ensures Price(g, fields) <= 4 * SquaresSum(fields)
  {
    if fields != [] {
      var n := |fields| - 1;
      PriceBound(g, fields[..n]);
      var perimeter := Perimeter(g, fields[n]);
      var area := |fields[n]|;
      PerimeterBound(g, fields[n]);
      AddBound(Price(g, fields[..n]), SquaresSum(fields[..n]), perimeter, area);
      assert Price(g, fields) == Price(g, fields[..n]) + perimeter * area;
      assert SquaresSum(fields) == SquaresSum(fields[..n]) + area * area;
    }
  }

  lemma AddBound(price: nat, squares: nat, perimeter: nat, area: nat)
    requires price <= 4 * squares && perimeter <= 4 * area
    ensures price + perimeter * area <= 4 * (squares + area * area)
  {
    assert perimeter * area <= (4 * area) * area;
  }

  /** The fold at the end of `process`. */
  method SumPrices(g: Garden, fields: seq<set<Pos>>) returns (total: nat)
    requires forall i :: 0 <= i < |fields| ==> fields[i] <= g.Keys
    ensures total == Price(g, fields)
  {
    total := 0;
    for i := 0 to |fields|
      invariant total == Price(g, fields[..i])
    {
      var perimeter := ComputePerimeter(g, fields[i]);
      PriceStep(g, fields, i);
      total := total + perimeter * |fields[i]|;
    }
    assert fields[..|fields|] == fields;
  }

  lemma PriceStep(g: Garden, fields: seq<set<Pos>>, i: nat)
    requires forall i :: 0 <= i < |fields| ==> fields[i] <= g.Keys
    requires i < |fields|
    ensures Price(g, fields[..i + 1]) == Price(g, fields[..i]) + Perimeter(g, fields[i]) * |fields[i]|
  {
    assert fields[..i + 1][..i] == fields[..i];
  }

  /** `process`: parse, split into fields, and sum the prices. */
  method Process(lines: seq<string>) returns (r: Result<nat>)
    ensures r.Err? <==> exists x, y :: InLines(lines, x, y) && !IsPlantType(lines[y][x])
    ensures r.Ok? ==> exists fields :: Partition(GardenOf(lines), fields)
                        && r.value == Price(GardenOf(lines), fields) && r.value <= 4 * SquaresSum(fields)
  {
    var g :- ParseGarden(lines);
    var fields := Fields(g);
    FieldsInGarden(g, fields);
    var total := SumPrices(g, fields);
    PriceBound(g, fields);
    return Ok(total);
  }

  lemma FieldsInGarden(g: Garden, fields: seq<set<Pos>>)
    requires Partition(g, fields)
    ensures forall i :: 0 <= i < |fields| ==> fields[i] <= g.Keys
  {
    forall i, q | 0 <= i < |fields| && q in fields[i]
      ensures q in g
    {
      UnionMembers(fields, q);
    }
  }

  /** Two plants of one type side by side: each needs 3 fences, so the
      perimeter is 6. */
  lemma PairExample(g: Garden, a: Pos, b: Pos)
    requires a == Pos(0, 0) && b == Pos(1, 0) && g == map[a := 'A', b := 'A']
    ensures Perimeter(g, {a, b}) == 6
  {
    assert Around(a) == [Pos(-1, 0), b, Pos(0, -1), Pos(0, 1)];
    assert Around(b) == [a, Pos(2, 0), Pos(1, -1), Pos(1, 1)];
    assert FenceCount(g, a, Around(a)[3..]) == 1;
    assert FenceCount(g, a, Around(a)[2..]) == 2;
    assert FenceCount(g, a, Around(a)[1..]) == 2;
    assert PlantFences(g, a) == 3;
    assert FenceCount(g, b, Around(b)[3..]) == 1;
    assert FenceCount(g, b, Around(b)[2..]) == 2;
    assert FenceCount(g, b, Around(b)[1..]) == 3;
    assert PlantFences(g, b) == 3;
    PerimeterRemove(g, {a, b}, a);
    assert {a, b} - {a} == {b};
    PerimeterRemove(g, {b}, b);
    assert {b} - {b} == {};
  }
}

=== FILE: day12_garden.dfy ===
/** Day 12: the garden shared by both puzzles. Every cell holds a plant of
    type 'A' to 'Z'; plants compare by position only, so the garden is a map
    from positions to plant types. A field is a region of same-type plants
    connected through 4-adjacent steps. */
module Day12Garden {
  import opened Wrappers
  import opened Sets

  datatype Pos = Pos(x: int, y: int)

  /** The plants: position to plant type. */
  type Garden = map<Pos, char>

  predicate IsPlantType(c: char)
  {
    'A' <= c <= 'Z'
  }

  /** `PlantType::from`: the upper-case letters only. */
  function PlantType(c: char): (r: Result<char>)
    ensures r.Ok? <==> IsPlantType(c)
    ensures r.Ok? ==> r.value == c
  {
    if IsPlantType(c) then Ok(c) else Err("unsupported plant type")
  }

  predicate InLines(lines: seq<string>, x: int, y: int)
  {
    0 <= y < |lines| && 0 <= x < |lines[y]|
  }

  /** Cells read so far: the rows above `row`, and `row` up to `col`. */
  predicate Scanned(lines: seq<string>, x: int, y: int, row: int, col: int)
  {
    InLines(lines, x, y) && (y < row || (y == row && x < col))
  }

  /** The cells of a grid of lines. */
  function Cells(lines: seq<string>): (r: set<Pos>)
    ensures forall p :: p in r <==> InLines(lines, p.x, p.y)
  {
    set y, x | 0 <= y < |lines| && 0 <= x < |lines[y]| :: Pos(x, y)
  }

  /** The garden a grid describes, each cell holding its character. */
  function GardenOf(lines: seq<string>): (g: Garden)
    ensures forall p :: p in g <==> InLines(lines, p.x, p.y)
  {
    map p | p in Cells(lines) :: lines[p.y][p.x]
  }

  /** The grid loop at the start of `process`. */
  method ParseGarden(lines: seq<string>) returns (r: Result<Garden>)
    ensures r.Err? <==> exists x, y :: InLines(lines, x, y) && !IsPlantType(lines[y][x])
    ensures r.Ok? ==> r.value == GardenOf(lines)
    ensures r.Ok? ==> forall p :: p in r.value <==> InLines(lines, p.x, p.y)
    ensures r.Ok? ==> forall p :: p in r.value ==> r.value[p] == lines[p.y][p.x]
  {
    var g: Garden := map[];
    for row := 0 to |lines|
      invariant forall p :: p in g <==> Scanned(lines, p.x, p.y, row, 0)
      invariant forall p :: p in g ==> g[p] == lines[p.y][p.x]
      invariant forall x, y :: Scanned(lines, x, y, row, 0) ==> IsPlantType(lines[y][x])
    {
      var line := lines[row];
      for column := 0 to |line|
        invariant forall p :: p in g <==> Scanned(lines, p.x, p.y, row, column)
        invariant forall p :: p in g ==> g[p] == lines[p.y][p.x]
        invariant forall x, y :: Scanned(lines, x, y, row, column) ==> IsPlantType(lines[y][x])
      {
        var pt := PlantType(line[column]);
        if pt.Err? {
          assert InLines(lines, column, row);
          return Err(pt.error);
        }
        g := g[Pos(column, row) := pt.value];
      }
      assert forall x, y :: Scanned(lines, x, y, row, |line|) <==> Scanned(lines, x, y, row + 1, 0);
    }
    assert forall x, y :: InLines(lines, x, y) <==> Scanned(lines, x, y, |lines|, 0);
    assert g == GardenOf(lines);
    return Ok(g);
  }

  /** The four neighbour positions, in the order the source looks them up. */
  function Around(p: Pos): seq<Pos>
  {
    [Pos(p.x - 1, p.y), Pos(p.x + 1, p.y), Pos(p.x, p.y - 1), Pos(p.x, p.y + 1)]
  }

  predicate Adjacent(p: Pos, q: Pos)
  {
    q in Around(p)
  }

  /** Adjacency is symmetric and means Manhattan distance 1. */
  lemma AdjacentIff(p: Pos, q: Pos)
    ensures Adjacent(p, q) <==> Adjacent(q, p)
    ensures Adjacent(p, q) <==> (if p.x < q.x then q.x - p.x else p.x - q.x) + (if p.y < q.y then q.y - p.y else p.y - q.y) == 1
  {
  }

  /** The candidates of `cands` that are in the garden, in order. */
  function Present(g: Garden, cands: seq<Pos>): (r: seq<Pos>)
    ensures |r| <= |cands|
    ensures forall q :: q in r <==> q in cands && q in g
  {
    if cands == [] then []
    else if cands[0] in g then [cands[0]] + Present(g, cands[1..])
    else Present(g, cands[1..])
  }

  /** `plant_neighbours`: the garden plants among the four neighbour
      positions, at most four, each at distance 1. */
  function PlantNeighbours(g: Garden, p: Pos): (r: seq<Pos>)
    ensures |r| <= 4
    ensures forall q :: q in r <==> q in g && Adjacent(p, q)
  {
    Present(g, Around(p))
  }

  /** Present keeps distinct candidates distinct. */
  lemma {:induction false} PresentDistinct(g: Garden, cands: seq<Pos>)
    requires forall i, j :: 0 <= i < j < |cands| ==> cands[i] != cands[j]
    ensures forall i, j :: 0 <= i < j < |Present(g, cands)| ==> Present(g, cands)[i] != Present(g, cands)[j]
  {
    if cands != [] {
      PresentDistinct(g, cands[1..]);
      assert forall q :: q in Present(g, cands[1..]) ==> q in cands[1..];
    }
  }

  /** The neighbours are listed without repetition. */
  lemma NeighboursDistinct(g: Garden, p: Pos)
    ensures forall i, j :: 0 <= i < j < |PlantNeighbours(g, p)| ==> PlantNeighbours(g, p)[i] != PlantNeighbours(g, p)[j]
  {
    PresentDistinct(g, Around(p));
  }

  /** A same-type neighbour: the steps a flood fill takes. */
  predicate Alike(g: Garden, p: Pos, q: Pos)
  {
    p in g && q in g && Adjacent(p, q) && g[q] == g[p]
  }

  /** A walk through same-type plants. */
  ghost predicate IsPath(g: Garden, path: seq<Pos>)
  {
    |path| >= 1 && path[0] in g && forall i :: 1 <= i < |path| ==> Alike(g, path[i - 1], path[i])
  }

  ghost predicate Linked(g: Garden, a: Pos, b: Pos)
  {
    exists path :: IsPath(g, path) && path[0] == a && path[|path| - 1] == b
  }

  /** The field of `start`: every plant linked to it. */
  ghost function Component(g: Garden, start: Pos): set<Pos>
  {
    set q | q in g.Keys && Linked(g, start, q)
  }

  /** No same-type neighbour of a member is missing. */
  ghost predicate Closed(g: Garden, field: set<Pos>)
  {
    forall p, q :: p in field && Alike(g, p, q) ==> q in field
  }

  lemma LinkedSelf(g: Garden, a: Pos)
    requires a in g
    ensures Linked(g, a, a)
  {
    assert IsPath(g, [a]);
  }

  lemma LinkedStep(g: Garden, a: Pos, b: Pos, c: Pos)
    requires Linked(g, a, b) && Alike(g, b, c)
    ensures Linked(g, a, c)
  {
    var path :| IsPath(g, path) && path[0] == a && path[|path| - 1] == b;
    var longer := path + [c];
    assert IsPath(g, longer);
  }

  /** Along a walk, all plants share the first one's type. */
  lemma {:induction false} PathType(g: Garden, path: seq<Pos>, k: nat)
    requires IsPath(g, path) && k < |path|
    ensures path[k] in g && g[path[k]] == g[path[0]]
  {
    if k > 0 {
      PathType(g, path, k - 1);
    }
  }

  lemma LinkedType(g: Garden, a: Pos, b: Pos)
    requires Linked(g, a, b)
    ensures a in g && b in g && g[b] == g[a]
  {
    var path :| IsPath(g, path) && path[0] == a && path[|path| - 1] == b;
    PathType(g, path, |path| - 1);
  }

  /** A closed set holding the start of a walk holds the whole walk. */
  lemma {:induction false} ClosedHoldsPath(g: Garden, field: set<Pos>, path: seq<Pos>, k: nat)
    requires Closed(g, field) && IsPath(g, path) && path[0] in field && k < |path|
    ensures path[k] in field
  {
    if k > 0 {
      ClosedHoldsPath(g, field, path, k - 1);
      assert Alike(g, path[k - 1], path[k]);
    }
  }

  /** A closed set missing the start of a walk misses the whole walk. */
  lemma {:induction false} ClosedMissesPath(g: Garden, field: set<Pos>, path: seq<Pos>, k: nat)
    requires Closed(g, field) && IsPath(g, path) && path[0] !in field && k < |path|
    ensures path[k] !in field
  {
    if k > 0 {
      ClosedMissesPath(g, field, path, k - 1);
      assert Alike(g, path[k - 1], path[k]);
      AdjacentIff(path[k - 1], path[k]);
      assert Alike(g, path[k], path[k - 1]);
    }
  }

  /** A closed set holding `start` and linked to it everywhere is exactly
      its component. */
  lemma ClosedIsComponent(g: Garden, field: set<Pos>, start: Pos)
    requires Closed(g, field) && start in field
    requires forall q :: q in field ==> q in g && Linked(g, start, q)
    ensures field == Component(g, start)
  {
    forall q | q in Component(g, start)
      ensures q in field
    {
      var path :| IsPath(g, path) && path[0] == start && path[|path| - 1] == q;
      ClosedHoldsPath(g, field, path, |path| - 1);
    }
  }

  /** Components are closed. */
  lemma ComponentClosed(g: Garden, start: Pos)
    ensures Closed(g, Component(g, start))
  {
    forall p, q | p in Component(g, start) && Alike(g, p, q)
      ensures q in Component(g, start)
    {
      LinkedStep(g, start, p, q);
    }
  }

  /** Two plants of a different component than `s` never meet `s`'s. */
  lemma ComponentsApart(g: Garden, s: Pos, t: Pos)
    requires s !in Component(g, t)
    ensures Component(g, s) !! Component(g, t)
  {
    ComponentClosed(g, t);
    forall q | q in Component(g, s)
      ensures q !in Component(g, t)
    {
      var path :| IsPath(g, path) && path[0] == s && path[|path| - 1] == q;
      ClosedMissesPath(g, Component(g, t), path, |path| - 1);
    }
  }

  /** Every listed plant is in the garden and linked to `start`. */
  ghost predicate Reached(g: Garden, start: Pos, plants: set<Pos>)
  {
    forall q :: q in plants ==> q in g && Linked(g, start, q)
  }

  /** Every plant on the worklist is in the garden and linked to `start`. */
  ghost predicate Queued(g: Garden, start: Pos, stack: seq<Pos>)
  {
    forall i :: 0 <= i < |stack| ==> stack[i] in g && Linked(g, start, stack[i])
  }

  /** Every same-type neighbour of `q` is in `field`. */
  ghost predicate Visited(g: Garden, q: Pos, field: set<Pos>)
  {
    forall n :: Alike(g, q, n) ==> n in field
  }

  /** What the neighbour loop keeps, after looking at the first i
      neighbours: the worklist grows with exactly the plants added to the
      field, all linked to `start`, and each same-type neighbour seen so far
      is in the field. */
  ghost predicate Pushed(g: Garden, start: Pos, current: Pos, neighbours: seq<Pos>, i: nat,
                         field: set<Pos>, stack: seq<Pos>, field': set<Pos>, stack': seq<Pos>)
    requires current in g && i <= |neighbours| && forall q :: q in neighbours ==> q in g
  {
    field <= field' <= g.Keys
    && Reached(g, start, field') && Queued(g, start, stack')
    && (forall q :: q in field' - field ==> q in stack')
    && (forall q :: q in stack ==> q in stack')
    && (forall j :: 0 <= j < i && g[neighbours[j]] == g[current] ==> neighbours[j] in field')
    && |stack'| - |stack| == |field'| - |field|
  }

  /** A same-type neighbour not yet in the field joins it and the worklist. */
  lemma PushAdded(g: Garden, start: Pos, current: Pos, neighbours: seq<Pos>, i: nat,
                  field: set<Pos>, stack: seq<Pos>, field': set<Pos>, stack': seq<Pos>)
    requires current in field' && i < |neighbours| && forall q :: q in neighbours ==> q in g && Adjacent(current, q)
    requires current in g && Pushed(g, start, current, neighbours, i, field, stack, field', stack')
    requires g[neighbours[i]] == g[current] && neighbours[i] !in field'
    ensures Pushed(g, start, current, neighbours, i + 1, field, stack, field' + {neighbours[i]}, [neighbours[i]] + stack')
  {
    var n := neighbours[i];
    LinkedStep(g, start, current, n);
    var stack'' := [n] + stack';
    assert forall k :: 1 <= k < |stack''| ==> stack''[k] == stack'[k - 1];
  }

  /** Any other neighbour leaves the field and the worklist as they are. */
  lemma PushSkipped(g: Garden, start: Pos, current: Pos, neighbours: seq<Pos>, i: nat,
                    field: set<Pos>, stack: seq<Pos>, field': set<Pos>, stack': seq<Pos>)
    requires i < |neighbours| && forall q :: q in neighbours ==> q in g
    requires current in g && Pushed(g, start, current, neighbours, i, field, stack, field', stack')
    requires !(g[neighbours[i]] == g[current] && neighbours[i] !in field')
    ensures Pushed(g, start, current, neighbours, i + 1, field, stack, field', stack')
  {
  }

  /** The `for_each` over the neighbours of the popped plant: each unseen
      one of the same type joins the field and goes on the worklist. */
  method PushNeighbours(g: Garden, ghost start: Pos, current: Pos, field: set<Pos>, stack: seq<Pos>)
    returns (field': set<Pos>, stack': seq<Pos>)
    requires current in field && field <= g.Keys
    requires Reached(g, start, field) && Queued(g, start, stack)
    ensures field <= field' <= g.Keys
    ensures Reached(g, start, field') && Queued(g, start, stack')
    ensures forall q :: q in field' - field ==> q in stack'
    ensures forall q :: q in stack ==> q in stack'
    ensures Visited(g, current, field')
    ensures |stack'| - |stack| == |field'| - |field|
  {
    field' := field;
    stack' := stack;
    var neighbours := PlantNeighbours(g, current);
    for i := 0 to |neighbours|
      invariant current in field'
      invariant Pushed(g, start, current, neighbours, i, field, stack, field', stack')
    {
      var n := neighbours[i];
      if g[n] == g[current] && n !in field' {
        PushAdded(g, start, current, neighbours, i, field, stack, field', stack');
        field' := field' + {n};
        stack' := [n] + stack';
      } else {
        PushSkipped(g, start, current, neighbours, i, field, stack, field', stack');
      }
    }
    assert forall n :: Alike(g, current, n) ==> n in neighbours;
  }

  /** `flood_fill`: a worklist (pushed and popped at the front) of plants
      whose neighbours are still to be looked at. The result is the field
      of `start`: it holds `start`, every member has `start`'s type and is
      linked to it, and no same-type neighbour of a member is left out. */
  method FloodFill(g: Garden, start: Pos) returns (field: set<Pos>)
    requires start in g
    ensures start in field && field <= g.Keys
    ensures forall q :: q in field ==> g[q] == g[start] && Linked(g, start, q)
    ensures Closed(g, field)
    ensures field == Component(g, start)
  {
    field := {};
    var stack := [start];
    LinkedSelf(g, start);
    while stack != []
      invariant field <= g.Keys && |field| <= |g.Keys|
      invariant Reached(g, start, field) && Queued(g, start, stack)
      invariant forall q :: q in field ==> q in stack || Visited(g, q, field)
      invariant field == {} ==> stack == [start]
      invariant field != {} ==> start in field
      decreases |g.Keys| + |stack| - |field|
    {
      ghost var before := field;
      ghost var old_stack := stack;
      var current := stack[0];
      stack := stack[1..];
      field := field + {current};
      ghost var popped := field;
      SubsetCard(before, popped);
      assert forall q :: q in stack ==> q in old_stack;
      field, stack := PushNeighbours(g, start, current, field, stack);
      forall q | q in field
        ensures q in stack || Visited(g, q, field)
      {
        if q !in field - popped && q != current && q !in stack {
          assert q in before;
          assert q !in old_stack;
          assert Visited(g, q, before);
        }
      }
      SubsetCard(field, g.Keys);
    }
    assert Closed(g, field) by {
      forall p, q | p in field && Alike(g, p, q)
        ensures q in field
      {
        assert Visited(g, p, field);
      }
    }
    ClosedIsComponent(g, field, start);
    forall q | q in field
      ensures g[q] == g[start]
    {
      LinkedType(g, start, q);
    }
  }

  function Union(fields: seq<set<Pos>>): set<Pos>
  {
    if fields == [] then {} else Union(fields[..|fields| - 1]) + fields[|fields| - 1]
  }

  lemma {:induction false} UnionMembers(fields: seq<set<Pos>>, q: Pos)
    ensures q in Union(fields) <==> exists i :: 0 <= i < |fields| && q in fields[i]
  {
    if fields != [] {
      var n := |fields| - 1;
      UnionMembers(fields[..n], q);
      if q in Union(fields[..n]) {
        var i :| 0 <= i < n && q in fields[..n][i];
        assert q in fields[i];
      }
      if exists i :: 0 <= i < |fields| && q in fields[i] {
        var i :| 0 <= i < |fields| && q in fields[i];
        if i < n {
          assert q in fields[..n][i];
        }
      }
    }
  }

  /** Each field is the component of the start at the same index. */
  ghost predicate FieldsOf(g: Garden, fields: seq<set<Pos>>, starts: seq<Pos>)
  {
    |starts| == |fields|
    && forall i :: 0 <= i < |fields| ==> starts[i] in fields[i] && fields[i] == Component(g, starts[i])
  }

  predicate Disjoint(fields: seq<set<Pos>>)
  {
    forall i, j :: 0 <= i < j < |fields| ==> fields[i] !! fields[j]
  }

  /** A split of the garden into its fields: each is the component of one
      of its plants, they are pairwise disjoint and together they are the
      whole garden. */
  ghost predicate Partition(g: Garden, fields: seq<set<Pos>>)
  {
    (exists starts :: FieldsOf(g, fields, starts)) && Disjoint(fields) && Union(fields) == g.Keys
  }

  /** The field of a plant outside every earlier field meets none of them. */
  lemma AddField(g: Garden, fields: seq<set<Pos>>, starts: seq<Pos>, s: Pos, field: set<Pos>)
    requires FieldsOf(g, fields, starts) && Disjoint(fields) && s in g && s !in Union(fields)
    requires s in field && field == Component(g, s)
    ensures FieldsOf(g, fields + [field], starts + [s])
    ensures Disjoint(fields + [field])
    ensures Union(fields + [field]) == Union(fields) + field
  {
    var more := fields + [field];
    assert more[..|fields|] == fields;
    forall i | 0 <= i < |fields|
      ensures fields[i] !! field
    {
      UnionMembers(fields, s);
      ComponentsApart(g, s, starts[i]);
    }
    forall i, j | 0 <= i < j < |more|
      ensures more[i] !! more[j]
    {
      assert more[i] == fields[i];
      if j < |fields| {
        assert more[j] == fields[j];
      }
    }
  }

  /** Taking a new field out of the plants not yet in a field. */
  lemma Shrinks(keys: set<Pos>, covered: set<Pos>, available: set<Pos>, field: set<Pos>, s: Pos)
    requires available == keys - covered && s in available && s in field
    ensures available - field == keys - (covered + field)
    ensures |available - field| < |available|
  {
    ProperSubsetCard(available - field, available);
  }

  /** The field loop of `process`: flood fill from any plant not yet in a
      field, until none is left. */
  method Fields(g: Garden) returns (fields: seq<set<Pos>>)
    ensures Partition(g, fields)
  {
    var available := g.Keys;
    fields := [];
    ghost var starts: seq<Pos> := [];
    while available != {}
      invariant Union(fields) <= g.Keys
      invariant available == g.Keys - Union(fields)
      invariant FieldsOf(g, fields, starts) && Disjoint(fields)
      decreases |available|
    {
      var nextStart :| nextStart in available;
      var field := FloodFill(g, nextStart);
      AddField(g, fields, starts, nextStart, field);
      Shrinks(g.Keys, Union(fields), available, field, nextStart);
      available := available - field;
      fields := fields + [field];
      starts := starts + [nextStart];
    }
  }
}

=== FILE: day12_sides.dfy ===
/** Day 12, puzzle 2: the price of a field is its area times its number of
    sides. Sides are counted line by line: in each row the plants with a
    fence on top (or bottom) are sorted by column, and every gap starts a
    new side; columns are treated alike for left and right fences. */
module Day12Sides {
  import opened Wrappers
  import opened Sets
  import opened Day12Garden
  import Sorting

  datatype Side = Top | Bottom | Left | Right

  /** The neighbour position on the given side. */
  function Beyond(p: Pos, side: Side): Pos
  {
    match side
    case Top => Pos(p.x, p.y - 1)
    case Bottom => Pos(p.x, p.y + 1)
    case Left => Pos(p.x - 1, p.y)
    case Right => Pos(p.x + 1, p.y)
  }

  function Opposite(side: Side): Side
  {
    match side
    case Top => Bottom
    case Bottom => Top
    case Left => Right
    case Right => Left
  }

  /** `is_plant_top_element` and its three siblings: the neighbour on that
      side is missing or of a different type. The border of the garden is
      always fenced; only two plants of one type share an unfenced side. */
  predicate IsEdge(g: Garden, p: Pos, side: Side)
    requires p in g
    ensures Beyond(p, side) !in g ==> IsEdge(g, p, side)
    ensures !IsEdge(g, p, side) ==> Beyond(p, side) in g && g[Beyond(p, side)] == g[p]
  {
    var n := Beyond(p, side);
    n !in g || g[n] != g[p]
  }

  /** A fence between two plants of the garden is seen from both of them. */
  lemma EdgeSeenFromBoth(g: Garden, p: Pos, side: Side)
    requires p in g && Beyond(p, side) in g
    ensures IsEdge(g, p, side) <==> IsEdge(g, Beyond(p, side), Opposite(side))
  {
    assert Beyond(Beyond(p, side), Opposite(side)) == p;
  }

  /** Rows hold top and bottom sides, columns left and right ones. */
  function LineOf(p: Pos, side: Side): int
  {
    if side == Top || side == Bottom then p.y else p.x
  }

  /** The coordinate along the line: the column within a row, the row
      within a column. */
  function Along(p: Pos, side: Side): int
  {
    if side == Top || side == Bottom then p.x else p.y
  }

  /** `get_plants_by_row`: the field plants in that row. */
  function PlantsByRow(field: set<Pos>, row: int): (r: set<Pos>)
    ensures forall p :: p in r <==> p in field && p.y == row
  {
    set p | p in field && p.y == row
  }

  /** `get_plants_by_column`: the field plants in that column. */
  function PlantsByColumn(field: set<Pos>, column: int): (r: set<Pos>)
    ensures forall p :: p in r <==> p in field && p.x == column
  {
    set p | p in field && p.x == column
  }

  function PlantsOnLine(field: set<Pos>, line: int, side: Side): (r: set<Pos>)
    ensures forall p :: p in r <==> p in field && LineOf(p, side) == line
  {
    if side == Top || side == Bottom then PlantsByRow(field, line) else PlantsByColumn(field, line)
  }

  /** The coordinates of the plants of a line with a fence on that side. */
  function EdgeCoords(g: Garden, field: set<Pos>, line: int, side: Side): set<int>
    requires field <= g.Keys
  {
    set p | p in PlantsOnLine(field, line, side) && IsEdge(g, p, side) :: Along(p, side)
  }

  /** `x` begins a run of consecutive values of `xs`. */
  predicate StartsRun(xs: set<int>, x: int)
  {
    x in xs && x - 1 !in xs
  }

  /** The first coordinates of maximal runs of consecutive values. */
  function RunStarts(xs: set<int>): set<int>
  {
    set x | x in xs && StartsRun(xs, x)
  }

  /** `count_segments`: 0 for no values, else 1 plus one per neighbouring
      pair with a gap. */
  function Segments(numbers: seq<int>): nat
  {
    if |numbers| <= 1 then |numbers|
    else
      var n := |numbers| - 1;
      Segments(numbers[..n]) + (if numbers[n] > numbers[n - 1] + 1 then 1 else 0)
  }

  /** Any non-empty list has between 1 and its length segments. */
  lemma {:induction false} SegmentsBounds(numbers: seq<int>)
    ensures numbers == [] <==> Segments(numbers) == 0
    ensures numbers != [] ==> 1 <= Segments(numbers) <= |numbers|
  {
    if |numbers| > 1 {
      SegmentsBounds(numbers[..|numbers| - 1]);
    }
  }

  predicate Increasing(s: seq<int>)
  {
    forall i, j :: 0 <= i < j < |s| ==> s[i] < s[j]
  }

  function Elems(s: seq<int>): set<int>
  {
    set x | x in s
  }

  /** On strictly increasing values, the segments are the runs of
      consecutive values: one per value whose predecessor is missing. */
  lemma {:induction false} SegmentsCountRuns(s: seq<int>)
    requires Increasing(s)
    ensures Segments(s) == |RunStarts(Elems(s))|
  {
    if |s| == 1 {
      assert Elems(s) == {s[0]};
      assert RunStarts(Elems(s)) == {s[0]};
    } else if |s| > 1 {
      var n := |s| - 1;
      var t := s[..n];
      ElemsLast(s, t);
      SegmentsCountRuns(t);
      RunStartsAdd(Elems(t), s[n - 1], s[n]);
    } else {
      assert Elems(s) == {};
      assert RunStarts(Elems(s)) == {};
    }
  }

  /** An increasing list is its prefix, still increasing and bounded by
      its last value, followed by one larger value. */
  lemma ElemsLast(s: seq<int>, t: seq<int>)
    requires Increasing(s) && |s| > 1 && t == s[..|s| - 1]
    ensures Increasing(t)
    ensures Elems(s) == Elems(t) + {s[|s| - 1]}
    ensures forall x :: x in Elems(t) ==> x <= s[|s| - 2]
    ensures s[|s| - 2] in Elems(t) && s[|s| - 2] < s[|s| - 1]
  {
    var n := |s| - 1;
    assert Elems(s) == Elems(t) + {s[n]};
    forall x | x in Elems(t)
      ensures x <= s[n - 1]
    {
      var i :| 0 <= i < n && t[i] == x;
      assert s[i] == x;
    }
    assert t[n - 1] == s[n - 1];
  }

  /** Adding a value above all others adds a run exactly when it does not
      follow the largest one. */
  lemma RunStartsAdd(xs: set<int>, last: int, y: int)
    requires last in xs && last < y
    requires forall x :: x in xs ==> x <= last
    ensures |RunStarts(xs + {y})| == |RunStarts(xs)| + (if y > last + 1 then 1 else 0)
  {
    var extra: set<int> := if y > last + 1 then {y} else {};
    RunStartsAddSet(xs, last, y);
    assert RunStarts(xs) !! extra;
  }

  lemma RunStartsAddSet(xs: set<int>, last: int, y: int)
    requires last in xs && last < y
    requires forall x :: x in xs ==> x <= last
    ensures RunStarts(xs + {y}) == RunStarts(xs) + (if y > last + 1 then {y} else {})
  {
    var extra: set<int> := if y > last + 1 then {y} else {};
    forall z
      ensures z in RunStarts(xs + {y}) <==> z in RunStarts(xs) + extra
    {
      if z in xs {
        assert z - 1 in xs + {y} <==> z - 1 in xs;
      } else if z == y {
        assert y - 1 in xs <==> y - 1 == last;
      }
    }
  }

  /** The counting loop of `count_segments` over neighbouring pairs. */
  method CountSegments(numbers: seq<int>) returns (r: nat)
    ensures r == Segments(numbers)
  {
    if |numbers| == 0 {
      return 0;
    }
    var segmentCounter := 1;
    for i := 1 to |numbers|
      invariant segmentCounter == Segments(numbers[..i])
    {
      assert numbers[..i + 1][..i] == numbers[..i];
      if numbers[i] > numbers[i - 1] + 1 {
        segmentCounter := segmentCounter + 1;
      }
    }
    assert numbers[..|numbers|] == numbers;
    return segmentCounter;
  }

  function Coords(plants: seq<Pos>, side: Side): (r: seq<int>)
    ensures |r| == |plants|
    ensures forall i :: 0 <= i < |plants| ==> r[i] == Along(plants[i], side)
  {
    seq(|plants|, i requires 0 <= i < |plants| => Along(plants[i], side))
  }

  /** `get_ordered_x_values` / `get_ordered_y_values`: the coordinates,
      sorted, as a permutation of the plants' coordinates. */
  function OrderedCoords(plants: seq<Pos>, side: Side): (r: seq<int>)
    ensures Sorting.Sorted(r) && multiset(r) == multiset(Coords(plants, side))
  {
    Sorting.Sort(Coords(plants, side))
  }

  predicate Distinct<T(==)>(s: seq<T>)
  {
    forall i, j :: 0 <= i < j < |s| ==> s[i] != s[j]
  }

  /** A value twice in a sequence counts twice in its multiset. */
  lemma TwiceInMultiset(s: seq<int>, i: nat, j: nat)
    requires i < j < |s| && s[i] == s[j]
    ensures multiset(s)[s[i]] >= 2
  {
    assert s == s[..j] + [s[j]] + s[j + 1..];
    assert s[i] in multiset(s[..j]);
  }

  lemma {:induction false} DistinctOnce(s: seq<int>, v: int)
    requires Distinct(s)
    ensures multiset(s)[v] <= 1
  {
    if s != [] {
      var n := |s| - 1;
      DistinctOnce(s[..n], v);
      assert s == s[..n] + [s[n]];
      assert s[n] !in s[..n];
    }
  }

  /** Distinct plants of one line have distinct coordinates along it, so
      sorting them gives a strictly increasing list of exactly those
      coordinates. */
  lemma OrderedCoordsIncreasing(plants: seq<Pos>, line: int, side: Side)
    requires Distinct(plants) && forall p :: p in plants ==> LineOf(p, side) == line
    ensures Increasing(OrderedCoords(plants, side))
    ensures Elems(OrderedCoords(plants, side)) == set p | p in plants :: Along(p, side)
  {
    var c := Coords(plants, side);
    var r := OrderedCoords(plants, side);
    assert Distinct(c) by {
      forall i, j | 0 <= i < j < |c|
        ensures c[i] != c[j]
      {
        assert plants[i] != plants[j];
        assert plants[i] in plants && plants[j] in plants;
      }
    }
    forall i, j | 0 <= i < j < |r|
      ensures r[i] < r[j]
    {
      if r[i] == r[j] {
        TwiceInMultiset(r, i, j);
        DistinctOnce(c, r[i]);
      }
    }
    forall x
      ensures x in r <==> x in c
    {
      assert x in r <==> x in multiset(r);
      assert x in c <==> x in multiset(c);
    }
    forall x | x in c
      ensures exists p :: p in plants && Along(p, side) == x
    {
      var i :| 0 <= i < |c| && c[i] == x;
      assert plants[i] in plants;
    }
  }

  /** The `filter` by `is_plant_*_element` over one line's plants. */
  function FilterEdges(g: Garden, plants: seq<Pos>, side: Side): (r: seq<Pos>)
    requires forall p :: p in plants ==> p in g
    ensures forall p :: p in r <==> p in plants && IsEdge(g, p, side)
    ensures Distinct(plants) ==> Distinct(r)
  {
    if plants == [] then []
    else
      var rest := FilterEdges(g, plants[1..], side);
      if IsEdge(g, plants[0], side) then [plants[0]] + rest else rest
  }

  /** The plants of a set, in some order (the set's iteration order). */
  method Enumerate(s: set<Pos>) returns (r: seq<Pos>)
    ensures Distinct(r) && forall p :: p in r <==> p in s
  {
    r := [];
    var rest := s;
    while rest != {}
      invariant Distinct(r) && forall p :: p in s <==> p in r || p in rest
      invariant forall p :: p in r ==> p !in rest
      decreases |rest|
    {
      var p :| p in rest;
      r := r + [p];
      rest := rest - {p};
    }
  }

  /** The sides one line contributes: the runs of its edge coordinates. */
  function LineSides(g: Garden, field: set<Pos>, line: int, side: Side): nat
    requires field <= g.Keys
  {
    |RunStarts(EdgeCoords(g, field, line, side))|
  }

  /** One line of `compute_top_bottom_segments` or
      `compute_left_right_segments`: its plants, those with a fence on the
      side, their sorted coordinates and the segments among them. */
  method CountLineSides(g: Garden, field: set<Pos>, line: int, side: Side) returns (count: nat)
    requires field <= g.Keys
    ensures count == LineSides(g, field, line, side)
  {
    var plants := Enumerate(PlantsOnLine(field, line, side));
    var edges := FilterEdges(g, plants, side);
    var values := OrderedCoords(edges, side);
    count := CountSegments(values);
    OrderedCoordsIncreasing(edges, line, side);
    SegmentsCountRuns(values);
    assert Elems(values) == EdgeCoords(g, field, line, side);
  }

  /** The sides of lines lo to hi, inclusive. */
  function LinesSides(g: Garden, field: set<Pos>, lo: int, hi: int, side: Side): nat
    requires field <= g.Keys
    decreases hi - lo + 1
  {
    if hi < lo then 0 else LinesSides(g, field, lo, hi - 1, side) + LineSides(g, field, hi, side)
  }

  /** The loop over lines of `compute_top_bottom_segments`. */
  method CountSides(g: Garden, field: set<Pos>, lo: int, hi: int, side: Side) returns (total: nat)
    requires field <= g.Keys
    ensures total == LinesSides(g, field, lo, hi, side)
  {
    total := 0;
    if hi < lo {
      return;
    }
    for line := lo to hi + 1
      invariant total == LinesSides(g, field, lo, line - 1, side)
    {
      var count := CountLineSides(g, field, line, side);
      total := total + count;
    }
  }

  /** A set of lines holding `w` has a smallest line. */
  lemma MaxExists(s: set<int>, w: int)
    requires w in s
    ensures exists k :: k in s && forall j :: j in s ==> j <= k
  {
    var negated := set x | x in s :: -x;
    assert forall x :: x in s ==> -x in negated;
    MinExists(negated);
    var k :| IsLeast(k, negated);
    assert -k in s;
  }

  /** The smallest and largest line holding a plant of the field, as
      `minmax_by_key` finds them. */
  function Lines(field: set<Pos>, side: Side): (r: (int, int))
    requires field != {}
    ensures forall p :: p in field ==> r.0 <= LineOf(p, side) <= r.1
    ensures exists p :: p in field && LineOf(p, side) == r.0
    ensures exists p :: p in field && LineOf(p, side) == r.1
  {
    var lines := set p | p in field :: LineOf(p, side);
    var p :| p in field;
    assert forall q :: q in field ==> LineOf(q, side) in lines;
    MinExists(lines);
    MaxExists(lines, LineOf(p, side));
    var lo :| IsLeast(lo, lines);
    var hi :| hi in lines && forall j :: j in lines ==> j <= hi;
    (lo, hi)
  }

  /** The sides of a non-empty field, all four directions summed. */
  function Sides(g: Garden, field: set<Pos>): nat
    requires field <= g.Keys && field != {}
  {
    var rows := Lines(field, Top);
    var columns := Lines(field, Left);
    LinesSides(g, field, rows.0, rows.1, Top) + LinesSides(g, field, rows.0, rows.1, Bottom)
    + LinesSides(g, field, columns.0, columns.1, Left) + LinesSides(g, field, columns.0, columns.1, Right)
  }

  /** `compute_segments` on a non-empty field. */
  method FieldSides(g: Garden, field: set<Pos>) returns (r: nat)
    requires field <= g.Keys && field != {}
    ensures r == Sides(g, field)
  {
    var rows := Lines(field, Top);
    var top := CountSides(g, field, rows.0, rows.1, Top);
    var bottom := CountSides(g, field, rows.0, rows.1, Bottom);
    var columns := Lines(field, Left);
    var left := CountSides(g, field, columns.0, columns.1, Left);
    var right := CountSides(g, field, columns.0, columns.1, Right);
    r := top + bottom + left + right;
  }

  /** `compute_segments`: top, bottom, left and right sides; an empty
      field has no extreme row and is an error. */
  method ComputeSegments(g: Garden, field: set<Pos>) returns (r: Result<nat>)
    requires field <= g.Keys
    ensures r.Err? <==> field == {}
    ensures r.Ok? ==> r.value == Sides(g, field)
  {
    if field == {} {
      return Err("no minmax element found");
    }
    var sides := FieldSides(g, field);
    return Ok(sides);
  }

  /** Every field is a non-empty set of garden plants. */
  predicate Regions(g: Garden, fields: seq<set<Pos>>)
  {
    forall i :: 0 <= i < |fields| ==> fields[i] <= g.Keys && fields[i] != {}
  }

  /** The price of one field: its sides times its area. */
  function FieldPrice(g: Garden, field: set<Pos>): nat
    requires field <= g.Keys && field != {}
  {
    Sides(g, field) * |field|
  }

  /** The fold at the end of `process`: the sum of the field prices. */
  function Price(g: Garden, fields: seq<set<Pos>>): nat
    requires Regions(g, fields)
  {
    if fields == [] then 0
    else Price(g, fields[..|fields| - 1]) + FieldPrice(g, fields[|fields| - 1])
  }

  method SumPrices(g: Garden, fields: seq<set<Pos>>) returns (total: nat)
    requires Regions(g, fields)
    ensures total == Price(g, fields)
  {
    total := 0;
    for i := 0 to |fields|
      invariant total == Price(g, fields[..i])
    {
      assert fields[..i + 1][..i] == fields[..i];
      var sides := FieldSides(g, fields[i]);
      var price := sides * |fields[i]|;
      assert price == FieldPrice(g, fields[i]);
      total := total + price;
    }
    assert fields[..|fields|] == fields;
  }

  lemma FieldsNonEmpty(g: Garden, fields: seq<set<Pos>>)
    requires Partition(g, fields)
    ensures Regions(g, fields)
  {
    var starts :| FieldsOf(g, fields, starts);
    forall i, q | 0 <= i < |fields| && q in fields[i]
      ensures q in g
    {
      UnionMembers(fields, q);
    }
    forall i | 0 <= i < |fields|
      ensures fields[i] != {}
    {
      assert starts[i] in fields[i];
    }
  }

  /** `process`: parse, split into fields, and sum the prices. */
  method Process(lines: seq<string>) returns (r: Result<nat>)
    ensures r.Err? <==> exists x, y :: InLines(lines, x, y) && !IsPlantType(lines[y][x])
    ensures r.Ok? ==> exists fields :: Partition(GardenOf(lines), fields)
                        && (forall i :: 0 <= i < |fields| ==> fields[i] != {})
                        && r.value == Price(GardenOf(lines), fields)
  {
    var g :- ParseGarden(lines);
    var fields := Fields(g);
    FieldsNonEmpty(g, fields);
    var total := SumPrices(g, fields);
    return Ok(total);
  }

  /** A lone plant has one side in each direction. */
  lemma LoneSide(g: Garden, p: Pos, side: Side)
    requires p in g && Beyond(p, side) !in g
    ensures LinesSides(g, {p}, LineOf(p, side), LineOf(p, side), side) == 1
  {
    var line := LineOf(p, side);
    assert PlantsOnLine({p}, line, side) == {p};
    assert EdgeCoords(g, {p}, line, side) == {Along(p, side)};
    assert RunStarts({Along(p, side)}) == {Along(p, side)};
  }

  lemma SinglePlant(g: Garden, p: Pos)
    requires p in g
    requires Beyond(p, Top) !in g && Beyond(p, Bottom) !in g && Beyond(p, Left) !in g && Beyond(p, Right) !in g
    ensures Sides(g, {p}) == 4
  {
    LoneSide(g, p, Top);
    LoneSide(g, p, Bottom);
    LoneSide(g, p, Left);
    LoneSide(g, p, Right);
    assert Lines({p}, Top) == (p.y, p.y);
    assert Lines({p}, Left) == (p.x, p.x);
  }
}

=== FILE: day14_robots.dfy ===
/** Day 14, puzzle 1: robots walk with constant velocity on a grid whose
    edges wrap around; after 100 seconds the robots of the four quadrants
    are counted and the counts multiplied. */
module Day14Robots {
  import opened Wrappers
  import opened Decimal
  import Text

  datatype Robot = Robot(x: int, y: int, vx: int, vy: int)

  /** A product of a positive factor and a grid size is at least the
      grid size. */
  lemma MulAtLeast(d: int, m: int)
    requires d >= 1 && m > 0
    ensures d * m >= m
  {
    assert d * m == (d - 1) * m + m;
    assert (d - 1) * m >= 0;
  }

  /** The quotient and remainder of a Euclidean division are the only ones
      with the remainder in `0..m`. */
  lemma DivModUnique(a: int, m: int, q: int, r: int)
    requires m > 0 && 0 <= r < m && a == q * m + r
    ensures a / m == q && a % m == r
  {
    var d := q - a / m;
    assert d * m == q * m - (a / m) * m;
    assert d * m == a % m - r;
    if d >= 1 {
      MulAtLeast(d, m);
    } else if d <= -1 {
      MulAtLeast(-d, m);
    }
  }

  /** Rust's `/` on `i64`: truncates toward zero. */
  function Quot(a: int, m: int): int
    requires m > 0
  {
    if a >= 0 then a / m else -((-a) / m)
  }

  /** Rust's `%` on `i64`: the remainder of the truncating division, with
      the sign of the dividend. */
  function Rem(a: int, m: int): (r: int)
    requires m > 0
    ensures a >= 0 ==> 0 <= r < m
    ensures a < 0 ==> -m < r <= 0
    ensures a == Quot(a, m) * m + r
  {
    if a >= 0 then a % m
    else
      var r := -((-a) % m);
      assert -a == ((-a) / m) * m + (-a) % m;
      assert a == (-((-a) / m)) * m + r;
      r
  }

  /** One coordinate of `move_in_grid`: left as it is inside the grid,
      reduced with `%` beyond the far edge, and turned into `max + wrap`
      (or 0) below the near edge. */
  function Wrap(c: int, max: int): int
    requires max > 0
  {
    if c >= max then Rem(c, max)
    else if c < 0 then
      var wrap := Rem(c, max);
      if wrap == 0 then 0 else max + wrap
    else c
  }

  /** Every branch of `Wrap` lands on the mathematical residue: the wrapped
      coordinate is in the grid and differs from the unwrapped one by a
      multiple of the grid size. */
  lemma WrapIsModulo(c: int, max: int)
    requires max > 0
    ensures Wrap(c, max) == c % max
    ensures 0 <= Wrap(c, max) < max
  {
    var q := Quot(c, max);
    var w := Rem(c, max);
    if c >= max {
      DivModUnique(c, max, q, w);
    } else if c < 0 {
      if w == 0 {
        DivModUnique(c, max, q, 0);
      } else {
        assert c == (q - 1) * max + (max + w);
        DivModUnique(c, max, q - 1, max + w);
      }
    } else {
      DivModUnique(c, max, 0, c);
    }
  }

  predicate InGrid(r: Robot, maxX: int, maxY: int)
  {
    0 <= r.x < maxX && 0 <= r.y < maxY
  }

  /** `move_in_grid`: `steps` seconds of walking, wrapped onto the grid:
      each coordinate is the residue of the unwrapped one, and the
      velocities stay. */
  function Moved(r: Robot, steps: int, maxX: int, maxY: int): (m: Robot)
    requires maxX > 0 && maxY > 0
    ensures InGrid(m, maxX, maxY)
    ensures m.x == (r.x + steps * r.vx) % maxX && m.y == (r.y + steps * r.vy) % maxY
    ensures m.vx == r.vx && m.vy == r.vy
  {
    WrapIsModulo(r.x + steps * r.vx, maxX);
    WrapIsModulo(r.y + steps * r.vy, maxY);
    Robot(Wrap(r.x + steps * r.vx, maxX), Wrap(r.y + steps * r.vy, maxY), r.vx, r.vy)
  }

  lemma ModuloShift(p: int, q: int, m: int)
    requires m > 0
    ensures (p % m + q) % m == (p + q) % m
  {
    var s := p % m + q;
    assert p == (p / m) * m + p % m;
    assert s == (s / m) * m + s % m;
    assert p + q == (p / m + s / m) * m + s % m;
    DivModUnique(p + q, m, p / m + s / m, s % m);
  }

  /** Walking `a` seconds and then `b` seconds is walking `a + b` seconds,
      and walking no time leaves a robot of the grid where it is. */
  lemma MovedCompose(r: Robot, a: int, b: int, maxX: int, maxY: int)
    requires maxX > 0 && maxY > 0
    ensures Moved(Moved(r, a, maxX, maxY), b, maxX, maxY) == Moved(r, a + b, maxX, maxY)
    ensures InGrid(r, maxX, maxY) ==> Moved(r, 0, maxX, maxY) == r
  {
    ModuloShift(r.x + a * r.vx, b * r.vx, maxX);
    ModuloShift(r.y + a * r.vy, b * r.vy, maxY);
    assert r.x + a * r.vx + b * r.vx == r.x + (a + b) * r.vx;
    assert r.y + a * r.vy + b * r.vy == r.y + (a + b) * r.vy;
    if InGrid(r, maxX, maxY) {
      DivModUnique(r.x, maxX, 0, r.x);
      DivModUnique(r.y, maxY, 0, r.y);
    }
  }

  /** Every robot moved once, with the same time and grid. */
  function MovedAll(robots: seq<Robot>, steps: int, maxX: int, maxY: int): (r: seq<Robot>)
    requires maxX > 0 && maxY > 0
    ensures |r| == |robots|
    ensures forall i :: 0 <= i < |r| ==> r[i] == Moved(robots[i], steps, maxX, maxY)
  {
    seq(|robots|, i requires 0 <= i < |robots| => Moved(robots[i], steps, maxX, maxY))
  }

  /** An inclusive range `start..=end` as `count_robots` reads it. */
  datatype Bounds = Bounds(start: int, end: int)

  predicate Within(r: Robot, xs: Bounds, ys: Bounds)
  {
    xs.start <= r.x <= xs.end && ys.start <= r.y <= ys.end
  }

  /** The indices of the robots inside both ranges. */
  ghost function Inside(robots: seq<Robot>, xs: Bounds, ys: Bounds): set<int>
  {
    set i | 0 <= i < |robots| && Within(robots[i], xs, ys)
  }

  /** The robots inside both ranges: as many as there are indices of robots
      inside them. */
  function Count(robots: seq<Robot>, xs: Bounds, ys: Bounds): (n: nat)
    ensures n <= |robots|
    ensures n == |Inside(robots, xs, ys)|
  {
    if robots == [] then
      assert Inside(robots, xs, ys) == {};
      0
    else
      var last := |robots| - 1;
      var n := Count(robots[..last], xs, ys);
      var here: set<int> := if Within(robots[last], xs, ys) then {last} else {};
      assert Inside(robots, xs, ys) == Inside(robots[..last], xs, ys) + here;
      assert Inside(robots[..last], xs, ys) * here == {};
      n + (if Within(robots[last], xs, ys) then 1 else 0)
  }

  /** The four quadrants of `safety_factor`. */
  function Quadrants(maxX: int, maxY: int): seq<(Bounds, Bounds)>
  {
    var left := Bounds(0, maxX / 2 - 1);
    var right := Bounds(maxX / 2 + 1, maxX - 1);
    var top := Bounds(0, maxY / 2 - 1);
    var bottom := Bounds(maxY / 2 + 1, maxY - 1);
    [(left, top), (right, top), (left, bottom), (right, bottom)]
  }

  /** The number of quadrants holding `r`. */
  function QuadrantsOf(r: Robot, maxX: int, maxY: int): nat
  {
    var q := Quadrants(maxX, maxY);
    (if Within(r, q[0].0, q[0].1) then 1 else 0) + (if Within(r, q[1].0, q[1].1) then 1 else 0)
    + (if Within(r, q[2].0, q[2].1) then 1 else 0) + (if Within(r, q[3].0, q[3].1) then 1 else 0)
  }

  /** A robot of the grid is in exactly one quadrant, unless it is on the
      middle column or the middle row, which belong to none. */
  lemma QuadrantsSplitGrid(r: Robot, maxX: int, maxY: int)
    requires InGrid(r, maxX, maxY)
    ensures QuadrantsOf(r, maxX, maxY) == if r.x != maxX / 2 && r.y != maxY / 2 then 1 else 0
  {
  }

  predicate OnMiddle(r: Robot, maxX: int, maxY: int)
  {
    r.x == maxX / 2 || r.y == maxY / 2
  }

  function CountMiddle(robots: seq<Robot>, maxX: int, maxY: int): (n: nat)
  {
    if robots == [] then 0
    else CountMiddle(robots[..|robots| - 1], maxX, maxY) + (if OnMiddle(robots[|robots| - 1], maxX, maxY) then 1 else 0)
  }

  /** The quadrant counts and the robots on the middle lines add up to all
      robots of the grid. */
  lemma {:induction false} QuadrantCounts(robots: seq<Robot>, maxX: int, maxY: int)
    requires forall i :: 0 <= i < |robots| ==> InGrid(robots[i], maxX, maxY)
    ensures var q := Quadrants(maxX, maxY);
      Count(robots, q[0].0, q[0].1) + Count(robots, q[1].0, q[1].1)
      + Count(robots, q[2].0, q[2].1) + Count(robots, q[3].0, q[3].1)
      + CountMiddle(robots, maxX, maxY) == |robots|
  {
    if robots != [] {
      var n := |robots| - 1;
      QuadrantCounts(robots[..n], maxX, maxY);
      QuadrantsSplitGrid(robots[n], maxX, maxY);
    }
  }

  /** The product of the four quadrant counts: zero exactly when some
      quadrant holds no robot. */
  function QuadrantProduct(robots: seq<Robot>, maxX: int, maxY: int): (r: nat)
    ensures var q := Quadrants(maxX, maxY);
      r == 0 <==> (Count(robots, q[0].0, q[0].1) == 0 || Count(robots, q[1].0, q[1].1) == 0
        || Count(robots, q[2].0, q[2].1) == 0 || Count(robots, q[3].0, q[3].1) == 0)
  {
    var q := Quadrants(maxX, maxY);
    var a, b, c, d := Count(robots, q[0].0, q[0].1), Count(robots, q[1].0, q[1].1),
      Count(robots, q[2].0, q[2].1), Count(robots, q[3].0, q[3].1);
    ProductZero(a, b, c, d);
    var r: int := a * b * c * d;
    r
  }

  lemma ProductZero(a: nat, b: nat, c: nat, d: nat)
    ensures a * b * c * d >= 0
    ensures a * b * c * d == 0 <==> a == 0 || b == 0 || c == 0 || d == 0
  {
    var ab := a * b;
    var abc := ab * c;
    assert ab >= 0 && abc >= 0 && abc * d >= 0;
    if a > 0 && b > 0 && c > 0 && d > 0 {
      assert ab > 0;
      assert abc > 0;
      assert abc * d > 0;
    }
  }

  class Map {
    const maxX: int
    const maxY: int
    var robots: seq<Robot>

    constructor (maxX: int, maxY: int, robots: seq<Robot>)
      requires maxX > 0 && maxY > 0
      ensures this.maxX == maxX && this.maxY == maxY && this.robots == robots
    {
      this.maxX := maxX;
      this.maxY := maxY;
      this.robots := robots;
    }

    /** `simulate_steps`: every robot walks `steps` seconds. */
    method SimulateSteps(steps: int)
      requires maxX > 0 && maxY > 0
      modifies this
      ensures robots == MovedAll(old(robots), steps, maxX, maxY)
    {
      var i := 0;
      while i < |robots|
        invariant 0 <= i <= |robots| == |old(robots)|
        invariant robots[..i] == MovedAll(old(robots), steps, maxX, maxY)[..i]
        invariant robots[i..] == old(robots)[i..]
      {
        robots := robots[i := Moved(robots[i], steps, maxX, maxY)];
        i := i + 1;
      }
    }

    /** `count_robots`: the robots within both inclusive ranges. */
    function CountRobots(xs: Bounds, ys: Bounds): (n: nat)
      reads this
      ensures n <= |robots|
      ensures n == |Inside(robots, xs, ys)|
    {
      Count(robots, xs, ys)
    }

    /** `safety_factor`: the product of the four quadrant counts. */
    function SafetyFactor(): (r: nat)
      reads this
      ensures r == QuadrantProduct(robots, maxX, maxY)
    {
      var q := Quadrants(maxX, maxY);
      var a, b, c, d := CountRobots(q[0].0, q[0].1), CountRobots(q[1].0, q[1].1),
        CountRobots(q[2].0, q[2].1), CountRobots(q[3].0, q[3].1);
      ProductZero(a, b, c, d);
      var r: int := a * b * c * d;
      r
    }
  }

  /** `tag` followed by two numbers separated by a comma: a pair read is the
      tag, the text of its first number, a comma and the text of its second. */
  function ParsePair(s: string, tag: string): (r: Result<(int, int)>)
    ensures r.Ok? ==> exists a, b :: s == tag + a + "," + b && ParseInt(a) == Ok(r.value.0) && ParseInt(b) == Ok(r.value.1)
  {
    if |s| < |tag| || s[..|tag|] != tag then Err("no match")
    else
      var parts := Text.SplitOn(s[|tag|..], ",");
      if |parts| != 2 then Err("no match")
      else
        var a :- ParseInt(parts[0]);
        var b :- ParseInt(parts[1]);
        Text.JoinSplitOn(s[|tag|..], ",");
        assert s == tag + parts[0] + "," + parts[1] by {
          assert s == s[..|tag|] + s[|tag|..];
        }
        Ok((a, b))
  }

  /** `line` is a `p=` pair of the robot's position, a space and a `v=` pair
      of its velocity. */
  ghost predicate Spells(line: string, r: Robot)
  {
    exists p, v ::
      line == p + " " + v && ParsePair(p, "p=") == Ok((r.x, r.y)) && ParsePair(v, "v=") == Ok((r.vx, r.vy))
  }

  /** `Robot::from` on a line of the form `p=X,Y v=VX,VY`: a robot read is a
      `p=` pair of its position, a space and a `v=` pair of its velocity; a
      line without a space is an error. */
  function ParseRobot(line: string): (r: Result<Robot>)
    ensures ' ' !in line ==> r.Err?
    ensures r.Ok? ==> Spells(line, r.value)
  {
    var halves := Text.SplitOn(line, " ");
    if |halves| != 2 then Err("no match")
    else
      var p :- ParsePair(halves[0], "p=");
      var v :- ParsePair(halves[1], "v=");
      Text.JoinSplitOn(line, " ");
      assert line == halves[0] + " " + halves[1];
      Ok(Robot(p.0, p.1, v.0, v.1))
  }

  function ShowPair(tag: string, a: int, b: int): string
  {
    tag + ShowInt(a) + "," + ShowInt(b)
  }

  function ShowRobot(r: Robot): string
  {
    ShowPair("p=", r.x, r.y) + " " + ShowPair("v=", r.vx, r.vy)
  }

  lemma ParseShowPair(tag: string, a: int, b: int)
    requires tag == "p=" || tag == "v="
    ensures ParsePair(ShowPair(tag, a, b), tag) == Ok((a, b))
  {
    var s := ShowPair(tag, a, b);
    var pieces := [ShowInt(a), ShowInt(b)];
    assert s[..|tag|] == tag;
    assert s[|tag|..] == Text.Join(pieces, ",");
    Text.SplitJoin(pieces, ",");
    var parts := Text.SplitOn(s[|tag|..], ",");
    assert parts == pieces;
    ParseShowInt(a);
    ParseShowInt(b);
    assert ParseInt(parts[0]) == Ok(a) && ParseInt(parts[1]) == Ok(b);
  }

  /** Reading a robot back from its line gives the robot. */
  lemma ParseShowRobot(r: Robot)
    ensures ParseRobot(ShowRobot(r)) == Ok(r)
  {
    var p := ShowPair("p=", r.x, r.y);
    var v := ShowPair("v=", r.vx, r.vy);
    assert ' ' !in p && ' ' !in v;
    assert ShowRobot(r) == Text.Join([p, v], " ");
    Text.SplitJoin([p, v], " ");
    ParseShowPair("p=", r.x, r.y);
    ParseShowPair("v=", r.vx, r.vy);
  }

  /** Every line as a robot, or the first failure. */
  function ParseRobots(lines: seq<string>): (r: Result<seq<Robot>>)
    ensures r.Ok? <==> forall i :: 0 <= i < |lines| ==> ParseRobot(lines[i]).Ok?
    ensures r.Ok? ==> |r.value| == |lines| && forall i :: 0 <= i < |lines| ==> ParseRobot(lines[i]) == Ok(r.value[i])
  {
    CollectAll(ParseRobot, lines)
  }

  /** `process`: 100 seconds on the 101 by 103 grid, then the safety
      factor. */
  method Process(lines: seq<string>) returns (r: Result<nat>)
    ensures r.Err? <==> exists i :: 0 <= i < |lines| && ParseRobot(lines[i]).Err?
    ensures r.Ok? ==> r.value == QuadrantProduct(MovedAll(ParseRobots(lines).value, 100, 101, 103), 101, 103)
  {
    var robots :- ParseRobots(lines);
    var grid := new Map(101, 103, robots);
    grid.SimulateSteps(100);
    return Ok(grid.SafetyFactor());
  }
}

=== FILE: day15_warehouse.dfy ===
/** Day 15, puzzle 1: a robot walks through a warehouse, pushing rows of
    boxes ahead of it when there is free floor behind them; the answer sums
    100 * y + x over the boxes after all moves. */
module Day15Warehouse {
  import opened Wrappers
  import opened Sets

  type Coord = (int, int)

  datatype Object = Robot | Wall | Box | Nothing

  datatype Movement = Up | Down | Left | Right

  /** `Object::from`: the four known characters, anything else is no
      object. */
  function ObjectOf(c: char): (r: Option<Object>)
    ensures r.Some? <==> c in "#@O."
  {
    match c
    case '#' => Some(Wall)
    case '@' => Some(Robot)
    case 'O' => Some(Box)
    case '.' => Some(Nothing)
    case _ => None
  }

  /** `Movement::from`: an unknown symbol panics. */
  function MovementOf(c: char): (r: Result<Movement>)
    ensures r.Ok? <==> c in "^v<>"
  {
    match c
    case '^' => Ok(Up)
    case 'v' => Ok(Down)
    case '<' => Ok(Left)
    case '>' => Ok(Right)
    case _ => Err("Unknown direction symbol")
  }

  /** `Movement::next`: one step in the direction. */
  function Next(m: Movement, c: Coord): (n: Coord)
    ensures (n.0 == c.0 && (n.1 - c.1 == 1 || c.1 - n.1 == 1)) || (n.1 == c.1 && (n.0 - c.0 == 1 || c.0 - n.0 == 1))
  {
    match m
    case Up => (c.0, c.1 - 1)
    case Down => (c.0, c.1 + 1)
    case Left => (c.0 - 1, c.1)
    case Right => (c.0 + 1, c.1)
  }

  /** The opposite step takes a step back. */
  lemma NextBack(m: Movement, c: Coord)
    ensures Next(Opposite(m), Next(m, c)) == c
  {
  }

  function Opposite(m: Movement): Movement
  {
    match m
    case Up => Down
    case Down => Up
    case Left => Right
    case Right => Left
  }

  /** `k` steps in the direction. */
  function Steps(m: Movement, c: Coord, k: nat): Coord
  {
    match m
    case Up => (c.0, c.1 - k)
    case Down => (c.0, c.1 + k)
    case Left => (c.0 - k, c.1)
    case Right => (c.0 + k, c.1)
  }

  /** The scan of `find_free_position` toward Left and Up runs down to
      coordinate 0 only; toward Right and Down it is unbounded. */
  predicate InScan(m: Movement, c: Coord)
  {
    match m
    case Left => c.0 >= 0
    case Up => c.1 >= 0
    case _ => true
  }

  /** The cells of the map on the ray from `c` in the direction. */
  function Ray(objects: map<Coord, Object>, c: Coord, m: Movement): set<Coord>
  {
    set k | k in objects.Keys && Ahead(c, m, k)
  }

  predicate Ahead(c: Coord, m: Movement, k: Coord)
  {
    match m
    case Up => k.0 == c.0 && k.1 <= c.1
    case Down => k.0 == c.0 && k.1 >= c.1
    case Left => k.1 == c.1 && k.0 <= c.0
    case Right => k.1 == c.1 && k.0 >= c.0
  }

  lemma RayShrinks(objects: map<Coord, Object>, c: Coord, m: Movement)
    requires c in objects
    ensures |Ray(objects, Next(m, c), m)| < |Ray(objects, c, m)|
  {
    assert c in Ray(objects, c, m);
    assert Ray(objects, Next(m, c), m) <= Ray(objects, c, m) - {c};
    SubsetCard(Ray(objects, Next(m, c), m), Ray(objects, c, m) - {c});
  }

  /** The scan from `c` onward: the first free cell, `None` at a wall or
      past coordinate 0, and a failure (the `unwrap` panic) at a cell
      missing from the map; boxes (or the robot) are stepped over. */
  function FreeFrom(objects: map<Coord, Object>, c: Coord, m: Movement): Result<Option<Coord>>
    decreases |Ray(objects, c, m)|
  {
    if !InScan(m, c) then Ok(None)
    else if c !in objects then Err("missing cell")
    else if objects[c] == Wall then Ok(None)
    else if objects[c] == Nothing then Ok(Some(c))
    else
      RayShrinks(objects, c, m);
      FreeFrom(objects, Next(m, c), m)
  }

  /** The first `k` cells from `c` are boxes (or the robot) inside the
      scanned range. */
  predicate Crowded(objects: map<Coord, Object>, c: Coord, m: Movement, k: nat)
  {
    forall j :: 0 <= j < k ==>
      (InScan(m, Steps(m, c, j)) && Steps(m, c, j) in objects && objects[Steps(m, c, j)] in {Box, Robot})
  }

  lemma StepsNext(m: Movement, c: Coord, j: nat)
    ensures Steps(m, Next(m, c), j) == Steps(m, c, j + 1)
  {
  }

  /** `find_free_position` finds the first free cell behind an unbroken row
      of boxes; a wall or the end of the range behind the row gives `None`,
      and a missing cell behind it fails. */
  lemma {:induction false} FreeFromMeaning(objects: map<Coord, Object>, c: Coord, m: Movement)
    ensures exists k: nat :: Crowded(objects, c, m, k) && var s := Steps(m, c, k);
      if !InScan(m, s) then FreeFrom(objects, c, m) == Ok(None)
      else if s !in objects then FreeFrom(objects, c, m).Err?
      else if objects[s] == Wall then FreeFrom(objects, c, m) == Ok(None)
      else objects[s] == Nothing && FreeFrom(objects, c, m) == Ok(Some(s))
    decreases |Ray(objects, c, m)|
  {
    assert Steps(m, c, 0) == c;
    if InScan(m, c) && c in objects && objects[c] in {Box, Robot} {
      var n := Next(m, c);
      RayShrinks(objects, c, m);
      FreeFromMeaning(objects, n, m);
      var k: nat :| Crowded(objects, n, m, k) && var s := Steps(m, n, k);
        if !InScan(m, s) then FreeFrom(objects, n, m) == Ok(None)
        else if s !in objects then FreeFrom(objects, n, m).Err?
        else if objects[s] == Wall then FreeFrom(objects, n, m) == Ok(None)
        else objects[s] == Nothing && FreeFrom(objects, n, m) == Ok(Some(s));
      StepsNext(m, c, k);
      forall j | 0 <= j < k + 1
        ensures InScan(m, Steps(m, c, j)) && Steps(m, c, j) in objects && objects[Steps(m, c, j)] in {Box, Robot}
      {
        if j > 0 {
          StepsNext(m, c, j - 1);
        }
      }
      assert Crowded(objects, c, m, k + 1);
    } else {
      assert Crowded(objects, c, m, 0);
    }
  }

  /** A free cell found is free, on the ray, and not the start. */
  lemma FreeFromFree(objects: map<Coord, Object>, c: Coord, m: Movement)
    requires FreeFrom(objects, c, m).Ok? && FreeFrom(objects, c, m).value.Some?
    ensures var p := FreeFrom(objects, c, m).value.value;
      p in objects && objects[p] == Nothing && Ahead(c, m, p)
    decreases |Ray(objects, c, m)|
  {
    if InScan(m, c) && c in objects && objects[c] != Wall && objects[c] != Nothing {
      RayShrinks(objects, c, m);
      FreeFromFree(objects, Next(m, c), m);
    }
  }

  /** The robot and the objects of the map. */
  datatype State = State(robot: Coord, objects: map<Coord, Object>)

  /** The robot stands where the map says it is. */
  predicate Valid(s: State)
  {
    s.robot in s.objects && s.objects[s.robot] == Robot
  }

  /** `move_robot` as a function of the state: a wall blocks, free floor is
      walked onto, a box is pushed together with the boxes behind it when
      there is free floor behind them. A missing neighbour fails. */
  function Moved(s: State, m: Movement): Result<State>
  {
    var next := Next(m, s.robot);
    if next !in s.objects then Err("Could not find neighbour for robot")
    else
      match s.objects[next]
      case Wall => Ok(s)
      case Nothing => Ok(State(next, s.objects[s.robot := Nothing][next := Robot]))
      case Box =>
        var free :- FreeFrom(s.objects, Next(m, next), m);
        if free.None? then Ok(s)
        else
          var pushed := s.objects[free.value := Box][next := Nothing];
          Ok(State(next, pushed[s.robot := Nothing][next := Robot]))
      case Robot => Ok(s)
  }

  function Boxes(objects: map<Coord, Object>): set<Coord>
  {
    set k | k in objects && objects[k] == Box
  }

  function Walls(objects: map<Coord, Object>): set<Coord>
  {
    set k | k in objects && objects[k] == Wall
  }

  /** Walking into a wall changes nothing; walking onto free floor moves the
      robot one step and swaps the two cells, and nothing else changes. */
  lemma MovedWallOrFloor(s: State, m: Movement)
    requires Valid(s)
    ensures var next := Next(m, s.robot);
      next in s.objects && s.objects[next] == Wall ==> Moved(s, m) == Ok(s)
    ensures var next := Next(m, s.robot);
      next in s.objects && s.objects[next] == Nothing ==>
        Moved(s, m).Ok? && Moved(s, m).value.robot == next
        && Moved(s, m).value.objects[s.robot] == Nothing && Moved(s, m).value.objects[next] == Robot
        && forall k :: k in s.objects && k != s.robot && k != next ==> Moved(s, m).value.objects[k] == s.objects[k]
  {
  }

  /** What a move keeps: the robot stands where the map says, the cells of
      the map, its walls and its number of boxes. */
  predicate Keeps(s: State, t: State)
  {
    Valid(t) && t.objects.Keys == s.objects.Keys && Walls(t.objects) == Walls(s.objects)
    && |Boxes(t.objects)| == |Boxes(s.objects)|
  }

  /** Stepping onto free floor keeps all of it. */
  lemma FloorKeeps(s: State, next: Coord)
    requires Valid(s) && next in s.objects && s.objects[next] == Nothing
    ensures Keeps(s, State(next, s.objects[s.robot := Nothing][next := Robot]))
  {
    var t := s.objects[s.robot := Nothing][next := Robot];
    assert Boxes(t) == Boxes(s.objects);
    assert Walls(t) == Walls(s.objects);
  }

  /** A push moves the box next to the robot to the free cell behind the
      row, so the number of boxes stays. */
  lemma PushKeeps(s: State, next: Coord, p: Coord)
    requires Valid(s) && next in s.objects && s.objects[next] == Box
    requires p in s.objects && s.objects[p] == Nothing
    ensures Keeps(s, State(next, s.objects[p := Box][next := Nothing][s.robot := Nothing][next := Robot]))
  {
    var t := s.objects[p := Box][next := Nothing][s.robot := Nothing][next := Robot];
    assert Boxes(t) == Boxes(s.objects) - {next} + {p};
    assert Walls(t) == Walls(s.objects);
  }

  /** Every move keeps the robot where the map says, keeps the map's cells,
      its walls and its number of boxes, and moves the robot by at most one
      step. */
  lemma MovedKeeps(s: State, m: Movement)
    requires Valid(s) && Moved(s, m).Ok?
    ensures Keeps(s, Moved(s, m).value)
    ensures Moved(s, m).value.robot in {s.robot, Next(m, s.robot)}
  {
    var next := Next(m, s.robot);
    if s.objects[next] == Box {
      var free := FreeFrom(s.objects, Next(m, next), m).value;
      if free.Some? {
        FreeFromFree(s.objects, Next(m, next), m);
        PushKeeps(s, next, free.value);
      }
    } else if s.objects[next] == Nothing {
      FloorKeeps(s, next);
    }
  }

  /** A push leaves the cells between the robot and the free cell holding
      boxes as before: the row of boxes shifts by one, which only takes
      writing its first and its new last cell. */
  lemma PushShiftsRow(s: State, m: Movement)
    requires Valid(s) && Moved(s, m).Ok?
    requires var next := Next(m, s.robot); next in s.objects && s.objects[next] == Box
    requires var f := FreeFrom(s.objects, Next(m, Next(m, s.robot)), m); f.Ok? && f.value.Some?
    ensures var next := Next(m, s.robot);
      var p := FreeFrom(s.objects, Next(m, next), m).value.value;
      var t := Moved(s, m).value;
      t.objects[p] == Box && t.objects[next] == Robot && t.objects[s.robot] == Nothing
      && forall k :: k in s.objects && k != p && k != next && k != s.robot ==> t.objects[k] == s.objects[k]
  {
    var next := Next(m, s.robot);
    FreeFromFree(s.objects, Next(m, next), m);
  }

  /** `sum_of_coordinates` over a set of cells: 100 * y + x for each box. */
  ghost function Gps(objects: map<Coord, Object>, cells: set<Coord>): int
    decreases |cells|
  {
    if cells == {} then 0
    else
      var c := Choose(cells);
      (if c in objects && objects[c] == Box then 100 * c.1 + c.0 else 0) + Gps(objects, cells - {c})
  }

  function Value(objects: map<Coord, Object>, c: Coord): int
  {
    if c in objects && objects[c] == Box then 100 * c.1 + c.0 else 0
  }

  /** The sum does not depend on the order the cells are taken in. */
  lemma {:induction false} GpsRemove(objects: map<Coord, Object>, cells: set<Coord>, c: Coord)
    requires c in cells
    ensures Gps(objects, cells) == Value(objects, c) + Gps(objects, cells - {c})
    decreases |cells|
  {
    var p := Choose(cells);
    if p != c {
      GpsRemove(objects, cells - {p}, c);
      GpsRemove(objects, cells - {c}, p);
      assert cells - {p} - {c} == cells - {c} - {p};
    }
  }

  /** Only boxes count: the sum over all cells is the sum over the boxes. */
  lemma {:induction false} GpsBoxesOnly(objects: map<Coord, Object>, cells: set<Coord>)
    ensures Gps(objects, cells) == Gps(objects, cells * Boxes(objects))
    decreases |cells|
  {
    if cells != {} {
      var c := Choose(cells);
      GpsBoxesOnly(objects, cells - {c});
      assert (cells - {c}) * Boxes(objects) == cells * Boxes(objects) - {c};
      if c in Boxes(objects) {
        GpsRemove(objects, cells * Boxes(objects), c);
      } else {
        assert cells * Boxes(objects) - {c} == cells * Boxes(objects);
      }
    }
  }

  class Map {
    var robotPosition: Coord
    var objects: map<Coord, Object>

    constructor (robotPosition: Coord, objects: map<Coord, Object>)
      ensures this.robotPosition == robotPosition && this.objects == objects
    {
      this.robotPosition := robotPosition;
      this.objects := objects;
    }

    /** The robot position and the objects, as a value. */
    function Current(): State
      reads this
    {
      State(robotPosition, objects)
    }

    /** `find_free_position`: scan from the cell after `start`. */
    method FindFreePosition(start: Coord, m: Movement) returns (r: Result<Option<Coord>>)
      ensures r == FreeFrom(objects, Next(m, start), m)
    {
      var c := Next(m, start);
      while true
        invariant FreeFrom(objects, c, m) == FreeFrom(objects, Next(m, start), m)
        decreases |Ray(objects, c, m)|
      {
        if !InScan(m, c) {
          return Ok(None);
        }
        if c !in objects {
          return Err("missing cell");
        }
        var content := objects[c];
        if content == Wall {
          return Ok(None);
        } else if content == Nothing {
          return Ok(Some(c));
        }
        RayShrinks(objects, c, m);
        c := Next(m, c);
      }
    }

    /** `move_boxes`: move the box at `start` to the free cell behind its
      row, if there is one. */
    method MoveBoxes(start: Coord, m: Movement) returns (r: Result<bool>)
      modifies this
      ensures var f := FreeFrom(old(objects), Next(m, start), m);
        (r.Err? <==> f.Err?)
        && (r.Ok? ==> r.value == f.value.Some?)
        && (f.Ok? && f.value.Some? ==> objects == old(objects)[f.value.value := Box][start := Nothing])
        && (!(f.Ok? && f.value.Some?) ==> objects == old(objects))
      ensures robotPosition == old(robotPosition)
    {
      var p :- FindFreePosition(start, m);
      if p.Some? {
        objects := objects[p.value := Box];
        objects := objects[start := Nothing];
        return Ok(true);
      }
      return Ok(false);
    }

    /** `move_robot`: one move of the robot. */
    method MoveRobot(m: Movement) returns (r: Result<bool>)
      modifies this
      ensures r.Err? <==> Moved(old(Current()), m).Err?
      ensures r.Ok? ==> Current() == Moved(old(Current()), m).value
    {
      var nextCoord := Next(m, robotPosition);
      if nextCoord !in objects {
        return Err("Could not find neighbour for robot");
      }
      var neighbour := objects[nextCoord];
      match neighbour {
        case Wall =>
        case Box =>
          var moved :- MoveBoxes(nextCoord, m);
          if moved {
            objects := objects[robotPosition := Nothing];
            objects := objects[nextCoord := Robot];
            robotPosition := nextCoord;
          }
        case Nothing =>
          objects := objects[robotPosition := Nothing];
          objects := objects[nextCoord := Robot];
          robotPosition := nextCoord;
        case Robot =>
      }
      return Ok(true);
    }

    /** `draw`: finds the largest x and the largest y over the cells, then
      looks up every cell of rows 0 to the largest x and columns 0 to the
      largest y, at (column, row), unwrapping each lookup. Fails where the
      source panics: on an empty map and on a missing cell. */
    method Draw() returns (r: Result<()>)
      ensures r.Ok? <==> Drawable(objects)
    {
      if objects == map[] {
        return Err("empty map");
      }
      var maxX, maxY := LargestCoordinates(objects);
      var row := 0;
      while row <= maxX.0
        invariant Covers(objects, row - 1, maxY.1)
        decreases maxX.0 - row
      {
        var column := 0;
        while column <= maxY.1
          invariant Covers(objects, row - 1, maxY.1)
          invariant forall c :: 0 <= c < column ==> (c, row) in objects
          decreases maxY.1 - column
        {
          if (column, row) !in objects {
            assert !Covers(objects, maxX.0, maxY.1);
            return Err("missing cell");
          }
          column := column + 1;
        }
        row := row + 1;
      }
      return Ok(());
    }

    /** `sum_of_coordinates`: 100 * y + x summed over the boxes. */
    method SumOfCoordinates() returns (total: int)
      ensures total == Gps(objects, Boxes(objects))
    {
      total := 0;
      var rest := objects.Keys;
      while rest != {}
        invariant rest <= objects.Keys
        invariant total + Gps(objects, rest) == Gps(objects, objects.Keys)
        decreases |rest|
      {
        var c :| c in rest;
        GpsRemove(objects, rest, c);
        if objects[c] == Box {
          total := total + 100 * c.1 + c.0;
        }
        rest := rest - {c};
      }
      GpsBoxesOnly(objects, objects.Keys);
      assert objects.Keys * Boxes(objects) == Boxes(objects);
    }
  }

  /** Every cell (column, row) with row from 0 to `rows` and column from 0
      to `columns` is on the map. */
  predicate Covers(objects: map<Coord, Object>, rows: int, columns: int)
  {
    forall row, column :: 0 <= row <= rows && 0 <= column <= columns ==> (column, row) in objects
  }

  /** `Map::draw` finishes: the map has a cell, and every cell it looks up
      is present. Its rows run up to the largest x of any cell and its
      columns up to the largest y, so for any two cells `a` and `b` the
      lookups cover rows up to a.0 and columns up to b.1. */
  predicate Drawable(objects: map<Coord, Object>)
  {
    objects != map[] && forall a, b :: a in objects && b in objects ==> Covers(objects, a.0, b.1)
  }

  /** The cells with the largest x and with the largest y. */
  method LargestCoordinates(objects: map<Coord, Object>) returns (maxX: Coord, maxY: Coord)
    requires objects != map[]
    ensures maxX in objects && maxY in objects
    ensures forall c :: c in objects ==> c.0 <= maxX.0 && c.1 <= maxY.1
  {
    var rest := objects.Keys;
    maxX :| maxX in rest;
    maxY := maxX;
    while rest != {}
      invariant rest <= objects.Keys && maxX in objects && maxY in objects
      invariant forall c :: c in objects && c !in rest ==> c.0 <= maxX.0 && c.1 <= maxY.1
      decreases |rest|
    {
      var c :| c in rest;
      if c.0 > maxX.0 {
        maxX := c;
      }
      if c.1 > maxY.1 {
        maxY := c;
      }
      rest := rest - {c};
    }
  }

  /** The cells of a full `width` by `height` grid. */
  ghost predicate Full(objects: map<Coord, Object>, width: int, height: int)
  {
    forall c :: c in objects <==> 0 <= c.0 < width && 0 <= c.1 < height
  }

  /** A full grid can be drawn exactly when it is square, because `draw`
      swaps its bounds: a map of `width` columns and `height` rows is
      looked up over `height` columns and `width` rows. */
  lemma FullDrawableIffSquare(objects: map<Coord, Object>, width: int, height: int)
    requires Full(objects, width, height) && width > 0 && height > 0
    ensures Drawable(objects) <==> width == height
  {
    var corner := (width - 1, height - 1);
    assert corner in objects;
    if width == height {
      forall a, b | a in objects && b in objects
        ensures Covers(objects, a.0, b.1)
      {
      }
    } else if width < height {
      assert !Covers(objects, corner.0, corner.1) by {
        assert (height - 1, 0) !in objects;
      }
    } else {
      assert !Covers(objects, corner.0, corner.1) by {
        assert (0, width - 1) !in objects;
      }
    }
  }

  /** The moves one after the other, stopping at the first failure. */
  function MovedAll(s: State, moves: seq<Movement>): Result<State>
    decreases |moves|
  {
    if moves == [] then Ok(s)
    else
      var t :- Moved(s, moves[0]);
      MovedAll(t, moves[1..])
  }

  /** Any number of moves keeps the robot on the map and the walls and the
      number of boxes as they were. */
  lemma {:induction false} MovedAllKeeps(s: State, moves: seq<Movement>)
    requires Valid(s) && MovedAll(s, moves).Ok?
    ensures Keeps(s, MovedAll(s, moves).value)
    decreases |moves|
  {
    if moves != [] {
      MovedKeeps(s, moves[0]);
      MovedAllKeeps(Moved(s, moves[0]).value, moves[1..]);
    }
  }

  /** The cells of the map block with their objects. */
  function ObjectsOf(lines: seq<string>): (r: map<Coord, Object>)
    ensures forall c :: c in r <==> 0 <= c.1 < |lines| && 0 <= c.0 < |lines[c.1]| && ObjectOf(lines[c.1][c.0]).Some?
  {
    map c | c in Cells(lines) :: ObjectOf(lines[c.1][c.0]).value
  }

  function Cells(lines: seq<string>): (r: set<Coord>)
    ensures forall c :: c in r <==> 0 <= c.1 < |lines| && 0 <= c.0 < |lines[c.1]| && ObjectOf(lines[c.1][c.0]).Some?
  {
    set y, x | 0 <= y < |lines| && 0 <= x < |lines[y]| && ObjectOf(lines[y][x]).Some? :: (x, y)
  }

  /** `b` comes after `a` reading row by row. */
  predicate Later(a: Coord, b: Coord)
  {
    b.1 > a.1 || (b.1 == a.1 && b.0 > a.0)
  }

  predicate IsRobotCell(lines: seq<string>, c: Coord)
  {
    0 <= c.1 < |lines| && 0 <= c.0 < |lines[c.1]| && lines[c.1][c.0] == '@'
  }

  /** Cell `c` is read before row `row`, column `column`. */
  predicate Seen(c: Coord, row: int, column: int)
  {
    c.1 < row || (c.1 == row && c.0 < column)
  }

  /** What `Map::from` knows after reading up to row `row`, column
      `column`. */
  ghost predicate ReadUpTo(lines: seq<string>, row: int, column: int, objects: map<Coord, Object>, robot: Coord, found: bool)
  {
    (forall c :: c in objects <==> Seen(c, row, column) && c in Cells(lines))
    && (forall c :: c in objects ==> objects[c] == ObjectOf(lines[c.1][c.0]).value)
    && (found <==> exists c: Coord :: Seen(c, row, column) && IsRobotCell(lines, c))
    && (found ==> IsRobotCell(lines, robot) && Seen(robot, row, column))
    && (found ==> forall c :: IsRobotCell(lines, c) && Seen(c, row, column) && c != robot ==> Later(c, robot))
    && (!found ==> robot == (0, 0))
  }

  /** Reading one more character. */
  lemma ReadStep(lines: seq<string>, row: nat, column: nat, objects: map<Coord, Object>, robot: Coord, found: bool)
    requires row < |lines| && column < |lines[row]|
    requires ReadUpTo(lines, row, column, objects, robot, found)
    ensures var parsed := ObjectOf(lines[row][column]);
      var objects' := if parsed.Some? then objects[(column, row) := parsed.value] else objects;
      var isRobot := parsed == Some(Robot);
      ReadUpTo(lines, row, column + 1, objects', if isRobot then (column, row) else robot, found || isRobot)
  {
    var here: Coord := (column, row);
    assert forall c: Coord :: Seen(c, row, column + 1) <==> Seen(c, row, column) || c == here;
    if lines[row][column] == '@' {
      assert IsRobotCell(lines, here);
      forall c | IsRobotCell(lines, c) && Seen(c, row, column + 1) && c != here
        ensures Later(c, here)
      {
      }
    }
  }

  /** Reading past the end of a row. */
  lemma ReadRowEnd(lines: seq<string>, row: nat, objects: map<Coord, Object>, robot: Coord, found: bool)
    requires row < |lines|
    requires ReadUpTo(lines, row, |lines[row]|, objects, robot, found)
    ensures ReadUpTo(lines, row + 1, 0, objects, robot, found)
  {
    forall c: Coord | IsRobotCell(lines, c) || c in Cells(lines)
      ensures Seen(c, row + 1, 0) <==> Seen(c, row, |lines[row]|)
    {
    }
  }

  /** Where the robot stands after reading the first `n` characters of row
      `row`, starting from `start`: at the last '@' among them, or at `start`. */
  function RobotInRow(line: string, row: nat, n: nat, start: Coord): Coord
    requires n <= |line|
  {
    if n == 0 then start
    else if ObjectOf(line[n - 1]) == Some(Robot) then (n - 1, row)
    else RobotInRow(line, row, n - 1, start)
  }

  /** Where the robot stands after reading the first `rows` rows. */
  function RobotBefore(lines: seq<string>, rows: nat): Coord
    requires rows <= |lines|
  {
    if rows == 0 then (0, 0)
    else RobotInRow(lines[rows - 1], rows - 1, |lines[rows - 1]|, RobotBefore(lines, rows - 1))
  }

  /** The robot position `Map::from` ends with. */
  function RobotOf(lines: seq<string>): Coord
  {
    RobotBefore(lines, |lines|)
  }

  /** One row of `Map::from`. */
  method ParseRow(lines: seq<string>, row: nat, objects: map<Coord, Object>, robot: Coord, ghost found: bool)
      returns (objects': map<Coord, Object>, robot': Coord, ghost found': bool)
    requires row < |lines|
    requires ReadUpTo(lines, row, 0, objects, robot, found) && robot == RobotBefore(lines, row)
    ensures ReadUpTo(lines, row + 1, 0, objects', robot', found') && robot' == RobotBefore(lines, row + 1)
  {
    objects', robot', found' := objects, robot, found;
    var line := lines[row];
    for column := 0 to |line|
      invariant ReadUpTo(lines, row, column, objects', robot', found')
      invariant robot' == RobotInRow(line, row, column, RobotBefore(lines, row))
    {
      ReadStep(lines, row, column, objects', robot', found');
      var coordinate := (column, row);
      var parsed := ObjectOf(line[column]);
      if parsed.Some? {
        if parsed.value == Robot {
          robot' := coordinate;
          found' := true;
        }
        objects' := objects'[coordinate := parsed.value];
      }
    }
    ReadRowEnd(lines, row, objects', robot', found');
  }

  /** `Map::from`: the objects of the map block, and the robot at the last
      '@' read (or at (0, 0) when there is none). */
  method ParseMap(lines: seq<string>) returns (robot: Coord, objects: map<Coord, Object>)
    ensures objects == ObjectsOf(lines)
    ensures robot == RobotOf(lines)
    ensures (exists c :: IsRobotCell(lines, c)) ==>
      IsRobotCell(lines, robot) && forall c :: IsRobotCell(lines, c) && c != robot ==> Later(c, robot)
    ensures (forall c :: !IsRobotCell(lines, c)) ==> robot == (0, 0)
  {
    objects := map[];
    robot := (0, 0);
    ghost var found := false;
    for row := 0 to |lines|
      invariant ReadUpTo(lines, row, 0, objects, robot, found)
      invariant robot == RobotBefore(lines, row)
    {
      objects, robot, found := ParseRow(lines, row, objects, robot, found);
    }
    assert forall c: Coord :: IsRobotCell(lines, c) ==> Seen(c, |lines|, 0);
    assert objects == ObjectsOf(lines);
  }

  /** The moves of the movement block, all lines read as one. */
  function MovesOf(lines: seq<string>): (r: Result<seq<Movement>>)
    ensures r.Ok? <==> forall y, x :: 0 <= y < |lines| && 0 <= x < |lines[y]| ==> lines[y][x] in "^v<>"
  {
    if lines == [] then Ok([])
    else
      var first :- MovesOfLine(lines[0]);
      var rest :- MovesOf(lines[1..]);
      assert forall y :: 1 <= y < |lines| ==> lines[y] == lines[1..][y - 1];
      Ok(first + rest)
  }

  function MovesOfLine(line: string): (r: Result<seq<Movement>>)
    ensures r.Ok? <==> forall x :: 0 <= x < |line| ==> line[x] in "^v<>"
    ensures r.Ok? ==> |r.value| == |line| && forall x :: 0 <= x < |line| ==> MovementOf(line[x]) == Ok(r.value[x])
  {
    if line == [] then Ok([])
    else
      var first :- MovementOf(line[0]);
      var rest :- MovesOfLine(line[1..]);
      assert forall x :: 1 <= x < |line| ==> line[x] == line[1..][x - 1];
      Ok([first] + rest)
  }

  /** The index of the first empty line, if any. */
  function FirstEmpty(lines: seq<string>): (r: Option<nat>)
    ensures r.Some? ==> r.value < |lines| && lines[r.value] == [] && forall i :: 0 <= i < r.value ==> lines[i] != []
    ensures r.None? ==> forall i :: 0 <= i < |lines| ==> lines[i] != []
  {
    if lines == [] then None
    else if lines[0] == [] then Some(0)
    else
      match FirstEmpty(lines[1..])
      case None => None
      case Some(i) => Some(i + 1)
  }

  /** The warehouse after all moves: the map block parsed as `Map::from`
      does, then every move of the movement block. Fails without an empty
      line, on an unknown move symbol, on a map `draw` cannot finish, or
      when the robot has no neighbour. */
  function Outcome(lines: seq<string>): Result<State>
  {
    if FirstEmpty(lines).None? then Err("no movement block")
    else
      var blocks := Blocks(lines);
      var moves :- MovesOf(blocks.1);
      if !Drawable(ObjectsOf(blocks.0)) then Err("map cannot be drawn")
      else MovedAll(State(RobotOf(blocks.0), ObjectsOf(blocks.0)), moves)
  }

  /** `process`: the map block and the movement block, separated by the
      first empty line; the moves one after another; then the sum over the
      boxes. */
  method Process(lines: seq<string>) returns (r: Result<int>)
    ensures FirstEmpty(lines).None? ==> r.Err?
    ensures FirstEmpty(lines).Some? && !Drawable(ObjectsOf(Blocks(lines).0)) ==> r.Err?
    ensures r.Ok? <==> Outcome(lines).Ok?
    ensures r.Ok? ==> r.value == Gps(Outcome(lines).value.objects, Boxes(Outcome(lines).value.objects))
  {
    var split := FirstEmpty(lines);
    if split.None? {
      return Err("no movement block");
    }
    var blocks := Blocks(lines);
    var robot, objects := ParseMap(blocks.0);
    var moves :- MovesOf(blocks.1);
    var warehouse := new Map(robot, objects);
    var drawn :- warehouse.Draw();
    ghost var s := warehouse.Current();
    for i := 0 to |moves|
      invariant MovedAll(s, moves) == MovedAll(warehouse.Current(), moves[i..])
    {
      assert moves[i..][1..] == moves[i + 1..];
      var ok :- warehouse.MoveRobot(moves[i]);
    }
    assert MovedAll(s, moves) == Ok(warehouse.Current());
    var total := warehouse.SumOfCoordinates();
    return Ok(total);
  }

  /** The map block and the movement block: the lines before the first
      empty line, and those after it up to the next empty line. */
  function Blocks(lines: seq<string>): (seq<string>, seq<string>)
    requires FirstEmpty(lines).Some?
  {
    var i := FirstEmpty(lines).value;
    var after := lines[i + 1..];
    match FirstEmpty(after)
    case None => (lines[..i], after)
    case Some(j) => (lines[..i], after[..j])
  }
}

=== FILE: day16_maze.dfy ===
/** Day 16, puzzle 1: a reindeer walks through a maze from S to E; a step
    costs 1 and each quarter turn 1000. The search keeps (cell, facing)
    states in a priority queue and reports the score of the first state
    popped at E. */
module Day16Maze {
  import opened Wrappers
  import opened Sets

  type Coord = (int, int)

  datatype Direction = North | South | East | West

  /** `new_direction`: the direction of the step from `from` to `to`. */
  function NewDirection(from: Coord, to: Coord): (d: Direction)
    ensures Adjacent(from, to) ==> Step(from, d) == to
  {
    var xChange := to.0 - from.0;
    var yChange := to.1 - from.1;
    if xChange < 0 then West
    else if xChange > 0 then East
    else if yChange < 0 then North
    else South
  }

  /** One step in the direction. */
  function Step(c: Coord, d: Direction): Coord
  {
    match d
    case North => (c.0, c.1 - 1)
    case South => (c.0, c.1 + 1)
    case East => (c.0 + 1, c.1)
    case West => (c.0 - 1, c.1)
  }

  predicate Adjacent(p: Coord, q: Coord)
  {
    q in {(p.0 - 1, p.1), (p.0 + 1, p.1), (p.0, p.1 - 1), (p.0, p.1 + 1)}
  }

  function Opposite(d: Direction): Direction
  {
    match d
    case North => South
    case South => North
    case East => West
    case West => East
  }

  /** The quarter turns from one facing to another. */
  function Turns(from: Direction, to: Direction): nat
  {
    if from == to then 0 else if Opposite(from) == to then 2 else 1
  }

  /** The cost table of `distance`. */
  function Cost(facing: Direction, to: Direction): int
  {
    match facing
    case North => (match to case North => 1 case West => 1001 case East => 1001 case South => 2001)
    case South => (match to case North => 2001 case West => 1001 case East => 1001 case South => 1)
    case East => (match to case North => 1001 case West => 2001 case East => 1 case South => 1001)
    case West => (match to case North => 1001 case West => 1 case East => 2001 case South => 1001)
  }

  /** A step costs 1 and each quarter turn before it 1000. */
  lemma CostCountsTurns(facing: Direction, to: Direction)
    ensures Cost(facing, to) == 1 + 1000 * Turns(facing, to)
  {
  }

  /** `distance`: the cost of the step and the new facing. */
  function Distance(from: Coord, to: Coord, facing: Direction): (r: (Direction, int))
    ensures r.0 == NewDirection(from, to)
    ensures r.1 == 1 + 1000 * Turns(facing, r.0)
  {
    var d := NewDirection(from, to);
    CostCountsTurns(facing, d);
    (d, Cost(facing, d))
  }

  /** The floor cells: everything but '#'. */
  function Points(lines: seq<string>): (r: set<Coord>)
    ensures forall c :: c in r <==> 0 <= c.1 < |lines| && 0 <= c.0 < |lines[c.1]| && lines[c.1][c.0] != '#'
  {
    set y, x | 0 <= y < |lines| && 0 <= x < |lines[y]| && lines[y][x] != '#' :: (x, y)
  }

  /** The neighbour list of `Map::from`: the four candidates that are floor,
      in the order left, right, up, down. */
  function NeighboursOf(points: set<Coord>, p: Coord): (r: seq<Coord>)
    ensures |r| <= 4
    ensures forall q :: q in r <==> q in points && Adjacent(p, q)
  {
    var candidates := [(p.0 - 1, p.1), (p.0 + 1, p.1), (p.0, p.1 - 1), (p.0, p.1 + 1)];
    Present(points, candidates)
  }

  function Present(points: set<Coord>, candidates: seq<Coord>): (r: seq<Coord>)
    ensures |r| <= |candidates|
    ensures forall q :: q in r <==> q in points && q in candidates
  {
    if candidates == [] then []
    else
      var rest := Present(points, candidates[1..]);
      if candidates[0] in points then [candidates[0]] + rest else rest
  }

  /** The graph of `Map::from`. */
  function Graph(points: set<Coord>): map<Coord, seq<Coord>>
  {
    map p | p in points :: NeighboursOf(points, p)
  }

  /** The graph joins exactly the adjacent floor cells, so its edges go
      both ways. */
  lemma GraphSymmetric(points: set<Coord>, p: Coord, q: Coord)
    requires p in points && q in points
    ensures q in Graph(points)[p] <==> p in Graph(points)[q]
    ensures q in Graph(points)[p] <==> Adjacent(p, q)
  {
  }

  /** The last column holding `ch` in a line. */
  function LastInRow(line: string, ch: char): (r: Option<nat>)
    ensures r.Some? ==> r.value < |line| && line[r.value] == ch && forall x :: r.value < x < |line| ==> line[x] != ch
    ensures r.None? <==> ch !in line
  {
    if line == [] then None
    else if line[|line| - 1] == ch then Some(|line| - 1)
    else LastInRow(line[..|line| - 1], ch)
  }

  /** The last cell holding `ch`, reading row by row. */
  function LastIn(lines: seq<string>, ch: char): (r: Option<Coord>)
    ensures r.Some? ==> 0 <= r.value.1 < |lines| && 0 <= r.value.0 < |lines[r.value.1]| && lines[r.value.1][r.value.0] == ch
    ensures r.Some? ==> forall y :: r.value.1 < y < |lines| ==> ch !in lines[y]
    ensures r.None? <==> forall y :: 0 <= y < |lines| ==> ch !in lines[y]
  {
    if lines == [] then None
    else
      var n := |lines| - 1;
      match LastInRow(lines[n], ch)
      case Some(x) => Some((x, n))
      case None => LastIn(lines[..n], ch)
  }

  /** Where `Map::from` leaves `start` or `end`: at the last cell with the
      letter, or at (0, 0). */
  function Position(lines: seq<string>, ch: char): Coord
  {
    match LastIn(lines, ch)
    case Some(c) => c
    case None => (0, 0)
  }

  /** The floor cells of one row, up to a column. */
  function RowPoints(line: string, row: int, n: nat): set<Coord>
    requires n <= |line|
  {
    set x | 0 <= x < n && line[x] != '#' :: (x, row)
  }

  /** The marker after reading a row: its last place in the row, else where
      it was before. */
  function After(line: string, row: int, ch: char, before: Coord): Coord
  {
    match LastInRow(line, ch)
    case Some(x) => (x, row)
    case None => before
  }

  /** Reading one more row. */
  lemma ReadRow(lines: seq<string>, row: nat)
    requires row < |lines|
    ensures Points(lines[..row + 1]) == Points(lines[..row]) + RowPoints(lines[row], row, |lines[row]|)
    ensures forall ch :: Position(lines[..row + 1], ch) == After(lines[row], row, ch, Position(lines[..row], ch))
  {
    assert lines[..row + 1][..row] == lines[..row];
  }

  /** `Map::from`, one row of the scan. */
  method ScanRow(line: string, row: int, points: set<Coord>, start: Coord, end: Coord)
    returns (points': set<Coord>, start': Coord, end': Coord)
    ensures points' == points + RowPoints(line, row, |line|)
    ensures start' == After(line, row, 'S', start) && end' == After(line, row, 'E', end)
  {
    points', start', end' := points, start, end;
    for column := 0 to |line|
      invariant points' == points + RowPoints(line, row, column)
      invariant start' == After(line[..column], row, 'S', start) && end' == After(line[..column], row, 'E', end)
    {
      assert line[..column + 1][..column] == line[..column];
      var c := line[column];
      if c != '#' {
        points' := points' + {(column, row)};
      }
      if c == 'S' {
        start' := (column, row);
      } else if c == 'E' {
        end' := (column, row);
      }
    }
    assert line[..|line|] == line;
  }

  /** `Map::from`, first part: the floor cells and the two markers. */
  method ReadPoints(lines: seq<string>) returns (points: set<Coord>, start: Coord, end: Coord)
    ensures points == Points(lines)
    ensures start == Position(lines, 'S') && end == Position(lines, 'E')
  {
    points := {};
    start := (0, 0);
    end := (0, 0);
    for row := 0 to |lines|
      invariant points == Points(lines[..row])
      invariant start == Position(lines[..row], 'S') && end == Position(lines[..row], 'E')
    {
      ReadRow(lines, row);
      points, start, end := ScanRow(lines[row], row, points, start, end);
    }
    assert lines[..|lines|] == lines;
  }

  /** `Map::from`, second part: each floor cell with its neighbour list. */
  method BuildEdges(points: set<Coord>) returns (edges: map<Coord, seq<Coord>>)
    ensures edges == Graph(points)
  {
    edges := map[];
    var rest := points;
    while rest != {}
      invariant rest <= points
      invariant edges == map p | p in points - rest :: NeighboursOf(points, p)
      decreases |rest|
    {
      var p :| p in rest;
      edges := edges[p := NeighboursOf(points, p)];
      rest := rest - {p};
    }
  }

  /** The maze as a graph with its start and end. */
  datatype Maze = Maze(edges: map<Coord, seq<Coord>>, start: Coord, end: Coord)

  /** `Map::from`. */
  method ParseMaze(lines: seq<string>) returns (m: Maze)
    ensures m.edges == Graph(Points(lines))
    ensures m.start == Position(lines, 'S') && m.end == Position(lines, 'E')
  {
    var points, start, end := ReadPoints(lines);
    var edges := BuildEdges(points);
    return Maze(edges, start, end);
  }

  /** A search state: a cell and the facing after reaching it. */
  datatype State = State(point: Coord, facing: Direction)

  /** A walk through the graph from its first cell. */
  predicate IsWalk(edges: map<Coord, seq<Coord>>, walk: seq<Coord>)
  {
    |walk| >= 1 && forall i :: 0 < i < |walk| ==> Linked(edges, walk, i)
  }

  /** The step into cell `i` follows an edge. */
  predicate Linked(edges: map<Coord, seq<Coord>>, walk: seq<Coord>, i: int)
    requires 0 < i < |walk|
  {
    walk[i - 1] in edges && walk[i] in edges[walk[i - 1]]
  }

  /** A walk from the start to the state, with the given score. */
  predicate WalkTo(m: Maze, walk: seq<Coord>, s: State, score: int)
  {
    IsWalk(m.edges, walk) && walk[0] == m.start && walk[|walk| - 1] == s.point && Score(walk) == (s.facing, score)
  }

  /** The facing and the score at the end of a walk that starts facing
      East. */
  function Score(walk: seq<Coord>): (r: (Direction, int))
    requires |walk| >= 1
  {
    if |walk| == 1 then (East, 0)
    else
      var before := Score(walk[..|walk| - 1]);
      var step := Distance(walk[|walk| - 2], walk[|walk| - 1], before.0);
      (step.0, before.1 + step.1)
  }

  /** Every cell a search state can hold: the start and the neighbours
      the graph lists, in each facing. */
  function AllStates(m: Maze): set<State>
  {
    var cells := {m.start} + set p, q | p in m.edges && q in m.edges[p] :: q;
    (set p | p in cells :: State(p, North)) + (set p | p in cells :: State(p, South))
    + (set p | p in cells :: State(p, East)) + (set p | p in cells :: State(p, West))
  }

  /** The queue holds states of the maze, each with the score of a walk
      from the start that leads to it. */
  ghost predicate Witnessed(m: Maze, pq: map<State, int>, walks: map<State, seq<Coord>>)
  {
    pq.Keys <= walks.Keys && pq.Keys <= AllStates(m)
    && forall s :: s in pq ==> WalkTo(m, walks[s], s, pq[s])
  }

  /** A finite, non-empty queue has an entry of least score. */
  lemma LeastEntry(pq: map<State, int>, w: State)
    requires w in pq
    ensures exists s :: s in pq && forall o :: o in pq ==> pq[s] <= pq[o]
    decreases |pq.Keys|
  {
    if exists o :: o in pq && pq[o] < pq[w] {
      var o :| o in pq && pq[o] < pq[w];
      var below := map k | k in pq && pq[k] < pq[w] :: pq[k];
      assert below.Keys <= pq.Keys - {w};
      SubsetCard(below.Keys, pq.Keys - {w});
      LeastEntry(below, o);
      var s :| s in below && forall k :: k in below ==> below[s] <= below[k];
      assert forall k :: k in pq ==> pq[s] <= pq[k] by {
        forall k | k in pq
          ensures pq[s] <= pq[k]
        {
          if pq[k] < pq[w] {
            assert k in below;
          }
        }
      }
    }
  }

  /** The queue's `pop`: an entry of least score, taken out. */
  method Pop(pq: map<State, int>) returns (s: State, value: int, rest: map<State, int>)
    requires pq != map[]
    ensures s in pq && value == pq[s] && rest == pq - {s}
    ensures forall o :: o in pq ==> value <= pq[o]
    ensures rest.Keys == pq.Keys - {s} && |rest.Keys| < |pq.Keys|
  {
    var w :| w in pq;
    LeastEntry(pq, w);
    s :| s in pq && forall o :: o in pq ==> pq[s] <= pq[o];
    value := pq[s];
    rest := pq - {s};
  }

  /** Extending a walk by one edge turns to the step's direction and adds
      its cost. */
  lemma ScoreStep(walk: seq<Coord>, n: Coord)
    requires |walk| >= 1
    ensures Score(walk + [n]).0 == NewDirection(walk[|walk| - 1], n)
    ensures Score(walk + [n]).1 == Score(walk).1 + Cost(Score(walk).0, NewDirection(walk[|walk| - 1], n))
  {
    assert (walk + [n])[..|walk|] == walk;
  }

  /** A walk followed by an edge out of its last cell is a walk. */
  lemma WalkExtend(edges: map<Coord, seq<Coord>>, walk: seq<Coord>, n: Coord)
    requires IsWalk(edges, walk) && walk[|walk| - 1] in edges && n in edges[walk[|walk| - 1]]
    ensures IsWalk(edges, walk + [n]) && (walk + [n])[0] == walk[0]
  {
    var w := walk + [n];
    forall i | 0 < i < |w|
      ensures Linked(edges, w, i)
    {
      if i < |walk| {
        assert Linked(edges, walk, i);
      }
    }
  }

  /** Every cell a neighbour list names has a neighbour list of its own. */
  predicate Closed(edges: map<Coord, seq<Coord>>)
  {
    forall p, i :: p in edges && 0 <= i < |edges[p]| ==> edges[p][i] in edges
  }

  /** The graph of `Map::from` is closed: neighbours are floor cells. */
  lemma GraphClosed(points: set<Coord>)
    ensures Closed(Graph(points))
  {
    forall p, i | p in Graph(points) && 0 <= i < |Graph(points)[p]|
      ensures Graph(points)[p][i] in Graph(points)
    {
      assert Graph(points)[p][i] in NeighboursOf(points, p);
    }
  }

  /** Some walk leads from the start to the end. */
  ghost predicate Reachable(m: Maze)
  {
    exists walk :: IsWalk(m.edges, walk) && walk[0] == m.start && walk[|walk| - 1] == m.end
  }

  /** One search step: along an edge, turning to face the way it goes. */
  predicate Succ(m: Maze, a: State, b: State)
  {
    a.point in m.edges && b.point in m.edges[a.point] && b.facing == NewDirection(a.point, b.point)
  }

  /** The state a walk is in at its `j`-th cell. */
  function StateAt(walk: seq<Coord>, j: int): State
    requires 0 <= j < |walk|
  {
    State(walk[j], Score(walk[..j + 1]).0)
  }

  /** Consecutive cells of a walk are consecutive search states. */
  lemma WalkStep(m: Maze, walk: seq<Coord>, j: int)
    requires IsWalk(m.edges, walk) && 0 <= j < |walk| - 1
    ensures Succ(m, StateAt(walk, j), StateAt(walk, j + 1))
  {
    assert Linked(m.edges, walk, j + 1);
    ScoreStep(walk[..j + 1], walk[j + 1]);
    assert walk[..j + 1] + [walk[j + 1]] == walk[..j + 2];
  }

  /** A set of states that holds the start state and every step out of its
      members holds every state of every walk from the start. */
  lemma {:induction false} ClosedSeen(m: Maze, seen: set<State>, walk: seq<Coord>, j: int)
    requires State(m.start, East) in seen
    requires forall a, b :: a in seen && Succ(m, a, b) ==> b in seen
    requires IsWalk(m.edges, walk) && walk[0] == m.start && 0 <= j < |walk|
    ensures StateAt(walk, j) in seen
    decreases j
  {
    if j == 0 {
      assert walk[..1] == [m.start];
    } else {
      ClosedSeen(m, seen, walk, j - 1);
      WalkStep(m, walk, j - 1);
    }
  }

  /** A queued cell without a neighbour list, in a closed graph, can only be
      the start; when that is not the end, no walk leaves it. */
  lemma StuckUnreachable(m: Maze, s: State)
    requires Closed(m.edges) && s in AllStates(m) && s.point !in m.edges && s.point != m.end
    ensures s.point == m.start && !Reachable(m)
  {
    forall walk | IsWalk(m.edges, walk) && walk[0] == m.start
      ensures walk[|walk| - 1] != m.end
    {
      assert |walk| > 1 ==> Linked(m.edges, walk, 1);
    }
  }

  /** What the search knows about the states it has expanded: none is at
      the end, the start state is expanded or queued, and every step out of
      an expanded state leads to one that is expanded or queued. */
  ghost predicate Frontier(m: Maze, pq: map<State, int>, seen: set<State>)
  {
    (forall a :: a in seen ==> a.point != m.end)
    && (State(m.start, East) in seen || State(m.start, East) in pq)
    && (forall a, b :: a in seen && Succ(m, a, b) ==> b in seen || b in pq)
  }

  /** Dropping a state popped again changes nothing. */
  lemma FrontierSkip(m: Maze, pq: map<State, int>, seen: set<State>, s: State)
    requires Frontier(m, pq, seen) && s in seen
    ensures Frontier(m, pq - {s}, seen)
  {
  }

  /** Expanding a popped state: it joins the expanded states, and the
      queue keeps its other entries and gains every step out of it. */
  lemma FrontierExpand(m: Maze, pq: map<State, int>, seen: set<State>, s: State, pq': map<State, int>)
    requires Frontier(m, pq, seen) && s.point != m.end && s.point in m.edges
    requires (pq - {s}).Keys <= pq'.Keys
    requires forall i :: 0 <= i < |m.edges[s.point]| ==> State(m.edges[s.point][i], NewDirection(s.point, m.edges[s.point][i])) in pq'
    ensures Frontier(m, pq', seen + {s})
  {
    forall a, b | a in seen + {s} && Succ(m, a, b)
      ensures b in seen + {s} || b in pq'
    {
      if a == s {
        var i :| 0 <= i < |m.edges[s.point]| && m.edges[s.point][i] == b.point;
      }
    }
  }

  /** An empty queue: no walk leads from the start to the end. */
  lemma FrontierEmpty(m: Maze, seen: set<State>)
    requires Frontier(m, map[], seen)
    ensures !Reachable(m)
  {
    forall walk | IsWalk(m.edges, walk) && walk[0] == m.start
      ensures walk[|walk| - 1] != m.end
    {
      ClosedSeen(m, seen, walk, |walk| - 1);
    }
  }

  /** Queuing one neighbour with the score of the step, witnessed by the
      walk extended by that neighbour. */
  lemma PushWitnessed(m: Maze, pq: map<State, int>, walks: map<State, seq<Coord>>,
                      p: Coord, facing: Direction, value: int, walk: seq<Coord>, n: Coord)
    requires p in m.edges && n in m.edges[p] && Witnessed(m, pq, walks)
    requires WalkTo(m, walk, State(p, facing), value)
    ensures var next := State(n, NewDirection(p, n));
      Witnessed(m, pq[next := value + Cost(facing, next.facing)], walks[next := walk + [n]])
  {
    var next := State(n, NewDirection(p, n));
    ScoreStep(walk, n);
    WalkExtend(m.edges, walk, n);
    assert WalkTo(m, walk + [n], next, value + Cost(facing, next.facing));
    assert next in AllStates(m);
  }

  /** `solve`, one expansion: push every neighbour with the score of the
      step. A state already queued takes the new score (the queue's `push`
      replaces the priority). */
  method Expand(m: Maze, p: Coord, facing: Direction, value: int, pq: map<State, int>,
                ghost walk: seq<Coord>, ghost walks: map<State, seq<Coord>>)
    returns (pq': map<State, int>, ghost walks': map<State, seq<Coord>>)
    requires p in m.edges && Witnessed(m, pq, walks)
    requires WalkTo(m, walk, State(p, facing), value)
    ensures Witnessed(m, pq', walks')
    ensures pq.Keys <= pq'.Keys
    ensures forall i :: 0 <= i < |m.edges[p]| ==> State(m.edges[p][i], NewDirection(p, m.edges[p][i])) in pq'
  {
    pq', walks' := pq, walks;
    var neighbours := m.edges[p];
    for i := 0 to |neighbours|
      invariant Witnessed(m, pq', walks') && pq.Keys <= pq'.Keys
      invariant forall k :: 0 <= k < i ==> State(neighbours[k], NewDirection(p, neighbours[k])) in pq'
    {
      pq', walks' := PushNeighbour(m, p, facing, value, pq', walk, walks', neighbours[i]);
    }
  }

  /** The body of the loop in `solve`'s expansion: queue one neighbour with
      the score `distance` gives the step; the queue gains exactly that
      state and stays witnessed. */
  method PushNeighbour(m: Maze, p: Coord, facing: Direction, value: int, pq: map<State, int>,
                       ghost walk: seq<Coord>, ghost walks: map<State, seq<Coord>>, n: Coord)
    returns (pq': map<State, int>, ghost walks': map<State, seq<Coord>>)
    requires p in m.edges && n in m.edges[p] && Witnessed(m, pq, walks)
    requires WalkTo(m, walk, State(p, facing), value)
    ensures Witnessed(m, pq', walks')
    ensures pq'.Keys == pq.Keys + {State(n, NewDirection(p, n))}
  {
    var step := Distance(p, n, facing);
    CostCountsTurns(facing, step.0);
    var next := State(n, step.0);
    PushWitnessed(m, pq, walks, p, facing, value, walk, n);
    pq' := pq[next := value + step.1];
    walks' := walks[next := walk + [n]];
  }

  /** Everything the search loop keeps: witnessed queue entries, expanded
      states of the maze, a queue holding only the start state when the start
      is the end, and the frontier. */
  ghost predicate Searching(m: Maze, pq: map<State, int>, seen: set<State>, walks: map<State, seq<Coord>>)
  {
    Witnessed(m, pq, walks) && seen <= AllStates(m)
    && (m.start == m.end ==> pq == map[State(m.start, East) := 0])
    && Frontier(m, pq, seen)
  }

  /** The search starts with the start state queued at score 0. */
  lemma SearchStart(m: Maze)
    ensures Searching(m, map[State(m.start, East) := 0], {}, map[State(m.start, East) := [m.start]])
  {
    assert WalkTo(m, [m.start], State(m.start, East), 0);
  }

  /** One round of `solve` on a non-empty queue: pop a state of least
      score; at the end it is the answer, an expanded state is dropped, a
      cell without neighbours fails, any other state is expanded. Either
      more states are expanded or the queue is shorter. */
  method Visit(m: Maze, pq: map<State, int>, seen: set<State>, ghost walks: map<State, seq<Coord>>)
    returns (r: Option<Result<int>>, pq': map<State, int>, seen': set<State>, ghost walks': map<State, seq<Coord>>)
    requires Searching(m, pq, seen, walks) && pq != map[]
    ensures r.None? ==> Searching(m, pq', seen', walks')
    ensures r.None? ==> |AllStates(m) - seen'| < |AllStates(m) - seen|
                        || (|AllStates(m) - seen'| == |AllStates(m) - seen| && |pq'.Keys| < |pq.Keys|)
    ensures r.Some? && r.value.Ok? ==> exists walk :: IsWalk(m.edges, walk) && walk[0] == m.start
                                                   && walk[|walk| - 1] == m.end && Score(walk).1 == r.value.value
    ensures r.Some? && m.start == m.end ==> r.value == Ok(0)
    ensures r.Some? && r.value.Err? ==> !Closed(m.edges) || !Reachable(m)
  {
    var s, value;
    s, value, pq' := Pop(pq);
    seen', walks' := seen, walks;
    ghost var walk := walks[s];
    assert WalkTo(m, walk, s, value);
    if s.point == m.end {
      return Some(Ok(value)), pq', seen', walks';
    }
    if s in seen {
      FrontierSkip(m, pq, seen, s);
      return None, pq', seen', walks';
    }
    assert s in AllStates(m);
    SubsetCard(AllStates(m) - (seen + {s}), AllStates(m) - seen - {s});
    seen' := seen + {s};
    if s.point !in m.edges {
      if Closed(m.edges) {
        StuckUnreachable(m, s);
      }
      return Some(Err("no neighbours for the cell")), pq', seen', walks';
    }
    pq', walks' := Expand(m, s.point, s.facing, value, pq', walk, walks);
    FrontierExpand(m, pq, seen, s, pq');
    r := None;
  }

  /** `solve`: repeatedly pop a state of least score; the first one at the
      end gives the answer, and an empty queue is a failure. A reported
      score is the score of a real walk from the start to the end; in a
      closed graph there is an answer exactly when such a walk exists. */
  method Solve(m: Maze) returns (r: Result<int>)
    ensures r.Ok? ==> exists walk :: IsWalk(m.edges, walk) && walk[0] == m.start
                                  && walk[|walk| - 1] == m.end && Score(walk).1 == r.value
    ensures m.start == m.end ==> r == Ok(0)
    ensures Closed(m.edges) ==> (r.Ok? <==> Reachable(m))
  {
    var pq: map<State, int> := map[State(m.start, East) := 0];
    var seen: set<State> := {};
    ghost var walks: map<State, seq<Coord>> := map[State(m.start, East) := [m.start]];
    SearchStart(m);
    while true
      invariant Searching(m, pq, seen, walks)
      decreases |AllStates(m) - seen|, |pq.Keys|
    {
      if pq == map[] {
        FrontierEmpty(m, seen);
        return Err("no path to the end");
      }
      var done;
      done, pq, seen, walks := Visit(m, pq, seen, walks);
      if done.Some? {
        return done.value;
      }
    }
  }

  /** `process`: parse the maze and search it. */
  method Process(lines: seq<string>) returns (r: Result<int>)
    ensures r.Ok? ==> exists walk :: IsWalk(Graph(Points(lines)), walk) && walk[0] == Position(lines, 'S')
                                  && walk[|walk| - 1] == Position(lines, 'E') && Score(walk).1 == r.value
    ensures r.Ok? <==> exists walk :: IsWalk(Graph(Points(lines)), walk) && walk[0] == Position(lines, 'S')
                                   && walk[|walk| - 1] == Position(lines, 'E')
  {
    var m := ParseMaze(lines);
    GraphClosed(Points(lines));
    r := Solve(m);
  }
}

=== FILE: day17_cpu.dfy ===
/** Day 17, puzzle 1: the 3-bit computer. Three registers, an instruction pointer
    into a program of numbers, and an output buffer. `Tick` runs one instruction;
    `Run` ticks until the pointer leaves the program. */
module Day17Cpu {
  import opened Wrappers
  import opened Bits

  /** `Operation`: the eight instructions with their operand. A combo operand is
      interpreted by `ComboValue`; a literal operand is used as it is. */
  datatype Operation =
    | Adv(combo: nat)
    | Bxl(literal: nat)
    | Bst(combo: nat)
    | Jnz(literal: nat)
    | Bxc
    | Out(combo: nat)
    | Bdv(combo: nat)
    | Cdv(combo: nat)

  /** The opcode that names an operation. */
  function Opcode(op: Operation): nat
  {
    match op
    case Adv(_) => 0
    case Bxl(_) => 1
    case Bst(_) => 2
    case Jnz(_) => 3
    case Bxc => 4
    case Out(_) => 5
    case Bdv(_) => 6
    case Cdv(_) => 7
  }

  /** `Operation::from`: decodes an opcode and its operand; opcodes above 7 are
      refused. */
  function Decode(opcode: nat, operand: nat): (r: Result<Operation>)
    ensures r.Ok? <==> opcode <= 7
    ensures r.Ok? ==> Opcode(r.value) == opcode
    ensures r.Ok? && !r.value.Bxc? ==> (if r.value.Bxl? || r.value.Jnz? then r.value.literal else r.value.combo) == operand
  {
    match opcode
    case 0 => Ok(Adv(operand))
    case 1 => Ok(Bxl(operand))
    case 2 => Ok(Bst(operand))
    case 3 => Ok(Jnz(operand))
    case 4 => Ok(Bxc)
    case 5 => Ok(Out(operand))
    case 6 => Ok(Bdv(operand))
    case 7 => Ok(Cdv(operand))
    case _ => Err("unknown opcode")
  }

  /** The whole machine as a value. */
  datatype CpuState = CpuState(a: nat, b: nat, c: nat, ip: nat, program: seq<nat>, output: seq<nat>)

  /** `translate_combo_operand`: 0 to 3 stand for themselves, 4, 5 and 6 read
      registers A, B and C, and 7 or more is refused. */
  function ComboValue(operand: nat, s: CpuState): (r: Result<nat>)
    ensures r.Ok? <==> operand <= 6
    ensures r.Ok? && operand <= 3 ==> r.value == operand
  {
    match operand
    case 0 => Ok(0)
    case 1 => Ok(1)
    case 2 => Ok(2)
    case 3 => Ok(3)
    case 4 => Ok(s.a)
    case 5 => Ok(s.b)
    case 6 => Ok(s.c)
    case _ => Err("unsupported combo operand")
  }

  predicate UsesCombo(op: Operation)
  {
    op.Adv? || op.Bst? || op.Out? || op.Bdv? || op.Cdv?
  }

  /** `Operation::execute`: the effect of one instruction on the machine. */
  function Effect(op: Operation, s: CpuState): (r: Result<CpuState>)
    // only a combo operand of 7 or more fails
    ensures r.Err? <==> UsesCombo(op) && op.combo > 6
    ensures r.Ok? ==> r.value.program == s.program
  {
    match op
    case Adv(k) =>
      var v :- ComboValue(k, s);
      Ok(s.(a := ShiftRight(s.a, v), ip := s.ip + 2))
    case Bxl(k) =>
      Ok(s.(b := Xor(s.b, k), ip := s.ip + 2))
    case Bst(k) =>
      var v :- ComboValue(k, s);
      Ok(s.(b := v % 8, ip := s.ip + 2))
    case Jnz(k) =>
      Ok(s.(ip := if s.a != 0 then k else s.ip + 2))
    case Bxc =>
      Ok(s.(b := Xor(s.b, s.c), ip := s.ip + 2))
    case Out(k) =>
      var v :- ComboValue(k, s);
      Ok(s.(output := s.output + [v % 8], ip := s.ip + 2))
    case Bdv(k) =>
      var v :- ComboValue(k, s);
      Ok(s.(b := ShiftRight(s.a, v), ip := s.ip + 2))
    case Cdv(k) =>
      var v :- ComboValue(k, s);
      Ok(s.(c := ShiftRight(s.a, v), ip := s.ip + 2))
  }

  /** Every instruction but Jnz moves on by two; Jnz jumps when A is not zero. */
  lemma EffectPointer(op: Operation, s: CpuState)
    requires Effect(op, s).Ok?
    ensures !op.Jnz? ==> Effect(op, s).value.ip == s.ip + 2
    ensures op.Jnz? ==> Effect(op, s).value.ip == if s.a != 0 then op.literal else s.ip + 2
  {
  }

  /** Adv, Bdv and Cdv divide A by the same power of two and differ only in the
      register written; Bxl and Bxc only rewrite B; Bst stores the low three
      bits of its operand in B. */
  lemma EffectRegisters(op: Operation, s: CpuState)
    requires Effect(op, s).Ok?
    ensures var r := Effect(op, s).value;
      (op.Adv? || op.Bdv? || op.Cdv?) ==>
        var q := ShiftRight(s.a, ComboValue(op.combo, s).value);
        (r.a, r.b, r.c) == (if op.Adv? then q else s.a, if op.Bdv? then q else s.b, if op.Cdv? then q else s.c)
    ensures var r := Effect(op, s).value;
      op.Bxl? ==> r.b == Xor(s.b, op.literal) && r.a == s.a && r.c == s.c
    ensures var r := Effect(op, s).value;
      op.Bxc? ==> r.b == Xor(s.b, s.c) && r.a == s.a && r.c == s.c
    ensures var r := Effect(op, s).value;
      op.Bst? ==> r.b < 8 && r.a == s.a && r.c == s.c
  {
  }

  /** Only Out writes output: exactly one value in 0..7, and no register. */
  lemma EffectOutput(op: Operation, s: CpuState)
    requires Effect(op, s).Ok?
    ensures var r := Effect(op, s).value;
      !op.Out? ==> r.output == s.output
    ensures var r := Effect(op, s).value;
      op.Out? ==>
        && |r.output| == |s.output| + 1
        && r.output[..|s.output|] == s.output
        && r.output[|s.output|] < 8
        && (r.a, r.b, r.c) == (s.a, s.b, s.c)
  {
  }

  datatype TickOutcome = Halt | Next(state: CpuState)

  /** `Cpu::tick`: halts when the pointer is at or past the end of the program,
      otherwise decodes the opcode at ip and the operand at ip + 1 and runs it. */
  function Step(s: CpuState): (r: Result<TickOutcome>)
    ensures s.ip >= |s.program| <==> r == Ok(Halt)
    ensures s.ip + 1 == |s.program| ==> r.Err?
    ensures r.Ok? && r.value.Next? ==> r.value.state.program == s.program
  {
    if s.ip >= |s.program| then Ok(Halt)
    else if s.ip + 1 >= |s.program| then Err("operand index out of range")
    else
      var op :- Decode(s.program[s.ip], s.program[s.ip + 1]);
      var next :- Effect(op, s);
      Ok(Next(next))
  }

  /** Ticking until the machine halts, with at most `fuel` ticks. */
  function Run(s: CpuState, fuel: nat): Result<CpuState>
    decreases fuel
  {
    if fuel == 0 then Err("out of fuel")
    else
      match Step(s)
      case Err(e) => Err(e)
      case Ok(Halt) => Ok(s)
      case Ok(Next(n)) => Run(n, fuel - 1)
  }

  predicate AllOctal(output: seq<nat>)
  {
    forall i :: 0 <= i < |output| ==> output[i] < 8
  }

  /** A run only appends to the output, keeps the program, ends halted, and every
      value it writes is in 0..7. */
  lemma {:induction false} RunExtendsOutput(s: CpuState, fuel: nat)
    requires Run(s, fuel).Ok?
    ensures var t := Run(s, fuel).value;
      && t.program == s.program
      && t.ip >= |t.program|
      && |s.output| <= |t.output| && t.output[..|s.output|] == s.output
      && (AllOctal(s.output) ==> AllOctal(t.output))
    decreases fuel
  {
    var step := Step(s);
    if step.value.Next? {
      var n := step.value.state;
      var op := Decode(s.program[s.ip], s.program[s.ip + 1]).value;
      assert Effect(op, s) == Ok(n);
      EffectOutput(op, s);
      RunExtendsOutput(n, fuel - 1);
      var t := Run(s, fuel).value;
      assert t.output[..|s.output|] == t.output[..|n.output|][..|s.output|];
    }
  }

  /** Extra fuel does not change the outcome of a run that finished. */
  lemma {:induction false} RunFuelMonotone(s: CpuState, fuel: nat, more: nat)
    requires Run(s, fuel).Ok?
    ensures Run(s, fuel + more) == Run(s, fuel)
    decreases fuel
  {
    if Step(s).value.Next? {
      RunFuelMonotone(Step(s).value.state, fuel - 1, more);
    }
  }

  /** Decimal text of a number, as `to_string` writes it. */
  function DecimalString(n: nat): (r: string)
    ensures |r| >= 1
    decreases n
  {
    if n < 10 then ['0' + n as char] else DecimalString(n / 10) + ['0' + (n % 10) as char]
  }

  /** `read_output`: the outputs in decimal, separated by commas. */
  function JoinOutput(output: seq<nat>): string
  {
    if |output| == 0 then ""
    else if |output| == 1 then DecimalString(output[0])
    else DecimalString(output[0]) + "," + JoinOutput(output[1..])
  }

  /** For outputs in 0..7 the joined text is one digit per value with a comma
      between neighbours, so it can be read back value by value. */
  lemma {:induction false} JoinOctal(output: seq<nat>)
    requires AllOctal(output) && |output| > 0
    ensures |JoinOutput(output)| == 2 * |output| - 1
    ensures forall i :: 0 <= i < |output| ==> JoinOutput(output)[2 * i] == '0' + output[i] as char
    ensures forall i :: 0 <= i < |output| - 1 ==> JoinOutput(output)[2 * i + 1] == ','
  {
    if |output| > 1 {
      JoinOctal(output[1..]);
      var rest := JoinOutput(output[1..]);
      assert JoinOutput(output) == ['0' + output[0] as char, ','] + rest;
      forall i | 1 <= i < |output|
        ensures JoinOutput(output)[2 * i] == '0' + output[i] as char
      {
        assert rest[2 * (i - 1)] == '0' + output[1..][i - 1] as char;
      }
      forall i | 1 <= i < |output| - 1
        ensures JoinOutput(output)[2 * i + 1] == ','
      {
        assert rest[2 * (i - 1) + 1] == ',';
      }
    }
  }

  /** `Cpu`: the machine whose fields `execute` updates in place. */
  class Cpu {
    var a: nat
    var b: nat
    var c: nat
    var ip: nat
    const program: seq<nat>
    var output: seq<nat>

    function State(): CpuState
      reads this
    {
      CpuState(a, b, c, ip, program, output)
    }

    /** `Cpu::from`, once the register lines are parsed. */
    constructor (a: nat, b: nat, c: nat, program: seq<nat>)
      ensures State() == CpuState(a, b, c, 0, program, [])
    {
      this.a, this.b, this.c := a, b, c;
      this.ip := 0;
      this.program := program;
      this.output := [];
    }

    /** `Operation::execute`, in place; a refused operand changes nothing. */
    method Execute(op: Operation) returns (r: Result<()>)
      modifies this
      ensures r.Ok? <==> Effect(op, old(State())).Ok?
      ensures r.Ok? ==> State() == Effect(op, old(State())).value
      ensures r.Err? ==> State() == old(State())
    {
      var s := State();
      match op {
        case Adv(k) =>
          var v :- ComboValue(k, s);
          a := ShiftRight(a, v);
        case Bxl(k) =>
          b := Xor(b, k);
        case Bst(k) =>
          var v :- ComboValue(k, s);
          b := v % 8;
        case Jnz(k) =>
          if a != 0 {
            ip := k;
          } else {
            ip := ip + 2;
          }
        case Bxc =>
          b := Xor(b, c);
        case Out(k) =>
          var v :- ComboValue(k, s);
          output := output + [v % 8];
        case Bdv(k) =>
          var v :- ComboValue(k, s);
          b := ShiftRight(a, v);
        case Cdv(k) =>
          var v :- ComboValue(k, s);
          c := ShiftRight(a, v);
      }
      if !op.Jnz? {
        ip := ip + 2;
      }
      r := Ok(());
    }

    /** `Cpu::tick`: returns whether the machine has halted. */
    method Tick() returns (r: Result<bool>)
      modifies this
      ensures Step(old(State())).Err? <==> r.Err?
      ensures r.Ok? ==> (r.value <==> Step(old(State())).value.Halt?)
      ensures r.Ok? && r.value ==> State() == old(State())
      ensures r.Ok? && !r.value ==> State() == Step(old(State())).value.state
    {
      if ip >= |program| {
        return Ok(true);
      }
      if ip + 1 >= |program| {
        return Err("operand index out of range");
      }
      var op :- Decode(program[ip], program[ip + 1]);
      var done := Execute(op);
      if done.Err? {
        return Err(done.error);
      }
      r := Ok(false);
    }

    /** `read_output`: no output gives the empty text; outputs in 0..7 give
      one digit per value, with a comma between neighbours. */
    function ReadOutput(): (r: string)
      reads this
      ensures output == [] ==> r == ""
      ensures AllOctal(output) && output != [] ==>
        |r| == 2 * |output| - 1
        && (forall i :: 0 <= i < |output| ==> r[2 * i] == '0' + output[i] as char)
        && (forall i :: 0 <= i < |output| - 1 ==> r[2 * i + 1] == ',')
    {
      if AllOctal(output) && output != [] then
        JoinOctal(output);
        JoinOutput(output)
      else
        JoinOutput(output)
    }
  }

  /** `process`: ticks until the machine halts (at most `fuel` ticks) and reads
      the output. */
  method Process(cpu: Cpu, fuel: nat) returns (r: Result<string>)
    modifies cpu
    ensures r.Ok? <==> Run(old(cpu.State()), fuel).Ok?
    ensures r.Ok? ==> cpu.State() == Run(old(cpu.State()), fuel).value && r.value == cpu.ReadOutput()
  {
    var left: nat := fuel;
    while true
      invariant left <= fuel
      invariant Run(old(cpu.State()), fuel) == Run(cpu.State(), left)
      decreases left
    {
      if left == 0 {
        return Err("out of fuel");
      }
      var halted :- cpu.Tick();
      if halted {
        return Ok(cpu.ReadOutput());
      }
      left := left - 1;
    }
  }
}

=== FILE: day18_memory.dfy ===
/** Day 18: bytes fall onto a square memory grid and corrupt cells; a
    search from the top-left corner to the bottom-right corner avoids them.
    Puzzle 1 asks for the number of steps once a given number of bytes has
    fallen, puzzle 2 for the first byte that cuts the corner off. */
module Day18Memory {
  import opened Wrappers
  import opened Sets
  import opened Decimal

  type Coord = (int, int)

  const Origin: Coord := (0, 0)

  predicate Adjacent(p: Coord, q: Coord)
  {
    q in {(p.0 - 1, p.1), (p.0 + 1, p.1), (p.0, p.1 - 1), (p.0, p.1 + 1)}
  }

  /** Inside [0, grid.0] x [0, grid.1]. */
  predicate InGrid(q: Coord, grid: Coord)
  {
    0 <= q.0 <= grid.0 && 0 <= q.1 <= grid.1
  }

  /** The filter of `get_neighbours`: in the grid and not corrupted. */
  function Free(candidates: seq<Coord>, grid: Coord, broken: seq<Coord>): (r: seq<Coord>)
    ensures |r| <= |candidates|
    ensures forall q :: q in r <==> q in candidates && InGrid(q, grid) && q !in broken
  {
    if candidates == [] then []
    else
      var rest := Free(candidates[1..], grid, broken);
      var q := candidates[0];
      if InGrid(q, grid) && q !in broken then [q] + rest else rest
  }

  /** `get_neighbours`: the free cells next to `p`, left, right, up, down. */
  function Neighbours(p: Coord, grid: Coord, broken: seq<Coord>): (r: seq<Coord>)
    ensures |r| <= 4
    ensures forall q :: q in r <==> Adjacent(p, q) && InGrid(q, grid) && q !in broken
  {
    Free([(p.0 - 1, p.1), (p.0 + 1, p.1), (p.0, p.1 - 1), (p.0, p.1 + 1)], grid, broken)
  }

  /** The step into cell `i` goes to a neighbour. */
  predicate Linked(walk: seq<Coord>, i: int, grid: Coord, broken: seq<Coord>)
    requires 0 < i < |walk|
  {
    walk[i] in Neighbours(walk[i - 1], grid, broken)
  }

  /** A walk from the corner through free cells; it takes |walk| - 1 steps. */
  predicate IsPath(walk: seq<Coord>, grid: Coord, broken: seq<Coord>)
  {
    |walk| >= 1 && walk[0] == Origin && forall i :: 0 < i < |walk| ==> Linked(walk, i, grid, broken)
  }

  /** No walk through free cells reaches `end`. */
  ghost predicate Blocked(end: Coord, broken: seq<Coord>)
  {
    forall walk :: IsPath(walk, end, broken) ==> walk[|walk| - 1] != end
  }

  lemma PathExtend(walk: seq<Coord>, n: Coord, grid: Coord, broken: seq<Coord>)
    requires IsPath(walk, grid, broken) && n in Neighbours(walk[|walk| - 1], grid, broken)
    ensures IsPath(walk + [n], grid, broken)
  {
    var w := walk + [n];
    forall i | 0 < i < |w|
      ensures Linked(w, i, grid, broken)
    {
      if i < |walk| {
        assert Linked(walk, i, grid, broken);
      }
    }
  }

  /** Following predecessors from `c` back to the corner: the cells passed
      through, or None when a cell has no predecessor (the `unwrap` fails) or
      the chain comes back to a cell it left (the loop would not end). */
  function Follow(pred: map<Coord, Coord>, c: Coord, visited: set<Coord>): (r: Option<set<Coord>>)
    ensures r.Some? && c != Origin ==> Origin in r.value && c in pred && pred[c] in r.value
    ensures r.Some? && c == Origin ==> r.value == {}
    decreases |pred.Keys - visited|
  {
    if c == Origin then Some({})
    else if c !in pred || c in visited then None
    else
      assert pred.Keys - (visited + {c}) < pred.Keys - visited;
      ProperSubsetCard(pred.Keys - (visited + {c}), pred.Keys - visited);
      match Follow(pred, pred[c], visited + {c})
      case Some(rest) => Some({pred[c]} + rest)
      case None => None
  }

  /** `construct_path`: the predecessors met on the way from the end back
      to the corner. */
  method ConstructPath(pred: map<Coord, Coord>, end: Coord) returns (r: Option<set<Coord>>)
    ensures r == Follow(pred, end, {})
  {
    var c := end;
    var path: set<Coord> := {};
    var visited: set<Coord> := {};
    while c != Origin
      invariant Follow(pred, end, {}) == match Follow(pred, c, visited)
                                         case Some(rest) => Some(path + rest)
                                         case None => None
      decreases |pred.Keys - visited|
    {
      if c !in pred || c in visited {
        return None;
      }
      ProperSubsetCard(pred.Keys - (visited + {c}), pred.Keys - visited);
      match Follow(pred, pred[c], visited + {c}) {
        case Some(rest) =>
          assert Follow(pred, c, visited) == Some({pred[c]} + rest);
          assert path + ({pred[c]} + rest) == (path + {pred[c]}) + rest;
        case None =>
          assert Follow(pred, c, visited) == None;
      }
      path := path + {pred[c]};
      visited := visited + {c};
      c := pred[c];
    }
    return Some(path);
  }

  /** Every recorded cell but the corner has a predecessor recorded closer
      to the corner. */
  predicate Ranked(pred: map<Coord, Coord>, dist: map<Coord, int>)
  {
    Origin in dist && dist[Origin] == 0 && Origin !in pred
    && (forall q :: q in dist ==> dist[q] >= 0 && (q == Origin || q in pred))
    && forall n :: n in pred ==> n in dist && pred[n] in dist && dist[pred[n]] < dist[n]
  }

  /** Along ranked predecessors the chain from a recorded cell reaches the
      corner. */
  lemma {:induction false} FollowRanked(pred: map<Coord, Coord>, dist: map<Coord, int>, c: Coord, visited: set<Coord>)
    requires Ranked(pred, dist) && c in dist
    requires forall v :: v in visited ==> v in dist && dist[v] > dist[c]
    ensures Follow(pred, c, visited).Some?
    decreases dist[c]
  {
    if c != Origin {
      FollowRanked(pred, dist, pred[c], visited + {c});
    }
  }

  /** The state of the search: the queue, the recorded distances and the
      predecessors. */
  datatype Frontier = Frontier(pq: map<Coord, int>, dist: map<Coord, int>, pred: map<Coord, Coord>)

  /** The cells the search can record. */
  function Cells(grid: Coord): set<Coord>
  {
    {Origin} + set x, y | 0 <= x <= grid.0 && 0 <= y <= grid.1 :: (x, y)
  }

  /** Every neighbour of `q` is recorded. */
  ghost predicate Settled(q: Coord, dist: map<Coord, int>, grid: Coord, broken: seq<Coord>)
  {
    forall n :: Adjacent(q, n) && InGrid(n, grid) && n !in broken ==> n in dist
  }

  /** Every cell taken off the queue, except the ones in `open`, is
      settled. */
  ghost predicate Closed(f: Frontier, end: Coord, broken: seq<Coord>, open: set<Coord>)
  {
    forall q :: q in f.dist && q !in f.pq && q !in open ==> Settled(q, f.dist, end, broken)
  }

  /** The corner or a cell of the grid. */
  predicate InCells(c: Coord, grid: Coord)
  {
    c == Origin || InGrid(c, grid)
  }

  lemma KeysInCells(dist: map<Coord, int>, grid: Coord)
    requires forall q :: q in dist ==> InCells(q, grid)
    ensures dist.Keys <= Cells(grid)
  {
    forall q | q in dist
      ensures q in Cells(grid)
    {
      if q != Origin {
        assert q == (q.0, q.1);
      }
    }
  }

  /** A recorded cell is reached by a walk with as many steps as recorded. */
  predicate Witness(walk: seq<Coord>, q: Coord, d: int, grid: Coord, broken: seq<Coord>)
  {
    IsPath(walk, grid, broken) && walk[|walk| - 1] == q && |walk| == d + 1
  }

  /** What the search keeps true: queued cells carry their recorded
      distance, no smaller than the last one popped; recorded distances are
      at most one more than it; each recorded cell has a walk of that
      length; a cell taken off the queue has all its neighbours recorded,
      except the ones in `open` still being expanded; and the end has not
      been popped. */
  ghost predicate Holds(f: Frontier, walks: map<Coord, seq<Coord>>, last: int, end: Coord, broken: seq<Coord>, open: set<Coord>)
  {
    Queued(f, last) && Bounded(f.dist, last, end) && Witnessed(f.dist, walks, end, broken)
    && Optimal(f.dist, end, broken) && Ranked(f.pred, f.dist)
    && Closed(f, end, broken, open) && (end in f.dist ==> end in f.pq)
  }

  predicate Queued(f: Frontier, last: int)
  {
    f.pq.Keys <= f.dist.Keys && forall q :: q in f.pq ==> f.pq[q] == f.dist[q] && last <= f.pq[q]
  }

  predicate Bounded(dist: map<Coord, int>, last: int, end: Coord)
  {
    forall q :: q in dist ==> InCells(q, end) && dist[q] <= last + 1
  }

  ghost predicate Witnessed(dist: map<Coord, int>, walks: map<Coord, seq<Coord>>, end: Coord, broken: seq<Coord>)
  {
    dist.Keys <= walks.Keys && forall q :: q in dist ==> Witness(walks[q], q, dist[q], end, broken)
  }

  /** No walk reaches a recorded cell in fewer steps than recorded. */
  ghost predicate Optimal(dist: map<Coord, int>, end: Coord, broken: seq<Coord>)
  {
    forall walk :: IsPath(walk, end, broken) && walk[|walk| - 1] in dist ==> dist[walk[|walk| - 1]] <= |walk| - 1
  }

  lemma PathPrefix(walk: seq<Coord>, k: int, grid: Coord, broken: seq<Coord>)
    requires IsPath(walk, grid, broken) && 1 <= k <= |walk|
    ensures IsPath(walk[..k], grid, broken)
  {
    forall i | 0 < i < k
      ensures Linked(walk[..k], i, grid, broken)
    {
      assert Linked(walk, i, grid, broken);
    }
  }

  /** Every cell some walk reaches in at most `d` steps is recorded, when
      no queued or open cell is closer than `d`: the walk's last step
      leaves a recorded cell closer than `d`, which is therefore settled. */
  lemma {:induction false} Covered(f: Frontier, end: Coord, broken: seq<Coord>, open: set<Coord>, d: int, walk: seq<Coord>)
    requires Closed(f, end, broken, open) && Optimal(f.dist, end, broken) && Origin in f.dist && Queued(f, d)
    requires forall o :: o in open ==> o in f.dist && f.dist[o] >= d
    requires IsPath(walk, end, broken) && |walk| - 1 <= d
    ensures walk[|walk| - 1] in f.dist
    decreases |walk|
  {
    if |walk| > 1 {
      var k := |walk| - 1;
      var prefix := walk[..k];
      PathPrefix(walk, k, end, broken);
      Covered(f, end, broken, open, d, prefix);
      var c := prefix[k - 1];
      assert c == walk[k - 1];
      assert f.dist[c] <= k - 1;
      assert c !in f.pq && c !in open;
      assert Settled(c, f.dist, end, broken);
      assert Linked(walk, k, end, broken);
    }
  }

  /** A cell recorded at one more than the popped distance has no shorter
      walk. */
  lemma RecordOptimal(f: Frontier, d: int, end: Coord, broken: seq<Coord>, p: Coord, n: Coord)
    requires Closed(f, end, broken, {p}) && Optimal(f.dist, end, broken) && Origin in f.dist && Queued(f, d)
    requires p in f.dist && f.dist[p] == d && n !in f.dist
    ensures Optimal(f.dist[n := d + 1], end, broken)
  {
    forall walk | IsPath(walk, end, broken) && walk[|walk| - 1] == n
      ensures d + 1 <= |walk| - 1
    {
      if |walk| - 1 <= d {
        Covered(f, end, broken, {p}, d, walk);
      }
    }
  }

  /** Popping a cell of least distance other than the end. */
  lemma PopKeeps(f: Frontier, walks: map<Coord, seq<Coord>>, last: int, end: Coord, broken: seq<Coord>, p: Coord)
    requires Holds(f, walks, last, end, broken, {}) && p in f.pq && p != end
    requires forall q :: q in f.pq ==> f.pq[p] <= f.pq[q]
    ensures Holds(f.(pq := f.pq - {p}), walks, f.pq[p], end, broken, {p})
  {
  }

  /** Recording an unrecorded neighbour of the popped cell. */
  lemma RecordKeeps(f: Frontier, walks: map<Coord, seq<Coord>>, d: int, end: Coord, broken: seq<Coord>, p: Coord, n: Coord)
    requires Holds(f, walks, d, end, broken, {p}) && p in f.dist && f.dist[p] == d
    requires n !in f.dist && n in Neighbours(p, end, broken)
    ensures Holds(Frontier(f.pq[n := d + 1], f.dist[n := d + 1], f.pred[n := p]),
                  walks[n := walks[p] + [n]], d, end, broken, {p})
  {
    RecordWitnessed(f.dist, walks, d, end, broken, p, n);
    RecordSettled(f, d, end, broken, p, n);
    RecordOptimal(f, d, end, broken, p, n);
    RecordRest(f, d, end, broken, p, n);
  }

  lemma RecordRest(f: Frontier, d: int, end: Coord, broken: seq<Coord>, p: Coord, n: Coord)
    requires Queued(f, d) && Bounded(f.dist, d, end) && Ranked(f.pred, f.dist) && (end in f.dist ==> end in f.pq)
    requires p in f.dist && f.dist[p] == d && n !in f.dist && n in Neighbours(p, end, broken)
    ensures var f' := Frontier(f.pq[n := d + 1], f.dist[n := d + 1], f.pred[n := p]);
      Queued(f', d) && Bounded(f'.dist, d, end) && Ranked(f'.pred, f'.dist) && (end in f'.dist ==> end in f'.pq)
  {
    assert InCells(n, end) by {
      assert Adjacent(p, n) && InGrid(n, end);
    }
  }

  lemma RecordWitnessed(dist: map<Coord, int>, walks: map<Coord, seq<Coord>>, d: int, end: Coord, broken: seq<Coord>, p: Coord, n: Coord)
    requires Witnessed(dist, walks, end, broken) && p in dist && dist[p] == d
    requires n in Neighbours(p, end, broken)
    ensures Witnessed(dist[n := d + 1], walks[n := walks[p] + [n]], end, broken)
  {
    assert Witness(walks[p], p, d, end, broken);
    PathExtend(walks[p], n, end, broken);
  }

  lemma RecordSettled(f: Frontier, d: int, end: Coord, broken: seq<Coord>, p: Coord, n: Coord)
    requires Closed(f, end, broken, {p})
    ensures Closed(Frontier(f.pq[n := d + 1], f.dist[n := d + 1], f.pred[n := p]), end, broken, {p})
  {
    var f' := Frontier(f.pq[n := d + 1], f.dist[n := d + 1], f.pred[n := p]);
    forall q | q in f'.dist && q !in f'.pq && q !in {p}
      ensures Settled(q, f'.dist, end, broken)
    {
      assert Settled(q, f.dist, end, broken);
    }
  }



  /** One neighbour in the inner loop of `dijkstra_thingy`: recorded, with
      the popped cell as its predecessor, when its recorded distance (none
      counting as the largest) exceeds one more step. */
  function Record(f: Frontier, p: Coord, d: int, n: Coord): Frontier
  {
    var recorded := if n in f.dist then Some(f.dist[n]) else None;
    if recorded.None? || recorded.value > d + 1 then
      Frontier(f.pq[n := d + 1], f.dist[n := d + 1], f.pred[n := p])
    else f
  }

  ghost function RecordWalk(f: Frontier, walks: map<Coord, seq<Coord>>, p: Coord, n: Coord): map<Coord, seq<Coord>>
    requires p in walks
  {
    if n in f.dist then walks else walks[n := walks[p] + [n]]
  }

  /** The inner loop's bookkeeping after `i` neighbours: the popped cell
      keeps its distance, recorded distances are unchanged, the queue is
      unchanged unless a cell was recorded, and the neighbours so far are
      recorded. */
  predicate Tracks(f0: Frontier, f: Frontier, d: int, p: Coord, neighbours: seq<Coord>, i: int)
    requires 0 <= i <= |neighbours|
  {
    p in f.dist && f.dist[p] == d
    && f0.dist.Keys <= f.dist.Keys && (forall q :: q in f0.dist ==> f.dist[q] == f0.dist[q])
    && (f.dist.Keys == f0.dist.Keys ==> f.pq == f0.pq)
    && forall j :: 0 <= j < i ==> neighbours[j] in f.dist
  }

  lemma HoldsStep(f: Frontier, walks: map<Coord, seq<Coord>>, d: int, p: Coord, end: Coord, broken: seq<Coord>, n: Coord)
    requires Holds(f, walks, d, end, broken, {p}) && p in f.dist && f.dist[p] == d
    requires n in Neighbours(p, end, broken)
    ensures p in walks
    ensures Holds(Record(f, p, d, n), RecordWalk(f, walks, p, n), d, end, broken, {p})
  {
    assert Witnessed(f.dist, walks, end, broken);
    if n !in f.dist {
      RecordKeeps(f, walks, d, end, broken, p, n);
    } else {
      assert Bounded(f.dist, d, end);
    }
  }

  lemma TracksStep(f0: Frontier, f: Frontier, d: int, p: Coord, end: Coord, neighbours: seq<Coord>, i: int)
    requires 0 <= i < |neighbours| && Tracks(f0, f, d, p, neighbours, i) && Bounded(f.dist, d, end)
    requires p != neighbours[i]
    ensures Tracks(f0, Record(f, p, d, neighbours[i]), d, p, neighbours, i + 1)
  {
    var n := neighbours[i];
    if n !in f.dist {
      var f' := Record(f, p, d, n);
      assert n in f'.dist && n !in f0.dist;
    }
  }

  /** One neighbour of the inner loop: the invariant and the bookkeeping carry over. */
  lemma RelaxStep(f0: Frontier, f: Frontier, walks: map<Coord, seq<Coord>>, d: int, p: Coord, end: Coord,
                  broken: seq<Coord>, neighbours: seq<Coord>, i: int)
    requires neighbours == Neighbours(p, end, broken) && 0 <= i < |neighbours|
    requires Holds(f, walks, d, end, broken, {p}) && Tracks(f0, f, d, p, neighbours, i)
    ensures p in walks
    ensures Holds(Record(f, p, d, neighbours[i]), RecordWalk(f, walks, p, neighbours[i]), d, end, broken, {p})
    ensures Tracks(f0, Record(f, p, d, neighbours[i]), d, p, neighbours, i + 1)
  {
    assert Adjacent(p, neighbours[i]);
    HoldsStep(f, walks, d, p, end, broken, neighbours[i]);
    TracksStep(f0, f, d, p, end, neighbours, i);
  }

  /** The inner loop of `dijkstra_thingy`: record each neighbour of the
      popped cell whose recorded distance is larger than one more step. A
      recorded distance is never changed: every one is at most one more
      than the popped one, so only unrecorded neighbours pass the test. */
  method Relax(f: Frontier, p: Coord, d: int, end: Coord, broken: seq<Coord>, ghost walks: map<Coord, seq<Coord>>)
    returns (f': Frontier, ghost walks': map<Coord, seq<Coord>>)
    requires p in f.dist && f.dist[p] == d && Holds(f, walks, d, end, broken, {p})
    ensures Holds(f', walks', d, end, broken, {})
    ensures forall q :: q in f.dist ==> q in f'.dist && f'.dist[q] == f.dist[q]
    ensures f'.dist.Keys == f.dist.Keys ==> f'.pq == f.pq
  {
    f', walks' := f, walks;
    var neighbours := Neighbours(p, end, broken);
    for i := 0 to |neighbours|
      invariant Holds(f', walks', d, end, broken, {p})
      invariant Tracks(f, f', d, p, neighbours, i)
    {
      RelaxStep(f, f', walks', d, p, end, broken, neighbours, i);
      walks' := RecordWalk(f', walks', p, neighbours[i]);
      f' := Record(f', p, d, neighbours[i]);
    }
    NeighboursRecorded(p, f'.dist, end, broken, neighbours);
    ReleaseKeeps(f', walks', d, end, broken, p);
  }

  lemma NeighboursRecorded(p: Coord, dist: map<Coord, int>, end: Coord, broken: seq<Coord>, neighbours: seq<Coord>)
    requires neighbours == Neighbours(p, end, broken)
    requires forall j :: 0 <= j < |neighbours| ==> neighbours[j] in dist
    ensures Settled(p, dist, end, broken)
  {
    forall n | Adjacent(p, n) && InGrid(n, end) && n !in broken
      ensures n in dist
    {
      var j :| 0 <= j < |neighbours| && neighbours[j] == n;
    }
  }

  /** Once all its neighbours are recorded the popped cell is settled. */
  lemma ReleaseKeeps(f: Frontier, walks: map<Coord, seq<Coord>>, d: int, end: Coord, broken: seq<Coord>, p: Coord)
    requires Holds(f, walks, d, end, broken, {p}) && Settled(p, f.dist, end, broken)
    ensures Holds(f, walks, d, end, broken, {})
  {
  }

  /** The queue's `pop`: a cell of least distance, taken out. */
  method Pop(pq: map<Coord, int>) returns (p: Coord, d: int, rest: map<Coord, int>)
    requires pq != map[]
    ensures p in pq && d == pq[p] && rest == pq - {p}
    ensures forall q :: q in pq ==> d <= pq[q]
    ensures rest.Keys == pq.Keys - {p} && |rest.Keys| < |pq.Keys|
  {
    var w :| w in pq;
    LeastEntry(pq, w);
    p :| p in pq && forall q :: q in pq ==> pq[p] <= pq[q];
    d := pq[p];
    rest := pq - {p};
  }

  /** A finite, non-empty queue has an entry of least distance. */
  lemma LeastEntry(pq: map<Coord, int>, w: Coord)
    requires w in pq
    ensures exists p :: p in pq && forall q :: q in pq ==> pq[p] <= pq[q]
    decreases |pq.Keys|
  {
    if exists o :: o in pq && pq[o] < pq[w] {
      var o :| o in pq && pq[o] < pq[w];
      var below := map k | k in pq && pq[k] < pq[w] :: pq[k];
      SubsetCard(below.Keys, pq.Keys - {w});
      LeastEntry(below, o);
      var p :| p in below && forall k :: k in below ==> below[p] <= below[k];
      forall k | k in pq
        ensures pq[p] <= pq[k]
      {
        if pq[k] < pq[w] {
          assert k in below;
        }
      }
    }
  }

  /** Cells reached by the walk stay inside a set closed under neighbours. */
  lemma {:induction false} ClosedContainsPath(walk: seq<Coord>, dist: map<Coord, int>, grid: Coord, broken: seq<Coord>, k: nat)
    requires IsPath(walk, grid, broken) && Origin in dist && k < |walk|
    requires forall q :: q in dist ==> Settled(q, dist, grid, broken)
    ensures walk[k] in dist
  {
    if k > 0 {
      ClosedContainsPath(walk, dist, grid, broken, k - 1);
      var prev := walk[k - 1];
      assert walk[k] in Neighbours(prev, grid, broken) by {
        assert Linked(walk, k, grid, broken);
      }
      assert Settled(prev, dist, grid, broken);
    }
  }


  /** The search starts from the corner at distance 0. */
  lemma StartHolds(end: Coord, broken: seq<Coord>)
    ensures Holds(Frontier(map[Origin := 0], map[Origin := 0], map[]), map[Origin := [Origin]], 0, end, broken, {})
  {
    assert Witness([Origin], Origin, 0, end, broken);
  }

  /** When the queue runs empty every recorded cell is settled, so the
      recorded cells hold every walk and the end is not among them. */
  lemma EmptyBlocked(f: Frontier, walks: map<Coord, seq<Coord>>, last: int, end: Coord, broken: seq<Coord>)
    requires Holds(f, walks, last, end, broken, {}) && f.pq == map[]
    ensures Blocked(end, broken)
  {
    forall walk | IsPath(walk, end, broken)
      ensures walk[|walk| - 1] != end
    {
      ClosedContainsPath(walk, f.dist, end, broken, |walk| - 1);
    }
  }

  /** A popped end has a walk of its distance and a chain of predecessors
      back to the corner. */
  lemma EndReached(f: Frontier, walks: map<Coord, seq<Coord>>, last: int, end: Coord, broken: seq<Coord>)
    requires Holds(f, walks, last, end, broken, {}) && end in f.pq
    ensures exists walk :: IsPath(walk, end, broken) && walk[|walk| - 1] == end && |walk| == f.pq[end] + 1
    ensures !Blocked(end, broken)
    ensures forall walk :: IsPath(walk, end, broken) && walk[|walk| - 1] == end ==> f.pq[end] <= |walk| - 1
    ensures Follow(f.pred, end, {}).Some?
  {
    assert Optimal(f.dist, end, broken);
    assert Witnessed(f.dist, walks, end, broken);
    assert Witness(walks[end], end, f.dist[end], end, broken);
    FollowRanked(f.pred, f.dist, end, {});
  }

  /** The loop of `dijkstra_thingy`, shared by both puzzles: the distance at
      the first pop of `end`, or None when the queue runs empty first. The
      grid's far corner is `end` itself. */
  method Search(end: Coord, broken: seq<Coord>) returns (r: Option<int>, pred: map<Coord, Coord>)
    ensures r.Some? ==> exists walk :: IsPath(walk, end, broken) && walk[|walk| - 1] == end && |walk| == r.value + 1
    ensures r.Some? ==> forall walk :: IsPath(walk, end, broken) && walk[|walk| - 1] == end ==> r.value <= |walk| - 1
    ensures r.None? <==> Blocked(end, broken)
    ensures r.Some? ==> Follow(pred, end, {}).Some?
  {
    var f := Frontier(map[Origin := 0], map[Origin := 0], map[]);
    ghost var walks := map[Origin := [Origin]];
    ghost var last := 0;
    StartHolds(end, broken);
    while true
      invariant Holds(f, walks, last, end, broken, {})
      decreases |Cells(end) - f.dist.Keys|, |f.pq.Keys|
    {
      if f.pq == map[] {
        EmptyBlocked(f, walks, last, end, broken);
        return None, f.pred;
      }
      var p, d, _ := Pop(f.pq);
      if p == end {
        EndReached(f, walks, last, end, broken);
        return Some(d), f.pred;
      }
      f, walks := Expand(f, walks, last, end, broken, p);
      last := d;
    }
  }

  /** One round of the loop after a pop of a cell other than the end: the
      cell is taken off the queue and its neighbours are recorded. Either
      new cells are recorded or the queue is shorter. */
  method Expand(f: Frontier, ghost walks: map<Coord, seq<Coord>>, ghost last: int, end: Coord, broken: seq<Coord>, p: Coord)
    returns (f': Frontier, ghost walks': map<Coord, seq<Coord>>)
    requires Holds(f, walks, last, end, broken, {}) && p in f.pq && p != end
    requires forall q :: q in f.pq ==> f.pq[p] <= f.pq[q]
    ensures Holds(f', walks', f.pq[p], end, broken, {})
    ensures |Cells(end) - f'.dist.Keys| < |Cells(end) - f.dist.Keys|
            || (|Cells(end) - f'.dist.Keys| == |Cells(end) - f.dist.Keys| && |f'.pq.Keys| < |f.pq.Keys|)
  {
    var d := f.pq[p];
    PopKeeps(f, walks, last, end, broken, p);
    var popped := f.(pq := f.pq - {p});
    assert |popped.pq.Keys| < |f.pq.Keys| by {
      assert popped.pq.Keys == f.pq.Keys - {p};
    }
    f', walks' := Relax(popped, p, d, end, broken, walks);
    if f'.dist.Keys != f.dist.Keys {
      assert Bounded(f'.dist, d, end);
      KeysInCells(f'.dist, end);
      ProperSubsetCard(Cells(end) - f'.dist.Keys, Cells(end) - f.dist.Keys);
    }
  }

  /** `split_once(",")` followed by two `parse::<i64>`. */
  function ParseByte(line: string): (r: Result<Coord>)
  {
    if ',' !in line then Err("no comma")
    else
      var i := FirstComma(line);
      var x :- ParseI64(line[..i]);
      var y :- ParseI64(line[i + 1..]);
      Ok((x, y))
  }

  /** The position of the first comma. */
  function FirstComma(line: string): (i: nat)
    requires ',' in line
    ensures i < |line| && line[i] == ',' && ',' !in line[..i]
  {
    if line[0] == ',' then 0 else 1 + FirstComma(line[1..])
  }

  /** The `format!("{},{}")` of a coordinate. */
  function ShowByte(c: Coord): (s: string)
  {
    ShowInt(c.0) + "," + ShowInt(c.1)
  }

  /** A coordinate reads back from the text puzzle 2 answers with. */
  lemma ParseShowByte(c: Coord)
    ensures ParseByte(ShowByte(c)) == Ok(c)
  {
    var a, b := ShowInt(c.0), ShowInt(c.1);
    var line := a + "," + b;
    assert line[|a|] == ',';
    assert ',' !in a;
    var i := FirstComma(line);
    assert i == |a|;
    assert line[..i] == a && line[i + 1..] == b;
    ParseShowInt(c.0);
    ParseShowInt(c.1);
    if |a| >= 1 {
      assert a[0] != '+';
    }
  }

  /** The coordinates of every line, or the first line that fails. */
  function ParseBytes(lines: seq<string>): (r: Result<seq<Coord>>)
    ensures r.Ok? ==> |r.value| == |lines| && forall i :: 0 <= i < |lines| ==> ParseByte(lines[i]) == Ok(r.value[i])
    ensures r.Err? <==> exists i :: 0 <= i < |lines| && ParseByte(lines[i]).Err?
  {
    if lines == [] then Ok([])
    else
      assert forall i :: 1 <= i < |lines| ==> lines[i] == lines[1..][i - 1];
      match ParseByte(lines[0])
      case Err(e) => Err(e)
      case Ok(first) =>
        match ParseBytes(lines[1..])
        case Err(e) => Err(e)
        case Ok(rest) => Ok([first] + rest)
  }

  /** Puzzle 1's `dijkstra_thingy`: the steps to the end; the path back is
      traced as well. An empty queue is a failure. */
  method ShortestPath(end: Coord, broken: seq<Coord>) returns (r: Result<int>)
    ensures r.Err? <==> Blocked(end, broken)
    ensures r.Ok? ==> exists walk :: IsPath(walk, end, broken) && walk[|walk| - 1] == end && |walk| == r.value + 1
    ensures r.Ok? ==> forall walk :: IsPath(walk, end, broken) && walk[|walk| - 1] == end ==> r.value <= |walk| - 1
  {
    var found, pred := Search(end, broken);
    if found.None? {
      return Err("Queue is empty, but goal not reached");
    }
    var path := ConstructPath(pred, end);
    assert path.Some?;
    return Ok(found.value);
  }

  /** Puzzle 1's `process`: the first `bytesFallen` coordinates are
      corrupted; fewer lines is a failure. */
  method ProcessSteps(lines: seq<string>, end: Coord, bytesFallen: nat) returns (r: Result<int>)
    ensures r.Ok? <==> ParseBytes(lines).Ok? && bytesFallen <= |lines| && !Blocked(end, ParseBytes(lines).value[..bytesFallen])
    ensures r.Ok? ==> exists walk :: IsPath(walk, end, ParseBytes(lines).value[..bytesFallen])
                                  && walk[|walk| - 1] == end && |walk| == r.value + 1
    ensures r.Ok? ==> forall walk :: IsPath(walk, end, ParseBytes(lines).value[..bytesFallen]) && walk[|walk| - 1] == end
                                  ==> r.value <= |walk| - 1
  {
    var bytes :- ParseBytes(lines);
    if bytesFallen > |bytes| {
      return Err("fewer bytes than have fallen");
    }
    r := ShortestPath(end, bytes[..bytesFallen]);
  }

  /** Puzzle 2's `dijkstra_thingy`: None when the end is reached, else the
      last corrupted byte; with no bytes at all that is a failure. */
  method LastByte(end: Coord, broken: seq<Coord>) returns (r: Result<Option<Coord>>)
    ensures r == if !Blocked(end, broken) then Ok(None)
                 else if broken == [] then Err("no bytes")
                 else Ok(Some(broken[|broken| - 1]))
  {
    var found, _ := Search(end, broken);
    if found.None? {
      if broken == [] {
        return Err("no bytes");
      }
      return Ok(Some(broken[|broken| - 1]));
    }
    return Ok(None);
  }

  /** None of the first `n` prefixes blocks the end. */
  ghost predicate NoneBlocks(bytes: seq<Coord>, end: Coord, n: int)
    requires n <= |bytes|
  {
    forall j :: 0 <= j < n ==> !Blocked(end, bytes[..j])
  }

  lemma NoneBlocksNext(bytes: seq<Coord>, end: Coord, n: int)
    requires 0 <= n < |bytes| && NoneBlocks(bytes, end, n) && !Blocked(end, bytes[..n])
    ensures NoneBlocks(bytes, end, n + 1)
  {
  }

  /** The prefix of `k` bytes is the first one that blocks the end. */
  ghost predicate FirstBlocks(bytes: seq<Coord>, end: Coord, k: int)
  {
    0 < k <= |bytes| && Blocked(end, bytes[..k]) && NoneBlocks(bytes, end, k)
  }

  /** The loop of puzzle 2's `process`: the prefixes of 0, 1, 2, ... bytes
      in turn, up to but not including all of them; the first one that
      blocks the end names its last byte, and if none does the answer is
      empty. */
  method FirstBlocking(bytes: seq<Coord>, end: Coord) returns (r: Result<string>)
    ensures r.Err? <==> |bytes| > 0 && Blocked(end, [])
    ensures r.Ok? && r.value != "" ==> exists k :: k < |bytes| && FirstBlocks(bytes, end, k) && r.value == ShowByte(bytes[k - 1])
    ensures r.Ok? && r.value == "" ==> NoneBlocks(bytes, end, |bytes|)
  {
    assert bytes[..0] == [];
    for fallen := 0 to |bytes|
      invariant NoneBlocks(bytes, end, fallen)
      invariant fallen > 0 ==> !Blocked(end, [])
    {
      var result := LastByte(end, bytes[..fallen]);
      if result.Err? {
        return Err(result.error);
      }
      if result.value.Some? {
        var byte := result.value.value;
        assert byte == bytes[fallen - 1];
        assert FirstBlocks(bytes, end, fallen);
        assert ShowByte(byte) != "";
        r := Ok(ShowByte(byte));
        assert fallen < |bytes| && FirstBlocks(bytes, end, fallen) && r.value == ShowByte(bytes[fallen - 1]);
        return;
      }
      NoneBlocksNext(bytes, end, fallen);
    }
    return Ok("");
  }

  /** Puzzle 2's `process`. */
  method ProcessBlocking(lines: seq<string>, end: Coord) returns (r: Result<string>)
    ensures r.Err? <==> ParseBytes(lines).Err? || (|lines| > 0 && Blocked(end, []))
    ensures r.Ok? && r.value != "" ==> exists k :: (k < |lines| && FirstBlocks(ParseBytes(lines).value, end, k)
                                          && r.value == ShowByte(ParseBytes(lines).value[k - 1]))
    ensures r.Ok? && r.value == "" ==> NoneBlocks(ParseBytes(lines).value, end, |lines|)
  {
    var bytes :- ParseBytes(lines);
    r := FirstBlocking(bytes, end);
  }
}

=== FILE: day19_arrangements.dfy ===
/** Day 19, puzzle 2: the number of ways each pattern can be laid out, with
    a cache keyed by the pattern suffix written back as a string. */
module Day19Arrangements {
  import opened Wrappers
  import opened Day19Towels

  /** `Colour::as_char`. */
  function AsChar(c: Colour): (r: char)
    ensures r in "wubrg"
    ensures ColourFrom(r) == Ok(c)
  {
    match c
    case White => 'w'
    case Blue => 'u'
    case Black => 'b'
    case Red => 'r'
    case Green => 'g'
  }

  /** `create_string`: the colours written back as their letters. */
  function CreateString(colours: seq<Colour>): (r: string)
    ensures |r| == |colours|
    ensures forall i :: 0 <= i < |colours| ==> r[i] == AsChar(colours[i])
  {
    if colours == [] then "" else [AsChar(colours[0])] + CreateString(colours[1..])
  }

  /** Reading the string back gives the colours: `create_string` loses nothing. */
  lemma ParseCreateString(colours: seq<Colour>)
    ensures ParseColours(CreateString(colours)) == Ok(colours)
  {
    var s := CreateString(colours);
    assert forall i :: 0 <= i < |s| ==> s[i] in "wubrg";
    var r := ParseColours(s);
    assert forall i :: 0 <= i < |colours| ==> r.value[i] == colours[i];
    assert r.value == colours;
  }

  /** Different suffixes never share a cache key. */
  lemma CreateStringInjective(a: seq<Colour>, b: seq<Colour>)
    requires CreateString(a) == CreateString(b)
    ensures a == b
  {
    ParseCreateString(a);
    ParseCreateString(b);
  }

  /** The number of arrangements of `s`, without a cache: 1 for the empty rest, otherwise the
      sum over the matching towels of the arrangements of what follows them. */
  function Ways(towels: seq<Towel>, s: seq<Colour>): nat
    requires NonEmpty(towels)
    decreases |s|, 1, 0
  {
    if s == [] then 1 else SumWays(towels, s, Matching(towels, s))
  }

  /** The `fold` over the matching towels, summed from the front up to the last one. */
  function SumWays(towels: seq<Towel>, s: seq<Colour>, matching: seq<Towel>): nat
    requires NonEmpty(towels)
    requires Fits(matching, s)
    decreases |s|, 0, |matching|
  {
    if matching == [] then 0
    else
      var last := matching[|matching| - 1];
      SumWays(towels, s, matching[..|matching| - 1]) + Ways(towels, s[|last|..])
  }

  lemma {:induction false} SumWaysPositive(towels: seq<Towel>, s: seq<Colour>, matching: seq<Towel>)
    requires NonEmpty(towels)
    requires Fits(matching, s)
    ensures SumWays(towels, s, matching) > 0 <==> exists t :: t in matching && Ways(towels, s[|t|..]) > 0
    decreases |matching|
  {
    if matching != [] {
      var init := matching[..|matching| - 1];
      SumWaysPositive(towels, s, init);
      assert forall t :: t in matching <==> t in init || t == matching[|matching| - 1];
    }
  }

  /** There is an arrangement exactly when the pattern is a concatenation of towels. */
  lemma {:induction false} WaysPositiveIff(towels: seq<Towel>, s: seq<Colour>)
    requires NonEmpty(towels)
    ensures Ways(towels, s) > 0 <==> Decomposable(towels, s)
    decreases |s|
  {
    if s == [] {
      assert Splits(towels, [], s);
    } else {
      var matching := Matching(towels, s);
      SumWaysPositive(towels, s, matching);
      if Ways(towels, s) > 0 {
        var t :| t in matching && Ways(towels, s[|t|..]) > 0;
        MatchingFrom(towels, s, t);
        WaysPositiveIff(towels, s[|t|..]);
        var pieces :| Splits(towels, pieces, s[|t|..]);
        PrependPiece(towels, t, pieces, s);
      }
      if Decomposable(towels, s) {
        var pieces :| Splits(towels, pieces, s);
        FirstPiece(towels, pieces, s);
        WaysPositiveIff(towels, s[|pieces[0]|..]);
        MatchingKeeps(towels, s, pieces[0]);
      }
    }
  }

  /** Puzzle 2 counts a pattern at least once exactly when puzzle 1 accepts it. */
  lemma WaysAgreeWithIsValid(pattern: Pattern, towels: seq<Towel>)
    requires NonEmpty(towels)
    ensures Ways(towels, pattern) > 0 <==> IsValid(pattern, towels)
  {
    WaysPositiveIff(towels, pattern);
  }

  /** Every cache entry maps the string of a suffix to that suffix's uncached count. */
  ghost predicate CacheValid(towels: seq<Towel>, cache: map<string, nat>)
    requires NonEmpty(towels)
  {
    forall key :: key in cache ==> ParseColours(key).Ok? && cache[key] == Ways(towels, ParseColours(key).value)
  }

  /** A cache hit returns what recomputation would. */
  lemma CacheHit(towels: seq<Towel>, cache: map<string, nat>, rest: seq<Colour>)
    requires NonEmpty(towels) && CacheValid(towels, cache) && CreateString(rest) in cache
    ensures cache[CreateString(rest)] == Ways(towels, rest)
  {
    ParseCreateString(rest);
  }

  /** Recording a suffix's count keeps the cache valid. */
  lemma CacheRecord(towels: seq<Towel>, cache: map<string, nat>, rest: seq<Colour>, count: nat)
    requires NonEmpty(towels) && CacheValid(towels, cache) && count == Ways(towels, rest)
    ensures CacheValid(towels, cache[CreateString(rest) := count])
  {
    ParseCreateString(rest);
  }

  /** One more matching towel adds its arrangements to the partial sum. */
  lemma SumWaysStep(towels: seq<Towel>, pattern: Pattern, start: nat, matching: seq<Towel>, i: nat, count: nat, n: nat)
    requires NonEmpty(towels)
    requires start <= |pattern|
    requires Fits(matching, pattern[start..])
    requires i < |matching|
    requires Fits(matching[..i], pattern[start..])
    requires count == SumWays(towels, pattern[start..], matching[..i])
    requires start + |matching[i]| <= |pattern|
    requires n == Ways(towels, pattern[start + |matching[i]|..])
    ensures Fits(matching[..i + 1], pattern[start..])
    ensures count + n == SumWays(towels, pattern[start..], matching[..i + 1])
  {
    var rest := pattern[start..];
    assert forall u :: u in matching[..i + 1] ==> u in matching;
    assert matching[..i + 1][..i] == matching[..i];
    assert matching[..i + 1][i] == matching[i];
    assert pattern[start + |matching[i]|..] == rest[|matching[i]|..];
  }

  /** `patterns(towels, start, cache)`: the count for `pattern[start..]`; the cache stays
      valid and only gains entries. */
  method Patterns(pattern: Pattern, towels: seq<Towel>, start: nat, cache: map<string, nat>)
    returns (count: nat, cache': map<string, nat>)
    requires start <= |pattern| && NonEmpty(towels) && CacheValid(towels, cache)
    ensures count == Ways(towels, pattern[start..])
    ensures CacheValid(towels, cache') && cache.Keys <= cache'.Keys
    decreases |pattern| - start, 2
  {
    if start == |pattern| {
      return 1, cache;
    }
    var rest := pattern[start..];
    var key := CreateString(rest);
    if key in cache {
      CacheHit(towels, cache, rest);
      return cache[key], cache;
    }
    count, cache' := FoldMatching(pattern, towels, start, cache);
    CacheRecord(towels, cache', rest, count);
    cache' := cache'[key := count];
  }

  /** The `fold` in `patterns`: the counts after each matching towel, summed. */
  method FoldMatching(pattern: Pattern, towels: seq<Towel>, start: nat, cache: map<string, nat>)
    returns (count: nat, cache': map<string, nat>)
    requires start < |pattern| && NonEmpty(towels) && CacheValid(towels, cache)
    ensures count == SumWays(towels, pattern[start..], Matching(towels, pattern[start..]))
    ensures CacheValid(towels, cache') && cache.Keys <= cache'.Keys
    decreases |pattern| - start, 1
  {
    var rest := pattern[start..];
    var matching := Matching(towels, rest);
    count, cache' := 0, cache;
    var i := 0;
    while i < |matching|
      invariant 0 <= i <= |matching|
      invariant Fits(matching[..i], rest)
      invariant count == SumWays(towels, rest, matching[..i])
      invariant CacheValid(towels, cache') && cache.Keys <= cache'.Keys
    {
      ghost var before := count;
      assert matching[i] in matching;
      count, cache' := AddArrangements(pattern, towels, start, count, matching[i], cache');
      SumWaysStep(towels, pattern, start, matching, i, before, count - before);
      i := i + 1;
    }
    assert matching[..i] == matching;
  }

  /** The closure of that `fold`: adds the arrangements of what follows towel `t`. */
  method AddArrangements(pattern: Pattern, towels: seq<Towel>, start: nat, r: nat, t: Towel, cache: map<string, nat>)
    returns (r': nat, cache': map<string, nat>)
    requires start < |pattern| && NonEmpty(towels) && CacheValid(towels, cache)
    requires |t| > 0 && StartsWith(pattern[start..], t)
    ensures start + |t| <= |pattern| && r' == r + Ways(towels, pattern[start + |t|..])
    ensures CacheValid(towels, cache') && cache.Keys <= cache'.Keys
    decreases |pattern| - start, 0
  {
    var n;
    n, cache' := Patterns(pattern, towels, start + |t|, cache);
    r' := r + n;
  }

  /** `total_number_of_patterns`. */
  method TotalNumberOfPatterns(pattern: Pattern, towels: seq<Towel>, cache: map<string, nat>)
    returns (count: nat, cache': map<string, nat>)
    requires NonEmpty(towels) && CacheValid(towels, cache)
    ensures count == Ways(towels, pattern)
    ensures CacheValid(towels, cache') && cache.Keys <= cache'.Keys
  {
    count, cache' := Patterns(pattern, towels, 0, cache);
    assert pattern[0..] == pattern;
  }

  /** The sum of the counts of the first patterns. */
  function TotalWays(towels: seq<Towel>, patterns: seq<Pattern>): nat
    requires NonEmpty(towels)
  {
    if patterns == [] then 0
    else TotalWays(towels, patterns[..|patterns| - 1]) + Ways(towels, patterns[|patterns| - 1])
  }

  /** The total is zero exactly when no pattern can be laid out. */
  lemma {:induction false} TotalWaysZero(towels: seq<Towel>, patterns: seq<Pattern>)
    requires NonEmpty(towels)
    ensures TotalWays(towels, patterns) == 0 <==> forall i :: 0 <= i < |patterns| ==> !IsValid(patterns[i], towels)
  {
    if patterns != [] {
      var init := patterns[..|patterns| - 1];
      TotalWaysZero(towels, init);
      WaysAgreeWithIsValid(patterns[|patterns| - 1], towels);
      assert forall i :: 0 <= i < |init| ==> init[i] == patterns[i];
    }
  }

  /** `Onsen`: the patterns, the towels and the cache shared by all patterns. */
  class Onsen {
    var patterns: seq<Pattern>
    var towels: seq<Towel>
    var cache: map<string, nat>

    ghost predicate Valid()
      reads this
    {
      NonEmpty(towels) && CacheValid(towels, cache)
    }

    /** `Onsen::from`: an empty cache. */
    constructor (patterns: seq<Pattern>, towels: seq<Towel>)
      requires NonEmpty(towels)
      ensures Valid()
      ensures this.patterns == patterns && this.towels == towels && cache == map[]
    {
      this.patterns := patterns;
      this.towels := towels;
      cache := map[];
    }

    /** `compute_all`: the sum of every pattern's count; the cache only grows. */
    method ComputeAll() returns (total: nat)
      requires Valid()
      modifies this
      ensures Valid()
      ensures patterns == old(patterns) && towels == old(towels) && old(cache).Keys <= cache.Keys
      ensures total == TotalWays(towels, patterns)
    {
      total := 0;
      var i := 0;
      while i < |patterns|
        invariant 0 <= i <= |patterns|
        invariant Valid()
        invariant patterns == old(patterns) && towels == old(towels) && old(cache).Keys <= cache.Keys
        invariant total == TotalWays(towels, patterns[..i])
      {
        var n, c := TotalNumberOfPatterns(patterns[i], towels, cache);
        cache := c;
        assert patterns[..i + 1][..i] == patterns[..i];
        total := total + n;
        i := i + 1;
      }
      assert patterns[..i] == patterns;
    }
  }

  /** `process` of puzzle 2. The fold sums over every matching towel, so a matching empty
      towel calls `patterns` again on the same, not yet cached suffix and the recursion
      never returns; an empty towel is therefore an error as soon as there is a pattern
      (each pattern line is non-empty). Without patterns the total is 0. */
  method Process(lines: seq<string>) returns (r: Result<nat>)
    ensures r.Ok? <==> ParseInput(lines).Ok? && (NonEmpty(ParseInput(lines).value.towels) || ParseInput(lines).value.patterns == [])
    ensures r.Ok? && NonEmpty(ParseInput(lines).value.towels) ==>
      r.value == TotalWays(ParseInput(lines).value.towels, ParseInput(lines).value.patterns)
    ensures r.Ok? && ParseInput(lines).value.patterns == [] ==> r.value == 0
  {
    var input := ParseInput(lines);
    if input.Err? {
      return Err(input.error);
    }
    if !NonEmpty(input.value.towels) {
      if input.value.patterns == [] {
        return Ok(0);
      }
      return Err("empty towel");
    }
    var onsen := new Onsen(input.value.patterns, input.value.towels);
    var total := onsen.ComputeAll();
    return Ok(total);
  }
}

=== FILE: day19_towels.dfy ===
/** Day 19, puzzle 1: which colour patterns can be laid out from the
    available towels. `can_solve` tries, in order, every towel that is a
    prefix of the rest of the pattern. */
module Day19Towels {
  import opened Wrappers
  import Text

  datatype Colour = White | Blue | Black | Red | Green

  /** A towel and a pattern are both a sequence of colours. */
  type Towel = seq<Colour>
  type Pattern = seq<Colour>

  /** `Colour::from`: the five stripe letters; any other character is a panic, here an error. */
  function ColourFrom(c: char): (r: Result<Colour>)
    ensures r.Ok? <==> c in "wubrg"
    ensures c == 'w' ==> r == Ok(White)
    ensures c == 'u' ==> r == Ok(Blue)
    ensures c == 'b' ==> r == Ok(Black)
    ensures c == 'r' ==> r == Ok(Red)
    ensures c == 'g' ==> r == Ok(Green)
  {
    match c
    case 'w' => Ok(White)
    case 'u' => Ok(Blue)
    case 'b' => Ok(Black)
    case 'r' => Ok(Red)
    case 'g' => Ok(Green)
    case _ => Err("Unknown colour")
  }

  /** `Towel::from` and `ColourPattern::from`: every character mapped by `Colour::from`. */
  function ParseColours(s: string): (r: Result<seq<Colour>>)
    ensures r.Ok? <==> forall i :: 0 <= i < |s| ==> s[i] in "wubrg"
    ensures r.Ok? ==> |r.value| == |s|
    ensures r.Ok? ==> forall i :: 0 <= i < |s| ==> ColourFrom(s[i]) == Ok(r.value[i])
  {
    if s == [] then Ok([])
    else
      match ColourFrom(s[0])
      case Err(e) => Err(e)
      case Ok(c) =>
        match ParseColours(s[1..])
        case Err(e) => Err(e)
        case Ok(cs) => Ok([c] + cs)
  }

  /** Every entry of `items` parsed by `ParseColours`; the first failure is the error. */
  function ParseAll(items: seq<string>): (r: Result<seq<seq<Colour>>>)
    ensures r.Ok? <==> forall i :: 0 <= i < |items| ==> ParseColours(items[i]).Ok?
    ensures r.Ok? ==> |r.value| == |items|
    ensures r.Ok? ==> forall i :: 0 <= i < |items| ==> r.value[i] == ParseColours(items[i]).value
  {
    if items == [] then Ok([])
    else
      match ParseColours(items[0])
      case Err(e) => Err(e)
      case Ok(c) =>
        match ParseAll(items[1..])
        case Err(e) => Err(e)
        case Ok(cs) => Ok([c] + cs)
  }

  /** The puzzle input: the towel line of the first block and the pattern lines of the second. */
  datatype Input = Input(towels: seq<Towel>, patterns: seq<Pattern>)

  /** The parsing part of `process`; each `unwrap` or colour panic becomes an error. */
  function ParseInput(lines: seq<string>): (r: Result<Input>)
    ensures r.Ok? ==> |Text.SplitBlocks(lines)| >= 2 && |Text.SplitBlocks(lines)[0]| >= 1
    ensures r.Ok? ==> ParseAll(Text.SplitOn(Text.SplitBlocks(lines)[0][0], ", ")) == Ok(r.value.towels)
    ensures r.Ok? ==> ParseAll(Text.SplitBlocks(lines)[1]) == Ok(r.value.patterns)
    ensures |Text.SplitBlocks(lines)| < 2 ==> r.Err?
  {
    var blocks := Text.SplitBlocks(lines);
    if |blocks[0]| == 0 then Err("no towel line")
    else
      var towels :- ParseAll(Text.SplitOn(blocks[0][0], ", "));
      if |blocks| < 2 then Err("no pattern block")
      else
        var patterns :- ParseAll(blocks[1]);
        Ok(Input(towels, patterns))
  }

  /** No towel is empty; then every search ends. */
  predicate NonEmpty(towels: seq<Towel>)
  {
    forall t :: t in towels ==> |t| > 0
  }

  /** `starts_with`: `t` is a prefix of `s`. */
  predicate StartsWith(s: seq<Colour>, t: seq<Colour>)
  {
    |t| <= |s| && s[..|t|] == t
  }

  /** Every towel in `matching` is non-empty and a prefix of `rest`. */
  predicate Fits(matching: seq<Towel>, rest: seq<Colour>)
  {
    forall i :: 0 <= i < |matching| ==> |matching[i]| > 0 && StartsWith(rest, matching[i])
  }

  /** The `filter` in `can_solve`: the towels that `rest` starts with, in their order. */
  function Matching(towels: seq<Towel>, rest: seq<Colour>): (r: seq<Towel>)
    ensures |r| <= |towels|
    ensures forall i :: 0 <= i < |r| ==> StartsWith(rest, r[i])
    ensures NonEmpty(towels) ==> Fits(r, rest)
  {
    if towels == [] then []
    else if StartsWith(rest, towels[0]) then [towels[0]] + Matching(towels[1..], rest)
    else Matching(towels[1..], rest)
  }

  /** The filter keeps only towels that `rest` starts with. */
  lemma {:induction false} MatchingFrom(towels: seq<Towel>, rest: seq<Colour>, t: Towel)
    requires t in Matching(towels, rest)
    ensures t in towels && StartsWith(rest, t)
  {
    if !(t == towels[0] && StartsWith(rest, t)) {
      MatchingFrom(towels[1..], rest, t);
    }
  }

  /** Every towel that `rest` starts with is kept by the filter. */
  lemma {:induction false} MatchingKeeps(towels: seq<Towel>, rest: seq<Colour>, t: Towel)
    requires t in towels && StartsWith(rest, t)
    ensures t in Matching(towels, rest)
  {
    if towels[0] != t {
      MatchingKeeps(towels[1..], rest, t);
    }
  }

  /** `can_solve(towels, start)`: a `true` comes with a decomposition of the
      rest of the pattern into towels. */
  function CanSolve(pattern: Pattern, towels: seq<Towel>, start: nat): (r: bool)
    requires start <= |pattern| && NonEmpty(towels)
    ensures r ==> Decomposable(towels, pattern[start..])
    decreases |pattern| - start, 1, 0
  {
    var rest := pattern[start..];
    if start == |pattern| then
      assert Splits(towels, [], rest);
      true
    else
      var matching := Matching(towels, rest);
      var found := AnySolves(pattern, towels, start, matching);
      assert found ==> Decomposable(towels, rest) by {
        if found {
          var t :| t in matching && Leads(pattern, towels, start, t);
          MatchingFrom(towels, rest, t);
          var pieces :| Splits(towels, pieces, pattern[start + |t|..]);
          DropDrop(pattern, start, |t|);
          PrependPiece(towels, t, pieces, rest);
        }
      }
      found
  }

  /** Towel `t` fits at `start` and leaves a rest that can be solved. */
  predicate Leads(pattern: Pattern, towels: seq<Towel>, start: nat, t: Towel)
    requires start <= |pattern| && NonEmpty(towels)
    decreases |pattern| - start, 0, 0
  {
    0 < |t| && start + |t| <= |pattern| && CanSolve(pattern, towels, start + |t|)
  }

  /** The `for` loop over the matching towels, returning on the first success:
      it succeeds exactly when some matching towel leaves a rest that can be
      solved, whichever comes first. */
  function AnySolves(pattern: Pattern, towels: seq<Towel>, start: nat, matching: seq<Towel>): (r: bool)
    requires start <= |pattern| && NonEmpty(towels)
    requires Fits(matching, pattern[start..])
    ensures r ==> exists t :: t in matching && Leads(pattern, towels, start, t)
    decreases |pattern| - start, 0, |matching|
  {
    if matching == [] then false
    else if CanSolve(pattern, towels, start + |matching[0]|) then
      assert Leads(pattern, towels, start, matching[0]);
      true
    else
      var found := AnySolves(pattern, towels, start, matching[1..]);
      assert found ==> exists t :: t in matching && Leads(pattern, towels, start, t) by {
        if found {
          var t :| t in matching[1..] && Leads(pattern, towels, start, t);
          assert t in matching;
        }
      }
      found
  }

  /** `is_valid`: exactly the patterns that are a concatenation of towels. */
  function IsValid(pattern: Pattern, towels: seq<Towel>): (r: bool)
    requires NonEmpty(towels)
    ensures r <==> Decomposable(towels, pattern)
  {
    CanSolveIff(pattern, towels, 0);
    assert pattern[0..] == pattern;
    CanSolve(pattern, towels, 0)
  }

  // ---------------------------------------------------------------------------------------
  // The reference meaning: the pattern is the concatenation of a sequence of towels.

  function Concat(pieces: seq<Towel>): seq<Colour>
  {
    if pieces == [] then [] else pieces[0] + Concat(pieces[1..])
  }

  ghost predicate Splits(towels: seq<Towel>, pieces: seq<Towel>, s: seq<Colour>)
  {
    (forall i :: 0 <= i < |pieces| ==> pieces[i] in towels) && Concat(pieces) == s
  }

  ghost predicate Decomposable(towels: seq<Towel>, s: seq<Colour>)
  {
    exists pieces :: Splits(towels, pieces, s)
  }

  /** Putting one towel in front of a decomposition of the rest decomposes the whole. */
  lemma PrependPiece(towels: seq<Towel>, t: Towel, pieces: seq<Towel>, s: seq<Colour>)
    requires t in towels && StartsWith(s, t) && Splits(towels, pieces, s[|t|..])
    ensures Splits(towels, [t] + pieces, s)
  {
    assert ([t] + pieces)[1..] == pieces;
    assert s == t + s[|t|..];
  }

  /** A decomposition of a non-empty sequence starts with a towel it begins with. */
  lemma FirstPiece(towels: seq<Towel>, pieces: seq<Towel>, s: seq<Colour>)
    requires NonEmpty(towels) && Splits(towels, pieces, s) && s != []
    ensures pieces != [] && pieces[0] in towels && StartsWith(s, pieces[0])
    ensures Splits(towels, pieces[1..], s[|pieces[0]|..])
  {
    assert pieces != [];
    assert s == pieces[0] + Concat(pieces[1..]);
    assert forall i :: 0 <= i < |pieces[1..]| ==> pieces[1..][i] == pieces[i + 1];
  }

  /** A matching towel that leads to a solution makes the loop succeed. */
  lemma {:induction false} AnySolvesFrom(pattern: Pattern, towels: seq<Towel>, start: nat, matching: seq<Towel>, t: Towel)
    requires start <= |pattern| && NonEmpty(towels)
    requires Fits(matching, pattern[start..])
    requires t in matching && CanSolve(pattern, towels, start + |t|)
    ensures AnySolves(pattern, towels, start, matching)
    decreases |matching|
  {
    if t != matching[0] {
      AnySolvesFrom(pattern, towels, start, matching[1..], t);
    }
  }

  /** Skipping `i` and then `k` elements skips `i + k`. */
  lemma DropDrop(s: seq<Colour>, i: nat, k: nat)
    requires i + k <= |s|
    ensures s[i + k..] == s[i..][k..]
  {
  }

  /** Every decomposition of the rest into towels is found by `can_solve`. */
  lemma {:induction false} CanSolveComplete(pattern: Pattern, towels: seq<Towel>, start: nat, pieces: seq<Towel>)
    requires start <= |pattern| && NonEmpty(towels)
    requires Splits(towels, pieces, pattern[start..])
    ensures CanSolve(pattern, towels, start)
    decreases |pattern| - start
  {
    var rest := pattern[start..];
    if start < |pattern| {
      var matching := Matching(towels, rest);
      FirstPiece(towels, pieces, rest);
      var t := pieces[0];
      MatchingKeeps(towels, rest, t);
      assert 0 < |t| <= |rest|;
      DropDrop(pattern, start, |t|);
      CanSolveComplete(pattern, towels, start + |t|, pieces[1..]);
      AnySolvesFrom(pattern, towels, start, matching, t);
    }
  }

  /** `can_solve` is sound and complete for decomposition into towels. */
  lemma CanSolveIff(pattern: Pattern, towels: seq<Towel>, start: nat)
    requires start <= |pattern| && NonEmpty(towels)
    ensures CanSolve(pattern, towels, start) <==> Decomposable(towels, pattern[start..])
  {
    if Decomposable(towels, pattern[start..]) {
      var pieces :| Splits(towels, pieces, pattern[start..]);
      CanSolveComplete(pattern, towels, start, pieces);
    }
  }

  /** The `filter(is_valid).count()` of `process`. */
  function CountValid(patterns: seq<Pattern>, towels: seq<Towel>): (r: nat)
    requires NonEmpty(towels)
    ensures r <= |patterns|
    ensures r == |patterns| <==> forall i :: 0 <= i < |patterns| ==> Decomposable(towels, patterns[i])
  {
    if patterns == [] then 0
    else
      var n := CountValid(patterns[1..], towels);
      assert forall i :: 1 <= i < |patterns| ==> patterns[i] == patterns[1..][i - 1];
      (if IsValid(patterns[0], towels) then 1 else 0) + n
  }

  /** The number of patterns that are a concatenation of towels. */
  ghost function Decomposables(patterns: seq<Pattern>, towels: seq<Towel>): nat
  {
    if patterns == [] then 0
    else (if Decomposable(towels, patterns[0]) then 1 else 0) + Decomposables(patterns[1..], towels)
  }

  lemma {:induction false} CountValidDecomposables(patterns: seq<Pattern>, towels: seq<Towel>)
    requires NonEmpty(towels)
    ensures CountValid(patterns, towels) == Decomposables(patterns, towels)
  {
    if patterns != [] {
      CountValidDecomposables(patterns[1..], towels);
    }
  }

  // ---------------------------------------------------------------------------------------
  // The search for any towel list. A matching empty towel makes `can_solve` call itself at
  // the same position, so the search never returns once it reaches an empty towel before a
  // success; towels earlier in the list can still succeed first.

  /** `can_solve(towels, start)` for any towels: `None` when the call never
      returns. A `true` comes with a decomposition of the rest into towels;
      a `false` means that no towel is empty, because an empty towel matches
      every rest. */
  function Search(pattern: Pattern, towels: seq<Towel>, start: nat): (r: Option<bool>)
    requires start <= |pattern|
    ensures r == Some(true) ==> Decomposable(towels, pattern[start..])
    ensures r == Some(false) ==> NonEmpty(towels)
    decreases |pattern| - start, 1, 0
  {
    var rest := pattern[start..];
    if start == |pattern| then
      assert Splits(towels, [], rest);
      Some(true)
    else
      var matching := Matching(towels, rest);
      var r := TryEach(pattern, towels, start, matching);
      assert r == Some(true) ==> Decomposable(towels, rest) by {
        if r == Some(true) {
          var t :| t in matching && Succeeds(pattern, towels, start, t);
          MatchingFrom(towels, rest, t);
          var pieces :| Splits(towels, pieces, pattern[start + |t|..]);
          DropDrop(pattern, start, |t|);
          PrependPiece(towels, t, pieces, rest);
        }
      }
      assert r == Some(false) ==> NonEmpty(towels) by {
        if r == Some(false) {
          forall t | t in towels
            ensures |t| > 0
          {
            if t == [] {
              MatchingKeeps(towels, rest, t);
            }
          }
        }
      }
      r
  }

  /** Towel `t` fits at `start` and the search from after it succeeds. */
  predicate Succeeds(pattern: Pattern, towels: seq<Towel>, start: nat, t: Towel)
    requires start <= |pattern|
    decreases |pattern| - start, 0, 0
  {
    0 < |t| && start + |t| <= |pattern| && Search(pattern, towels, start + |t|) == Some(true)
  }

  /** The `for` loop over the matching towels in their order: the first success returns,
      an empty towel never returns. A `false` met no empty towel; a `true` names a
      non-empty matching towel after which the search succeeds. */
  function TryEach(pattern: Pattern, towels: seq<Towel>, start: nat, matching: seq<Towel>): (r: Option<bool>)
    requires start <= |pattern|
    requires forall i :: 0 <= i < |matching| ==> StartsWith(pattern[start..], matching[i])
    ensures r == Some(false) ==> [] !in matching
    ensures r == Some(true) ==> exists t :: t in matching && Succeeds(pattern, towels, start, t)
    decreases |pattern| - start, 0, |matching|
  {
    if matching == [] then Some(false)
    else if matching[0] == [] then None
    else
      assert StartsWith(pattern[start..], matching[0]);
      match Search(pattern, towels, start + |matching[0]|)
      case None => None
      case Some(true) =>
        assert Succeeds(pattern, towels, start, matching[0]);
        Some(true)
      case Some(false) =>
        var r := TryEach(pattern, towels, start, matching[1..]);
        assert r == Some(true) ==> exists t :: t in matching && Succeeds(pattern, towels, start, t) by {
          if r == Some(true) {
            var t :| t in matching[1..] && Succeeds(pattern, towels, start, t);
            assert t in matching;
          }
        }
        assert r == Some(false) ==> [] !in matching by {
          if r == Some(false) {
            assert matching == [matching[0]] + matching[1..];
          }
        }
        r
  }

  /** Without empty towels the search always returns, with the answer of `CanSolve`. */
  lemma {:induction false} SearchAgrees(pattern: Pattern, towels: seq<Towel>, start: nat)
    requires start <= |pattern| && NonEmpty(towels)
    ensures Search(pattern, towels, start) == Some(CanSolve(pattern, towels, start))
    decreases |pattern| - start, 1, 0
  {
    if start < |pattern| {
      TryEachAgrees(pattern, towels, start, Matching(towels, pattern[start..]));
    }
  }

  lemma {:induction false} TryEachAgrees(pattern: Pattern, towels: seq<Towel>, start: nat, matching: seq<Towel>)
    requires start <= |pattern| && NonEmpty(towels)
    requires Fits(matching, pattern[start..])
    ensures TryEach(pattern, towels, start, matching) == Some(AnySolves(pattern, towels, start, matching))
    decreases |pattern| - start, 0, |matching|
  {
    if matching != [] {
      SearchAgrees(pattern, towels, start + |matching[0]|);
      TryEachAgrees(pattern, towels, start, matching[1..]);
    }
  }

  /** A search that returns answers right: `true` exactly for the patterns that are a
      concatenation of towels. Without empty towels it always returns. */
  lemma SearchMeaning(pattern: Pattern, towels: seq<Towel>)
    ensures Search(pattern, towels, 0).Some? ==> (Search(pattern, towels, 0).value <==> Decomposable(towels, pattern))
    ensures NonEmpty(towels) ==> Search(pattern, towels, 0).Some?
  {
    assert pattern[0..] == pattern;
    if Search(pattern, towels, 0) == Some(false) {
      SearchAgrees(pattern, towels, 0);
      CanSolveIff(pattern, towels, 0);
    }
    if NonEmpty(towels) {
      SearchAgrees(pattern, towels, 0);
    }
  }

  /** With towels "r, , b" the pattern "r" is solved by the first towel before the empty one
      is reached; with the empty towel first the search never returns. */
  lemma EmptyTowelOrder()
    ensures Search([Red], [[Red], [], [Black]], 0) == Some(true)
    ensures Search([Red], [[], [Red]], 0) == None
  {
    assert Matching([[Red], [], [Black]], [Red]) == [[Red], []];
    assert Matching([[], [Red]], [Red]) == [[], [Red]];
  }

  /** The `filter(is_valid).count()` of `process`, pattern by pattern: a search that never
      returns ends the count with an error. */
  function CountFound(patterns: seq<Pattern>, towels: seq<Towel>): (r: Result<nat>)
    ensures r.Ok? <==> forall i :: 0 <= i < |patterns| ==> Search(patterns[i], towels, 0).Some?
    ensures r.Ok? ==> r.value == Decomposables(patterns, towels)
    ensures NonEmpty(towels) ==> r.Ok?
  {
    if patterns == [] then Ok(0)
    else
      SearchMeaning(patterns[0], towels);
      assert forall i :: 1 <= i < |patterns| ==> patterns[i] == patterns[1..][i - 1];
      match Search(patterns[0], towels, 0)
      case None => Err("the search does not end")
      case Some(found) =>
        var n :- CountFound(patterns[1..], towels);
        Ok((if found then 1 else 0) + n)
  }

  /** `process`: the patterns that decompose into towels, counted; a search that never
      returns (an empty towel reached before a success) is an error. */
  function Process(lines: seq<string>): (r: Result<nat>)
    ensures r.Ok? <==> (ParseInput(lines).Ok? &&
      forall i :: 0 <= i < |ParseInput(lines).value.patterns| ==> Search(ParseInput(lines).value.patterns[i], ParseInput(lines).value.towels, 0).Some?)
    ensures r.Ok? ==> r.value == Decomposables(ParseInput(lines).value.patterns, ParseInput(lines).value.towels)
    ensures ParseInput(lines).Ok? && NonEmpty(ParseInput(lines).value.towels) ==> r.Ok?
  {
    var input :- ParseInput(lines);
    CountFound(input.patterns, input.towels)
  }
}

=== FILE: day20_race.dfy ===
/** Day 20, puzzle 1: a race track. Removing one wall is a cheat; the answer
    counts the walls whose removal makes the shortest path from S to E at
    least 100 steps shorter. The shortest path comes from a breadth-first
    search over the open cells. */
module Day20Race {
  import opened Wrappers
  import D16 = Day16Maze

  type Coord = (int, int)

  datatype Type = Wall | Field

  /** What one character of the input stands for: `#` is a wall, anything
      else (`.`, `S`, `E`) open field. */
  function TypeOf(c: char): Type
  {
    if c == '#' then Wall else Field
  }

  /** `dropping(1).dropping_back(1)`: without the first and the last item,
      and empty when there are fewer than two. */
  function Inner<T>(s: seq<T>): (r: seq<T>)
    ensures |s| >= 2 ==> |r| == |s| - 2 && forall i :: 0 <= i < |r| ==> r[i] == s[i + 1]
    ensures |s| < 2 ==> r == []
  {
    if |s| >= 2 then s[1..|s| - 1] else []
  }

  /** Each line without its border columns. */
  function InnerRows(lines: seq<string>): (r: seq<string>)
    ensures |r| == |lines|
    ensures forall y :: 0 <= y < |r| ==> r[y] == Inner(lines[y])
  {
    if lines == [] then [] else [Inner(lines[0])] + InnerRows(lines[1..])
  }

  /** The part of the input inside the border: row y of the result is line
      y + 1 of the input, without its first and last character. */
  function Rows(lines: seq<string>): seq<string>
  {
    InnerRows(Inner(lines))
  }

  /** (column, row) is a cell of `rows`. */
  predicate InRows(rows: seq<string>, c: Coord)
  {
    0 <= c.1 < |rows| && 0 <= c.0 < |rows[c.1]|
  }

  /** The cells of the first `n` columns of one row, with their types. */
  function RowObjects(line: string, row: int, n: nat): (r: map<Coord, Type>)
    requires n <= |line|
    ensures forall c :: c in r <==> c.1 == row && 0 <= c.0 < n
    ensures forall c :: c in r ==> r[c] == TypeOf(line[c.0])
  {
    if n == 0 then map[] else RowObjects(line, row, n - 1)[(n - 1, row) := TypeOf(line[n - 1])]
  }

  /** `Map::objects` for the given rows: every cell, a wall or open field. */
  function Objects(rows: seq<string>): (r: map<Coord, Type>)
    ensures forall c :: c in r <==> InRows(rows, c)
    ensures forall c :: c in r ==> InRows(rows, c) && r[c] == TypeOf(rows[c.1][c.0])
  {
    if rows == [] then map[]
    else
      var n := |rows| - 1;
      var before := Objects(rows[..n]);
      var last := RowObjects(rows[n], n, |rows[n]|);
      var r := before + last;
      assert forall c :: c in r ==> (c in last ==> r[c] == last[c]) && (c !in last ==> r[c] == before[c]);
      r
  }

  /** Reading one more row. */
  lemma ReadRow(rows: seq<string>, row: nat)
    requires row < |rows|
    ensures Objects(rows[..row + 1]) == Objects(rows[..row]) + RowObjects(rows[row], row, |rows[row]|)
  {
    assert rows[..row + 1][..row] == rows[..row];
  }

  /** Updating a union at a key of its right operand. */
  lemma UnionUpdate(a: map<Coord, Type>, b: map<Coord, Type>, k: Coord, v: Type)
    ensures (a + b)[k := v] == a + b[k := v]
  {
  }

  /** `Map::from`, one row of the scan. */
  method ScanRow(line: string, row: int, objects: map<Coord, Type>, start: Coord, end: Coord)
    returns (objects': map<Coord, Type>, start': Coord, end': Coord)
    ensures objects' == objects + RowObjects(line, row, |line|)
    ensures start' == D16.After(line, row, 'S', start) && end' == D16.After(line, row, 'E', end)
  {
    objects', start', end' := objects, start, end;
    for column := 0 to |line|
      invariant objects' == objects + RowObjects(line, row, column)
      invariant start' == D16.After(line[..column], row, 'S', start) && end' == D16.After(line[..column], row, 'E', end)
    {
      assert line[..column + 1][..column] == line[..column];
      var c := line[column];
      var coord := (column, row);
      UnionUpdate(objects, RowObjects(line, row, column), coord, TypeOf(c));
      if c == '#' {
        objects' := objects'[coord := Wall];
      } else {
        objects' := objects'[coord := Field];
      }
      if c == 'S' {
        start' := coord;
      } else if c == 'E' {
        end' := coord;
      }
    }
    assert line[..|line|] == line;
  }

  /** The four cells next to `f`, in the order `get_neighbours` tries them. */
  function Around(f: Coord): seq<Coord>
  {
    [(f.0 - 1, f.1), (f.0 + 1, f.1), (f.0, f.1 - 1), (f.0, f.1 + 1)]
  }

  /** A cell of the map that is open field. */
  predicate Open(objects: map<Coord, Type>, c: Coord)
  {
    c in objects && objects[c] == Field
  }

  /** `c` is one of the four cells around `p` and open field. */
  predicate Adjacent(objects: map<Coord, Type>, p: Coord, c: Coord)
  {
    c in Around(p) && Open(objects, c)
  }

  /** The open cells of `cs`, in their order. */
  function OpenOf(objects: map<Coord, Type>, cs: seq<Coord>): (r: seq<Coord>)
    ensures |r| <= |cs|
    ensures forall c :: c in r <==> c in cs && Open(objects, c)
  {
    if cs == [] then []
    else
      var last := cs[|cs| - 1];
      assert forall c :: c in cs <==> c in cs[..|cs| - 1] || c == last;
      OpenOf(objects, cs[..|cs| - 1]) + (if Open(objects, last) then [last] else [])
  }

  /** The open cells next to `f`: the cells one step away in the search. */
  function Neighbours(objects: map<Coord, Type>, f: Coord): (r: seq<Coord>)
    ensures |r| <= 4
    ensures forall c :: c in r <==> Adjacent(objects, f, c)
  {
    OpenOf(objects, Around(f))
  }

  /** Cell `c` can be reached from `s` in at most `k` steps, each to an
      open neighbour. */
  ghost predicate Reach(objects: map<Coord, Type>, s: Coord, c: Coord, k: nat)
    decreases k
  {
    if k == 0 then c == s
    else Reach(objects, s, c, k - 1) || exists p :: Reach(objects, s, p, k - 1) && Adjacent(objects, p, c)
  }

  /** `d` is the length of a shortest path from `s` to `e`. */
  ghost predicate IsShortest(objects: map<Coord, Type>, s: Coord, e: Coord, d: nat)
  {
    Reach(objects, s, e, d) && forall j: nat :: j < d ==> !Reach(objects, s, e, j)
  }

  ghost predicate Reachable(objects: map<Coord, Type>, s: Coord, e: Coord)
  {
    exists k: nat :: Reach(objects, s, e, k)
  }

  /** A walk over open neighbours. */
  ghost predicate IsPath(objects: map<Coord, Type>, w: seq<Coord>)
  {
    |w| > 0 && forall i :: 0 <= i < |w| - 1 ==> Adjacent(objects, w[i], w[i + 1])
  }

  /** A cell reachable within `k` steps is also reachable within more. */
  lemma {:induction false} ReachMono(objects: map<Coord, Type>, s: Coord, c: Coord, j: nat, k: nat)
    requires j <= k
    ensures Reach(objects, s, c, j) ==> Reach(objects, s, c, k)
    decreases k - j
  {
    if j < k {
      ReachMono(objects, s, c, j + 1, k);
    }
  }

  /** Reaching within `k` steps is having a walk of at most `k` steps. */
  lemma {:induction false} ReachHasPath(objects: map<Coord, Type>, s: Coord, c: Coord, k: nat) returns (w: seq<Coord>)
    requires Reach(objects, s, c, k)
    ensures IsPath(objects, w) && w[0] == s && w[|w| - 1] == c && |w| <= k + 1
    decreases k
  {
    if k == 0 {
      w := [s];
    } else if Reach(objects, s, c, k - 1) {
      w := ReachHasPath(objects, s, c, k - 1);
    } else {
      var p :| Reach(objects, s, p, k - 1) && Adjacent(objects, p, c);
      var wp := ReachHasPath(objects, s, p, k - 1);
      w := wp + [c];
      assert forall i :: 0 <= i < |wp| ==> w[i] == wp[i];
    }
  }

  /** ...and the other way round. */
  lemma {:induction false} PathReaches(objects: map<Coord, Type>, w: seq<Coord>, k: nat)
    requires IsPath(objects, w) && |w| <= k + 1
    ensures Reach(objects, w[0], w[|w| - 1], k)
    decreases |w|
  {
    if |w| == 1 {
      ReachMono(objects, w[0], w[0], 0, k);
    } else {
      var init := w[..|w| - 1];
      assert forall i :: 0 <= i < |init| ==> init[i] == w[i];
      assert IsPath(objects, init);
      PathReaches(objects, init, |w| - 2);
      var p := init[|init| - 1];
      assert Adjacent(objects, p, w[|w| - 1]);
      assert Reach(objects, w[0], w[|w| - 1], |w| - 1);
      ReachMono(objects, w[0], w[|w| - 1], |w| - 1, k);
    }
  }

  /** The shortest distance is the least number of steps of a walk from `s`
      to `e`: one walk has that many, none has fewer. */
  lemma ShortestIsLeastSteps(objects: map<Coord, Type>, s: Coord, e: Coord, d: nat, w: seq<Coord>)
    requires IsShortest(objects, s, e, d)
    requires IsPath(objects, w) && w[0] == s && w[|w| - 1] == e
    ensures |w| - 1 >= d
    ensures exists v :: IsPath(objects, v) && v[0] == s && v[|v| - 1] == e && |v| - 1 == d
  {
    PathReaches(objects, w, |w| - 1);
    var v := ReachHasPath(objects, s, e, d);
    PathReaches(objects, v, |v| - 1);
  }

  /** There is at most one shortest distance. */
  lemma ShortestUnique(objects: map<Coord, Type>, s: Coord, e: Coord, d1: nat, d2: nat)
    requires IsShortest(objects, s, e, d1) && IsShortest(objects, s, e, d2)
    ensures d1 == d2
  {
  }

  /** A reachable cell has a shortest distance, no more than any bound it is
      reached within. */
  lemma {:induction false} ShortestExists(objects: map<Coord, Type>, s: Coord, e: Coord, k: nat)
    requires Reach(objects, s, e, k)
    ensures exists d: nat :: d <= k && IsShortest(objects, s, e, d)
    decreases k
  {
    if k > 0 && Reach(objects, s, e, k - 1) {
      ShortestExists(objects, s, e, k - 1);
    } else {
      forall j: nat | j < k
        ensures !Reach(objects, s, e, j)
      {
        ReachMono(objects, s, e, j, k - 1);
      }
      assert IsShortest(objects, s, e, k);
    }
  }

  /** The shortest distance from `s` to `e`. */
  ghost function Distance(objects: map<Coord, Type>, s: Coord, e: Coord): (d: nat)
    requires Reachable(objects, s, e)
    ensures IsShortest(objects, s, e, d)
  {
    var k: nat :| Reach(objects, s, e, k);
    ShortestExists(objects, s, e, k);
    var d: nat :| IsShortest(objects, s, e, d);
    d
  }

  /** Turning a cell into open field only adds neighbours. */
  lemma NeighboursGrow(objects: map<Coord, Type>, w: Coord, p: Coord, c: Coord)
    requires Adjacent(objects, p, c)
    ensures Adjacent(objects[w := Field], p, c)
  {
  }

  /** ...so whatever was reachable stays reachable within the same steps. */
  lemma {:induction false} ReachGrows(objects: map<Coord, Type>, w: Coord, s: Coord, c: Coord, k: nat)
    requires Reach(objects, s, c, k)
    ensures Reach(objects[w := Field], s, c, k)
    decreases k
  {
    if k > 0 {
      if Reach(objects, s, c, k - 1) {
        ReachGrows(objects, w, s, c, k - 1);
      } else {
        var p :| Reach(objects, s, p, k - 1) && Adjacent(objects, p, c);
        ReachGrows(objects, w, s, p, k - 1);
        NeighboursGrow(objects, w, p, c);
      }
    }
  }

  /** Removing a wall never makes the shortest path longer, so
      `default_distance - shortest_path` never goes below zero. */
  lemma RemoveWallNeverLonger(objects: map<Coord, Type>, w: Coord, s: Coord, e: Coord, d0: nat, d1: nat)
    requires IsShortest(objects, s, e, d0) && IsShortest(objects[w := Field], s, e, d1)
    ensures d1 <= d0
  {
    ReachGrows(objects, w, s, e, d0);
  }

  /** One entry of the search queue: a cell and the steps taken to it. */
  datatype Entry = Entry(at: Coord, distance: nat)

  /** The queue's front is index 0 (`push_front`), its back the last index
      (`pop_back`). Distances grow by at most one from back to front. */
  ghost predicate Sorted(queue: seq<Entry>)
  {
    forall i, j :: 0 <= i < j < |queue| ==> queue[j].distance <= queue[i].distance <= queue[j].distance + 1
  }

  /** An entry for `n` with at most `d` steps is waiting in the queue. */
  ghost predicate Queued(queue: seq<Entry>, n: Coord, d: nat)
  {
    exists i :: 0 <= i < |queue| && queue[i].at == n && queue[i].distance <= d
  }

  /** Every open neighbour of a settled cell has been seen or waits in the
      queue, one step further than the settled cell. */
  ghost predicate Closed(objects: map<Coord, Type>, settled: map<Coord, nat>, seen: set<Coord>, queue: seq<Entry>)
  {
    forall x, n :: x in settled && Adjacent(objects, x, n) ==> n in seen || Queued(queue, n, settled[x] + 1)
  }

  /** Every queued entry has a walk of its length from `s`. */
  ghost predicate Witnessed(objects: map<Coord, Type>, s: Coord, queue: seq<Entry>)
  {
    forall i :: 0 <= i < |queue| ==> Reach(objects, s, queue[i].at, queue[i].distance)
  }

  /** Every settled cell has its shortest distance from `s`. */
  ghost predicate SettledShortest(objects: map<Coord, Type>, s: Coord, settled: map<Coord, nat>)
  {
    forall x :: x in settled ==> IsShortest(objects, s, x, settled[x])
  }

  /** The loop invariant of `shortest_path`. `settled` is a ghost record of
      the cells taken off the queue, each with the distance it had the first
      time; `seen` is those cells and the start. */
  ghost predicate Searching(objects: map<Coord, Type>, s: Coord, e: Coord, queue: seq<Entry>, seen: set<Coord>,
                            settled: map<Coord, nat>)
  {
    && Sorted(queue)
    && Witnessed(objects, s, queue)
    && SettledShortest(objects, s, settled)
    && seen == settled.Keys + {s}
    && (s !in settled ==> queue == [Entry(s, 0)])
    && e !in settled
    && Closed(objects, settled, seen, queue)
  }

  /** Once the start is settled, every cell within `k` steps is settled or
      the next entry to be taken has at most `k` steps. */
  lemma {:induction false} Frontier(objects: map<Coord, Type>, s: Coord, e: Coord, queue: seq<Entry>, seen: set<Coord>,
                                    settled: map<Coord, nat>, c: Coord, k: nat)
    requires Searching(objects, s, e, queue, seen, settled) && s in settled
    ensures Reach(objects, s, c, k) ==> c in settled || (queue != [] && queue[|queue| - 1].distance <= k)
    decreases k
  {
    if k > 0 && Reach(objects, s, c, k) {
      if Reach(objects, s, c, k - 1) {
        Frontier(objects, s, e, queue, seen, settled, c, k - 1);
      } else {
        var p :| Reach(objects, s, p, k - 1) && Adjacent(objects, p, c);
        Frontier(objects, s, e, queue, seen, settled, p, k - 1);
        if p in settled && c !in seen {
          assert settled[p] <= k - 1;
          assert Queued(queue, c, settled[p] + 1);
          var i :| 0 <= i < |queue| && queue[i].at == c && queue[i].distance <= settled[p] + 1;
          assert i == |queue| - 1 || queue[|queue| - 1].distance <= queue[i].distance;
        }
      }
    }
  }

  /** An empty queue after the start was settled: the end cannot be
      reached. */
  lemma NoPathFound(objects: map<Coord, Type>, s: Coord, e: Coord, seen: set<Coord>, settled: map<Coord, nat>)
    requires Searching(objects, s, e, [], seen, settled)
    ensures !Reachable(objects, s, e)
  {
    forall k: nat
      ensures !Reach(objects, s, e, k)
    {
      Frontier(objects, s, e, [], seen, settled, e, k);
    }
  }

  /** The first time a cell is taken off the queue, its distance is the
      shortest one. */
  lemma FirstTakenIsShortest(objects: map<Coord, Type>, s: Coord, e: Coord, queue: seq<Entry>, seen: set<Coord>,
                             settled: map<Coord, nat>)
    requires Searching(objects, s, e, queue, seen, settled) && queue != []
    requires queue[|queue| - 1].at !in settled
    ensures IsShortest(objects, s, queue[|queue| - 1].at, queue[|queue| - 1].distance)
  {
    var cur := queue[|queue| - 1];
    assert Reach(objects, s, cur.at, cur.distance);
    if s in settled {
      forall j: nat | j < cur.distance
        ensures !Reach(objects, s, cur.at, j)
      {
        Frontier(objects, s, e, queue, seen, settled, cur.at, j);
      }
    }
  }

  /** The entries queued for the cells of `cs` not yet seen, each `d` steps
      away, most recent first. */
  function Fresh(cs: seq<Coord>, seen: set<Coord>, d: nat): (r: seq<Entry>)
    ensures forall i :: 0 <= i < |r| ==> r[i].distance == d && r[i].at in cs && r[i].at !in seen
  {
    if cs == [] then []
    else
      var last := cs[|cs| - 1];
      var init := cs[..|cs| - 1];
      var rest := Fresh(init, seen, d);
      var r := (if last !in seen then [Entry(last, d)] else []) + rest;
      assert forall c :: c in init ==> c in cs;
      assert forall i :: 0 <= i < |rest| ==> rest[i] == r[i + |r| - |rest|];
      r
  }

  /** Every unseen cell of `cs` is queued. */
  lemma {:induction false} FreshHas(cs: seq<Coord>, seen: set<Coord>, d: nat, c: Coord) returns (i: nat)
    requires c in cs && c !in seen
    ensures i < |Fresh(cs, seen, d)| && Fresh(cs, seen, d)[i].at == c
    decreases |cs|
  {
    var last := cs[|cs| - 1];
    var init := cs[..|cs| - 1];
    var r := Fresh(cs, seen, d);
    if c == last {
      i := 0;
    } else {
      assert c in init;
      var k := FreshHas(init, seen, d, c);
      var rest := Fresh(init, seen, d);
      i := k + |r| - |rest|;
      assert r[i] == rest[k];
    }
  }

  /** One more neighbour of the `for` loop. */
  lemma FreshStep(cs: seq<Coord>, i: nat, seen: set<Coord>, d: nat, rest: seq<Entry>)
    requires i < |cs|
    ensures Fresh(cs[..i + 1], seen, d) + rest
         == (if cs[i] !in seen then [Entry(cs[i], d)] else []) + (Fresh(cs[..i], seen, d) + rest)
  {
    assert cs[..i + 1][..i] == cs[..i];
  }

  /** Every unseen open neighbour is pushed. */
  lemma PushedCovers(objects: map<Coord, Type>, at: Coord, seen: set<Coord>, d: nat)
    ensures forall n :: Adjacent(objects, at, n) && n !in seen ==>
      exists i :: 0 <= i < |Fresh(Neighbours(objects, at), seen, d)| && Fresh(Neighbours(objects, at), seen, d)[i].at == n
  {
    var pushed := Fresh(Neighbours(objects, at), seen, d);
    forall n | Adjacent(objects, at, n) && n !in seen
      ensures exists i :: 0 <= i < |pushed| && pushed[i].at == n
    {
      var i := FreshHas(Neighbours(objects, at), seen, d, n);
      assert pushed[i].at == n;
    }
  }

  /** After the pop every settled cell still has its shortest distance. */
  lemma SettledAfter(objects: map<Coord, Type>, s: Coord, e: Coord, queue: seq<Entry>, seen: set<Coord>,
                     settled: map<Coord, nat>, settled': map<Coord, nat>)
    requires Searching(objects, s, e, queue, seen, settled) && queue != []
    requires var cur := queue[|queue| - 1];
      settled' == (if cur.at in settled then settled else settled[cur.at := cur.distance])
    ensures SettledShortest(objects, s, settled')
  {
    if queue[|queue| - 1].at !in settled {
      FirstTakenIsShortest(objects, s, e, queue, seen, settled);
    }
  }

  /** After the pop and the pushes the queue is still sorted. */
  lemma SortedAfter(queue: seq<Entry>, pushed: seq<Entry>, d: nat)
    requires Sorted(queue) && queue != [] && d == queue[|queue| - 1].distance + 1
    requires forall i :: 0 <= i < |pushed| ==> pushed[i].distance == d
    ensures Sorted(pushed + queue[..|queue| - 1])
  {
    var rest := queue[..|queue| - 1];
    var q := pushed + rest;
    forall i, j | 0 <= i < j < |q|
      ensures q[j].distance <= q[i].distance <= q[j].distance + 1
    {
      if j >= |pushed| {
        assert q[j] == queue[j - |pushed|];
        if i >= |pushed| {
          assert q[i] == queue[i - |pushed|];
        }
      }
    }
  }

  /** After the pop and the pushes the closure still holds. */
  lemma ClosedAfter(objects: map<Coord, Type>, s: Coord, queue: seq<Entry>, seen: set<Coord>,
                    settled: map<Coord, nat>, seen': set<Coord>, settled': map<Coord, nat>, pushed: seq<Entry>)
    requires Closed(objects, settled, seen, queue) && queue != []
    requires var cur := queue[|queue| - 1];
      && seen' == seen + {cur.at}
      && settled' == (if cur.at in settled then settled else settled[cur.at := cur.distance])
      && (forall n :: Adjacent(objects, cur.at, n) && n !in seen' ==> exists i :: 0 <= i < |pushed| && pushed[i].at == n)
      && forall i :: 0 <= i < |pushed| ==> pushed[i].distance == cur.distance + 1
    ensures Closed(objects, settled', seen', pushed + queue[..|queue| - 1])
  {
    var cur := queue[|queue| - 1];
    var q := pushed + queue[..|queue| - 1];
    forall x, n | x in settled' && Adjacent(objects, x, n) && n !in seen'
      ensures Queued(q, n, settled'[x] + 1)
    {
      if x in settled {
        assert settled'[x] == settled[x];
        var i :| 0 <= i < |queue| && queue[i].at == n && queue[i].distance <= settled[x] + 1;
        assert i < |queue| - 1;
        assert q[i + |pushed|] == queue[i];
      } else {
        assert x == cur.at && settled'[x] == cur.distance;
        var i :| 0 <= i < |pushed| && pushed[i].at == n;
        assert q[i] == pushed[i];
      }
    }
  }

  /** After the pop and the pushes every queued entry still has a walk of
      its length. */
  lemma WitnessedAfter(objects: map<Coord, Type>, s: Coord, queue: seq<Entry>, pushed: seq<Entry>)
    requires queue != [] && Witnessed(objects, s, queue)
    requires var cur := queue[|queue| - 1];
      forall i :: 0 <= i < |pushed| ==> pushed[i].distance == cur.distance + 1 && Adjacent(objects, cur.at, pushed[i].at)
    ensures Witnessed(objects, s, pushed + queue[..|queue| - 1])
  {
    var cur := queue[|queue| - 1];
    var q := pushed + queue[..|queue| - 1];
    forall i | 0 <= i < |q|
      ensures Reach(objects, s, q[i].at, q[i].distance)
    {
      if i < |pushed| {
        assert Reach(objects, s, cur.at, cur.distance) && Adjacent(objects, cur.at, pushed[i].at);
      } else {
        assert q[i] == queue[i - |pushed|];
      }
    }
  }

  /** After the pop the seen cells are still the settled ones and the
      start, and the end is still not settled. */
  lemma KeysAfter(s: Coord, e: Coord, queue: seq<Entry>, seen: set<Coord>, settled: map<Coord, nat>,
                  seen': set<Coord>, settled': map<Coord, nat>)
    requires queue != [] && seen == settled.Keys + {s} && e !in settled
    requires s !in settled ==> queue == [Entry(s, 0)]
    requires var cur := queue[|queue| - 1];
      && cur.at != e
      && seen' == seen + {cur.at}
      && settled' == (if cur.at in settled then settled else settled[cur.at := cur.distance])
    ensures seen' == settled'.Keys + {s} && e !in settled' && s in settled'
  {
  }

  /** One round of `shortest_path` keeps the invariant: the back entry is
      taken, its cell settled if it is new, and its unseen open neighbours
      pushed one step further. */
  lemma Advance(objects: map<Coord, Type>, s: Coord, e: Coord, queue: seq<Entry>, seen: set<Coord>,
                settled: map<Coord, nat>, seen': set<Coord>, settled': map<Coord, nat>, queue': seq<Entry>)
    requires Searching(objects, s, e, queue, seen, settled) && queue != []
    requires var cur := queue[|queue| - 1];
      && cur.at != e
      && seen' == seen + {cur.at}
      && settled' == (if cur.at in settled then settled else settled[cur.at := cur.distance])
      && queue' == Fresh(Neighbours(objects, cur.at), seen', cur.distance + 1) + queue[..|queue| - 1]
    ensures Searching(objects, s, e, queue', seen', settled')
  {
    var cur := queue[|queue| - 1];
    var pushed := Fresh(Neighbours(objects, cur.at), seen', cur.distance + 1);
    PushedCovers(objects, cur.at, seen', cur.distance + 1);
    SettledAfter(objects, s, e, queue, seen, settled, settled');
    SortedAfter(queue, pushed, cur.distance + 1);
    WitnessedAfter(objects, s, queue, pushed);
    ClosedAfter(objects, s, queue, seen, settled, seen', settled', pushed);
    KeysAfter(s, e, queue, seen, settled, seen', settled');
  }

  /** The race track. */
  class Map {
    var objects: map<Coord, Type>
    var start: Coord
    var end: Coord

    /** `Map::from`: the cells inside the border, each a wall or open field;
        `start` and `end` at the last S and E, or at (0, 0). */
    constructor From(lines: seq<string>)
      ensures objects == Objects(Rows(lines))
      ensures start == D16.Position(Rows(lines), 'S') && end == D16.Position(Rows(lines), 'E')
    {
      var rows := Rows(lines);
      var objs: map<Coord, Type> := map[];
      var s: Coord, e: Coord := (0, 0), (0, 0);
      for row := 0 to |rows|
        invariant objs == Objects(rows[..row])
        invariant s == D16.Position(rows[..row], 'S') && e == D16.Position(rows[..row], 'E')
      {
        ReadRow(rows, row);
        D16.ReadRow(rows, row);
        objs, s, e := ScanRow(rows[row], row, objs, s, e);
      }
      assert rows[..|rows|] == rows;
      objects, start, end := objs, s, e;
    }

    /** The derived `clone`. */
    constructor Clone(other: Map)
      ensures objects == other.objects && start == other.start && end == other.end
    {
      objects, start, end := other.objects, other.start, other.end;
    }

    /** `remove_wall`: the cell becomes open field; nothing else changes. */
    method RemoveWall(w: Coord)
      modifies this
      ensures objects == old(objects)[w := Field]
      ensures start == old(start) && end == old(end)
    {
      objects := objects[w := Field];
    }

    /** `get_neighbours`: the open cells among the four around `f`. */
    method GetNeighbours(f: Coord) returns (r: seq<Coord>)
      ensures r == Neighbours(objects, f)
    {
      var candidates := Around(f);
      r := [];
      for i := 0 to |candidates|
        invariant r == OpenOf(objects, candidates[..i])
      {
        assert candidates[..i + 1][..i] == candidates[..i];
        var c := candidates[i];
        if c in objects && objects[c] == Field {
          r := r + [c];
        }
      }
      assert candidates[..|candidates|] == candidates;
    }

    /** `shortest_path`: breadth-first search from `start` until an entry
        for `end` is taken off the queue. A cell is marked seen when taken
        off, so a cell can be queued more than once. The source panics when
        the queue runs empty; here that is `NoPath`. The loop is bounded by
        `fuel`. */
    method ShortestPath(fuel: nat) returns (r: Result<nat>)
      ensures r.Ok? ==> IsShortest(objects, start, end, r.value)
      ensures r.Err? ==> r.error == NoPath || r.error == OutOfFuel
      ensures r == Err(NoPath) ==> !Reachable(objects, start, end)
    {
      var queue: seq<Entry> := [Entry(start, 0)];
      var seen: set<Coord> := {start};
      ghost var settled: map<Coord, nat> := map[];
      var left := fuel;
      while true
        invariant Searching(objects, start, end, queue, seen, settled)
        decreases left
      {
        if queue == [] {
          NoPathFound(objects, start, end, seen, settled);
          return Err(NoPath);
        }
        if left == 0 {
          return Err(OutOfFuel);
        }
        left := left - 1;
        var current := queue[|queue| - 1];
        if current.at !in settled {
          FirstTakenIsShortest(objects, start, end, queue, seen, settled);
        }
        if current.at == end {
          return Ok(current.distance);
        }
        ghost var before, seenBefore, settledBefore := queue, seen, settled;
        queue := queue[..|queue| - 1];
        seen := seen + {current.at};
        if current.at !in settled {
          settled := settled[current.at := current.distance];
        }
        var ns := GetNeighbours(current.at);
        queue := Push(ns, seen, current.distance + 1, queue);
        Advance(objects, start, end, before, seenBefore, settledBefore, seen, settled, queue);
      }
    }
  }

  /** The `for` loop of `shortest_path`: an entry `d` steps away is pushed
      to the front for each neighbour in `ns` not yet seen. */
  method Push(ns: seq<Coord>, seen: set<Coord>, d: nat, rest: seq<Entry>) returns (queue: seq<Entry>)
    ensures queue == Fresh(ns, seen, d) + rest
  {
    queue := rest;
    for i := 0 to |ns|
      invariant queue == Fresh(ns[..i], seen, d) + rest
    {
      FreshStep(ns, i, seen, d, rest);
      if ns[i] !in seen {
        queue := [Entry(ns[i], d)] + queue;
      }
    }
    assert ns[..|ns|] == ns;
  }

  const NoPath := "no path from start to end"
  const OutOfFuel := "the search did not finish"

  /** Removing wall `w` saves at least 100 steps. */
  ghost predicate IsCheat(objects: map<Coord, Type>, s: Coord, e: Coord, w: Coord)
    requires Reachable(objects, s, e)
  {
    && w in objects && objects[w] == Wall
    && Reachable(objects[w := Field], s, e)
    && Distance(objects, s, e) - Distance(objects[w := Field], s, e) >= 100
  }

  /** The walls whose removal saves at least 100 steps. */
  ghost function Cheats(objects: map<Coord, Type>, s: Coord, e: Coord): set<Coord>
    requires Reachable(objects, s, e)
  {
    set w | w in objects.Keys && IsCheat(objects, s, e, w)
  }

  /** One wall of `process`: its removal is tried on a clone. */
  method TryWall(m: Map, w: Coord, defaultDistance: nat, fuel: nat) returns (r: Result<bool>)
    requires IsShortest(m.objects, m.start, m.end, defaultDistance)
    requires w in m.objects && m.objects[w] == Wall
    ensures r.Ok? ==> (r.value <==> IsCheat(m.objects, m.start, m.end, w))
    ensures r.Err? ==> r.error == OutOfFuel
  {
    var cm := new Map.Clone(m);
    cm.RemoveWall(w);
    var shortestPath := cm.ShortestPath(fuel);
    if shortestPath.Err? {
      if shortestPath.error == NoPath {
        ReachGrows(m.objects, w, m.start, m.end, defaultDistance);
        assert false;
      }
      return Err(shortestPath.error);
    }
    RemoveWallNeverLonger(m.objects, w, m.start, m.end, defaultDistance, shortestPath.value);
    ShortestUnique(m.objects, m.start, m.end, defaultDistance, Distance(m.objects, m.start, m.end));
    ShortestUnique(cm.objects, m.start, m.end, shortestPath.value, Distance(cm.objects, m.start, m.end));
    return Ok(defaultDistance - shortestPath.value >= 100);
  }

  /** `process`: the number of walls whose removal saves at least 100
      steps, each tried on a clone of the parsed map, in any order. */
  method Process(lines: seq<string>, fuel: nat) returns (r: Result<nat>)
    ensures var objects, s, e := Objects(Rows(lines)), D16.Position(Rows(lines), 'S'), D16.Position(Rows(lines), 'E');
      r.Ok? ==> Reachable(objects, s, e) && r.value == |Cheats(objects, s, e)|
    ensures var objects, s, e := Objects(Rows(lines)), D16.Position(Rows(lines), 'S'), D16.Position(Rows(lines), 'E');
      r == Err(NoPath) ==> !Reachable(objects, s, e)
  {
    var m := new Map.From(lines);
    var defaultDistance := m.ShortestPath(fuel);
    if defaultDistance.Err? {
      return Err(defaultDistance.error);
    }
    r := CountCheats(m, defaultDistance.value, fuel);
  }

  /** The loop of `process` over the walls, in any order. */
  method CountCheats(m: Map, defaultDistance: nat, fuel: nat) returns (r: Result<nat>)
    requires IsShortest(m.objects, m.start, m.end, defaultDistance)
    ensures Reachable(m.objects, m.start, m.end)
    ensures r.Ok? ==> r.value == |Cheats(m.objects, m.start, m.end)|
    ensures r.Err? ==> r.error == OutOfFuel
  {
    var walls := set c | c in m.objects && m.objects[c] == Wall;
    var remaining := walls;
    ghost var found: set<Coord> := {};
    var cheatCounter := 0;
    while remaining != {}
      invariant remaining <= walls
      invariant forall c :: c in found ==> c in walls && c !in remaining
      invariant forall c :: c in walls && c !in remaining ==> (c in found <==> IsCheat(m.objects, m.start, m.end, c))
      invariant cheatCounter == |found|
      decreases |remaining|
    {
      var w :| w in remaining;
      var cheat := TryWall(m, w, defaultDistance, fuel);
      if cheat.Err? {
        return Err(cheat.error);
      }
      if cheat.value {
        found := found + {w};
        cheatCounter := cheatCounter + 1;
      }
      remaining := remaining - {w};
    }
    assert found == Cheats(m.objects, m.start, m.end);
    return Ok(cheatCounter);
  }
}

=== FILE: day22_secrets.dfy ===
/** Day 22, puzzle 1: the monkey-market secret generator. A buyer's secret is put
    through `rounds` rounds; each round is three mix-and-prune steps. */
module Day22Secrets {
  import opened Bits
  import Wrappers
  import Decimal

  /** Pruning keeps the secret modulo 2^24. */
  const Modulus: nat := 16777216

  lemma ModulusIsPow2()
    ensures Modulus == Pow2(24)
  {
    assert Pow2(4) == 16;
    assert Pow2(8) == 256 by { assert Pow2(8) == Pow2(4) * 16 by {
      assert Pow2(8) == 2 * 2 * 2 * 2 * Pow2(4); } }
    assert Pow2(16) == 65536 by { assert Pow2(16) == 2 * 2 * 2 * 2 * 2 * 2 * 2 * 2 * Pow2(8); }
    assert Pow2(24) == 2 * 2 * 2 * 2 * 2 * 2 * 2 * 2 * Pow2(16);
  }

  /** One step: mix `value` into the secret with exclusive or, then prune. */
  function MixPrune(value: nat, secret: nat): (r: nat)
    ensures r < Modulus
  {
    Xor(value, secret) % Modulus
  }

  /** One round: multiply by 64, divide by 32, multiply by 2048, in that order. */
  function Round(secret: nat): (r: nat)
    ensures r < Modulus
  {
    var s1 := MixPrune(secret * 64, secret);
    var s2 := MixPrune(s1 / 32, s1);
    MixPrune(s2 * 2048, s2)
  }

  /** The secret after `rounds` rounds, applied one after the other to the seed. */
  function Secret(seed: nat, rounds: nat): (r: nat)
    ensures rounds == 0 ==> r == seed
    ensures rounds > 0 ==> r < Modulus
  {
    if rounds == 0 then seed else Round(Secret(seed, rounds - 1))
  }

  /** Running m rounds and then n more is running m + n rounds. */
  lemma {:induction false} SecretSplits(seed: nat, m: nat, n: nat)
    ensures Secret(seed, m + n) == Secret(Secret(seed, m), n)
    decreases n
  {
    if n > 0 {
      SecretSplits(seed, m, n - 1);
    }
  }

  /** A pruned secret stays pruned by a further round (the mixes never widen it
      past 2^35, so the u64 arithmetic of the source cannot overflow once the
      secret is below 2^24). */
  lemma {:induction false} RoundFromPrunedFitsU64(secret: nat)
    requires secret < Modulus
    ensures secret * 64 < 0x1_0000_0000_0000_0000
    ensures MixPrune(secret * 64, secret) * 2048 < 0x1_0000_0000_0000_0000
  {
  }

  /** `Buyer::compute`: the counted loop that updates the secret three times per
      iteration. */
  method Compute(seed: nat, rounds: nat) returns (secret: nat)
    ensures secret == Secret(seed, rounds)
    ensures rounds > 0 ==> secret < Modulus
  {
    secret := seed;
    var i := 0;
    while i < rounds
      invariant 0 <= i <= rounds
      invariant secret == Secret(seed, i)
    {
      secret := MixPrune(secret * 64, secret);
      secret := MixPrune(secret / 32, secret);
      secret := MixPrune(secret * 2048, secret);
      i := i + 1;
    }
  }

  /** The `fold` of `process`: every buyer's 2000th secret, added up. */
  function SumOfSecrets(seeds: seq<nat>): (r: nat)
    ensures r <= (Modulus - 1) * |seeds|
    ensures forall i :: 0 <= i < |seeds| ==> Secret(seeds[i], 2000) <= r
  {
    if seeds == [] then 0
    else
      var rest := SumOfSecrets(seeds[1..]);
      assert forall i :: 1 <= i < |seeds| ==> seeds[i] == seeds[1..][i - 1];
      Secret(seeds[0], 2000) + rest
  }

  /** The sum over two groups of buyers is the sum of the two sums, so the order
      in which the fold meets the buyers only matters through the grouping. */
  lemma {:induction false} SumOfSecretsAppend(a: seq<nat>, b: seq<nat>)
    ensures SumOfSecrets(a + b) == SumOfSecrets(a) + SumOfSecrets(b)
    decreases |a|
  {
    if a == [] {
      assert a + b == b;
    } else {
      assert (a + b)[1..] == a[1..] + b;
      SumOfSecretsAppend(a[1..], b);
    }
  }

  /** The largest value a `u64` holds, plus one. */
  const U64Limit: nat := 0x1_0000_0000_0000_0000

  /** `Buyer::from`: `parse::<u64>().unwrap()`; no digits, another character or a
      value past the `u64` range is an error. A seed of 2^58 or more overflows
      the first `new_secret * 64`, which panics in a debug build; that is an
      error too. */
  function BuyerFrom(s: string): (r: Wrappers.Result<nat>)
    ensures r.Ok? <==> Decimal.ParseNumber(s).Ok? && Decimal.ParseNumber(s).value * 64 < U64Limit
    ensures r.Ok? ==> r.value == Decimal.ParseNumber(s).value
  {
    var seed :- Decimal.ParseNumber(s);
    if seed >= U64Limit then Wrappers.Err("number too large to fit in target type")
    else if seed * 64 >= U64Limit then Wrappers.Err("attempt to multiply with overflow")
    else Wrappers.Ok(seed)
  }

  /** Every line read by `BuyerFrom`, or the first failure. */
  function Buyers(lines: seq<string>): (r: Wrappers.Result<seq<nat>>)
    ensures r.Ok? <==> forall i :: 0 <= i < |lines| ==> BuyerFrom(lines[i]).Ok?
    ensures r.Ok? ==> |r.value| == |lines| && forall i :: 0 <= i < |lines| ==> BuyerFrom(lines[i]) == Wrappers.Ok(r.value[i])
  {
    if lines == [] then Wrappers.Ok([])
    else
      var first :- BuyerFrom(lines[0]);
      var rest :- Buyers(lines[1..]);
      assert forall i :: 1 <= i < |lines| ==> lines[i] == lines[1..][i - 1];
      Wrappers.Ok([first] + rest)
  }

  /** `process`: the sum of every buyer's 2000th secret; it fails exactly when
      some line is not a seed. Each secret is below 2^24, so the sum is below
      2^24 per buyer. */
  function Process(lines: seq<string>): (r: Wrappers.Result<nat>)
    ensures r.Ok? <==> forall i :: 0 <= i < |lines| ==> BuyerFrom(lines[i]).Ok?
    ensures r.Ok? ==> r.value <= (Modulus - 1) * |lines|
    ensures r.Ok? ==> forall i :: 0 <= i < |lines| ==> Secret(BuyerFrom(lines[i]).value, 2000) <= r.value
  {
    var seeds :- Buyers(lines);
    Wrappers.Ok(SumOfSecrets(seeds))
  }
}

=== FILE: day23_lan.dfy ===
/** Day 23, puzzle 1: a network of computers given as links "ab-cd". The
    answer counts the sets of three computers that are all linked to each
    other and of which at least one has a name starting with `t`. */
module Day23Lan {
  import opened Wrappers
  import opened Text

  /** One line of the input: the two computers it links. */
  datatype Link = Link(from: string, to: string)

  /** A set of three computers, kept in ascending order. */
  datatype Triangle = Triangle(a: string, b: string, c: string)

  /** `line.split("-")`, first and second piece; a line without `-` has no
      second piece, where `unwrap` panics. */
  function ParseLink(line: string): (r: Result<Link>)
    ensures r.Ok? <==> |SplitOn(line, "-")| >= 2
    ensures r.Ok? ==> r.value == Link(SplitOn(line, "-")[0], SplitOn(line, "-")[1])
  {
    var pieces := SplitOn(line, "-");
    if |pieces| < 2 then Err("a link needs two computers") else Ok(Link(pieces[0], pieces[1]))
  }

  /** A link written back as a line is read again as the same link. */
  lemma ParseLinkJoin(a: string, b: string)
    requires '-' !in a && '-' !in b
    ensures ParseLink(a + "-" + b) == Ok(Link(a, b))
  {
    SplitJoin([a, b], "-");
    assert Join([a, b], "-") == a + "-" + Join([b], "-");
  }

  /** Every line read as a link. */
  function ParseLinks(lines: seq<string>): (r: Result<seq<Link>>)
    ensures r.Ok? <==> forall i :: 0 <= i < |lines| ==> ParseLink(lines[i]).Ok?
    ensures r.Ok? ==> |r.value| == |lines| && forall i :: 0 <= i < |lines| ==> ParseLink(lines[i]) == Ok(r.value[i])
  {
    if lines == [] then Ok([])
    else
      var first := ParseLink(lines[0]);
      var rest := ParseLinks(lines[1..]);
      assert forall i :: 1 <= i < |lines| ==> lines[i] == lines[1..][i - 1];
      if first.Err? then Err(first.error)
      else if rest.Err? then Err(rest.error)
      else Ok([first.value] + rest.value)
  }

  /** The neighbour list of `n`, empty when `n` has none yet. */
  function Adjacency(edges: map<string, seq<string>>, n: string): seq<string>
  {
    if n in edges then edges[n] else []
  }

  /** `to` is on the neighbour list of `from`. */
  predicate Linked(edges: map<string, seq<string>>, from: string, to: string)
  {
    from in edges && to in edges[from]
  }

  /** `add_edge` on a map: both computers get a list, `to` is appended to the
      list of `from` and then `from` to the list of `to`. */
  function Added(edges: map<string, seq<string>>, from: string, to: string): map<string, seq<string>>
  {
    var first := edges[from := Adjacency(edges, from) + [to]];
    first[to := Adjacency(first, to) + [from]]
  }

  /** After `add_edge` the two computers have lists, and nothing else does
      that did not before. */
  lemma AddedKeys(edges: map<string, seq<string>>, from: string, to: string)
    ensures Added(edges, from, to).Keys == edges.Keys + {from, to}
  {
  }

  /** After `add_edge` a link is an old one or the new one, in either
      direction. */
  lemma AddedLinked(edges: map<string, seq<string>>, from: string, to: string, x: string, y: string)
    ensures Linked(Added(edges, from, to), x, y) <==> Linked(edges, x, y) || (x == from && y == to) || (x == to && y == from)
  {
    var first := edges[from := Adjacency(edges, from) + [to]];
    assert Linked(first, x, y) <==> Linked(edges, x, y) || (x == from && y == to);
  }

  /** The map `Graph::from` builds from the links, in order. */
  function Build(links: seq<Link>): map<string, seq<string>>
  {
    if links == [] then map[]
    else
      var last := links[|links| - 1];
      Added(Build(links[..|links| - 1]), last.from, last.to)
  }

  /** The computers of the built graph are those named in a link. */
  lemma {:induction false} BuildKeys(links: seq<Link>, n: string)
    ensures n in Build(links) <==> exists i :: 0 <= i < |links| && (links[i].from == n || links[i].to == n)
  {
    if links != [] {
      var init := links[..|links| - 1];
      var last := links[|links| - 1];
      BuildKeys(init, n);
      AddedKeys(Build(init), last.from, last.to);
      if exists i :: 0 <= i < |init| && (init[i].from == n || init[i].to == n) {
        var i :| 0 <= i < |init| && (init[i].from == n || init[i].to == n);
        assert links[i] == init[i];
      }
      if exists i :: 0 <= i < |links| && (links[i].from == n || links[i].to == n) {
        var i :| 0 <= i < |links| && (links[i].from == n || links[i].to == n);
        if i < |init| {
          assert init[i] == links[i];
        }
      }
    }
  }

  /** Two computers are linked in the built graph exactly when some line
      links them, in either order. */
  lemma {:induction false} BuildLinked(links: seq<Link>, x: string, y: string)
    ensures Linked(Build(links), x, y) <==> exists i :: 0 <= i < |links| && (links[i] == Link(x, y) || links[i] == Link(y, x))
  {
    if links != [] {
      var init := links[..|links| - 1];
      var last := links[|links| - 1];
      BuildLinked(init, x, y);
      AddedLinked(Build(init), last.from, last.to, x, y);
      if exists i :: 0 <= i < |init| && (init[i] == Link(x, y) || init[i] == Link(y, x)) {
        var i :| 0 <= i < |init| && (init[i] == Link(x, y) || init[i] == Link(y, x));
        assert links[i] == init[i];
      }
      if exists i :: 0 <= i < |links| && (links[i] == Link(x, y) || links[i] == Link(y, x)) {
        var i :| 0 <= i < |links| && (links[i] == Link(x, y) || links[i] == Link(y, x));
        if i < |init| {
          assert init[i] == links[i];
        }
      }
    }
  }

  /** Every link goes both ways. */
  ghost predicate Symmetric(edges: map<string, seq<string>>)
  {
    forall x, y :: Linked(edges, x, y) ==> Linked(edges, y, x)
  }

  /** Every listed neighbour has a list of its own, so looking it up does
      not fail. */
  ghost predicate Closed(edges: map<string, seq<string>>)
  {
    forall x, y :: Linked(edges, x, y) ==> y in edges
  }

  /** The graph `Graph::from` builds is symmetric, and so closed. */
  lemma BuildSymmetric(links: seq<Link>)
    ensures Symmetric(Build(links)) && Closed(Build(links))
  {
    forall x, y | Linked(Build(links), x, y)
      ensures Linked(Build(links), y, x)
    {
      BuildLinked(links, x, y);
      BuildLinked(links, y, x);
    }
  }

  predicate IsSorted(t: Triangle)
  {
    Below(t.a, t.b) && Below(t.b, t.c)
  }

  /** `t` holds `x`, `y` and `z` in some order. */
  predicate IsPermutation(t: Triangle, x: string, y: string, z: string)
  {
    || t == Triangle(x, y, z) || t == Triangle(x, z, y)
    || t == Triangle(y, x, z) || t == Triangle(y, z, x)
    || t == Triangle(z, x, y) || t == Triangle(z, y, x)
  }

  /** `clique.sort()` on three names. */
  function Sort3(x: string, y: string, z: string): (r: Triangle)
    ensures IsSorted(r) && IsPermutation(r, x, y, z)
  {
    BelowTotal(x, y);
    var (p, q) := if Below(x, y) then (x, y) else (y, x);
    BelowTotal(q, z);
    var (q', c) := if Below(q, z) then (q, z) else (z, q);
    BelowTotal(p, q');
    var (a, b) := if Below(p, q') then (p, q') else (q', p);
    if Below(q, z) then
      Triangle(a, b, c)
    else
      assert Below(p, q) && Below(z, q);
      assert Below(a, b) && Below(b, c) by {
        if Below(p, z) {
          assert (a, b) == (p, z);
        } else {
          BelowTotal(p, z);
          BelowTransitive(z, p, q);
        }
      }
      Triangle(a, b, c)
  }

  /** A sorted triangle is the only sorted order of its names. */
  lemma SortedUnique(t: Triangle, u: Triangle)
    requires IsSorted(t) && IsSorted(u) && IsPermutation(u, t.a, t.b, t.c)
    ensures t == u
  {
    BelowTransitive(t.a, t.b, t.c);
    BelowTransitive(u.a, u.b, u.c);
    if u.a != t.a {
      if u.a == t.b {
        BelowAntisymmetric(t.a, t.b);
      } else {
        BelowAntisymmetric(t.a, t.c);
      }
    }
    if u.b != t.b {
      if u.b == t.c {
        BelowAntisymmetric(t.b, t.c);
      } else {
        BelowAntisymmetric(t.a, t.b);
      }
    }
  }

  /** Each triangle is stored once: sorting does not depend on the order in
      which the three names are found. */
  lemma SortIgnoresOrder(x: string, y: string, z: string, x': string, y': string, z': string)
    requires IsPermutation(Triangle(x', y', z'), x, y, z)
    ensures Sort3(x', y', z') == Sort3(x, y, z)
  {
    var t := Sort3(x, y, z);
    SortedUnique(t, Sort3(x', y', z'));
  }

  /** A sorted triangle is its own sorted order. */
  lemma SortSorted(t: Triangle)
    requires IsSorted(t)
    ensures Sort3(t.a, t.b, t.c) == t
  {
    SortedUnique(t, Sort3(t.a, t.b, t.c));
  }

  /** The triangles found around `n` with first neighbour from `firsts`
      and second neighbour from `seconds`. */
  function Around(edges: map<string, seq<string>>, n: string, firsts: seq<string>, seconds: seq<string>): set<Triangle>
  {
    set x, y | x in firsts && y in seconds && Linked(edges, x, y) :: Sort3(n, x, y)
  }

  /** The triangles found around the computers of `nodes`. */
  function Over(edges: map<string, seq<string>>, nodes: set<string>): set<Triangle>
  {
    set n, x, y | n in nodes && n in edges && x in edges[n] && y in edges[n] && Linked(edges, x, y) :: Sort3(n, x, y)
  }

  /** What `find_cliques` returns: for every computer and every pair of its
      neighbours that are linked, the three names sorted. */
  function Cliques(edges: map<string, seq<string>>): set<Triangle>
  {
    Over(edges, edges.Keys)
  }

  /** All three pairs of `t` are linked, both ways. */
  predicate Connected(edges: map<string, seq<string>>, t: Triangle)
  {
    && Linked(edges, t.a, t.b) && Linked(edges, t.b, t.a)
    && Linked(edges, t.a, t.c) && Linked(edges, t.c, t.a)
    && Linked(edges, t.b, t.c) && Linked(edges, t.c, t.b)
  }

  /** In a symmetric graph, every triple `find_cliques` returns is sorted
      and pairwise linked, and every such triple is returned. */
  lemma CliquesAreTriangles(edges: map<string, seq<string>>, t: Triangle)
    requires Symmetric(edges)
    ensures t in Cliques(edges) <==> IsSorted(t) && Connected(edges, t)
  {
    if t in Cliques(edges) {
      var n, x, y :| n in edges && x in edges[n] && y in edges[n] && Linked(edges, x, y) && t == Sort3(n, x, y);
      assert Connected(edges, Triangle(n, x, y));
      assert IsPermutation(t, n, x, y);
    }
    if IsSorted(t) && Connected(edges, t) {
      SortSorted(t);
      assert t.a in edges && t.b in edges[t.a] && t.c in edges[t.a] && Linked(edges, t.b, t.c);
    }
  }

  /** Adding one computer to those looked at. */
  lemma OverStep(edges: map<string, seq<string>>, nodes: set<string>, n: string)
    requires n in edges
    ensures Over(edges, nodes + {n}) == Over(edges, nodes) + Around(edges, n, edges[n], edges[n])
  {
    var left := Over(edges, nodes + {n});
    var right := Over(edges, nodes) + Around(edges, n, edges[n], edges[n]);
    forall t | t in left
      ensures t in right
    {
      var m, x, y :| m in nodes + {n} && m in edges && x in edges[m] && y in edges[m] && Linked(edges, x, y) && t == Sort3(m, x, y);
      if m != n {
        assert t in Over(edges, nodes);
      }
    }
  }

  /** One more first neighbour. */
  lemma AroundFirst(edges: map<string, seq<string>>, n: string, firsts: seq<string>, i: nat, seconds: seq<string>)
    requires i < |firsts|
    ensures Around(edges, n, firsts[..i + 1], seconds) == Around(edges, n, firsts[..i], seconds) + Around(edges, n, [firsts[i]], seconds)
  {
    var left := Around(edges, n, firsts[..i + 1], seconds);
    forall t | t in left
      ensures t in Around(edges, n, firsts[..i], seconds) + Around(edges, n, [firsts[i]], seconds)
    {
      var x, y :| x in firsts[..i + 1] && y in seconds && Linked(edges, x, y) && t == Sort3(n, x, y);
      var k :| 0 <= k < i + 1 && firsts[..i + 1][k] == x;
      if k < i {
        assert x == firsts[..i][k];
      }
    }
    forall t | t in Around(edges, n, firsts[..i], seconds)
      ensures t in left
    {
      var x, y :| x in firsts[..i] && y in seconds && Linked(edges, x, y) && t == Sort3(n, x, y);
      var k :| 0 <= k < i && firsts[..i][k] == x;
      assert x == firsts[..i + 1][k];
    }
    forall t | t in Around(edges, n, [firsts[i]], seconds)
      ensures t in left
    {
      var x, y :| x in [firsts[i]] && y in seconds && Linked(edges, x, y) && t == Sort3(n, x, y);
      assert x == firsts[..i + 1][i];
    }
  }

  /** One more second neighbour. */
  lemma AroundSecond(edges: map<string, seq<string>>, n: string, x: string, seconds: seq<string>, j: nat)
    requires j < |seconds|
    ensures Around(edges, n, [x], seconds[..j + 1])
         == Around(edges, n, [x], seconds[..j]) + (if Linked(edges, x, seconds[j]) then {Sort3(n, x, seconds[j])} else {})
  {
    var y := seconds[j];
    var left := Around(edges, n, [x], seconds[..j + 1]);
    forall t | t in left
      ensures t in Around(edges, n, [x], seconds[..j]) || (Linked(edges, x, y) && t == Sort3(n, x, y))
    {
      var x', y' :| x' in [x] && y' in seconds[..j + 1] && Linked(edges, x', y') && t == Sort3(n, x', y');
      var k :| 0 <= k < j + 1 && seconds[..j + 1][k] == y';
      if k < j {
        assert y' == seconds[..j][k];
      }
    }
    forall t | t in Around(edges, n, [x], seconds[..j])
      ensures t in left
    {
      var x', y' :| x' in [x] && y' in seconds[..j] && Linked(edges, x', y') && t == Sort3(n, x', y');
      var k :| 0 <= k < j && seconds[..j][k] == y';
      assert y' == seconds[..j + 1][k];
    }
    if Linked(edges, x, y) {
      assert y == seconds[..j + 1][j];
      assert Sort3(n, x, y) in left;
    }
  }

  /** A name starting with `t`. */
  predicate StartsWithT(name: string)
  {
    |name| > 0 && name[0] == 't'
  }

  /** Some computer of the triangle has a name starting with `t`. */
  predicate HasT(t: Triangle)
  {
    StartsWithT(t.a) || StartsWithT(t.b) || StartsWithT(t.c)
  }

  /** The triangles `number_of_filtered_3_cliques` counts. */
  function Filtered(cliques: set<Triangle>): set<Triangle>
  {
    set t | t in cliques && HasT(t)
  }

  /** The network. */
  class Graph {
    var edges: map<string, seq<string>>

    /** `Graph::from`: every link added in order. */
    constructor From(links: seq<Link>)
      ensures edges == Build(links)
    {
      edges := map[];
      new;
      for i := 0 to |links|
        invariant edges == Build(links[..i])
      {
        assert links[..i + 1][..i] == links[..i];
        AddEdge(links[i].from, links[i].to);
      }
      assert links[..|links|] == links;
    }

    /** `add_edge`. */
    method AddEdge(from: string, to: string)
      modifies this
      ensures edges == Added(old(edges), from, to)
    {
      if from !in edges {
        edges := edges[from := []];
      }
      if to !in edges {
        edges := edges[to := []];
      }
      edges := edges[from := edges[from] + [to]];
      edges := edges[to := edges[to] + [from]];
    }

    /** The `cartesian_product` of the neighbours of `n`, with the triangle
        of every linked pair inserted. */
    method CliquesAround(n: string) returns (r: set<Triangle>)
      requires n in edges && Closed(edges)
      ensures r == Around(edges, n, edges[n], edges[n])
    {
      var neighbours := edges[n];
      r := {};
      for i := 0 to |neighbours|
        invariant r == Around(edges, n, neighbours[..i], neighbours)
      {
        AroundFirst(edges, n, neighbours, i, neighbours);
        var x := neighbours[i];
        assert Linked(edges, n, x);
        var row: set<Triangle> := {};
        for j := 0 to |neighbours|
          invariant row == Around(edges, n, [x], neighbours[..j])
        {
          AroundSecond(edges, n, x, neighbours, j);
          if neighbours[j] in edges[x] {
            row := row + {Sort3(n, x, neighbours[j])};
          }
        }
        assert neighbours[..|neighbours|] == neighbours;
        r := r + row;
      }
      assert neighbours[..|neighbours|] == neighbours;
    }

    /** `find_cliques`: the computers are visited in any order. */
    method FindCliques() returns (r: set<Triangle>)
      requires Closed(edges)
      ensures r == Cliques(edges)
    {
      var remaining := edges.Keys;
      ghost var visited: set<string> := {};
      r := {};
      while remaining != {}
        invariant remaining + visited == edges.Keys && remaining !! visited
        invariant r == Over(edges, visited)
        decreases |remaining|
      {
        var n :| n in remaining;
        var around := CliquesAround(n);
        OverStep(edges, visited, n);
        r := r + around;
        visited := visited + {n};
        remaining := remaining - {n};
      }
    }

    /** `number_of_filtered_3_cliques`: the fold over the cliques, in any
        order, adding one for each with a `t` name. */
    method NumberOfFiltered3Cliques() returns (r: nat)
      requires Closed(edges)
      ensures r == |Filtered(Cliques(edges))|
    {
      var cliques := FindCliques();
      r := CountWithT(cliques);
    }
  }

  /** The fold of `number_of_filtered_3_cliques`. */
  method CountWithT(cliques: set<Triangle>) returns (r: nat)
    ensures r == |Filtered(cliques)|
  {
    var remaining := cliques;
    ghost var counted: set<Triangle> := {};
    r := 0;
    while remaining != {}
      invariant remaining <= cliques
      invariant forall t :: t in counted ==> t in cliques && t !in remaining
      invariant forall t :: t in cliques && t !in remaining ==> (t in counted <==> HasT(t))
      invariant r == |counted|
      decreases |remaining|
    {
      var t :| t in remaining;
      if HasT(t) {
        counted := counted + {t};
        r := r + 1;
      }
      remaining := remaining - {t};
    }
    assert counted == Filtered(cliques);
  }

  /** `process`: the links read, the graph built and its triangles with a
      `t` computer counted. */
  method Process(lines: seq<string>) returns (r: Result<nat>)
    ensures r.Ok? <==> ParseLinks(lines).Ok?
    ensures r.Ok? ==> r.value == |Filtered(Cliques(Build(ParseLinks(lines).value)))|
  {
    var links := ParseLinks(lines);
    if links.Err? {
      return Err(links.error);
    }
    var g := new Graph.From(links.value);
    BuildSymmetric(links.value);
    var n := g.NumberOfFiltered3Cliques();
    return Ok(n);
  }
}

=== FILE: day24_gates.dfy ===
/** Day 24, puzzle 1: a circuit of AND, OR and XOR gates over named wires.
    Some wires have initial values; every other wire is computed from the
    rule that outputs to it. The answer reads the `z` wires, the highest
    name first, as a binary number. */
module Day24Gates {
  import opened Wrappers
  import opened Text
  import opened Decimal
  import opened Bits

  /** The rule of an output wire: an operation over two input wires. */
  datatype Gate = And(g1: string, g2: string) | Or(g1: string, g2: string) | Xor(g1: string, g2: string)

  /** One rule line as the pattern captures it:
      `g1 OPERATION g2 -> result`. */
  datatype RuleLine = RuleLine(g1: string, operation: string, g2: string, result: string)

  /** A named entry of the input, a wire and what is read for it. */
  datatype Entry<V> = Entry(name: string, value: V)

  /** The name the input uses for a gate's operation. */
  function OperationName(gate: Gate): string
  {
    match gate
    case And(_, _) => "AND"
    case Or(_, _) => "OR"
    case Xor(_, _) => "XOR"
  }

  /** `Gate::from`: only AND, OR and XOR are accepted; anything else
      panics. */
  function GateFrom(g1: string, g2: string, operation: string): (r: Result<Gate>)
    ensures r.Ok? <==> operation == "AND" || operation == "OR" || operation == "XOR"
    ensures r.Ok? ==> r.value.g1 == g1 && r.value.g2 == g2 && OperationName(r.value) == operation
  {
    match operation
    case "AND" => Ok(And(g1, g2))
    case "OR" => Ok(Or(g1, g2))
    case "XOR" => Ok(Xor(g1, g2))
    case _ => Err("Unsupported gate type")
  }

  /** Every gate is read back from its inputs and the name of its
      operation. */
  lemma GateFromName(gate: Gate)
    ensures GateFrom(gate.g1, gate.g2, OperationName(gate)) == Ok(gate)
  {
  }

  /** One initial value line `name: value`, the value a `u8`. */
  function ParseValue(line: string): (r: Result<Entry<bv8>>)
    ensures r.Ok? ==> |SplitOn(line, ": ")| >= 2 && r.value.name == SplitOn(line, ": ")[0]
    ensures r.Ok? ==> var n := ParseNumber(SplitOn(line, ": ")[1]);
      n.Ok? && n.value < 256 && r.value.value == n.value as bv8
  {
    var pieces := SplitOn(line, ": ");
    if |pieces| < 2 then Err("a value line needs a name and a value")
    else
      var n :- ParseNumber(pieces[1]);
      if n >= 256 then Err("number too large to fit in target type") else Ok(Entry(pieces[0], n as bv8))
  }

  /** A value line written out is read back as the same entry. */
  lemma ParseValueShow(name: string, v: bv8)
    requires ':' !in name
    ensures ParseValue(name + ": " + Show(v as nat)) == Ok(Entry(name, v))
  {
    var digits := Show(v as nat);
    SplitJoin([name, digits], ": ");
    assert Join([name, digits], ": ") == name + ": " + Join([digits], ": ");
    ParseNumberShow(v as nat);
  }

  /** Every initial value line read, or the first failure. */
  function ParseValues(lines: seq<string>): (r: Result<seq<Entry<bv8>>>)
    ensures r.Ok? <==> forall i :: 0 <= i < |lines| ==> ParseValue(lines[i]).Ok?
    ensures r.Ok? ==> |r.value| == |lines| && forall i :: 0 <= i < |lines| ==> ParseValue(lines[i]) == Ok(r.value[i])
  {
    if lines == [] then Ok([])
    else
      var n := |lines| - 1;
      var init := ParseValues(lines[..n]);
      var last := ParseValue(lines[n]);
      assert forall i :: 0 <= i < n ==> lines[i] == lines[..n][i];
      if init.Err? then Err(init.error)
      else if last.Err? then Err(last.error)
      else Ok(init.value + [last.value])
  }

  /** The rule of one captured line. */
  function ParseRule(line: RuleLine): (r: Result<Entry<Gate>>)
    ensures r.Ok? <==> GateFrom(line.g1, line.g2, line.operation).Ok?
    ensures r.Ok? ==> r.value == Entry(line.result, GateFrom(line.g1, line.g2, line.operation).value)
  {
    var gate :- GateFrom(line.g1, line.g2, line.operation);
    Ok(Entry(line.result, gate))
  }

  /** Every rule line read, or the first failure. */
  function ParseRules(lines: seq<RuleLine>): (r: Result<seq<Entry<Gate>>>)
    ensures r.Ok? <==> forall i :: 0 <= i < |lines| ==> ParseRule(lines[i]).Ok?
    ensures r.Ok? ==> |r.value| == |lines| && forall i :: 0 <= i < |lines| ==> ParseRule(lines[i]) == Ok(r.value[i])
  {
    if lines == [] then Ok([])
    else
      var n := |lines| - 1;
      var init := ParseRules(lines[..n]);
      var last := ParseRule(lines[n]);
      assert forall i :: 0 <= i < n ==> lines[i] == lines[..n][i];
      if init.Err? then Err(init.error)
      else if last.Err? then Err(last.error)
      else Ok(init.value + [last.value])
  }

  /** The map the `insert` loop builds: every entry in order, a later one
      replacing an earlier one of the same name. */
  function Assign<V>(entries: seq<Entry<V>>): map<string, V>
  {
    if entries == [] then map[]
    else
      var n := |entries| - 1;
      Assign(entries[..n])[entries[n].name := entries[n].value]
  }

  /** The map holds exactly the names of the entries, each with the value
      of its last entry. */
  lemma {:induction false} AssignLast<V>(entries: seq<Entry<V>>, i: nat)
    requires i < |entries|
    requires forall j :: i < j < |entries| ==> entries[j].name != entries[i].name
    ensures entries[i].name in Assign(entries) && Assign(entries)[entries[i].name] == entries[i].value
  {
    var n := |entries| - 1;
    if i < n {
      AssignLast(entries[..n], i);
    }
  }

  /** A name is in the map only when some entry has it. */
  lemma {:induction false} AssignKeys<V>(entries: seq<Entry<V>>, name: string)
    ensures name in Assign(entries) <==> exists i :: 0 <= i < |entries| && entries[i].name == name
  {
    if entries != [] {
      var n := |entries| - 1;
      AssignKeys(entries[..n], name);
      if exists i :: 0 <= i < n && entries[..n][i].name == name {
        var i :| 0 <= i < n && entries[..n][i].name == name;
        assert entries[i].name == name;
      }
      if exists i :: 0 <= i < |entries| && entries[i].name == name {
        var i :| 0 <= i < |entries| && entries[i].name == name;
        if i < n {
          assert entries[..n][i].name == name;
        }
      }
    }
  }

  /** The operation of a gate on its two input values, as `u8` bit
      operations. */
  function Combine(gate: Gate, a: bv8, b: bv8): bv8
  {
    match gate
    case And(_, _) => a & b
    case Or(_, _) => a | b
    case Xor(_, _) => a ^ b
  }

  const OutOfFuel := "the evaluation did not finish"

  /** `compute_value`: the stored value of a wire, or else its rule applied
      to the values of its two inputs. A wire with neither panics at
      `unwrap`. The recursion is bounded by `fuel`, since rules may form a
      cycle. */
  function Value(rules: map<string, Gate>, values: map<string, bv8>, g: string, fuel: nat): (r: Result<bv8>)
    ensures g in values ==> r == Ok(values[g])
    ensures g !in values && g !in rules ==> r.Err?
    ensures r.Ok? && g !in values ==> g in rules && fuel >= 1
    decreases fuel
  {
    if g in values then Ok(values[g])
    else if g !in rules then Err("no value and no rule for a wire")
    else if fuel == 0 then Err(OutOfFuel)
    else
      var gate := rules[g];
      var a :- Value(rules, values, gate.g1, fuel - 1);
      var b :- Value(rules, values, gate.g2, fuel - 1);
      Ok(Combine(gate, a, b))
  }

  /** A wire that is computed is computed to the same value with more
      fuel. */
  lemma {:induction false} ValueMonotone(rules: map<string, Gate>, values: map<string, bv8>, g: string, f: nat, f': nat)
    requires f <= f' && Value(rules, values, g, f).Ok?
    ensures Value(rules, values, g, f') == Value(rules, values, g, f)
    decreases f
  {
    if g !in values {
      var gate := rules[g];
      ValueMonotone(rules, values, gate.g1, f - 1, f' - 1);
      ValueMonotone(rules, values, gate.g2, f - 1, f' - 1);
    }
  }

  /** `g` evaluates to `v` given enough fuel. */
  ghost predicate Yields(rules: map<string, Gate>, values: map<string, bv8>, g: string, v: bv8)
  {
    exists f: nat :: Value(rules, values, g, f) == Ok(v)
  }

  /** A wire evaluates to at most one value. */
  lemma YieldsUnique(rules: map<string, Gate>, values: map<string, bv8>, g: string, v: bv8, w: bv8)
    requires Yields(rules, values, g, v) && Yields(rules, values, g, w)
    ensures v == w
  {
    var f1: nat :| Value(rules, values, g, f1) == Ok(v);
    var f2: nat :| Value(rules, values, g, f2) == Ok(w);
    if f1 <= f2 {
      ValueMonotone(rules, values, g, f1, f2);
    } else {
      ValueMonotone(rules, values, g, f2, f1);
    }
  }

  /** Every value is 0 or 1. */
  ghost predicate Binary(values: map<string, bv8>)
  {
    forall g :: g in values ==> values[g] <= 1
  }

  /** With 0 or 1 on every initial wire, every computed value is 0 or 1. */
  lemma {:induction false} ValueBinary(rules: map<string, Gate>, values: map<string, bv8>, g: string, fuel: nat)
    requires Binary(values)
    ensures Value(rules, values, g, fuel).Ok? ==> Value(rules, values, g, fuel).value <= 1
    decreases fuel
  {
    if g !in values && g in rules && fuel >= 1 {
      var gate := rules[g];
      ValueBinary(rules, values, gate.g1, fuel - 1);
      ValueBinary(rules, values, gate.g2, fuel - 1);
    }
  }

  /** Storing a wire's own value changes no other wire's value. */
  lemma {:induction false} StoreBack(rules: map<string, Gate>, values: map<string, bv8>, k: string, vk: bv8,
                                     g: string, f: nat, w: bv8)
    requires Yields(rules, values, k, vk)
    requires Value(rules, values[k := vk], g, f) == Ok(w)
    ensures Yields(rules, values, g, w)
    decreases f
  {
    if g != k {
      if g in values {
        assert Value(rules, values, g, 0) == Ok(w);
      } else {
        var gate := rules[g];
        var a := Value(rules, values[k := vk], gate.g1, f - 1).value;
        var b := Value(rules, values[k := vk], gate.g2, f - 1).value;
        StoreBack(rules, values, k, vk, gate.g1, f - 1, a);
        StoreBack(rules, values, k, vk, gate.g2, f - 1, b);
        var f1: nat :| Value(rules, values, gate.g1, f1) == Ok(a);
        var f2: nat :| Value(rules, values, gate.g2, f2) == Ok(b);
        var m := if f1 <= f2 then f2 else f1;
        ValueMonotone(rules, values, gate.g1, f1, m);
        ValueMonotone(rules, values, gate.g2, f2, m);
        assert Value(rules, values, g, m + 1) == Ok(w);
      }
    }
  }

  /** The wires and their rules. */
  class System {
    var rules: map<string, Gate>
    var values: map<string, bv8>

    constructor (rules: map<string, Gate>, values: map<string, bv8>)
      ensures this.rules == rules && this.values == values
    {
      this.rules := rules;
      this.values := values;
    }

    /** `compute_outputs`: the value of every given wire computed in turn
        and stored. The stored values are those the wires evaluate to from
        the values before the call; no other value changes. */
    method ComputeOutputs(gates: seq<string>, fuel: nat) returns (r: Result<()>)
      modifies this
      ensures rules == old(rules)
      ensures r.Ok? ==> forall k :: k in values <==> k in old(values) || k in gates
      ensures r.Ok? ==> forall k :: k in old(values) ==> values[k] == old(values)[k]
      ensures r.Ok? ==> forall z :: z in gates ==> Yields(rules, old(values), z, values[z])
    {
      ghost var start := values;
      for i := 0 to |gates|
        invariant rules == old(rules)
        invariant forall k :: k in values <==> k in start || k in gates[..i]
        invariant forall k :: k in start ==> values[k] == start[k]
        invariant forall g, w :: Yields(rules, values, g, w) ==> Yields(rules, start, g, w)
        invariant forall z :: z in gates[..i] ==> Yields(rules, start, z, values[z])
      {
        var result := Value(rules, values, gates[i], fuel);
        if result.Err? {
          return Err(result.error);
        }
        ghost var prev := values;
        assert Yields(rules, prev, gates[i], result.value);
        values := values[gates[i] := result.value];
        forall g, w | Yields(rules, values, g, w)
          ensures Yields(rules, start, g, w)
        {
          var f: nat :| Value(rules, values, g, f) == Ok(w);
          StoreBack(rules, prev, gates[i], result.value, g, f, w);
        }
        assert Value(rules, values, gates[i], 0) == Ok(result.value);
        assert forall z :: z in gates[..i + 1] ==> z in gates[..i] || z == gates[i];
      }
      assert gates[..|gates|] == gates;
      return Ok(());
    }
  }

  /** `System::from`: the initial values and then the rules, each inserted
      in order into its map. */
  method From(valueLines: seq<string>, ruleLines: seq<RuleLine>) returns (r: Result<System>)
    ensures r.Ok? <==> ParseValues(valueLines).Ok? && ParseRules(ruleLines).Ok?
    ensures r.Ok? ==> fresh(r.value)
    ensures r.Ok? ==> r.value.values == Assign(ParseValues(valueLines).value)
    ensures r.Ok? ==> r.value.rules == Assign(ParseRules(ruleLines).value)
  {
    var values :- ReadValues(valueLines);
    var rules :- ReadRules(ruleLines);
    var system := new System(rules, values);
    return Ok(system);
  }

  /** The `for_each` over the initial value lines. */
  method ReadValues(lines: seq<string>) returns (r: Result<map<string, bv8>>)
    ensures r.Ok? <==> ParseValues(lines).Ok?
    ensures r.Ok? ==> r.value == Assign(ParseValues(lines).value)
  {
    var values: map<string, bv8> := map[];
    for i := 0 to |lines|
      invariant ParseValues(lines[..i]).Ok?
      invariant values == Assign(ParseValues(lines[..i]).value)
    {
      assert lines[..i + 1][..i] == lines[..i];
      var entry := ParseValue(lines[i]);
      if entry.Err? {
        return Err(entry.error);
      }
      values := values[entry.value.name := entry.value.value];
    }
    assert lines[..|lines|] == lines;
    return Ok(values);
  }

  /** The `for_each` over the rule lines. */
  method ReadRules(lines: seq<RuleLine>) returns (r: Result<map<string, Gate>>)
    ensures r.Ok? <==> ParseRules(lines).Ok?
    ensures r.Ok? ==> r.value == Assign(ParseRules(lines).value)
  {
    var rules: map<string, Gate> := map[];
    for i := 0 to |lines|
      invariant ParseRules(lines[..i]).Ok?
      invariant rules == Assign(ParseRules(lines[..i]).value)
    {
      assert lines[..i + 1][..i] == lines[..i];
      var entry := ParseRule(lines[i]);
      if entry.Err? {
        return Err(entry.error);
      }
      rules := rules[entry.value.name := entry.value.value];
    }
    assert lines[..|lines|] == lines;
    return Ok(rules);
  }

  /** A wire name starting with `z`. */
  predicate StartsWithZ(name: string)
  {
    |name| > 0 && name[0] == 'z'
  }

  /** The output wires: those with a rule and a name starting with `z`. */
  function ZGates(rules: map<string, Gate>): set<string>
  {
    set g | g in rules && StartsWithZ(g)
  }

  /** No name twice. */
  predicate Distinct(s: seq<string>)
  {
    forall i, j :: 0 <= i < j < |s| ==> s[i] != s[j]
  }

  /** Strictly descending in Rust's order on strings. */
  predicate Descending(s: seq<string>)
  {
    forall i, j :: 0 <= i < j < |s| ==> Below(s[j], s[i]) && s[j] != s[i]
  }

  /** `x` put into its place in a descending list. */
  function InsertDescending(x: string, s: seq<string>): (r: seq<string>)
    requires Descending(s) && x !in s
    ensures Descending(r)
    ensures forall y :: y in r <==> y == x || y in s
  {
    if s == [] then [x]
    else if Below(s[0], x) then
      assert forall j :: 0 <= j < |s| ==> Below(s[j], x) by {
        forall j | 0 <= j < |s|
          ensures Below(s[j], x)
        {
          if j > 0 {
            BelowTransitive(s[j], s[0], x);
          }
        }
      }
      [x] + s
    else
      BelowTotal(s[0], x);
      var rest := InsertDescending(x, s[1..]);
      assert forall y :: y in rest ==> Below(y, s[0]) && y != s[0] by {
        forall y | y in rest
          ensures Below(y, s[0]) && y != s[0]
        {
          if y != x {
            var j :| 0 <= j < |s[1..]| && s[1..][j] == y;
            assert y == s[j + 1];
          }
        }
      }
      [s[0]] + rest
  }

  /** `sort_by_key(|b| Reverse(b.clone()))` on a list of distinct names. */
  function SortDescending(s: seq<string>): (r: seq<string>)
    requires Distinct(s)
    ensures Descending(r)
    ensures forall y :: y in r <==> y in s
  {
    if s == [] then []
    else
      var n := |s| - 1;
      assert Distinct(s[..n]);
      assert forall y :: y in s[..n] ==> y in s;
      InsertDescending(s[n], SortDescending(s[..n]))
  }

  /** The descending order of a set of names is unique. */
  lemma {:induction false} DescendingUnique(a: seq<string>, b: seq<string>)
    requires Descending(a) && Descending(b)
    requires forall y :: y in a <==> y in b
    ensures a == b
    decreases |a|
  {
    assert b != [] ==> b[0] in b;
    if a != [] {
      assert a[0] in a;
      assert b != [] && b[0] in b;
      var k :| 0 <= k < |b| && b[k] == a[0];
      var m :| 0 <= m < |a| && a[m] == b[0];
      BelowTotal(a[0], a[0]);
      assert Below(a[0], b[0]);
      assert Below(b[0], a[0]);
      BelowAntisymmetric(a[0], b[0]);
      assert forall y :: y in a[1..] <==> y in a && y != a[0];
      assert forall y :: y in b[1..] <==> y in b && y != b[0];
      DescendingUnique(a[1..], b[1..]);
      assert a == [a[0]] + a[1..] && b == [b[0]] + b[1..];
    }
  }

  /** The names of a set, in some order. */
  ghost function ListOf(s: set<string>): (r: seq<string>)
    ensures Distinct(r) && forall y :: y in r <==> y in s
    decreases |s|
  {
    if s == {} then []
    else
      var x :| x in s;
      var rest := ListOf(s - {x});
      assert forall j :: 0 <= j < |rest| ==> rest[j] != x;
      [x] + rest
  }

  /** The output wires, highest name first. */
  ghost function ZOrder(rules: map<string, Gate>): (r: seq<string>)
    ensures Descending(r) && forall y :: y in r <==> y in ZGates(rules)
  {
    SortDescending(ListOf(ZGates(rules)))
  }

  /** `format!("{}", value)` for each wire, joined. */
  function Digits(values: map<string, bv8>, zs: seq<string>): string
    requires forall z :: z in zs ==> z in values
  {
    if zs == [] then "" else Show(values[zs[0]] as nat) + Digits(values, zs[1..])
  }

  /** Two maps that agree on the wires give the same text. */
  lemma {:induction false} DigitsAgree(m1: map<string, bv8>, m2: map<string, bv8>, zs: seq<string>)
    requires forall z :: z in zs ==> z in m1 && z in m2 && m1[z] == m2[z]
    ensures Digits(m1, zs) == Digits(m2, zs)
  {
    if zs != [] {
      assert forall z :: z in zs[1..] ==> z in zs;
      DigitsAgree(m1, m2, zs[1..]);
    }
  }

  predicate IsBit(c: char)
  {
    c == '0' || c == '1'
  }

  function BitOf(c: char): nat
  {
    if c == '1' then 1 else 0
  }

  /** The value of a text of binary digits, read left to right as
      `from_str_radix` does. */
  function ParseBinary(s: string): nat
  {
    if s == [] then 0 else 2 * ParseBinary(s[..|s| - 1]) + BitOf(s[|s| - 1])
  }

  /** `usize::from_str_radix(s, 2)`: an empty text, a character other than
      0 or 1, or a value beyond 64 bits fails. */
  function FromBinary(s: string): (r: Result<nat>)
    ensures r.Ok? <==> s != [] && (forall i :: 0 <= i < |s| ==> IsBit(s[i])) && ParseBinary(s) < Pow2(64)
    ensures r.Ok? ==> r.value == ParseBinary(s)
  {
    if s == [] then Err("cannot parse integer from empty string")
    else if exists i :: 0 <= i < |s| && !IsBit(s[i]) then Err("invalid digit found in string")
    else if ParseBinary(s) >= Pow2(64) then Err("number too large to fit in target type")
    else Ok(ParseBinary(s))
  }

  /** The first digit weighs 2 to the number of digits after it. */
  lemma {:induction false} ParseBinaryFront(c: char, t: string)
    ensures ParseBinary([c] + t) == BitOf(c) * Pow2(|t|) + ParseBinary(t)
    decreases |t|
  {
    if t == [] {
      assert [c] + t == [c];
      assert [c][..0] == [];
    } else {
      var s := [c] + t;
      var n := |t| - 1;
      assert s[..|s| - 1] == [c] + t[..n];
      assert s[|s| - 1] == t[n];
      ParseBinaryFront(c, t[..n]);
      assert 2 * (BitOf(c) * Pow2(n)) == BitOf(c) * Pow2(|t|);
    }
  }

  /** The wire values as a binary number, the first wire the most
      significant bit. */
  function BitsValue(values: map<string, bv8>, zs: seq<string>): nat
    requires forall z :: z in zs ==> z in values
  {
    if zs == [] then 0 else (values[zs[0]] as nat) * Pow2(|zs| - 1) + BitsValue(values, zs[1..])
  }

  /** With 0 or 1 on every wire, the joined text is one binary digit per
      wire and reads as the wires' binary number. */
  lemma {:induction false} DigitsAreBits(values: map<string, bv8>, zs: seq<string>)
    requires forall z :: z in zs ==> z in values && values[z] <= 1
    ensures |Digits(values, zs)| == |zs|
    ensures forall i :: 0 <= i < |zs| ==> IsBit(Digits(values, zs)[i])
    ensures ParseBinary(Digits(values, zs)) == BitsValue(values, zs)
  {
    if zs != [] {
      assert forall z :: z in zs[1..] ==> z in zs;
      DigitsAreBits(values, zs[1..]);
      var rest := Digits(values, zs[1..]);
      var v := values[zs[0]];
      var c := if v == 1 then '1' else '0';
      assert Show(v as nat) == [c];
      assert Digits(values, zs) == [c] + rest;
      ParseBinaryFront(c, rest);
    }
  }

  /** The answer for binary inputs: the output wires, the highest name the
      most significant bit, as a number of at most 64 bits. */
  lemma AnswerIsBits(values: map<string, bv8>, zs: seq<string>)
    requires zs != [] && forall z :: z in zs ==> z in values && values[z] <= 1
    ensures BitsValue(values, zs) < Pow2(64) ==> FromBinary(Digits(values, zs)) == Ok(BitsValue(values, zs))
    ensures BitsValue(values, zs) >= Pow2(64) ==> FromBinary(Digits(values, zs)).Err?
  {
    DigitsAreBits(values, zs);
  }

  /** `g` evaluates to some value. */
  ghost predicate Resolves(rules: map<string, Gate>, values: map<string, bv8>, g: string)
  {
    exists v :: Yields(rules, values, g, v)
  }

  /** The value `g` evaluates to. */
  ghost function Outcome(rules: map<string, Gate>, values: map<string, bv8>, g: string): (v: bv8)
    requires Resolves(rules, values, g)
    ensures Yields(rules, values, g, v)
  {
    var v :| Yields(rules, values, g, v); v
  }

  /** The values of the output wires. */
  ghost function Outcomes(rules: map<string, Gate>, values: map<string, bv8>): (r: map<string, bv8>)
    requires forall z :: z in ZGates(rules) ==> Resolves(rules, values, z)
    ensures forall z :: z in r <==> z in ZGates(rules)
  {
    map z | z in ZGates(rules) :: Outcome(rules, values, z)
  }

  /** The output wires of `rules`, listed in the order of the map's
      iteration, which the model leaves open. */
  method ListZGates(rules: map<string, Gate>) returns (zs: seq<string>)
    ensures Distinct(zs) && forall z :: z in zs <==> z in ZGates(rules)
  {
    var zset := ZGates(rules);
    var remaining := zset;
    zs := [];
    while remaining != {}
      invariant remaining <= zset
      invariant Distinct(zs)
      invariant forall z :: z in zs <==> z in zset && z !in remaining
      decreases |remaining|
    {
      var z :| z in remaining;
      zs := zs + [z];
      remaining := remaining - {z};
    }
  }

  /** `process`: the system read, the output wires computed, sorted by
      descending name and their values joined and read as a binary
      number. */
  method Process(valueLines: seq<string>, ruleLines: seq<RuleLine>, fuel: nat) returns (r: Result<nat>)
    ensures r.Ok? ==> ParseValues(valueLines).Ok? && ParseRules(ruleLines).Ok?
    ensures ParseValues(valueLines).Err? || ParseRules(ruleLines).Err? ==> r.Err?
    ensures r.Ok? ==>
      var rules, values := Assign(ParseRules(ruleLines).value), Assign(ParseValues(valueLines).value);
      && (forall z :: z in ZGates(rules) ==> Resolves(rules, values, z))
      && FromBinary(Digits(Outcomes(rules, values), ZOrder(rules))) == Ok(r.value)
  {
    var system :- From(valueLines, ruleLines);
    ghost var rules, values := system.rules, system.values;
    var zs := ListZGates(system.rules);
    var computed := system.ComputeOutputs(zs, fuel);
    if computed.Err? {
      return Err(computed.error);
    }
    forall z | z in ZGates(rules)
      ensures Resolves(rules, values, z)
    {
      assert Yields(rules, values, z, system.values[z]);
    }
    var sorted := SortDescending(zs);
    DescendingUnique(sorted, ZOrder(rules));
    var outcomes := Outcomes(rules, values);
    forall z | z in sorted
      ensures z in system.values && z in outcomes && system.values[z] == outcomes[z]
    {
      YieldsUnique(rules, values, z, system.values[z], outcomes[z]);
    }
    DigitsAgree(system.values, outcomes, sorted);
    var outString := Digits(system.values, sorted);
    r := FromBinary(outString);
  }
}

=== FILE: day25_locks.dfy ===
/** Day 25, puzzle 1: schematics of locks and keys, blocks of seven lines
    separated by an empty line. A lock's first line is filled, a key's is
    empty; each of the five columns has a pin height, the number of `#` in
    the five middle lines. A key fits a lock when no column overlaps; the
    answer counts the fitting lock and key pairs. */
module Day25Locks {
  import opened Wrappers
  import Text

  /** The five pin heights of a lock. */
  datatype Lock = Lock(pins: seq<nat>)

  /** The five pin heights of a key. */
  datatype Key = Key(pins: seq<nat>)

  /** The locks and the keys read so far, each in input order. */
  datatype Schematics = Schematics(locks: seq<Lock>, keys: seq<Key>)

  /** 1 for a `#`, else 0. */
  function Filled(c: char): nat
  {
    if c == '#' then 1 else 0
  }

  /** `extract_components`: one line added to the five running counts. A
      line shorter than five characters panics at `unwrap`. */
  function ExtractComponents(counts: seq<nat>, line: string): (r: Result<seq<nat>>)
    requires |counts| == 5
    ensures r.Ok? <==> |line| >= 5
    ensures r.Ok? ==> |r.value| == 5 && forall i :: 0 <= i < 5 ==> r.value[i] == counts[i] + Filled(line[i])
  {
    if |line| < 5 then Err("a schematic line needs five columns")
    else Ok([counts[0] + Filled(line[0]), counts[1] + Filled(line[1]), counts[2] + Filled(line[2]),
             counts[3] + Filled(line[3]), counts[4] + Filled(line[4])])
  }

  /** The number of `#` in column `i` of the lines. */
  function ColumnCount(lines: seq<string>, i: nat): (n: nat)
    requires forall j :: 0 <= j < |lines| ==> i < |lines[j]|
    ensures n <= |lines|
  {
    if lines == [] then 0
    else
      var k := |lines| - 1;
      ColumnCount(lines[..k], i) + Filled(lines[k][i])
  }

  /** The `fold` of `extract_components` over the lines, from five zeros:
      each pin is the number of `#` in its column, so at most the number of
      lines. */
  function PinsOf(lines: seq<string>): (r: Result<seq<nat>>)
    ensures r.Ok? <==> forall j :: 0 <= j < |lines| ==> |lines[j]| >= 5
    ensures r.Ok? ==> |r.value| == 5 && forall i :: 0 <= i < 5 ==> r.value[i] == ColumnCount(lines, i) <= |lines|
  {
    if lines == [] then Ok([0, 0, 0, 0, 0])
    else
      var k := |lines| - 1;
      var init := PinsOf(lines[..k]);
      assert forall j :: 0 <= j < k ==> lines[..k][j] == lines[j];
      if init.Err? then Err(init.error) else ExtractComponents(init.value, lines[k])
  }

  /** `Lock::from`: seven lines, the first `#####`; the pins are counted
      over the five lines after it. */
  function LockFrom(lines: seq<string>): (r: Result<Lock>)
    ensures r.Ok? ==> |lines| == 7 && lines[0] == "#####" && PinsOf(lines[1..6]) == Ok(r.value.pins)
    ensures r.Ok? ==> |r.value.pins| == 5 && forall i :: 0 <= i < 5 ==> r.value.pins[i] <= 5
    ensures |lines| == 7 && lines[0] == "#####" ==> (r.Ok? <==> forall j :: 1 <= j < 6 ==> |lines[j]| >= 5)
  {
    if |lines| != 7 then Err("Unknown lock format")
    else if lines[0] != "#####" then Err("Input does not start with lock indicator")
    else
      assert forall j :: 1 <= j < 6 ==> lines[j] == lines[1..6][j - 1];
      var pins :- PinsOf(lines[1..6]);
      Ok(Lock(pins))
  }

  /** `Key::from`: seven lines, the first `.....`; the pins are counted
      over the five lines after it. */
  function KeyFrom(lines: seq<string>): (r: Result<Key>)
    ensures r.Ok? ==> |lines| == 7 && lines[0] == "....." && PinsOf(lines[1..6]) == Ok(r.value.pins)
    ensures r.Ok? ==> |r.value.pins| == 5 && forall i :: 0 <= i < 5 ==> r.value.pins[i] <= 5
    ensures |lines| == 7 && lines[0] == "....." ==> (r.Ok? <==> forall j :: 1 <= j < 6 ==> |lines[j]| >= 5)
  {
    if |lines| != 7 then Err("Unknown key format")
    else if lines[0] != "....." then Err("Input does not start with key indicator")
    else
      assert forall j :: 1 <= j < 6 ==> lines[j] == lines[1..6][j - 1];
      var pins :- PinsOf(lines[1..6]);
      Ok(Key(pins))
  }

  /** A block whose first line starts with `#` is a lock; any other is a
      key. */
  predicate IsLockBlock(block: seq<string>)
    requires block != []
  {
    |block[0]| > 0 && block[0][0] == '#'
  }

  /** The loop of `process` over the blocks: locks and keys in input order.
      An empty block panics at `get(0).unwrap()`. */
  function Classify(blocks: seq<seq<string>>): (r: Result<Schematics>)
    ensures r.Ok? ==> forall k :: 0 <= k < |r.value.locks| ==>
      |r.value.locks[k].pins| == 5 && forall i :: 0 <= i < 5 ==> r.value.locks[k].pins[i] <= 5
    ensures r.Ok? ==> forall k :: 0 <= k < |r.value.keys| ==> |r.value.keys[k].pins| == 5
    ensures r.Ok? ==> |r.value.locks| + |r.value.keys| == |blocks|
  {
    if blocks == [] then Ok(Schematics([], []))
    else
      var n := |blocks| - 1;
      var init :- Classify(blocks[..n]);
      var block := blocks[n];
      if block == [] then Err("an empty schematic")
      else if IsLockBlock(block) then
        var lock :- LockFrom(block);
        Ok(Schematics(init.locks + [lock], init.keys))
      else
        var key :- KeyFrom(block);
        Ok(Schematics(init.locks, init.keys + [key]))
  }

  /** A block that cannot be read makes the whole input unreadable. */
  lemma {:induction false} ClassifyFails(blocks: seq<seq<string>>, i: nat)
    requires i <= |blocks| && Classify(blocks[..i]).Err?
    ensures Classify(blocks).Err?
    decreases |blocks| - i
  {
    if i < |blocks| {
      var n := |blocks| - 1;
      assert blocks[..n][..i] == blocks[..i];
      ClassifyFails(blocks[..n], i);
    } else {
      assert blocks[..i] == blocks;
    }
  }

  /** No column of `lock` and `key` overlaps: the heights add up to at most
      five. */
  predicate Fits(lock: seq<nat>, key: seq<nat>)
    requires |lock| == 5
  {
    |key| == 5 && forall i :: 0 <= i < 5 ==> key[i] + lock[i] <= 5
  }

  /** The number of locks that `key` fits. */
  function CountFitting(locks: seq<Lock>, key: seq<nat>): (n: nat)
    requires forall k :: 0 <= k < |locks| ==> |locks[k].pins| == 5
    ensures n <= |locks|
  {
    if locks == [] then 0
    else
      var k := |locks| - 1;
      CountFitting(locks[..k], key) + (if Fits(locks[k].pins, key) then 1 else 0)
  }

  /** The number of fitting lock and key pairs. */
  function Pairs(locks: seq<Lock>, keys: seq<Key>): nat
    requires forall k :: 0 <= k < |locks| ==> |locks[k].pins| == 5
  {
    if keys == [] then 0
    else
      var k := |keys| - 1;
      Pairs(locks, keys[..k]) + CountFitting(locks, keys[k].pins)
  }

  /** `occurrences.get(c).unwrap_or(&0)`. */
  function Lookup(occurrences: map<seq<nat>, nat>, c: seq<nat>): nat
  {
    if c in occurrences then occurrences[c] else 0
  }

  /** `c` extends `prefix` and fits `pins`. */
  predicate Counted(pins: seq<nat>, prefix: seq<nat>, c: seq<nat>)
    requires |pins| == 5
  {
    Fits(pins, c) && |prefix| <= 5 && c[..|prefix|] == prefix
  }

  /** The nested `for p_i in 0..=5 - lock.pins[i]` loops of
      `count_occurrences` from column `|prefix|` on, the columns before it
      fixed to `prefix`: every combination that fits the lock gets one
      more. */
  method AddCombinations(occurrences: map<seq<nat>, nat>, pins: seq<nat>, prefix: seq<nat>)
    returns (r: map<seq<nat>, nat>)
    requires |pins| == 5 && forall i :: 0 <= i < 5 ==> pins[i] <= 5
    requires |prefix| <= 5 && forall i :: 0 <= i < |prefix| ==> prefix[i] + pins[i] <= 5
    ensures forall c :: c in r <==> c in occurrences || Counted(pins, prefix, c)
    ensures forall c :: Lookup(r, c) == Lookup(occurrences, c) + (if Counted(pins, prefix, c) then 1 else 0)
    decreases 5 - |prefix|
  {
    var k := |prefix|;
    if k == 5 {
      assert forall c :: Counted(pins, prefix, c) <==> c == prefix by {
        forall c
          ensures Counted(pins, prefix, c) <==> c == prefix
        {
          if |c| == 5 {
            assert c[..5] == c;
          }
        }
      }
      r := occurrences[prefix := Lookup(occurrences, prefix) + 1];
      return;
    }
    r := occurrences;
    for p := 0 to 6 - pins[k]
      invariant forall c :: c in r <==> c in occurrences || (Counted(pins, prefix, c) && c[k] < p)
      invariant forall c :: Lookup(r, c) == Lookup(occurrences, c) + (if Counted(pins, prefix, c) && c[k] < p then 1 else 0)
    {
      var next := prefix + [p];
      r := AddCombinations(r, pins, next);
      forall c
        ensures Counted(pins, next, c) <==> Counted(pins, prefix, c) && c[k] == p
      {
        if Fits(pins, c) {
          assert c[..k + 1] == c[..k] + [c[k]];
        }
      }
    }
  }

  /** `count_occurrences`: for every lock, every key shape that fits it
      counted once. */
  method CountOccurrences(locks: seq<Lock>) returns (occurrences: map<seq<nat>, nat>)
    requires forall k :: 0 <= k < |locks| ==> |locks[k].pins| == 5 && forall i :: 0 <= i < 5 ==> locks[k].pins[i] <= 5
    ensures forall c :: Lookup(occurrences, c) == CountFitting(locks, c)
  {
    occurrences := map[];
    for k := 0 to |locks|
      invariant forall c :: Lookup(occurrences, c) == CountFitting(locks[..k], c)
    {
      assert locks[..k + 1][..k] == locks[..k];
      occurrences := AddCombinations(occurrences, locks[k].pins, []);
      assert forall c :: Counted(locks[k].pins, [], c) <==> Fits(locks[k].pins, c);
    }
    assert locks[..|locks|] == locks;
  }

  /** The sum over the keys of the locks each fits. */
  method SumMatching(locks: seq<Lock>, keys: seq<Key>, occurrences: map<seq<nat>, nat>) returns (n: nat)
    requires forall k :: 0 <= k < |locks| ==> |locks[k].pins| == 5
    requires forall c :: Lookup(occurrences, c) == CountFitting(locks, c)
    ensures n == Pairs(locks, keys)
  {
    n := 0;
    for j := 0 to |keys|
      invariant n == Pairs(locks, keys[..j])
    {
      assert keys[..j + 1][..j] == keys[..j];
      n := n + Lookup(occurrences, keys[j].pins);
    }
    assert keys[..|keys|] == keys;
  }

  /** `process`: the blocks read as locks and keys, the fitting key shapes
      of all locks counted, and the counts of the keys' shapes summed. */
  method Process(lines: seq<string>) returns (r: Result<nat>)
    ensures r.Ok? <==> Classify(Text.SplitBlocks(lines)).Ok?
    ensures r.Ok? ==> var s := Classify(Text.SplitBlocks(lines)).value; r.value == Pairs(s.locks, s.keys)
  {
    var blocks := Text.SplitBlocks(lines);
    var locks: seq<Lock> := [];
    var keys: seq<Key> := [];
    for i := 0 to |blocks|
      invariant Classify(blocks[..i]) == Ok(Schematics(locks, keys))
    {
      assert blocks[..i + 1][..i] == blocks[..i];
      var block := blocks[i];
      if block == [] {
        ClassifyFails(blocks, i + 1);
        return Err("an empty schematic");
      }
      if IsLockBlock(block) {
        var lock := LockFrom(block);
        if lock.Err? {
          ClassifyFails(blocks, i + 1);
          return Err(lock.error);
        }
        locks := locks + [lock.value];
      } else {
        var key := KeyFrom(block);
        if key.Err? {
          ClassifyFails(blocks, i + 1);
          return Err(key.error);
        }
        keys := keys + [key.value];
      }
    }
    assert blocks[..|blocks|] == blocks;
    var occurrences := CountOccurrences(locks);
    var matching := SumMatching(locks, keys, occurrences);
    return Ok(matching);
  }
}

=== FILE: decimal.dfy ===
/** Decimal notation of natural numbers, as Rust's `to_string`, `format!`,
    `parse::<u64>` and `ilog10` see it (without the 64-bit bound). */
module Decimal {
  import Wrappers

  function Pow10(k: nat): (r: nat)
    ensures r >= 1
  {
    if k == 0 then 1 else 10 * Pow10(k - 1)
  }

  lemma {:induction false} Pow10Add(a: nat, b: nat)
    ensures Pow10(a + b) == Pow10(a) * Pow10(b)
    decreases a
  {
    if a > 0 {
      Pow10Add(a - 1, b);
    }
  }

  lemma {:induction false} Pow10Monotone(a: nat, b: nat)
    requires a <= b
    ensures Pow10(a) <= Pow10(b)
    decreases b
  {
    if a < b {
      Pow10Monotone(a, b - 1);
    }
  }

  predicate IsDigit(c: char)
  {
    '0' <= c <= '9'
  }

  predicate AllDigits(s: string)
  {
    forall i :: 0 <= i < |s| ==> IsDigit(s[i])
  }

  function DigitChar(d: nat): (c: char)
    requires d < 10
    ensures IsDigit(c)
  {
    (48 + d) as char
  }

  function DigitValue(c: char): (d: nat)
    requires IsDigit(c)
    ensures d < 10
  {
    (c as int - 48) as nat
  }

  /** The number of decimal digits of a positive number: `ilog10 + 1`. */
  function DigitCount(n: nat): (k: nat)
    requires n >= 1
    ensures k >= 1 && Pow10(k - 1) <= n < Pow10(k)
  {
    if n < 10 then 1 else DigitCount(n / 10) + 1
  }

  /** The digit count is the only k with 10^(k-1) <= n < 10^k. */
  lemma DigitCountUnique(n: nat, k: nat)
    requires n >= 1 && k >= 1 && Pow10(k - 1) <= n < Pow10(k)
    ensures DigitCount(n) == k
  {
    var d := DigitCount(n);
    if d < k {
      Pow10Monotone(d, k - 1);
    } else if d > k {
      Pow10Monotone(k, d - 1);
    }
  }

  /** `to_string`: the digits without leading zeros, "0" for zero. */
  function Show(n: nat): (s: string)
    ensures |s| >= 1 && AllDigits(s)
    ensures n >= 1 ==> |s| == DigitCount(n)
    ensures n == 0 ==> s == "0"
    ensures |s| > 1 ==> s[0] != '0'
    ensures ':' !in s && ' ' !in s
  {
    if n < 10 then [DigitChar(n)]
    else Show(n / 10) + [DigitChar(n % 10)]
  }

  /** The value of a string of digits. */
  function ParseDigits(s: string): nat
    requires AllDigits(s)
  {
    if s == [] then 0
    else ParseDigits(s[..|s| - 1]) * 10 + DigitValue(s[|s| - 1])
  }

  /** Reading a number back from its digits gives the number. */
  lemma {:induction false} ParseShow(n: nat)
    ensures ParseDigits(Show(n)) == n
  {
    if n >= 10 {
      ParseShow(n / 10);
      var s := Show(n);
      assert s[..|s| - 1] == Show(n / 10);
    }
  }

  /** The digits of a concatenation are read as the first part shifted by
      the length of the second. */
  lemma {:induction false} ParseAppend(a: string, b: string)
    requires AllDigits(a) && AllDigits(b)
    ensures AllDigits(a + b)
    ensures ParseDigits(a + b) == ParseDigits(a) * Pow10(|b|) + ParseDigits(b)
    decreases |b|
  {
    if b == [] {
      assert a + b == a;
    } else {
      var init := b[..|b| - 1];
      assert (a + b)[..|a + b| - 1] == a + init;
      assert (a + b)[|a + b| - 1] == b[|b| - 1];
      ParseAppend(a, init);
      var x, p, y, v := ParseDigits(a), Pow10(|init|), ParseDigits(init), DigitValue(b[|b| - 1]);
      assert ParseDigits(a + b) == (x * p + y) * 10 + v;
      assert ParseDigits(b) == y * 10 + v;
      assert Pow10(|b|) == p * 10;
      ShiftDigit(x, p);
    }
  }

  lemma ShiftDigit(x: int, p: int)
    ensures x * (p * 10) == (x * p) * 10
  {
  }

  /** `parse::<u64>` on digits only: an empty string or any other character
      fails. */
  function ParseNumber(s: string): (r: Wrappers.Result<nat>)
    ensures r.Ok? <==> s != [] && AllDigits(s)
  {
    if s != [] && AllDigits(s) then Wrappers.Ok(ParseDigits(s)) else Wrappers.Err("invalid digit found in string")
  }

  /** Every number reads back from its text. */
  lemma ParseNumberShow(n: nat)
    ensures ParseNumber(Show(n)) == Wrappers.Ok(n)
  {
    ParseShow(n);
  }

  /** Every number of a list of texts, or the first failure. */
  function ParseNumbers(pieces: seq<string>): (r: Wrappers.Result<seq<nat>>)
    ensures r.Ok? ==> |r.value| == |pieces|
    ensures r.Ok? <==> forall i :: 0 <= i < |pieces| ==> ParseNumber(pieces[i]).Ok?
    ensures r.Ok? ==> forall i :: 0 <= i < |pieces| ==> ParseNumber(pieces[i]) == Wrappers.Ok(r.value[i])
  {
    if pieces == [] then Wrappers.Ok([])
    else
      var first :- ParseNumber(pieces[0]);
      var rest :- ParseNumbers(pieces[1..]);
      assert forall i :: 1 <= i < |pieces| ==> pieces[i] == pieces[1..][i - 1];
      Wrappers.Ok([first] + rest)
  }

  /** A signed number written as an optional minus sign and digits. */
  function ParseInt(s: string): (r: Wrappers.Result<int>)
    ensures r.Ok? <==> if |s| >= 1 && s[0] == '-' then ParseNumber(s[1..]).Ok? else ParseNumber(s).Ok?
  {
    if |s| >= 1 && s[0] == '-' then
      var n :- ParseNumber(s[1..]);
      var v: int := n;
      Wrappers.Ok(-v)
    else
      var n :- ParseNumber(s);
      Wrappers.Ok(n)
  }

  /** The text of a signed number. */
  function ShowInt(n: int): (s: string)
    ensures ',' !in s && ' ' !in s && '|' !in s
    ensures |s| >= 1 && s[0] != '+'
  {
    var digits := Show(if n < 0 then -n else n);
    assert forall i :: 0 <= i < |digits| ==> IsDigit(digits[i]);
    if n < 0 then "-" + digits else digits
  }

  /** Every signed number reads back from its text. */
  lemma ParseShowInt(n: int)
    ensures ParseInt(ShowInt(n)) == Wrappers.Ok(n)
  {
    var digits := Show(if n < 0 then -n else n);
    ParseNumberShow(if n < 0 then -n else n);
    if n < 0 {
      var s := "-" + digits;
      assert s[0] == '-' && s[1..] == digits;
      assert ShowInt(n) == s;
    } else {
      assert IsDigit(digits[0]);
      assert ShowInt(n) == digits;
    }
  }

  /** `parse::<i64>`: an optional `+` or `-` sign and digits (without the
      64-bit bound). */
  function ParseI64(s: string): (r: Wrappers.Result<int>)
    ensures r.Ok? <==> if |s| >= 1 && (s[0] == '+' || s[0] == '-') then ParseNumber(s[1..]).Ok? else ParseNumber(s).Ok?
  {
    if |s| >= 1 && s[0] == '+' then
      var n :- ParseNumber(s[1..]);
      Wrappers.Ok(n)
    else ParseInt(s)
  }

  /** Every signed number reads back from its text. */
  lemma ParseI64Show(n: int)
    ensures ParseI64(ShowInt(n)) == Wrappers.Ok(n)
  {
    ParseShowInt(n);
  }

  /** Every signed number of a list of texts, or the first failure. */
  function ParseI64s(pieces: seq<string>): (r: Wrappers.Result<seq<int>>)
    ensures r.Ok? <==> forall i :: 0 <= i < |pieces| ==> ParseI64(pieces[i]).Ok?
    ensures r.Ok? ==> |r.value| == |pieces| && forall i :: 0 <= i < |pieces| ==> ParseI64(pieces[i]) == Wrappers.Ok(r.value[i])
  {
    if pieces == [] then Wrappers.Ok([])
    else
      var first :- ParseI64(pieces[0]);
      var rest :- ParseI64s(pieces[1..]);
      assert forall i :: 1 <= i < |pieces| ==> pieces[i] == pieces[1..][i - 1];
      Wrappers.Ok([first] + rest)
  }

  /** The texts of a list of signed numbers. */
  function ShowInts(ns: seq<int>): (r: seq<string>)
    ensures |r| == |ns| && forall i :: 0 <= i < |ns| ==> r[i] == ShowInt(ns[i])
  {
    seq(|ns|, i requires 0 <= i < |ns| => ShowInt(ns[i]))
  }

  /** A list of signed numbers reads back from its texts. */
  lemma ParseI64sShow(ns: seq<int>)
    ensures ParseI64s(ShowInts(ns)) == Wrappers.Ok(ns)
  {
    forall i | 0 <= i < |ns|
      ensures ParseI64(ShowInts(ns)[i]) == Wrappers.Ok(ns[i])
    {
      ParseI64Show(ns[i]);
    }
    var r := ParseI64s(ShowInts(ns));
    assert r.Ok?;
    assert forall i :: 0 <= i < |ns| ==> r.value[i] == ns[i];
    assert r.value == ns;
  }
}

=== FILE: sets.dfy ===
/** Facts about finite sets shared by the puzzle models. */
module Sets {

  /** A subset is no larger than its superset. */
  lemma SubsetCard<T>(a: set<T>, b: set<T>)
    requires a <= b
    ensures |a| <= |b|
  {
    assert b == a + (b - a);
  }

  /** A proper subset is smaller than its superset. */
  lemma ProperSubsetCard<T>(a: set<T>, b: set<T>)
    requires a < b
    ensures |a| < |b|
  {
    assert !(b <= a);
    var x :| x in b && x !in a;
    assert b == a + (b - a);
    SubsetCard({x}, b - a);
  }

  /** `k` is the least element of `s`. */
  predicate IsLeast(k: int, s: set<int>)
  {
    k in s && forall j :: j in s ==> k <= j
  }

  /** Some element of a non-empty set, for definitions that take the
      elements one at a time in an order that does not matter. */
  ghost function Choose<T>(s: set<T>): (y: T)
    requires s != {}
    ensures y in s
  {
    var y :| y in s; y
  }

  /** A non-empty set of integers has a least element. */
  lemma {:induction false} MinExists(s: set<int>)
    requires s != {}
    ensures exists k :: IsLeast(k, s)
    decreases |s|
  {
    var w := Choose(s);
    var rest := s - {w};
    assert forall j :: j in s ==> j == w || j in rest;
    if rest == {} {
      assert IsLeast(w, s);
    } else {
      MinExists(rest);
      var k :| IsLeast(k, rest);
      if w < k {
        assert IsLeast(w, s);
      } else {
        assert IsLeast(k, s);
      }
    }
  }

  /** The positions of the elements of `xs` that satisfy `p`. */
  ghost function Where<T>(p: T -> bool, xs: seq<T>): set<int>
  {
    set i | 0 <= i < |xs| && p(xs[i])
  }

  /** `filter(p).count()`: how many elements of `xs` satisfy `p`. */
  function CountIf<T>(p: T -> bool, xs: seq<T>): (r: nat)
    ensures r == |Where(p, xs)|
    ensures r <= |xs|
    ensures r == |xs| <==> forall i :: 0 <= i < |xs| ==> p(xs[i])
    ensures r == 0 <==> forall i :: 0 <= i < |xs| ==> !p(xs[i])
  {
    if xs == [] then
      assert Where(p, xs) == {};
      0
    else
      var n := |xs| - 1;
      var rest := CountIf(p, xs[..n]);
      WhereLast(p, xs);
      (if p(xs[n]) then 1 else 0) + rest
  }

  /** The positions in `xs` are those in all but its last element, and the
      last one when it satisfies `p`. */
  lemma WhereLast<T>(p: T -> bool, xs: seq<T>)
    requires xs != []
    ensures forall i :: 0 <= i < |xs| - 1 ==> xs[..|xs| - 1][i] == xs[i]
    ensures Where(p, xs) == Where(p, xs[..|xs| - 1]) + (if p(xs[|xs| - 1]) then {|xs| - 1} else {})
    ensures |xs| - 1 !in Where(p, xs[..|xs| - 1])
  {
    var n := |xs| - 1;
    assert forall i :: 0 <= i < n ==> xs[..n][i] == xs[i];
  }
}

=== FILE: sorting.dfy ===
/** Ascending sort of integer sequences, standing in for the standard library's
    `sort` and `sorted` used by several puzzles. Only the result matters: sorted,
    a permutation of the input, and therefore uniquely determined. */
module Sorting {

  predicate Sorted(s: seq<int>)
  {
    forall i, j :: 0 <= i < j < |s| ==> s[i] <= s[j]
  }

  /** Places x in front of the first element that is not smaller. */
  function Insert(x: int, s: seq<int>): (r: seq<int>)
    requires Sorted(s)
    ensures Sorted(r)
    ensures |r| == |s| + 1 && r[0] == (if s == [] || x <= s[0] then x else s[0])
  {
    if s == [] || x <= s[0] then
      [x] + s
    else
      var t := Insert(x, s[1..]);
      assert s[0] <= t[0];
      var r := [s[0]] + t;
      assert forall i, j :: 0 <= i < j < |r| ==> r[i] <= r[j] by {
        forall i, j | 0 <= i < j < |r|
          ensures r[i] <= r[j]
        {
          if i == 0 && j > 1 {
            assert t[0] <= t[j - 1];
          }
        }
      }
      r
  }

  /** Insertion adds exactly one element. */
  lemma {:induction false} InsertPermutes(x: int, s: seq<int>)
    requires Sorted(s)
    ensures multiset(Insert(x, s)) == multiset(s) + multiset{x}
  {
    if s != [] && x > s[0] {
      InsertPermutes(x, s[1..]);
      assert s == [s[0]] + s[1..];
    }
  }

  function Sort(s: seq<int>): (r: seq<int>)
    ensures Sorted(r)
    ensures multiset(r) == multiset(s)
  {
    if s == [] then []
    else
      assert s == [s[0]] + s[1..];
      InsertPermutes(s[0], Sort(s[1..]));
      Insert(s[0], Sort(s[1..]))
  }

  /** The head of a sorted sequence is its least element. */
  lemma HeadIsLeast(a: seq<int>, x: int)
    requires Sorted(a) && x in multiset(a)
    ensures a[0] <= x
  {
    assert x in a;
  }

  /** Two sorted permutations of one another are equal: the sorted order of a
      multiset is unique. */
  lemma {:induction false} SortedUnique(a: seq<int>, b: seq<int>)
    requires Sorted(a) && Sorted(b)
    requires multiset(a) == multiset(b)
    ensures a == b
    decreases |a|
  {
    assert |a| == |multiset(a)| == |multiset(b)| == |b|;
    if a != [] {
      assert a[0] in multiset(b) by { assert a[0] in a; }
      assert b[0] in multiset(a) by { assert b[0] in b; }
      HeadIsLeast(b, a[0]);
      HeadIsLeast(a, b[0]);
      assert a == [a[0]] + a[1..];
      assert b == [b[0]] + b[1..];
      assert multiset(a) == multiset{a[0]} + multiset(a[1..]);
      assert multiset(b) == multiset{b[0]} + multiset(b[1..]);
      assert a[0] == b[0];
      assert multiset(a[1..]) == multiset(a) - multiset{a[0]};
      assert multiset(b[1..]) == multiset(b) - multiset{b[0]};
      SortedUnique(a[1..], b[1..]);
    }
  }

  /** Sorting forgets the input order. */
  lemma SortIgnoresOrder(a: seq<int>, b: seq<int>)
    requires multiset(a) == multiset(b)
    ensures Sort(a) == Sort(b)
  {
    SortedUnique(Sort(a), Sort(b));
  }
}

=== FILE: text.dfy ===
/** Splitting a line at a separator, as Rust's `str::split` does: the pieces
    between leftmost non-overlapping occurrences, empty pieces included;
    splitting the input lines into blocks at empty lines, as `slice::split`
    does; and the order Rust puts strings in. */
module Text {

  function SplitOn(s: string, sep: string): (r: seq<string>)
    requires |sep| >= 1
    ensures |r| >= 1
    decreases |s|
  {
    if |s| < |sep| then [s]
    else if s[..|sep|] == sep then [""] + SplitOn(s[|sep|..], sep)
    else
      var rest := SplitOn(s[1..], sep);
      [[s[0]] + rest[0]] + rest[1..]
  }

  /** The pieces put back together with the separator between them. */
  function Join(pieces: seq<string>, sep: string): string
    requires |pieces| >= 1
  {
    if |pieces| == 1 then pieces[0] else pieces[0] + sep + Join(pieces[1..], sep)
  }

  /** Text without the separator's first character is glued to the first
      piece of what follows it. */
  lemma {:induction false} SplitPrefix(p: string, t: string, sep: string)
    requires |sep| >= 1 && sep[0] !in p
    ensures SplitOn(p + t, sep) == [p + SplitOn(t, sep)[0]] + SplitOn(t, sep)[1..]
    decreases |p|
  {
    var x := SplitOn(t, sep);
    if p == [] {
      assert p + t == t;
      assert p + x[0] == x[0];
      assert [x[0]] + x[1..] == x;
    } else if |p + t| < |sep| {
      assert x == [t];
    } else {
      assert (p + t)[0] == p[0];
      assert (p + t)[..|sep|] != sep;
      assert (p + t)[1..] == p[1..] + t;
      SplitPrefix(p[1..], t, sep);
      assert [p[0]] + (p[1..] + x[0]) == p + x[0];
    }
  }

  /** Splitting undoes joining when no piece holds the separator's first
      character. */
  lemma {:induction false} SplitJoin(pieces: seq<string>, sep: string)
    requires |sep| >= 1 && |pieces| >= 1
    requires forall i :: 0 <= i < |pieces| ==> sep[0] !in pieces[i]
    ensures SplitOn(Join(pieces, sep), sep) == pieces
    decreases |pieces|
  {
    if |pieces| == 1 {
      SplitPrefix(pieces[0], "", sep);
      assert pieces[0] + "" == pieces[0];
    } else {
      var rest := Join(pieces[1..], sep);
      SplitJoin(pieces[1..], sep);
      assert (sep + rest)[..|sep|] == sep;
      assert (sep + rest)[|sep|..] == rest;
      assert SplitOn(sep + rest, sep) == [""] + pieces[1..];
      assert pieces[0] + sep + rest == pieces[0] + (sep + rest);
      SplitPrefix(pieces[0], sep + rest, sep);
      assert pieces[0] + "" == pieces[0];
    }
  }

  /** Joining the pieces of a split with the separator gives the text back. */
  lemma {:induction false} JoinSplitOn(s: string, sep: string)
    requires |sep| >= 1
    ensures Join(SplitOn(s, sep), sep) == s
    decreases |s|
  {
    if |s| < |sep| {
    } else if s[..|sep|] == sep {
      var rest := SplitOn(s[|sep|..], sep);
      JoinSplitOn(s[|sep|..], sep);
      var r := [""] + rest;
      assert r[1..] == rest;
      calc {
        Join(r, sep);
        "" + sep + Join(rest, sep);
        sep + s[|sep|..];
        s;
      }
    } else {
      var rest := SplitOn(s[1..], sep);
      JoinSplitOn(s[1..], sep);
      var r := [[s[0]] + rest[0]] + rest[1..];
      assert r[1..] == rest[1..];
      if |rest| == 1 {
        assert Join(r, sep) == [s[0]] + s[1..];
      } else {
        calc {
          Join(r, sep);
          [s[0]] + rest[0] + sep + Join(rest[1..], sep);
          [s[0]] + (rest[0] + sep + Join(rest[1..], sep));
          [s[0]] + s[1..];
        }
      }
      assert [s[0]] + s[1..] == s;
    }
  }

  /** A line without the separator's first character is a single piece. */
  lemma NoSeparatorOnePiece(s: string, sep: string)
    requires |sep| >= 1 && sep[0] !in s
    ensures SplitOn(s, sep) == [s]
  {
    SplitJoin([s], sep);
  }

  /** Rust's order on strings: lexicographic by character. */
  predicate Below(x: string, y: string)
  {
    if x == [] then true
    else if y == [] then false
    else if x[0] != y[0] then x[0] < y[0]
    else Below(x[1..], y[1..])
  }

  lemma {:induction false} BelowTotal(x: string, y: string)
    ensures Below(x, y) || Below(y, x)
  {
    if x != [] && y != [] && x[0] == y[0] {
      BelowTotal(x[1..], y[1..]);
    }
  }

  lemma {:induction false} BelowAntisymmetric(x: string, y: string)
    requires Below(x, y) && Below(y, x)
    ensures x == y
  {
    if x != [] && y != [] {
      BelowAntisymmetric(x[1..], y[1..]);
      assert x == [x[0]] + x[1..] && y == [y[0]] + y[1..];
    }
  }

  lemma {:induction false} BelowTransitive(x: string, y: string, z: string)
    requires Below(x, y) && Below(y, z)
    ensures Below(x, z)
  {
    if x != [] && y != [] && z != [] && x[0] == y[0] && y[0] == z[0] {
      BelowTransitive(x[1..], y[1..], z[1..]);
    }
  }

  /** `lines.split(|l| l.len() == 0)`: the runs of lines between empty
      lines, empty runs included. */
  function SplitBlocks(lines: seq<string>): (r: seq<seq<string>>)
    ensures |r| >= 1
    ensures forall k, j :: 0 <= k < |r| && 0 <= j < |r[k]| ==> r[k][j] != ""
  {
    if lines == [] then [[]]
    else if lines[0] == "" then [[]] + SplitBlocks(lines[1..])
    else
      var rest := SplitBlocks(lines[1..]);
      var first := [lines[0]] + rest[0];
      assert forall j :: 1 <= j < |first| ==> first[j] == rest[0][j - 1];
      [first] + rest[1..]
  }

  /** The blocks put back together with an empty line between them. */
  function JoinBlocks(blocks: seq<seq<string>>): seq<string>
    requires |blocks| >= 1
  {
    if |blocks| == 1 then blocks[0] else blocks[0] + [""] + JoinBlocks(blocks[1..])
  }

  /** Splitting loses no line: joining the blocks gives the input back. */
  lemma {:induction false} JoinSplit(lines: seq<string>)
    ensures JoinBlocks(SplitBlocks(lines)) == lines
  {
    if lines != [] {
      var rest := SplitBlocks(lines[1..]);
      JoinSplit(lines[1..]);
      if lines[0] == "" {
        assert JoinBlocks(SplitBlocks(lines)) == [] + [""] + JoinBlocks(rest);
      } else {
        var first := [lines[0]] + rest[0];
        var r := [first] + rest[1..];
        assert r[1..] == rest[1..];
        if |rest| == 1 {
          assert JoinBlocks(r) == first;
        } else {
          assert JoinBlocks(rest) == rest[0] + [""] + JoinBlocks(rest[1..]);
          assert JoinBlocks(r) == first + [""] + JoinBlocks(rest[1..]);
        }
      }
    }
  }
}

=== FILE: wrappers.dfy ===
/** Failure-compatible result types shared by all puzzle models. A Rust `panic!`,
    `unwrap()` on `None` or an out-of-range index becomes an `Err` here. */
module Wrappers {

  datatype Option<T> = None | Some(value: T)

  datatype Result<T> = Ok(value: T) | Err(error: string) {

    predicate IsFailure() {
      Err?
    }

    function PropagateFailure<U>(): Result<U>
      requires Err?
    {
      Err(error)
    }

    function Extract(): T
      requires Ok?
    {
      value
    }
  }

  /** `iter().map(f).collect::<Result<Vec<_>, _>>()`: every element mapped,
      or the first failure. */
  function CollectAll<T, U>(f: T -> Result<U>, xs: seq<T>): (r: Result<seq<U>>)
    ensures r.Ok? <==> forall i :: 0 <= i < |xs| ==> f(xs[i]).Ok?
    ensures r.Ok? ==> |r.value| == |xs| && forall i :: 0 <= i < |xs| ==> f(xs[i]) == Ok(r.value[i])
  {
    if xs == [] then Ok([])
    else
      var first :- f(xs[0]);
      var rest :- CollectAll(f, xs[1..]);
      assert forall i :: 1 <= i < |xs| ==> xs[i] == xs[1..][i - 1];
      Ok([first] + rest)
  }
}
